=== FILE: README.md ===
# kube-event-generator, modelled in Dafny

kube-event-generator replays a scenario of pod events against a Kubernetes
cluster and measures how the scheduler placed them. The Go side generates
scenarios (Poisson arrivals, Weibull or geometric durations, pods sized against the
largest node), runs them through an event scheduler built on a min-heap,
keeps per-node allocation stores and statistics, and writes them out as
CSV tables. The Python analyzer reads those tables back, rescales and
rounds them, and computes fragmentation indexes, the average pod fit and
pairwise improvements between runs.

This project models that core as pure functions and methods over immutable
values and proves what the code promises about them:

- `Heap`, `Container`, `Queue`: Go's `container/heap` sifting for any strict
  weak order, the generic heap of `pkg/container`, and the scheduler's event
  queue with capacity, removal by ID and cancellation.
- `Event`, `EventBase`: event types, statuses, `HappensBefore`, and the
  `Execute` that schedules a follow-up eviction.
- `SchedulerMetrics`, `Int64`, `GaugeVec`: counters, gauges, the ring-buffer
  histogram with its percentiles, and the labelled gauge vector with its
  CSV export.
- `NodeStore`, `Stats`: per-node pod stores with allocated totals and ratios,
  and the pending-queue and allocation statistics with their CSV export.
- `SchedulerConfig`: plugin weights of a scheduler profile and their
  validation, update and reset.
- `Scenario`, `ClusterJson`, `Generate`, `Simulator`, `ClusterStatus`: scenario
  options and selectors, the cluster's empty-entry stripping, event
  generation, the end-of-simulation bookkeeping, and the cluster status
  report.
- `AnalyzerParse`, `AnalyzerLoad`, `AnalyzerMetrics`, `AnalyzerPodFit`:
  the analyzer's request parsing, frame loading, fragmentation metrics and
  average pod fit.
- `Kube`, `Text`, `Seqs`, `Sorting`, `Moments`, `Wrappers`: shared pieces
  (Kubernetes quantities and objects, strings and decimal text, sequence
  folds, stable sorting, mean and variance, `Option`/`Result`).

Quantities are integers in milli-units, as `resource.Quantity.MilliValue()`
gives them; durations are integer nanoseconds; the analyzer's floats are
exact reals. Clocks, UUIDs, random draws, map iteration orders and square
roots are parameters.

## Model

| member | source | states |
|---|---|---|
| AnalyzerParse.ParseFloat | analyzer/analyzer.py:25-44 | `float()` of a decimal literal: the empty string is an error, a digit string is its value, a leading minus gives a non-positive value, and whatever parses is made of digits, a point and a sign |
| AnalyzerParse.ParseUnsigned | analyzer/analyzer.py:25-44 | an unsigned literal parses only if non-empty, to a non-negative value, and holds nothing but digits and a point |
| AnalyzerParse.FracValueScaled | analyzer/analyzer.py:25-44 | a fraction's digits d have value v with v·10^|d| equal to d read as a whole number, so ".25" is 25/100 |
| AnalyzerParse.UnsignedDecimal | analyzer/analyzer.py:25-44 | "<ip>.<fp>" with digit strings ip and fp, not both empty, parses to ip's value plus fp's fractional value |
| AnalyzerParse.SignedLiteral | analyzer/analyzer.py:25-44 | a sign in front of an unsigned literal that parses: none or "+" keeps its value, "-" negates it |
| AnalyzerParse.ParseFloatDecimal | analyzer/analyzer.py:25-44 | every literal sign·ip."fp" with digits, not both parts empty, parses to ±(ip + fp/10^|fp|) |
| AnalyzerParse.ParseFloatInteger | analyzer/analyzer.py:25-44 | every signed digit string parses to ± its value |
| AnalyzerParse.ParseFloatExample | analyzer/analyzer.py:25-44 | "2.5" parses to 2.5 |
| AnalyzerParse.ParseFloatNegativeExample | analyzer/analyzer.py:25-44 | "-1.25" parses to -1.25 |
| AnalyzerParse.ParseFloatFractionExample | analyzer/analyzer.py:25-44 | ".5" parses to 0.5 |
| AnalyzerParse.ParseCpu | analyzer/analyzer.py:25-33 | a float literal is read as it is; text ending in its only "m" is the float of the part before it, so "<digits>m" is that number of milli-CPUs; text that contains an "m" but does not end in one is an error |
| AnalyzerParse.ParseMem | analyzer/analyzer.py:36-44 | a float literal is read as it is; text ending in "Mi" with no other 'M' is the float of the part before it, so "<digits>Mi" is that number of mebibytes |
| AnalyzerParse.ParseFloatNat | analyzer/analyzer.py:30-33 | a rendered natural number parses back to itself |
| AnalyzerParse.ParseCpuMilli | analyzer/analyzer.py:25-33 | "<n>m" parses to n milli-CPUs for every n |
| AnalyzerParse.ParseMemMebi | analyzer/analyzer.py:36-44 | "<n>Mi" parses to n mebibytes for every n |
| AnalyzerParse.ParsePlainNat | analyzer/analyzer.py:25-44 | a number without a suffix parses to itself in both parsers |
| AnalyzerParse.ExampleCpu | analyzer/analyzer.py:27-28 | the documented example "421m" gives 421 |
| AnalyzerParse.ExampleMem | analyzer/analyzer.py:38-39 | the documented example "1044Mi" gives 1044 |
| AnalyzerLoad.Classify | analyzer/analyzer.py:116-121 | a path goes to the ratio frame iff it contains "ratio", to the usage frame iff it contains neither "ratio" nor "free", to the free frame otherwise |
| AnalyzerLoad.Group | analyzer/analyzer.py:103-121 | the three frame lists together hold exactly the input paths, each list only paths of its kind |
| AnalyzerLoad.NodeName | analyzer/analyzer.py:104 | the node name is the part before the first '_' of the path's last '/'-separated segment |
| AnalyzerLoad.NodeNameOf | analyzer/analyzer.py:104 | any string that is the part before the first '_' of the last segment is the node name, so the name is unique |
| AnalyzerLoad.NodeNameExample | analyzer/analyzer.py:104 | "run/data/node-1_usage.csv" belongs to node "node-1" |
| AnalyzerLoad.ColumnPrefix | analyzer/analyzer.py:113 | the prefix is the node name with every '-' turned into '_', then one '_' |
| AnalyzerLoad.PrefixCollision | analyzer/analyzer.py:113 | nodes "node-1" and "node_1" get the same column prefix |
| AnalyzerLoad.RenameColumns | analyzer/analyzer.py:109-113 | every kept column is a non-"pods" column with the node prefix, and every non-"pods" column is kept |
| AnalyzerLoad.RenameFromKept | analyzer/analyzer.py:109-113 | one step of the column loop keeps only prefixed non-"pods" columns |
| AnalyzerLoad.RenameAllKept | analyzer/analyzer.py:109-113 | one step of the column loop loses no non-"pods" column |
| AnalyzerLoad.RoundHalfEven | analyzer/analyzer.py:142-144 | the result is an integer within one half of the value, and even when the value lies half-way between two integers |
| AnalyzerLoad.RoundHalfEvenUnique | analyzer/analyzer.py:142-144 | any integer within one half of the value, and even at a tie, is the rounding: the rule fixes the result |
| AnalyzerLoad.Round2Close | analyzer/analyzer.py:142-144 | `round(2)` moves a value by at most 0.005 |
| AnalyzerLoad.RoundHalfEvenInteger | analyzer/analyzer.py:142-144 | an integer rounds to itself |
| AnalyzerLoad.Round2Idempotent | analyzer/analyzer.py:142-144 | rounding twice to two decimals is rounding once |
| AnalyzerLoad.Factor | analyzer/analyzer.py:12-13 | ratio columns are scaled by 100, memory columns of the other frames by 1/1024^3, the rest by 1 |
| AnalyzerLoad.RoundAll | analyzer/analyzer.py:142-144 | every value of a column is rounded to two decimals |
| AnalyzerLoad.ScaleColumn | analyzer/analyzer.py:131-144 | a scaled column keeps its name and length, each value is the original times the column's factor rounded to two decimals, and so lies within 0.005 of the exact scaled value |
| AnalyzerLoad.RescaleStable | analyzer/analyzer.py:131-144 | scaling an already scaled non-memory usage column again changes nothing |
| AnalyzerLoad.RoundAllStable | analyzer/analyzer.py:142-144 | rounding a rounded frame changes nothing |
| AnalyzerLoad.RowSumAppend | analyzer/analyzer.py:157-158 | the row total over a concatenation of columns is the sum of the two totals |
| AnalyzerLoad.RowTotals | analyzer/analyzer.py:154-162 | the totals exist iff every cpu or mem column of the usage frame is present in the frame (pandas' KeyError otherwise); the cpu total is the rounded sum over the cpu columns and the memory total the rounded sum over the mem columns |
| AnalyzerLoad.RowTotalsClose | analyzer/analyzer.py:157-158 | each total lies within 0.005 of the exact sum of its columns |
| AnalyzerLoad.TotalsOfNodes | analyzer/analyzer.py:154-158 | the exact totals over two groups of node columns are the sums of the groups' totals |
| AnalyzerLoad.MissingCellsIgnored | analyzer/analyzer.py:157-158 | a column without a cell in the row (NaN, skipped by `sum`) adds nothing to either total |
| AnalyzerLoad.CpuTotalIgnoresOtherColumns | analyzer/analyzer.py:154-157 | a column whose name does not say "cpu" does not change the cpu total |
| Seqs.FirstByKey | analyzer/analyzer.py:108 | `index.duplicated(keep='first')`: no key twice, every key of the input kept, each kept row the first row with its key, and the kept rows in the order of their first occurrences |
| Seqs.FirstByKeySnoc | analyzer/analyzer.py:108 | a row whose key is already present is dropped, and a row with a new key is appended |
| AnalyzerMetrics.Positives | analyzer/analyzer.py:378-379 | exactly the strictly positive values are kept, each as many times as it occurs |
| AnalyzerMetrics.Variation | analyzer/analyzer.py:385-386 | the coefficient of variation: non-negative, its square times the squared mean is the population variance, and 0 exactly when the variance is |
| AnalyzerMetrics.VariationPositive | analyzer/analyzer.py:385-386 | two different positive values give a positive coefficient of variation |
| AnalyzerMetrics.VariationScale | analyzer/analyzer.py:385-386 | scaling every value by a positive factor leaves the coefficient of variation unchanged |
| AnalyzerMetrics.Fragmentation | analyzer/analyzer.py:376-386 | fragmentation is non-negative, 0 when fewer than two positive values remain, and otherwise the coefficient of variation of the positive values: its square times the squared mean is their population variance |
| AnalyzerMetrics.FragmentationExample | analyzer/analyzer.py:376-386 | node values 1, 0 and 3 give fragmentation 0.5: the idle node is dropped, the mean of 1 and 3 is 2 and their population standard deviation 1 |
| AnalyzerMetrics.FragmentationImbalanced | analyzer/analyzer.py:376-386 | two nodes using different positive amounts give a positive fragmentation |
| AnalyzerMetrics.FragmentationScale | analyzer/analyzer.py:376-386 | fragmentation does not depend on the unit: scaling every value by a positive factor keeps it |
| AnalyzerMetrics.PositivesScale | analyzer/analyzer.py:378-379 | scaling by a positive factor commutes with keeping the positive values |
| AnalyzerMetrics.FragmentationUniform | analyzer/analyzer.py:385-386 | nodes that all use the same positive amount have fragmentation 0 |
| Seqs.Seconds | analyzer/analyzer.py:376-377 | the values of the selected columns: one per column, in column order |
| AnalyzerMetrics.FragmentationAt | analyzer/analyzer.py:370-389 | the cpu fragmentation is that of the cpu node columns' values, the memory one that of the memory node columns' values, both non-negative, and the combined one their average |
| AnalyzerMetrics.FragmentationAtImbalanced | analyzer/analyzer.py:370-389 | two cpu node columns with different positive values make the cpu and the combined fragmentation positive |
| AnalyzerMetrics.PositivesIgnoreNonPositive | analyzer/analyzer.py:378-379 | a non-positive value does not change the positives |
| AnalyzerMetrics.ResourceIgnores | analyzer/analyzer.py:372-386 | a column that is not the resource's, or holds a non-positive value, does not change that resource's fragmentation |
| AnalyzerMetrics.FragmentationIgnores | analyzer/analyzer.py:372-389 | a "total" column or a non-positive node value does not change any fragmentation |
| AnalyzerMetrics.SeriesIgnore | analyzer/analyzer.py:372-386 | such a column changes neither the cpu nor the memory fragmentation |
| AnalyzerMetrics.SafeCv | analyzer/analyzer.py:318-319 | 0 for a non-positive mean, otherwise the ratio whose product with the mean is the standard deviation |
| AnalyzerMetrics.SampleStd | analyzer/analyzer.py:314-316 | the sample standard deviation (ddof = 1) exists iff there are at least two values; it is non-negative and its square times n - 1 is the sum of squared deviations from the mean |
| AnalyzerMetrics.SampleStdVariance | analyzer/analyzer.py:314-316 | the sample variance is the population variance times n / (n - 1) |
| AnalyzerMetrics.SampleStdConstant | analyzer/analyzer.py:314-316 | a constant series of two or more values has sample standard deviation 0 |
| AnalyzerMetrics.SampleStdPositive | analyzer/analyzer.py:314-316 | two different values give a positive sample standard deviation |
| AnalyzerMetrics.Summarise | analyzer/analyzer.py:310-332 | the mean exists iff the series is non-empty and times the count is the sum; the max is the largest element; the std is the sample one; the cv is 0 for a missing or non-positive mean and otherwise the std over the mean |
| AnalyzerMetrics.SummariseConstant | analyzer/analyzer.py:310-332 | a constant positive series of two or more values has that value as mean and max, and std and cv 0 |
| AnalyzerMetrics.Improvement | analyzer/analyzer.py:457-459 | an improvement is recorded iff the first mean is positive, and then it is the percentage drop from the first mean to the second |
| AnalyzerMetrics.ImprovementSign | analyzer/analyzer.py:457-459 | the improvement is positive iff the second mean is lower, and zero iff they are equal |
| AnalyzerMetrics.Improvements | analyzer/analyzer.py:447-459 | a pair (i, j) is recorded iff i < j and run i's mean is positive, with that pair's improvement |
| AnalyzerMetrics.Column | analyzer/analyzer.py:442 | reading a column succeeds iff the frame has it, and then gives its position |
| AnalyzerMetrics.CompareAsWritten | analyzer/analyzer.py:402-459 | when the comparison as written gets past reading each run's `timestamp` column, it records the improvements |
| AnalyzerMetrics.AsWrittenNeverCompares | analyzer/analyzer.py:402-442 | with at least one run, the comparison as written stops with a KeyError: the fragmentation frame has no `timestamp` column |
| Moments.Variance | analyzer/analyzer.py:385 | the population variance is non-negative |
| Moments.VarianceConstant | analyzer/analyzer.py:385 | a constant series has variance 0 |
| Moments.VariancePositive | analyzer/analyzer.py:385 | two different values give a positive variance |
| Moments.MeanScale | analyzer/analyzer.py:385-386 | scaling every value scales the mean by the same factor |
| Moments.VarianceScale | analyzer/analyzer.py:385-386 | scaling every value scales the variance by the square of the factor |
| Sorting.SortBy | analyzer/analyzer.py:265 | the result is sorted by timestamp and is a permutation of the input |
| Sorting.SortBySorted | analyzer/analyzer.py:265 | an already sorted input comes back unchanged |
| AnalyzerPodFit.Timeline | analyzer/analyzer.py:150-152 | the timeline keeps one row per timestamp, every timestamp of the file, and for each the first row with it |
| AnalyzerPodFit.TimelineSnoc | analyzer/analyzer.py:152 | a row at a timestamp already seen is dropped; a row at a new timestamp is appended |
| AnalyzerPodFit.TimelineRowsAreRows | analyzer/analyzer.py:152 | every timeline row is a row of the file |
| AnalyzerPodFit.SameSecondHidesPod | analyzer/analyzer.py:152-266 | two pods added at the same timestamp: the second is dropped with its row and never reaches the pod average |
| AnalyzerPodFit.SortByTime | analyzer/analyzer.py:265 | the timeline rows sorted by timestamp, a permutation of the input |
| AnalyzerPodFit.Pods | analyzer/analyzer.py:266 | the set of pods is exactly the pods some row mentions |
| AnalyzerPodFit.KeepFirst | analyzer/analyzer.py:266 | every kept row is an input row of a pod not yet seen |
| AnalyzerPodFit.KeepFirstDistinct | analyzer/analyzer.py:266 | no pod is kept twice |
| AnalyzerPodFit.KeepFirstPods | analyzer/analyzer.py:266 | every pod not already seen keeps a row, and no other pod does |
| AnalyzerPodFit.KeepFirstEarliest | analyzer/analyzer.py:265-266 | over time-sorted rows, the kept row of a pod is no later than any of its rows |
| AnalyzerPodFit.FirstRows | analyzer/analyzer.py:265-266 | the chosen rows are timeline rows |
| AnalyzerPodFit.FirstRowsSpec | analyzer/analyzer.py:265-266 | the chosen rows hold one row per pod, cover every pod, and each is one of its pod's earliest |
| AnalyzerPodFit.KeepFirstAppendSeen | analyzer/analyzer.py:266 | a row of a pod already kept is dropped |
| AnalyzerPodFit.FirstRowsLaterRow | analyzer/analyzer.py:265-266 | a later row of a known pod does not change the chosen rows |
| AnalyzerPodFit.TimelineLaterRow | analyzer/analyzer.py:257-266 | a later row of a pod already in the timeline leaves the first row per pod unchanged, whether or not its timestamp is new |
| AnalyzerPodFit.AvgPodFitLaterRow | analyzer/analyzer.py:262-291 | a later row of a pod already in the timeline does not change the average pod fit |
| AnalyzerPodFit.ParseRequests | analyzer/analyzer.py:269-270 | the requests parse iff every present cell parses, and then there is one pair per row holding each cell's parsed value, None for an empty cell |
| AnalyzerPodFit.Present | analyzer/analyzer.py:273-274 | the present values are none exactly when every cell is empty |
| AnalyzerPodFit.NanMean | analyzer/analyzer.py:273-274 | `mean()` skipping empty cells: none iff every cell is empty, otherwise the value whose product with the number of present cells is their sum |
| AnalyzerPodFit.NanMeanSkipsMissing | analyzer/analyzer.py:273-274 | an empty cell does not change the mean |
| AnalyzerPodFit.NanMeanComplete | analyzer/analyzer.py:273-274 | without empty cells the mean is the ordinary mean of the values |
| AnalyzerPodFit.MeansPresent | analyzer/analyzer.py:273-277 | a mean exists iff some chosen row has that request |
| AnalyzerPodFit.Min | analyzer/analyzer.py:290 | the minimum is one of the two and no larger than either |
| AnalyzerPodFit.FitOf | analyzer/analyzer.py:273-291 | a fit exists iff the requests parse, some row has each request, and there are free totals; it is Python's `min` of the last free cpu over the mean cpu request and the last free memory over the mean memory request, as numpy divides doubles |
| AnalyzerPodFit.FitOfPositive | analyzer/analyzer.py:288-290 | with positive means the fit is the smaller of the two exact quotients |
| AnalyzerPodFit.FitOfZeroCpuMean | analyzer/analyzer.py:288-290 | a zero cpu mean with free cpu left makes the cpu quotient infinite, so the fit is the memory quotient |
| AnalyzerPodFit.FitOfZeroOverZero | analyzer/analyzer.py:288-290 | a zero cpu mean and no free cpu give NaN, which `min` keeps |
| AnalyzerPodFit.AvgPodFit | analyzer/analyzer.py:237-298 | no timeline rows or no free rows is an error, and rows whose requests are all present and parse give a fit |
| AnalyzerPodFit.AvgPodFitDefined | analyzer/analyzer.py:237-298 | the fit of the chosen rows is an error without rows and exists when every row's requests are present and parse |
| AnalyzerPodFit.ChosenRowsExist | analyzer/analyzer.py:152-266 | a non-empty timeline leaves at least one chosen row |
| Float64.Div | analyzer/analyzer.py:288-289 | numpy division: the exact quotient for a non-zero divisor, an infinity of the dividend's sign or NaN for zero |
| Float64.LessIsOrder | analyzer/analyzer.py:290 | `<` on doubles is a strict total order on the non-NaN values and false whenever NaN is involved |
| Float64.PyMin | analyzer/analyzer.py:290 | Python's `min` of two doubles keeps the first unless the second compares less, so a NaN first argument wins and a NaN second one loses |
| Float64.PyMinFinite | analyzer/analyzer.py:290 | on finite values `min` is the smaller one |
| Float64.PyMinPosInf | analyzer/analyzer.py:290 | an infinite first argument gives way to any non-NaN second one |
| Heap.Swap | pkg/container/heap.go:46 | the two positions are exchanged, everything else and the contents kept |
| Heap.RootIsMinimum | pkg/container/heap.go:31-32 | nothing in a heap is less than its root |
| Heap.Up | pkg/container/heap.go:26 | sifting the appended element up restores the heap property over the same contents |
| Heap.Down | pkg/container/heap.go:35 | sifting down restores the heap property around the moved element over the same contents, and leaves the heap as it was when nothing moves |
| Heap.Push | pkg/container/heap.go:26 | the result is a heap holding the old contents plus the new item |
| Heap.Pop | pkg/container/heap.go:35 | the root is returned, nothing left is less than it, and the rest is a heap of the remaining contents |
| Heap.RemoveAt | pkg/scheduler/queue.go:131 | the element at the position is returned and the rest is a heap of the remaining contents |
| Heap.Drain | pkg/container/heap.go:35 | popping until empty yields the contents in sorted order |
| Container.NewHeap | pkg/container/heap.go:16-23 | a new heap is valid and empty with the given `less` |
| Container.Add | pkg/container/heap.go:26 | the heap stays valid and gains exactly the item |
| Container.Peek | pkg/container/heap.go:32 | the item returned is in the heap and nothing there is less than it |
| Container.Remove | pkg/container/heap.go:35 | the minimum is returned and removed, the rest stays a valid heap none of whose items is less |
| Container.InterfacePush | pkg/container/heap.go:49 | `Push` appends at the end and keeps the prefix |
| Container.InterfacePop | pkg/container/heap.go:52-58 | `Pop` returns the last item and the prefix before it |
| Container.InterfacePushPop | pkg/container/heap.go:49-58 | `Pop` after `Push` returns the pushed item and the original items |
| Container.RemoveKnown | pkg/container/heap.go:35 | on an integer heap of a smallest m and the rest, `Remove` yields m and leaves the rest |
| Container.PeekKnown | pkg/container/heap.go:32 | on an integer heap of a smallest m and the rest, `Peek` yields m |
| Container.BuildExample | pkg/scheduler/queue_test.go:9-12 | adding 5, 3, 8, 1, 2 gives a valid heap of exactly those items |
| Container.DrainIncreasing | pkg/container/heap.go:35 | removing from an integer heap of distinct increasing items until it is empty yields exactly those items in increasing order |
| Container.IntHeapExample | pkg/scheduler/queue_test.go:5-25 | the test's heap peeks 1, removes 1, 2, 3, 5, 8 in that order and ends empty |
| Queue.LessIsStrictWeakOrder | pkg/scheduler/queue.go:147-149 | the queue's `Less` is a strict weak order, as `container/heap` needs |
| Queue.NewQueue | pkg/scheduler/queue.go:17-24 | a new queue is an empty heap of unlimited capacity |
| Queue.IsEmpty | pkg/scheduler/queue.go:47-51 | empty iff it holds no item |
| Queue.IsFull | pkg/scheduler/queue.go:54-61 | never full with capacity 0, otherwise full iff the size reaches the capacity |
| Queue.Peek | pkg/scheduler/queue.go:27-37 | an error iff the queue is empty, otherwise an item nothing in the queue happens before |
| Queue.Clear | pkg/scheduler/queue.go:64-69 | the queue is emptied and keeps its capacity |
| Queue.GetEvents | pkg/scheduler/queue.go:99-106 | a copy holding exactly the queue's items |
| Queue.PushEvent | pkg/scheduler/queue.go:72-82 | a full queue refuses with the capacity error and is unchanged; otherwise the event is added |
| Queue.PopEvent | pkg/scheduler/queue.go:85-96 | an empty queue gives the empty error and is unchanged; otherwise the minimum is removed and returned, and nothing left happens before it |
| Queue.PopTwice | pkg/scheduler/queue.go:85-96 | of two successive pops, the second never happens before the first |
| Queue.IndexOf | pkg/scheduler/queue.go:114-118 | the first position holding the ID, or -1 iff none does |
| Queue.FindEvent | pkg/scheduler/queue.go:109-120 | an event is found iff some item has the ID, and it is such an item |
| Queue.RemoveEvent | pkg/scheduler/queue.go:123-136 | an absent ID is the not-found error with the queue unchanged; otherwise the first item with it is marked canceled and removed, and the rest stays a heap |
| Event.TypeName | pkg/scheduler/event.go:15-20 | the four type names |
| Event.TypeNameInjective | pkg/scheduler/event.go:15-20 | different types have different names |
| Event.BeforeIrreflexive | pkg/scheduler/event.go:123-131 | no event happens before itself |
| Event.BeforeAsymmetric | pkg/scheduler/event.go:123-131 | two events are never each before the other |
| Event.BeforeTransitive | pkg/scheduler/event.go:123-131 | the order is transitive |
| Event.BeforeTotal | pkg/scheduler/event.go:123-131 | events that differ in arrival or ID are ordered exactly one way |
| Event.NewBaseEvent | pkg/scheduler/event.go:59-68 | a new event is pending, without eviction, with priority 0, the given type and arrival |
| Event.SetStatus | pkg/scheduler/event.go:88-92 | only the status changes |
| Event.GetAfterSet | pkg/scheduler/event.go:81-92 | the status read back is the last one set |
| Event.SetEviction | pkg/scheduler/event.go:105-107 | only the eviction time changes, to the one given |
| Event.Execute | pkg/scheduler/event.go:110-115 | the status goes executing then completed, and the result is the "not implemented" error |
| Event.HappensBeforeDistinct | pkg/scheduler/event.go:123-131 | events with different IDs are ordered exactly one way, the earlier arrival first |
| EventBase.NewBaseEvent | pkg/scheduler/event_base.go:24-33 | a new event is pending with the given arrival and eviction and a 30 s timeout |
| EventBase.SetStatus | pkg/scheduler/event_base.go:48-52 | only the status changes |
| EventBase.SetEviction | pkg/scheduler/event_base.go:65-67 | only the eviction time changes |
| EventBase.SetExecuteTimeout | pkg/scheduler/event_base.go:120-122 | only the timeout changes |
| EventBase.SettersAndGetters | pkg/scheduler/event_base.go:60-67 | each getter returns what its setter stored, and the two setters do not interfere |
| EventBase.Execute | pkg/scheduler/event_base.go:70-95 | the event ends completed; with a positive eviction time and a scheduler exactly one pending eviction event arriving at that time is scheduled and the scheduler's error returned, otherwise nothing is scheduled and no error returned |
| EventBase.EvictionEventIsFinal | pkg/scheduler/event_base.go:79-83 | the scheduled eviction event schedules nothing in turn |
| EventBase.HappensBeforeIsStrictWeakOrder | pkg/scheduler/event_base.go:98-106 | `HappensBefore` is irreflexive, transitive and negatively transitive |
| GaugeVec.FirstSepOf | pkg/metric/label.go:7-9 | in a key whose first value avoids the separator, the first separator follows that value |
| GaugeVec.JoinInjective | pkg/metric/label.go:7-9 | label sets of one length whose values avoid the 0xFF separator get different keys |
| GaugeVec.NewGaugeVec | pkg/metric/gauge_vec.go:24-33 | a new gauge vector has its name and label names, no records and no last values |
| GaugeVec.LabelsMap | pkg/metric/gauge_vec.go:45-48 | the record's label map has exactly the label names at the given values' positions |
| GaugeVec.Pairs | pkg/metric/gauge_vec.go:46-47 | the i-th value goes with the i-th label name |
| GaugeVec.LabelsMapLastWins | pkg/metric/gauge_vec.go:45-48 | a value lands under its name unless a later position reuses the name |
| GaugeVec.LabelsMapPairs | pkg/metric/gauge_vec.go:45-48 | with distinct label names every name maps to its own value |
| GaugeVec.Set | pkg/metric/gauge_vec.go:35-55 | given one value per label name (anything else panics in Prometheus), the label set's last value becomes the value, every other key is untouched, and exactly one record with the value and label map is appended |
| GaugeVec.Add | pkg/metric/gauge_vec.go:58-80 | the last value (zero when unset) grows by the delta, every other key is untouched, and one record of the new value is appended |
| GaugeVec.Sub | pkg/metric/gauge_vec.go:83-85 | the last value drops by the delta and the appended record holds the new value |
| GaugeVec.ValuesLogEveryUpdate | pkg/metric/gauge_vec.go:35-96 | every `Set` appears as exactly one more record at the end of `Values`, and `Add` then `Sub` of one delta restores the last value while logging both |
| GaugeVec.OtherLabelsUntouched | pkg/metric/gauge_vec.go:40-41 | updating one label set leaves another label set's last value where it was |
| GaugeVec.Header | pkg/metric/gauge_vec.go:127-138 | the header is "timestamp", the labels in iteration order, then "value" |
| GaugeVec.Row | pkg/metric/gauge_vec.go:146-152 | a row holds the formatted time, each header label's value ("" where the record lacks it), and the formatted value |
| GaugeVec.Table | pkg/metric/gauge_vec.go:127-157 | the table is the header followed by one row per record, in record order |
| GaugeVec.TableKeepsEveryLabel | pkg/metric/gauge_vec.go:127-152 | every label a record carries has a header column, and the record's row holds its value there |
| GaugeVec.ExampleLabels | pkg/metric/gauge_vec_test.go:14-27 | the test's label maps have exactly "node" and "resource", each with its value |
| GaugeVec.ExampleGauge | pkg/metric/gauge_vec_test.go:19-27 | three `Set`s leave three records, in order, with their values and label maps |
| GaugeVec.ExportExample | pkg/metric/gauge_vec_test.go:29-43 | the exported header holds exactly timestamp, node, resource and value in some order, and the table has four lines |
| GaugeVec.ExampleGaugeLabels | pkg/metric/gauge_vec_test.go:14-27 | the test's records carry exactly the labels "node" and "resource" |
| GaugeVec.HeaderOfTwo | pkg/metric/gauge_vec_test.go:41-42 | either order of the two labels gives the expected header cells |
| Int64.Wrap | pkg/scheduler/metrics.go:116-118 | an int64 sum wraps by whole multiples of 2^64 and is unchanged when in range |
| Int64.WrapShift | pkg/scheduler/metrics.go:116-118 | adding multiples of 2^64 to an int64 wraps back to it |
| SchedulerMetrics.NewCounter | pkg/scheduler/metrics.go:111-113 | a new counter is 0 |
| SchedulerMetrics.CounterAdd | pkg/scheduler/metrics.go:116-118 | the sum when in range, otherwise wrapped by 2^64 in the direction of the overflow |
| SchedulerMetrics.Inc | pkg/scheduler/metrics.go:121-123 | one more, except that the largest int64 wraps to the smallest |
| SchedulerMetrics.Reset | pkg/scheduler/metrics.go:131-133 | the counter is 0 |
| SchedulerMetrics.IncCounts | pkg/scheduler/metrics.go:111-123 | n increments of a new counter count n while n fits in an int64 |
| SchedulerMetrics.GaugeSet | pkg/scheduler/metrics.go:146-153 | `Set` and `Store` store the value |
| SchedulerMetrics.GaugeAdd | pkg/scheduler/metrics.go:156-158 | the wrapped sum |
| SchedulerMetrics.SubUndoesAdd | pkg/scheduler/metrics.go:156-163 | `Sub(d)` is `Add(-d)` except for the smallest int64, whose negation wraps to itself, and `Sub` undoes `Add` for every delta |
| SchedulerMetrics.NewHistogram | pkg/scheduler/metrics.go:181-187 | a new histogram has no samples and zero totals |
| SchedulerMetrics.Observed | pkg/scheduler/metrics.go:190-217 | one more observation: count and sum grow, min and max are updated (set on the first), and the sample is appended below capacity or written to the chosen slot |
| SchedulerMetrics.SlotAsWritten | pkg/scheduler/metrics.go:215 | the slot computed from the already incremented count lies in the buffer |
| SchedulerMetrics.Slot | pkg/scheduler/metrics.go:214-215 | the slot of the oldest sample lies in the buffer |
| SchedulerMetrics.ObserveAsWritten | pkg/scheduler/metrics.go:190-217 | the buffer never grows beyond its 1000-sample capacity |
| SchedulerMetrics.Observe | pkg/scheduler/metrics.go:190-217 | the buffer never grows beyond its 1000-sample capacity |
| SchedulerMetrics.ObserveAll | pkg/scheduler/metrics.go:190-217 | after n observations the count is n and the buffer holds min(n, 1000) samples |
| SchedulerMetrics.ObserveAllAsWritten | pkg/scheduler/metrics.go:190-217 | after n observations the count is n and the buffer holds min(n, 1000) samples |
| SchedulerMetrics.ResetHistogram | pkg/scheduler/metrics.go:284-293 | the buffer is emptied and the totals zeroed |
| SchedulerMetrics.ResetForgets | pkg/scheduler/metrics.go:284-293 | after `Reset` the next observations build the same histogram as from a new one |
| SchedulerMetrics.ObserveAllSum | pkg/scheduler/metrics.go:195 | the sum is the sum of all observations |
| SchedulerMetrics.ObserveAllMinMax | pkg/scheduler/metrics.go:198-208 | min and max are observations and bound every observation |
| SchedulerMetrics.ObserveAllRing | pkg/scheduler/metrics.go:210-216 | the buffer holds exactly the latest 1000 observations, the i-th at slot i mod 1000 |
| SchedulerMetrics.RingSlotsDiffer | pkg/scheduler/metrics.go:214-215 | two observations fewer than 1000 apart use different slots |
| SchedulerMetrics.AsWrittenAgreesWhileFilling | pkg/scheduler/metrics.go:211-212 | both versions agree until the buffer is full |
| SchedulerMetrics.AsWrittenKeepsOldest | pkg/scheduler/metrics.go:214-215 | as written, the 1001st observation overwrites the second one while the first stays |
| SchedulerMetrics.ObserveReplacesOldest | pkg/scheduler/metrics.go:214-215 | corrected, the 1001st observation replaces the first one |
| SchedulerMetrics.BubbleSort | pkg/scheduler/metrics.go:238-248 | the sorted copy is ordered and a permutation of the samples |
| SchedulerMetrics.Swap | pkg/scheduler/metrics.go:244-246 | neighbours j and j+1 are exchanged and nothing else changes |
| SchedulerMetrics.Percentile | pkg/scheduler/metrics.go:263-281 | 0 without samples, the only sample for one |
| SchedulerMetrics.TimesIsProduct | pkg/scheduler/metrics.go:271 | the position p·(n−1) as a repeated sum equals the product |
| SchedulerMetrics.AtPosition | pkg/scheduler/metrics.go:271-280 | past the end the last sample, otherwise a value between the two samples around the position |
| SchedulerMetrics.Interpolate | pkg/scheduler/metrics.go:279-280 | the interpolated value lies between the two samples |
| SchedulerMetrics.PercentileWithinRange | pkg/scheduler/metrics.go:263-281 | every percentile lies between the smallest and the largest sample |
| SchedulerMetrics.Stats | pkg/scheduler/metrics.go:220-260 | count, sum, min and max always; the mean iff something was observed, times the count giving the sum; percentiles iff two samples are buffered, ordered p50 ≤ p90 ≤ p95 ≤ p99, lying between samples, and equal to the 50th, 90th, 95th and 99th percentiles of a sorted permutation of the samples |
| SchedulerMetrics.SortedUnique | pkg/scheduler/metrics.go:246-256 | two sorted sequences with the same elements are equal, so the sorted permutation the percentiles are read from is determined by the samples |
| SchedulerMetrics.PercentilesBounded | pkg/scheduler/metrics.go:251-256 | the 50th percentile is at least some sample and the 99th at most some sample |
| SchedulerMetrics.InterpolateMonotone | pkg/scheduler/metrics.go:279-280 | a larger weight never gives less |
| SchedulerMetrics.AtPositionMonotone | pkg/scheduler/metrics.go:271-280 | a later position never gives a smaller value |
| SchedulerMetrics.PercentileMonotone | pkg/scheduler/metrics.go:263-281 | a larger p never gives a smaller percentile |
| SchedulerMetrics.SuccessRate | pkg/scheduler/metrics.go:77-84 | 0 before anything ran, otherwise the completed share of executed events as a percentage, within 0 to 100 when completed ≤ executed |
| SchedulerMetrics.EventRate | pkg/scheduler/metrics.go:68-74 | 0 at zero uptime, otherwise executed events per second |
| NodeStore.Keys | pkg/cache/node_store.go:30 | every running pod's key is a key of the map |
| NodeStore.KeysPointwise | pkg/cache/node_store.go:147 | replacing pods by pods with the same keys keeps the key set and its distinctness |
| NodeStore.KeysRemove | pkg/cache/node_store.go:157 | removing a pod removes exactly its key and keeps the keys distinct |
| NodeStore.Find | pkg/cache/node_store.go:147 | the position of the pod with the key, or -1 iff no pod has it |
| NodeStore.Put | pkg/cache/node_store.go:147 | assigning under the pod's key keeps keys distinct, adds exactly that key, holds the pod, and appends it when the key is new |
| NodeStore.Without | pkg/cache/node_store.go:157 | deleting a key removes exactly that key, and nothing when it is absent |
| NodeStore.PutIdempotent | pkg/cache/node_store.go:147 | assigning the same pod twice is assigning it once |
| NodeStore.WithoutPut | pkg/cache/node_store.go:147-157 | deleting a pod just assigned under a new key gives the map back |
| NodeStore.ContainersNames | pkg/cache/node_store.go:55-56 | every resource some container requests is named |
| NodeStore.RequestedNames | pkg/cache/node_store.go:54-56 | every resource some container of some pod requests is named |
| NodeStore.Requested | pkg/cache/node_store.go:52-65 | the requested list has exactly the requested resources as keys |
| NodeStore.RequestsAppend | pkg/cache/node_store.go:54-65 | one more pod adds its own requests to every total and its resources to the names |
| NodeStore.AllocatedFor | pkg/cache/node_store.go:67-76 | zero cpu and memory when nothing is requested, otherwise exactly the requested resources |
| NodeStore.UpdatedRatios | pkg/cache/node_store.go:78-83 | a ratio is set, alloc over allocatable, exactly where the allocatable quantity is present and non-zero; other ratios are kept |
| NodeStore.UpdateAllocated | pkg/cache/node_store.go:51-84 | every requested resource is allocated at its total request; with nothing requested cpu and memory are zero with zero ratios, otherwise the ratios are updated |
| NodeStore.UpdateAllocatedIdempotent | pkg/cache/node_store.go:51-84 | recomputing with nothing changed changes nothing |
| NodeStore.UpdatedRatiosIdempotent | pkg/cache/node_store.go:78-83 | updating the ratios twice with the same allocation is updating once |
| NodeStore.NewNodeStore | pkg/cache/node_store.go:25-37 | a new store has no running pods, zero cpu and memory allocated and zero ratios |
| NodeStore.UpdateNodeSpec | pkg/cache/node_store.go:43-48 | the node and its allocatable are replaced and the running pods kept |
| NodeStore.AddPod | pkg/cache/node_store.go:141-149 | an unscheduled pod is ignored; otherwise its key is added and the allocation matches the running pods |
| NodeStore.DeletePod | pkg/cache/node_store.go:151-159 | an unscheduled pod is ignored; otherwise its key is removed and the allocation matches the running pods |
| NodeStore.AddPodAllocated | pkg/cache/node_store.go:141-149 | adding a scheduled pod under a new key adds its requests to every requested resource |
| NodeStore.AddPodIdempotent | pkg/cache/node_store.go:141-149 | adding the same pod again changes nothing |
| NodeStore.DeleteAfterAdd | pkg/cache/node_store.go:141-159 | deleting a pod right after adding it under a new key restores the running pods and the allocation |
| NodeStore.GetAllocated | pkg/cache/node_store.go:86-102 | everything for no names, otherwise exactly the named resources that are allocated, with their quantities |
| NodeStore.GetAllocatedRatio | pkg/cache/node_store.go:105-121 | everything for no names, otherwise exactly the named resources that are allocated, each with its ratio or 0 when it has none |
| NodeStore.GetFree | pkg/cache/node_store.go:124-139 | every allocatable resource, with free plus allocated equal to allocatable |
| SchedulerConfig.EffectiveWeight | pkg/kubernetes/scheduler.go:111-115 | the plugin's weight, or 1 where none is set |
| SchedulerConfig.GetPluginWeights | pkg/kubernetes/scheduler.go:97-120 | a failed fetch is passed on; otherwise the names reported are exactly the enabled plugins of the profiles that have any |
| SchedulerConfig.GetPluginWeightsOfUnique | pkg/kubernetes/scheduler.go:105-117 | a plugin listed once reports its own weight |
| SchedulerConfig.ValidatePluginName | pkg/kubernetes/scheduler.go:229-239 | an error iff the name is empty; a warning iff the name is not a known plugin |
| SchedulerConfig.Validate | pkg/kubernetes/scheduler.go:132-140 | no error iff every requested pair has a non-empty name and a weight of at least 1, and otherwise the error of the first rejected pair, the name checked before the weight |
| SchedulerConfig.FirstIndex | pkg/kubernetes/scheduler.go:146-163 | the first entry with the name, or -1 iff none has it |
| SchedulerConfig.Reweigh | pkg/kubernetes/scheduler.go:153-157 | the entry gets the weight and keeps its name, and no other entry changes |
| SchedulerConfig.UpdateFirst | pkg/kubernetes/scheduler.go:145-170 | not found iff no profile lists the name; otherwise only the first entry with the name is reweighed and every profile keeps its shape |
| SchedulerConfig.ReweighHead | pkg/kubernetes/scheduler.go:151-161 | reweighing inside the first profile reweighs that position of the flattened list |
| SchedulerConfig.ReweighTail | pkg/kubernetes/scheduler.go:146-167 | reweighing past the first profile reweighs the shifted position of the flattened list |
| SchedulerConfig.FirstIndexAppend | pkg/kubernetes/scheduler.go:146-167 | the first entry with a name in a concatenation is found in the first part if there, else shifted from the second |
| SchedulerConfig.UpdateAll | pkg/kubernetes/scheduler.go:144-171 | succeeds iff every requested name is listed somewhere, keeps every profile's shape, and otherwise fails on a requested name listed nowhere |
| SchedulerConfig.SameShapeEnabled | pkg/kubernetes/scheduler.go:146-158 | profiles of the same shape list the same names in the same places |
| SchedulerConfig.SameShapeKeepsFirstIndex | pkg/kubernetes/scheduler.go:146-158 | updates never move the first entry of any name |
| SchedulerConfig.UpdatePluginWeights | pkg/kubernetes/scheduler.go:126-177 | a failed fetch, then validation before any change, then not-found on a name listed nowhere; the configuration is posted iff the request is non-empty and every name is found, with every profile's shape kept |
| SchedulerConfig.UpdatePluginWeight | pkg/kubernetes/scheduler.go:122-124 | a valid one-entry request is posted iff the name is listed somewhere, and a weight below 1 is rejected |
| SchedulerConfig.UpdateAllSetsFirstEntries | pkg/kubernetes/scheduler.go:144-171 | after the update pass, each requested name's first entry carries the requested weight |
| SchedulerConfig.UpdateAllKeepsOthers | pkg/kubernetes/scheduler.go:144-171 | the first entry of a name not requested is left as it was |
| SchedulerConfig.DefaultWeight | pkg/kubernetes/scheduler.go:252-276 | every default weight is at least 1 |
| SchedulerConfig.DefaultRequest | pkg/kubernetes/scheduler.go:252-276 | one pair per known plugin, with its default weight, in iteration order |
| SchedulerConfig.DefaultRequestValid | pkg/kubernetes/scheduler.go:252-277 | the default request passes validation and is not empty |
| SchedulerConfig.DefaultRequestFound | pkg/kubernetes/scheduler.go:252-277 | every default name is found iff every known plugin is enabled somewhere |
| SchedulerConfig.ResetToDefaults | pkg/kubernetes/scheduler.go:251-278 | a failed fetch is passed on, validation never fails, and the defaults are posted iff every known plugin is enabled somewhere |
| SchedulerConfig.DefaultWeights | pkg/kubernetes/scheduler.go:254-275 | TaintToleration 3; NodeAffinity, PodTopologySpread and InterPodAffinity 2; every other known plugin 1 |
| Stats.NewStats | pkg/cache/stats.go:81-92 | a new store has empty queues and histories |
| Stats.UpdatePodEvent | pkg/cache/stats.go:95-100 | exactly one event record, stamped now, is appended and nothing else changes |
| Stats.UpdatePendingQ | pkg/cache/stats.go:140-155 | queueing adds the pod's key; removing drops it and records its wait since creation; either way one record of the new queue length is appended and nothing else changes |
| Stats.PendingLength | pkg/cache/stats.go:140-155 | the recorded length grows by one for a new pod, shrinks by one for a queued pod leaving, and otherwise stays |
| Stats.RemoveAbsentRecordsDuration | pkg/cache/stats.go:146-148 | removing a pod that was never queued still records a pending duration for it |
| Stats.AddThenRemove | pkg/cache/stats.go:140-155 | queueing a new pod and removing it restores the queue, and the history ends with lengths n+1 and n |
| Stats.GetPodQueueHistory | pkg/cache/stats.go:157-162 | the snapshot holds exactly the history's records |
| Stats.SnapshotIsPrefix | pkg/cache/stats.go:151-162 | a later snapshot extends an earlier one by the new record |
| Stats.Append | pkg/cache/stats.go:104-112 | the node's history gains the record at its end, created when absent, and other nodes' histories are untouched |
| Stats.UpdateHistory | pkg/cache/stats.go:102-138 | the node's allocation, ratio and free histories each gain one record stamped now, and nothing else changes |
| Stats.FirstAllocationRecord | pkg/cache/stats.go:102-112 | a node's first allocation record holds, per requested resource, the sum of its pods' requests |
| Stats.QueueRows | pkg/cache/stats.go:241-252 | one row per record, in time order, each its timestamp and its length in decimal |
| Stats.ResourceTypes | pkg/cache/stats.go:260-266 | exactly the resources some record holds |
| Stats.Header | pkg/cache/stats.go:268-271 | "timestamp" followed by the resource names in iteration order |
| Stats.Row | pkg/cache/stats.go:277-287 | the timestamp, then one cell per header resource, "0" where the record lacks it |
| Stats.QuantityCell | pkg/cache/stats.go:283 | the cell reads back as the quantity in milli-units |
| Stats.QuantityRowReadsBack | pkg/cache/stats.go:277-287 | every cell of an allocation or free row reads back as the record's quantity, a missing one as zero |
| Stats.Table | pkg/cache/stats.go:257-295 | the header and then one row per record, in recording order, all of the header's width |
| Stats.TableKeepsEveryQuantity | pkg/cache/stats.go:260-287 | every resource any record holds has a column holding its value, so nothing is dropped |
| Stats.Milliseconds | pkg/cache/stats.go:224 | nanoseconds to milliseconds, truncated toward zero |
| Stats.DurationRows | pkg/cache/stats.go:219-236 | one row per pod key, each key of the map exactly once in the given iteration order: its UID, its name and its duration in milliseconds |
| Kube.Value | pkg/scenario/scenario.go:155 | `Quantity.Value()` is the quantity in whole units rounded up away from zero: the least whole number of units covering a positive quantity |
| Kube.FirstRequest | pkg/scenario/scenario.go:153-154 | the first container's request for the resource, zero when it lists none |
| Scenario.ApplyAllName | pkg/scenario/scenario.go:81-95 | after the options run in order, the metadata is the last `WithName`'s name and time, and untouched without one |
| Scenario.ApplyAllCluster | pkg/scenario/scenario.go:70-74 | the last `WithCluster` decides the cluster; without one it is untouched |
| Scenario.ApplyAllPods | pkg/scenario/scenario.go:75-79 | the last `WithPodEvents` decides the pod events; without one they are untouched |
| Scenario.NewScenario | pkg/scenario/scenario.go:88-101 | the name is never empty, and cluster and events are what the options leave on the empty scenario |
| Scenario.NewScenarioOptions | pkg/scenario/scenario.go:88-101 | each field comes from the last option setting it; an empty or missing name becomes "default-" plus three UUID characters stamped now; no cluster or pod option leaves the empty ones |
| Scenario.LastIndexOfName | pkg/scenario/scenario.go:93-95 | the position of the `WithName` option that runs last |
| Scenario.FirstMax | pkg/scenario/scenario.go:152-156 | `slices.MaxFunc`: a position whose key is at least every other key, and before which every key is strictly smaller |
| Scenario.ValueKeys | pkg/scenario/scenario.go:153-155 | one comparison key per pod event: its first container's request in whole units |
| Scenario.MilliKeys | pkg/scenario/scenario.go:153-155 | one comparison key per pod event: its first container's request in milli-units |
| Scenario.LargerCpuRequestAsWritten | pkg/scenario/scenario.go:148-158 | no result for no pods; otherwise the first pod whose CPU request in whole cores, rounded up, is at least every other's |
| Scenario.GetLargerCpuRequest | pkg/scenario/scenario.go:148-158 | no result for no pods; otherwise the first pod whose CPU request in milli-cores is at least every other's |
| Scenario.GetLargerMemRequest | pkg/scenario/scenario.go:160-170 | no result for no pods; otherwise the first pod whose memory request in whole bytes is at least every other's |
| Scenario.AfterKeys | pkg/scenario/scenario.go:177 | one comparison key per pod event: its arrival offset |
| Scenario.GetLongestEvent | pkg/scenario/scenario.go:172-180 | no result for no pods; otherwise the first pod event with the greatest arrival offset, as `ExecuteAfterDuration` compares them |
| Scenario.AsWrittenMissesLargerCpu | pkg/scenario/scenario.go:148-158 | with requests of 100m and 500m, comparing whole cores picks the first, smaller pod, while comparing milli-cores picks the larger |
| ClusterJson.StripEmpty | pkg/scenario/cluster.go:32-62 | only keys are removed; every kept value is non-empty; null, empty-string and empty-array entries go; booleans, numbers and non-empty strings stay unchanged |
| ClusterJson.StripEmptyEntries | pkg/scenario/cluster.go:38-57 | a map entry is kept iff its own stripping leaves something, and then as that stripped map; a non-empty slice is kept, of the same length, with every element stripped |
| ClusterJson.StripValue | pkg/scenario/cluster.go:35-61 | a map is replaced by its stripped self; a slice keeps its length with every element stripped; any other value is unchanged |
| ClusterJson.StripItem | pkg/scenario/cluster.go:48-54 | an array element that is a map is stripped and becomes null exactly when nothing is left; any other element is kept as it is |
| ClusterJson.StripEmptyIsClean | pkg/scenario/cluster.go:32-62 | the result holds nothing the pass would remove, at any depth |
| ClusterJson.StripValueIsClean | pkg/scenario/cluster.go:35-61 | a stripped value that is kept holds nothing the pass would remove |
| ClusterJson.StripItemIsClean | pkg/scenario/cluster.go:48-54 | a stripped array element holds nothing the pass would remove |
| ClusterJson.StripEmptyOfClean | pkg/scenario/cluster.go:32-62 | an object with nothing to remove is left unchanged |
| ClusterJson.StripValueOfClean | pkg/scenario/cluster.go:35-61 | a value with nothing to remove is left unchanged |
| ClusterJson.StripItemOfClean | pkg/scenario/cluster.go:48-54 | an array element with nothing to remove is left unchanged |
| ClusterJson.StripEmptyFixedPoints | pkg/scenario/cluster.go:32-62 | the pass leaves an object unchanged exactly when it is clean, and running it twice is the same as once |
| ClusterJson.NestedEmptyGoesAway | pkg/scenario/cluster.go:38-42 | an object that becomes empty once its empty string is removed is removed in turn, and its siblings stay |
| ClusterJson.EmptiedElementBecomesNull | pkg/scenario/cluster.go:48-54 | an array element object that empties becomes null and keeps its place; the array stays |
| ClusterStatus.Contribution | pkg/kubernetes/status.go:37-47 | a resource the node does not list contributes nothing; a listed one contributes its milli-value or its whole-unit value |
| ClusterStatus.AllocatableTotals | pkg/kubernetes/status.go:34-48 | no nodes give zero totals |
| ClusterStatus.TotalsSnoc | pkg/kubernetes/status.go:36-48 | one more node adds its allocatable CPU in milli-units, its memory and its pod count to the totals, each only where the node lists it |
| ClusterStatus.TotalsAppend | pkg/kubernetes/status.go:36-48 | the totals of two node lists put together are the sums of their totals |
| ClusterStatus.MissingResourceAddsNothing | pkg/kubernetes/status.go:37-47 | a node without an allocatable entry for a resource leaves that resource's total unchanged |
| ClusterStatus.FirstReady | pkg/kubernetes/status.go:82-83 | the position of the first Ready condition, -1 exactly when there is none |
| ClusterStatus.NodeStatus | pkg/kubernetes/status.go:81-93 | "Unknown" exactly when no condition is Ready; "Ready" exactly when the first Ready condition's status is True; otherwise "NotReady" |
| ClusterStatus.Roles | pkg/kubernetes/status.go:97-105 | a role per role label, so none exactly when no role label is present; "control-plane" is listed exactly when a master or control-plane label is, "worker" exactly when the worker label is |
| ClusterStatus.Bracketed | pkg/kubernetes/status.go:111 | the `%v` rendering of a slice is the items separated by single spaces between "[" and "]"; splitting the inside at the spaces gives back a non-empty list of items without spaces |
| ClusterStatus.FieldsOfJoin | pkg/kubernetes/status.go:111 | joining at least one item without spaces and splitting at the spaces gives the items back |
| ClusterStatus.NodeRoles | pkg/kubernetes/status.go:96-112 | "none" exactly when no role label is present, otherwise the bracketed role list |
| ClusterStatus.BothControlPlaneLabelsListTwice | pkg/kubernetes/status.go:99-101 | a node labelled both master and control-plane lists "control-plane" twice |
| ClusterStatus.IsSystemNamespace | pkg/kubernetes/status.go:115-128 | true exactly for kube-system, kube-public and kube-node-lease |
| Generate.Trunc | cmd/simulation/generate/events.go:22 | Go's `int(x)`: the integer part, truncated toward zero for either sign |
| Generate.Clamp | cmd/simulation/generate/events.go:24-28 | the request, unless it exceeds the limit, when it is the limit |
| Generate.PodCpu | cmd/simulation/generate/events.go:19-29 | never above the largest node's CPU; the sample in truncated milli-cores whenever that fits |
| Generate.PodMemory | cmd/simulation/generate/events.go:32-42 | never above the largest node's memory; the scaled sample in whole MiB whenever that fits |
| Generate.MaxCapacity | cmd/simulation/generate/events.go:95-116 | at least zero and every node's capacity, and equal to one of them unless zero |
| Generate.GetMaxNodeCpu | cmd/simulation/generate/events.go:95-104 | at least every node's CPU capacity, zero for no nodes |
| Generate.GetMaxNodeMem | cmd/simulation/generate/events.go:106-116 | at least every node's memory capacity, zero for no nodes |
| Generate.Duration | cmd/simulation/generate/events.go:82-87 | always positive; the scaled service time in whole seconds whenever that is positive |
| Generate.ArrivalSumStep | cmd/simulation/generate/events.go:64-67 | the running clock after one more step is the previous clock plus that step's inter-arrival time |
| Generate.GenerateEvents | cmd/simulation/generate/events.go:45-92 | `NumEvents` events; event i is named "pod-i", arrives at its running clock, and has the duration, CPU and memory request drawn from the i-th draw, clamped to the largest node |
| Generate.ArrivalsNonDecreasing | cmd/simulation/generate/events.go:63-81 | with non-negative inter-arrival times and scale, a later event never arrives earlier |
| Generate.PodNameIndex | cmd/simulation/generate/events.go:76 | the digits after "pod-" read back as the event's index |
| Generate.PodNamesDistinct | cmd/simulation/generate/events.go:76 | different events get different pod names |
| Generate.RandomBetween | cmd/simulation/generate/generate.go:100-110 | the minimum for an empty or single-point range, otherwise a value within both bounds |
| Generate.GeometricRand | cmd/simulation/generate/generate.go:88-98 | one second for a parameter outside (0, 1), otherwise the sample |
| Generate.RunArrivals | cmd/simulation/generate/generate.go:42-48 | one arrival per step, each the previous plus the inter-arrival time in truncated nanoseconds |
| Generate.RunArrivalsNonDecreasing | cmd/simulation/generate/generate.go:42-48 | with non-negative inter-arrival times, a later event never arrives earlier |
| Simulator.LoadEvents | pkg/simulator/simulation.go:45-54 | every event is scheduled in order, and the tracked names are exactly the names of the events with a non-zero duration, in order |
| Simulator.TrackedStep | pkg/simulator/simulation.go:46-52 | one more event adds itself to the tracked ones exactly when its duration is non-zero |
| Simulator.TrackedNamesListed | pkg/simulator/simulation.go:45-54 | every event with a non-zero duration has its pod's name tracked |
| Simulator.IndexOf | pkg/simulator/simulation.go:137-138 | the first position holding the name, -1 exactly when there is none |
| Simulator.IsLastPodEvent | pkg/simulator/simulation.go:134-144 | an untracked name changes nothing; a tracked one loses exactly its first occurrence; the answer is whether no name is left |
| Simulator.RemainingCount | pkg/simulator/simulation.go:78-88 | after deletions of tracked pods, the names left are the tracked ones minus the deleted ones, counted with multiplicity |
| Simulator.EndsAtLastDeletion | pkg/simulator/simulation.go:78-88 | when every tracked pod is deleted once, in any order, the simulation stops at the last deletion and at no earlier one |
| Simulator.DuplicateNeedsTwoDeletions | pkg/simulator/simulation.go:134-144 | a name tracked twice is only struck off once per deletion, so one deletion does not end the run |

## Left out

- Files, YAML and JSON encoding, CSV writing and plotting: `ExportCSV`'s file handling, `ToYaml`, `LoadFromYaml`, `MarshalJSON`'s encoding round trip, and the analyzer's `save_data`, `plot_timeline`, `make_report` and `main`. The models produce the rows and tables that would be written, and take the decoded JSON value as input.
- The Kubernetes API and HTTP: the clientset, node and pod listing, the watch, and fetching and posting the scheduler configuration. A fetch is an input `Result` and a post is an output flag.
- Concurrency: the scheduler's run loop, the informers, `Simulation.Start`, channels, mutexes and atomics. Every operation is modelled as one sequential step.
- Random sampling and its floating-point formulas: the Weibull and exponential distributions, `exponentialRand`, the logarithm in `geometricRand`, and `rng.Int63n`. Each sample is an input; `Generate.RandomBetween` takes the draw, and `Generate.GeometricRand` takes the sample.
- Clocks and identifiers: `time.Now`, uptime and UUIDs are parameters.
- Floating point: float64 arithmetic is modelled on exact reals, and the square root is a parameter required to be a non-negative square root. Rounding error is not modelled.
- Map iteration order: Go and pandas orders are parameters, as sequences of keys.
- Neither `sort.Slice` nor pandas' default `sort_values` is stable. The model sorts stably, which is one of the orders either may produce for rows with equal timestamps.
- `Generate.GeometricRand`: the ceiling of a ratio of logarithms is an input sample, so only the guard is stated.
- `Generate.RandomBetween`: only the bounds are stated, not uniformity.
- `AnalyzerParse.ParseFloat`: the value of every decimal literal, signed or not, with or without a fractional part, is stated by AnalyzerParse.ParseFloatDecimal and AnalyzerParse.ParseFloatInteger; only decimal literals are modelled, not Python's full float grammar (exponents, "inf", "nan", surrounding whitespace, underscores); such text is an error of the model's parser.
- `AnalyzerMetrics.Improvements`: results are keyed by the runs' positions (i, j); analyzer.py keys the summary by the last path component of each run directory, so two runs whose directories share that name overwrite each other's entries there, which the model does not reproduce.
- `GaugeVec.Sep`: Go joins label values with the raw byte 0xFF, which no valid UTF-8 label value contains; the model uses the character U+00FF, so `GaugeVec.JoinInjective` excludes label values holding that character.
- `AnalyzerPodFit.AvgPodFit`: its own contract states when it fails and when it succeeds; the value is stated by `AnalyzerPodFit.FitOf` on the chosen rows.
- Float64: the sign of zero, rounding and overflow of doubles are not modelled; a finite double is an exact real.
- `SchedulerMetrics.Percentile`: its own contract states only the empty and one-sample cases; the bracketing is stated by `SchedulerMetrics.AtPosition` and `SchedulerMetrics.PercentileWithinRange`. It requires `p >= 0`, the only way the code calls it.
- `Kube.FirstRequest`: a pod without containers makes Go panic; the model requires a first container instead.
- Plugin weights are `int32` in the configuration; the model uses unbounded integers because every weight it writes is between 1 and 3 or given by the caller.
- `AddKnownPlugin` and `RemoveKnownPlugin` are not modelled; the set of known plugins is a constant.
- The Prometheus collector (`Describe`, `Collect`), `Summary`, `UpdateLastEventTime`, `GetUptime` and the `String` methods are output or clock plumbing.
- `container/heap`'s `Init` is not modelled, because the queue always starts empty.
- The pod-phase counts in `ClusterStatus` only feed printing.
- The Go event CSV histories of `ExportCSV` beyond the queue, allocation, ratio, free and duration tables are not modelled.
- The analyzer's `compare_reports`, its area-under-curve summary and its timestamp alignment (`ffill`, `concat`) are not modelled; the fragmentation and improvement logic they feed is. The per-file keep-first de-duplication of timestamps is `Seqs.FirstByKey`; `AnalyzerMetrics.FragmentationAt` takes one row of the joined frame, after that step.
- The `Run` command of `cmd/simulation/generate/generate.go` builds pods from factories and writes YAML. Only its arrival clock and its `randomBetween` and `geometricRand` helpers are modelled.
- `Simulator.LoadEvents`: the scheduler is a sequence of scheduled events, so its own queue errors are not modelled.

## Findings

| source | as written | input that shows it | evidently intended | confidence | as-written member | corrected member |
|---|---|---|---|---|---|---|
| pkg/scenario/scenario.go:148-158 | CPU requests are compared by `Value()`, which rounds up to whole cores | two pods requesting 100m and 500m: both compare as 1 core, so the first, smaller pod is returned | compare `MilliValue()`, so the 500m pod is returned | not executed | Scenario.LargerCpuRequestAsWritten, Scenario.AsWrittenMissesLargerCpu | Scenario.GetLargerCpuRequest |
| pkg/scheduler/metrics.go:214-215 | once the buffer is full, the slot is `count % len` computed after `count` was incremented | 1001 observations: the 1001st overwrites slot 1, the second observation, while the first stays | overwrite the oldest sample, slot `(count - 1) % len` | not executed | SchedulerMetrics.ObserveAsWritten, SchedulerMetrics.AsWrittenKeepsOldest | SchedulerMetrics.Observe, SchedulerMetrics.ObserveReplacesOldest |
| analyzer/analyzer.py:402-442 | `compare_fragmentation` reads `strategy_df['timestamp']`, but `calculate_fragmentation` returned the frame with the timestamps moved into its index | any call with at least one run directory: the column lookup raises KeyError before any improvement is computed | read the index (`strategy_df.index`) instead of a `timestamp` column, so the pairwise improvements are reached | not executed | AnalyzerMetrics.CompareAsWritten, AnalyzerMetrics.AsWrittenNeverCompares | AnalyzerMetrics.Improvements |

=== FILE: analyzer_load.dfy ===
/**
 * analyzer/analyzer.py, `load_data`: how node files are sorted into ratio,
 * usage and free frames, how their columns are renamed, scaled, rounded,
 * and totalled. Reading CSV files, timestamps and the outer join of the
 * frames are not modelled; a frame is a list of named columns.
 */
module AnalyzerLoad {
  import opened Wrappers
  import opened Text
  import Seqs

  /** Bytes to gibibytes: 1 / 1024 / 1024 / 1024. */
  const MemoryScale: real := 1.0 / 1073741824.0
  /** Ratios in [0, 1] to percentages. */
  const RatioScale: real := 100.0

  datatype FileKind = RatioFile | UsageFile | FreeFile

  /** The frame a node file goes to, decided on its whole path: "ratio"
      wins over "free", and a path with neither is a usage file. */
  function Classify(path: string): (k: FileKind)
    ensures k == RatioFile <==> Contains(path, "ratio")
    ensures k == UsageFile <==> !Contains(path, "ratio") && !Contains(path, "free")
    ensures k == FreeFile <==> !Contains(path, "ratio") && Contains(path, "free")
  {
    if Contains(path, "ratio") then RatioFile
    else if !Contains(path, "free") then UsageFile
    else FreeFile
  }

  /** The three frame lists built by the loop over the sorted file names:
      every path lands in exactly the list of its kind, in order. */
  function Group(paths: seq<string>): (g: (seq<string>, seq<string>, seq<string>))
    ensures multiset(g.0) + multiset(g.1) + multiset(g.2) == multiset(paths)
    ensures forall i :: 0 <= i < |g.0| ==> Classify(g.0[i]) == RatioFile
    ensures forall i :: 0 <= i < |g.1| ==> Classify(g.1[i]) == UsageFile
    ensures forall i :: 0 <= i < |g.2| ==> Classify(g.2[i]) == FreeFile
  {
    if paths == [] then ([], [], [])
    else
      var p := paths[|paths| - 1];
      assert paths == paths[..|paths| - 1] + [p];
      Place(Group(paths[..|paths| - 1]), p)
  }

  /** Every list of a grouping holds only paths of its kind. */
  predicate Grouped(g: (seq<string>, seq<string>, seq<string>)) {
    (forall i :: 0 <= i < |g.0| ==> Classify(g.0[i]) == RatioFile) &&
    (forall i :: 0 <= i < |g.1| ==> Classify(g.1[i]) == UsageFile) &&
    (forall i :: 0 <= i < |g.2| ==> Classify(g.2[i]) == FreeFile)
  }

  /** One iteration of the loop: the path joins the list of its kind. */
  function Place(g: (seq<string>, seq<string>, seq<string>), p: string): (r: (seq<string>, seq<string>, seq<string>))
    requires Grouped(g)
    ensures Grouped(r)
    ensures multiset(r.0) + multiset(r.1) + multiset(r.2)
      == multiset(g.0) + multiset(g.1) + multiset(g.2) + multiset{p}
  {
    match Classify(p)
    case RatioFile => (g.0 + [p], g.1, g.2)
    case UsageFile => (g.0, g.1 + [p], g.2)
    case FreeFile => (g.0, g.1, g.2 + [p])
  }

  /** `file.split("/")[-1].split("_")[0]`. */
  function NodeName(path: string): (r: string)
    ensures '/' !in r && '_' !in r
    ensures |r| <= |path|
    ensures exists s :: NameAt(path, s, r)
  {
    var seg := AfterLast(path, '/');
    var r := BeforeFirst(seg, '_');
    assert NameAt(path, |path| - |seg|, r);
    r
  }

  /** `r` is the part before the first '_' of the last '/'-separated segment
      of `path`, and that segment starts at `s`. */
  ghost predicate NameAt(path: string, s: int, r: string) {
    0 <= s <= |path| && (s == 0 || path[s - 1] == '/') && '/' !in path[s..] &&
    r <= path[s..] && '_' !in r && (s + |r| == |path| || path[s + |r|] == '_')
  }

  /** A path has one node name: whatever satisfies `NameAt` is `NodeName`. */
  lemma NodeNameOf(path: string, s: int, r: string)
    requires NameAt(path, s, r)
    ensures NodeName(path) == r
  {
    var t :| NameAt(path, t, NodeName(path));
    NameAtUnique(path, s, r, t, NodeName(path));
  }

  lemma NameAtUnique(path: string, s1: int, r1: string, s2: int, r2: string)
    requires NameAt(path, s1, r1) && NameAt(path, s2, r2)
    ensures s1 == s2 && r1 == r2
  {
  }

  /** "node-1_usage.csv" under any directory belongs to node "node-1". */
  lemma NodeNameExample()
    ensures NodeName("run/data/node-1_usage.csv") == "node-1"
  {
    NodeNameOf("run/data/node-1_usage.csv", 9, "node-1");
  }

  /** The prefix every kept column gets: the node name with '-' as '_'. */
  function ColumnPrefix(node: string): (r: string)
    ensures |r| == |node| + 1 && r[|node|] == '_'
    ensures forall i :: 0 <= i < |node| ==> r[i] == if node[i] == '-' then '_' else node[i]
    ensures '-' !in r
  {
    MapChar(node, '-', '_') + "_"
  }

  /** Node names that differ only in '-' against '_' share a prefix, so their
      columns share names. */
  lemma PrefixCollision()
    ensures ColumnPrefix("node-1") == ColumnPrefix("node_1")
  {
  }

  /** Every entry of `r` is the renaming of a column of `cols` that does not
      mention "pods". */
  ghost predicate FromKept(node: string, cols: seq<string>, r: seq<string>) {
    forall i :: 0 <= i < |r| ==>
      exists j :: 0 <= j < |cols| && !Contains(cols[j], "pods") && r[i] == ColumnPrefix(node) + cols[j]
  }

  /** Every column of `cols` that does not mention "pods" is renamed into `r`. */
  ghost predicate AllKept(node: string, cols: seq<string>, r: seq<string>) {
    forall j :: 0 <= j < |cols| && !Contains(cols[j], "pods") ==> ColumnPrefix(node) + cols[j] in r
  }

  /** The column loop: "pods" columns are dropped, the others renamed. */
  function RenameColumns(node: string, cols: seq<string>): (r: seq<string>)
    ensures |r| <= |cols|
    ensures FromKept(node, cols, r)
    ensures AllKept(node, cols, r)
  {
    if cols == [] then []
    else
      var rest := RenameColumns(node, cols[1..]);
      var r := if Contains(cols[0], "pods") then rest else [ColumnPrefix(node) + cols[0]] + rest;
      RenameFromKept(node, cols, rest, r);
      RenameAllKept(node, cols, rest, r);
      r
  }

  lemma RenameFromKept(node: string, cols: seq<string>, rest: seq<string>, r: seq<string>)
    requires cols != [] && FromKept(node, cols[1..], rest)
    requires r == if Contains(cols[0], "pods") then rest else [ColumnPrefix(node) + cols[0]] + rest
    ensures FromKept(node, cols, r)
  {
    var p := ColumnPrefix(node);
    var head := |r| - |rest|;
    forall i | 0 <= i < |r|
      ensures exists j :: 0 <= j < |cols| && !Contains(cols[j], "pods") && r[i] == p + cols[j]
    {
      if i < head {
        assert r[i] == p + cols[0];
      } else {
        assert r[i] == rest[i - head];
        var j :| 0 <= j < |cols[1..]| && !Contains(cols[1..][j], "pods") && rest[i - head] == p + cols[1..][j];
        assert cols[j + 1] == cols[1..][j];
      }
    }
  }

  lemma RenameAllKept(node: string, cols: seq<string>, rest: seq<string>, r: seq<string>)
    requires cols != [] && AllKept(node, cols[1..], rest)
    requires r == if Contains(cols[0], "pods") then rest else [ColumnPrefix(node) + cols[0]] + rest
    ensures AllKept(node, cols, r)
  {
    var p := ColumnPrefix(node);
    var head := |r| - |rest|;
    forall j | 0 <= j < |cols| && !Contains(cols[j], "pods")
      ensures p + cols[j] in r
    {
      if j == 0 {
        assert r[0] == p + cols[0];
      } else {
        assert cols[1..][j - 1] == cols[j];
        var k :| 0 <= k < |rest| && rest[k] == p + cols[j];
        assert r[k + head] == rest[k];
      }
    }
  }

  /** numpy's `round(x)`: to the nearest integer, halves to the even one. */
  function RoundHalfEven(x: real): (n: int)
    ensures x - 0.5 <= n as real <= x + 0.5
    ensures IsHalf(x, n) ==> n % 2 == 0
  {
    var f := x.Floor;
    var d := x - f as real;
    if d < 0.5 then f
    else if d > 0.5 then f + 1
    else if f % 2 == 0 then f
    else f + 1
  }

  /** `n` lies exactly half-way from `x`. */
  predicate IsHalf(x: real, n: int) {
    n as real - x == 0.5 || x - n as real == 0.5
  }

  /** An integer within one half of `x`, and even when `x` is half-way, is
      the rounding of `x`: the contract above fixes the result. */
  lemma RoundHalfEvenUnique(x: real, m: int)
    requires x - 0.5 <= m as real <= x + 0.5
    requires IsHalf(x, m) ==> m % 2 == 0
    ensures RoundHalfEven(x) == m
  {
  }

  /** `round(2)` on a value. */
  function Round2(x: real): real {
    RoundHalfEven(x * 100.0) as real / 100.0
  }

  /** Rounding moves a value by at most half a cent. */
  lemma Round2Close(x: real)
    ensures -0.005 <= Round2(x) - x <= 0.005
  {
    var n := RoundHalfEven(x * 100.0);
    assert x * 100.0 - 0.5 <= n as real <= x * 100.0 + 0.5;
  }

  lemma RoundHalfEvenInteger(n: int)
    ensures RoundHalfEven(n as real) == n
  {
  }

  /** Rounding to two decimals twice is rounding once. */
  lemma Round2Idempotent(x: real)
    ensures Round2(Round2(x)) == Round2(x)
  {
    var n := RoundHalfEven(x * 100.0);
    assert Round2(x) * 100.0 == n as real;
    RoundHalfEvenInteger(n);
  }

  datatype Column = Column(name: string, values: seq<real>)

  /** The factor a column of a frame of the given kind is multiplied by. */
  function Factor(kind: FileKind, name: string): (f: real)
    ensures kind == RatioFile ==> f == RatioScale
    ensures kind != RatioFile && Contains(name, "memory") ==> f == MemoryScale
    ensures kind != RatioFile && !Contains(name, "memory") ==> f == 1.0
  {
    if kind == RatioFile then RatioScale
    else if Contains(name, "memory") then MemoryScale
    else 1.0
  }

  /** `round(2)` of every value. */
  function RoundAll(vs: seq<real>): (r: seq<real>)
    ensures |r| == |vs|
    ensures forall i :: 0 <= i < |vs| ==> r[i] == Round2(vs[i])
  {
    if vs == [] then []
    else
      assert forall i :: 0 <= i < |vs| - 1 ==> vs[..|vs| - 1][i] == vs[i];
      RoundAll(vs[..|vs| - 1]) + [Round2(vs[|vs| - 1])]
  }

  /** Scaling and then `round(2)` of one column. */
  function ScaleColumn(kind: FileKind, c: Column): (r: Column)
    ensures r.name == c.name
    ensures ScaledThenRounded(r.values, c.values, Factor(kind, c.name))
    ensures WithinHalfCent(r.values, c.values, Factor(kind, c.name))
  {
    var f := Factor(kind, c.name);
    var rs := RoundAll(Seqs.Scale(c.values, f));
    ScaledRounded(c.values, f, rs);
    Column(c.name, rs)
  }

  /** Each of `rs` lies within 0.005 of the matching value of `vs` times `f`. */
  ghost predicate WithinHalfCent(rs: seq<real>, vs: seq<real>, f: real) {
    |rs| == |vs| && forall i :: 0 <= i < |vs| ==> -0.005 <= rs[i] - f * vs[i] <= 0.005
  }

  /** Each value of the column is scaled and then rounded. */
  /** Each of `rs` is the matching value of `vs` times `f`, rounded to two
      decimals. */
  ghost predicate ScaledThenRounded(rs: seq<real>, vs: seq<real>, f: real) {
    |rs| == |vs| && forall i :: 0 <= i < |vs| ==> rs[i] == Round2(f * vs[i])
  }

  lemma ScaledRounded(vs: seq<real>, f: real, rs: seq<real>)
    requires rs == RoundAll(Seqs.Scale(vs, f))
    ensures ScaledThenRounded(rs, vs, f)
    ensures WithinHalfCent(rs, vs, f)
  {
    forall i | 0 <= i < |vs|
      ensures rs[i] == Round2(f * vs[i])
    {
      Seqs.ScaleAt(vs, f, i);
    }
    ScaledClose(vs, f);
  }

  lemma ScaledClose(vs: seq<real>, f: real)
    ensures WithinHalfCent(RoundAll(Seqs.Scale(vs, f)), vs, f)
  {
    var scaled := Seqs.Scale(vs, f);
    var r := RoundAll(scaled);
    forall i | 0 <= i < |vs|
      ensures -0.005 <= r[i] - f * vs[i] <= 0.005
    {
      Seqs.ScaleAt(vs, f, i);
      Round2Close(scaled[i]);
    }
  }

  /** Scaling a frame that is already scaled and rounded by 1 is a no-op: the
      rounding does not drift. */
  lemma RescaleStable(c: Column)
    requires !Contains(c.name, "memory")
    ensures ScaleColumn(UsageFile, ScaleColumn(UsageFile, c)) == ScaleColumn(UsageFile, c)
  {
    var r := ScaleColumn(UsageFile, c);
    ScaleOne(c.values);
    ScaleOne(r.values);
    RoundAllStable(c.values);
  }

  lemma ScaleOne(vs: seq<real>)
    ensures Seqs.Scale(vs, 1.0) == vs
  {
    forall i | 0 <= i < |vs|
      ensures Seqs.Scale(vs, 1.0)[i] == vs[i]
    {
      Seqs.ScaleAt(vs, 1.0, i);
    }
  }

  lemma RoundAllStable(vs: seq<real>)
    ensures RoundAll(RoundAll(vs)) == RoundAll(vs)
  {
    var r := RoundAll(vs);
    forall i | 0 <= i < |vs|
      ensures RoundAll(r)[i] == r[i]
    {
      Round2Idempotent(vs[i]);
    }
  }

  predicate IsCpuColumn(name: string) {
    Contains(Lower(name), "cpu")
  }

  predicate IsMemColumn(name: string) {
    Contains(Lower(name), "mem")
  }

  /** The sum of the named cells of a row; pandas skips missing (NaN) cells. */
  function RowSum(cols: seq<string>, row: map<string, real>): (r: real)
  {
    if cols == [] then 0.0
    else RowSum(cols[..|cols| - 1], row) + (if cols[|cols| - 1] in row then row[cols[|cols| - 1]] else 0.0)
  }

  lemma {:induction false} RowSumAppend(a: seq<string>, b: seq<string>, row: map<string, real>)
    ensures RowSum(a + b, row) == RowSum(a, row) + RowSum(b, row)
    decreases |b|
  {
    if b == [] {
      assert a + b == a;
    } else {
      assert (a + b)[..|a + b| - 1] == a + b[..|b| - 1];
      RowSumAppend(a, b[..|b| - 1], row);
    }
  }

  /** `total_cpu` and `total_memory` of one row of a frame, summed over the
      cpu and mem columns of the usage frame; a usage column the frame lacks
      is pandas' KeyError. */
  function RowTotals(usageCols: seq<string>, frameCols: set<string>, row: map<string, real>)
    : (r: Result<(real, real), string>)
    ensures r.Ok? <==> forall i :: 0 <= i < |usageCols| && (IsCpuColumn(usageCols[i]) || IsMemColumn(usageCols[i]))
                          ==> usageCols[i] in frameCols
    ensures r.Ok? ==> r.value.0 == Round2(RowSum(Seqs.Filter(usageCols, IsCpuColumn), row))
    ensures r.Ok? ==> r.value.1 == Round2(RowSum(Seqs.Filter(usageCols, IsMemColumn), row))
  {
    var cpuCols := Seqs.Filter(usageCols, IsCpuColumn);
    var memCols := Seqs.Filter(usageCols, IsMemColumn);
    if forall c | c in cpuCols + memCols :: c in frameCols then
      Ok((Round2(RowSum(cpuCols, row)), Round2(RowSum(memCols, row))))
    else
      Err("KeyError")
  }

  /** A memory column's total is not taken into the cpu total unless its
      name also says "cpu". */
  lemma CpuTotalIgnoresOtherColumns(cols: seq<string>, extra: string, row: map<string, real>)
    requires !IsCpuColumn(extra)
    ensures RowSum(Seqs.Filter(cols + [extra], IsCpuColumn), row) == RowSum(Seqs.Filter(cols, IsCpuColumn), row)
  {
    Seqs.FilterAppend(cols, [extra], IsCpuColumn);
    assert Seqs.Filter([extra], IsCpuColumn) == [];
    assert Seqs.Filter(cols, IsCpuColumn) + [] == Seqs.Filter(cols, IsCpuColumn);
  }

  /** Each total lies within half a cent of the exact sum of its columns. */
  lemma RowTotalsClose(usageCols: seq<string>, frameCols: set<string>, row: map<string, real>)
    requires RowTotals(usageCols, frameCols, row).Ok?
    ensures var t := RowTotals(usageCols, frameCols, row).value;
      -0.005 <= t.0 - RowSum(Seqs.Filter(usageCols, IsCpuColumn), row) <= 0.005 &&
      -0.005 <= t.1 - RowSum(Seqs.Filter(usageCols, IsMemColumn), row) <= 0.005
  {
    Round2Close(RowSum(Seqs.Filter(usageCols, IsCpuColumn), row));
    Round2Close(RowSum(Seqs.Filter(usageCols, IsMemColumn), row));
  }

  /** The exact totals over the columns of two groups of nodes are the sums of
      the two groups' totals. */
  lemma TotalsOfNodes(a: seq<string>, b: seq<string>, row: map<string, real>)
    ensures RowSum(Seqs.Filter(a + b, IsCpuColumn), row)
         == RowSum(Seqs.Filter(a, IsCpuColumn), row) + RowSum(Seqs.Filter(b, IsCpuColumn), row)
    ensures RowSum(Seqs.Filter(a + b, IsMemColumn), row)
         == RowSum(Seqs.Filter(a, IsMemColumn), row) + RowSum(Seqs.Filter(b, IsMemColumn), row)
  {
    Seqs.FilterAppend(a, b, IsCpuColumn);
    RowSumAppend(Seqs.Filter(a, IsCpuColumn), Seqs.Filter(b, IsCpuColumn), row);
    Seqs.FilterAppend(a, b, IsMemColumn);
    RowSumAppend(Seqs.Filter(a, IsMemColumn), Seqs.Filter(b, IsMemColumn), row);
  }

  /** A column with no cells in the row adds nothing to either total. */
  lemma MissingCellsIgnored(cols: seq<string>, extra: string, row: map<string, real>)
    requires extra !in row
    ensures RowSum(Seqs.Filter(cols + [extra], IsCpuColumn), row) == RowSum(Seqs.Filter(cols, IsCpuColumn), row)
    ensures RowSum(Seqs.Filter(cols + [extra], IsMemColumn), row) == RowSum(Seqs.Filter(cols, IsMemColumn), row)
  {
    TotalsOfNodes(cols, [extra], row);
  }
}

=== FILE: analyzer_metrics.dfy ===
/**
 * analyzer/analyzer.py, the metrics: per-timestamp fragmentation as the
 * coefficient of variation of the strictly positive per-node values,
 * `safe_cv` and the summary of a fragmentation series, and the pairwise
 * improvement percentages of `compare_fragmentation`.
 */
module AnalyzerMetrics {
  import opened Wrappers
  import opened Text
  import Seqs
  import opened Moments

  predicate IsPositive(x: real) {
    x > 0.0
  }

  /** `values[values > 0]`: the positive values, each as often as it
      occurs. */
  function Positives(s: seq<real>): (r: seq<real>)
    ensures forall i :: 0 <= i < |r| ==> r[i] > 0.0
    ensures forall x :: x in r <==> x in s && x > 0.0
    ensures forall x :: multiset(r)[x] == if x > 0.0 then multiset(s)[x] else 0
  {
    PositiveCounts(s);
    Seqs.Filter(s, IsPositive)
  }

  lemma PositiveCounts(s: seq<real>)
    ensures forall x :: multiset(Seqs.Filter(s, IsPositive))[x] == if x > 0.0 then multiset(s)[x] else 0
  {
    forall x
      ensures multiset(Seqs.Filter(s, IsPositive))[x] == if x > 0.0 then multiset(s)[x] else 0
    {
      Seqs.FilterCount(s, IsPositive, x);
    }
  }

  /** scipy's `variation`: the population standard deviation over the mean,
      so its square times the squared mean is the variance. */
  function Variation(p: seq<real>, sqrt: real -> real): (r: real)
    requires SqrtSpec(sqrt)
    requires |p| > 0 && forall i :: 0 <= i < |p| ==> p[i] > 0.0
    ensures r >= 0.0
    ensures r * r * (Mean(p) * Mean(p)) == Variance(p)
    ensures r == 0.0 <==> Variance(p) == 0.0
  {
    SumPositive(p);
    CvSquare(sqrt(Variance(p)), Mean(p), Variance(p));
    sqrt(Variance(p)) / Mean(p)
  }

  /** A non-negative root over a positive mean, squared back. */
  lemma CvSquare(q: real, m: real, v: real)
    requires m > 0.0 && q >= 0.0 && q * q == v
    ensures q / m >= 0.0
    ensures (q / m) * (q / m) * (m * m) == v
    ensures q / m == 0.0 <==> v == 0.0
  {
    var r := q / m;
    assert r * m == q;
    assert r * r * (m * m) == (r * m) * (r * m);
    if q > 0.0 {
      SquareLess(0.0, q);
    }
  }

  /** Two different values make the variation positive. */
  lemma VariationPositive(p: seq<real>, i: int, j: int, sqrt: real -> real)
    requires SqrtSpec(sqrt)
    requires |p| > 0 && forall k :: 0 <= k < |p| ==> p[k] > 0.0
    requires 0 <= i < |p| && 0 <= j < |p| && p[i] != p[j]
    ensures Variation(p, sqrt) > 0.0
  {
    VariancePositive(p, i, j);
  }

  /** The variation does not depend on the unit: scaling every value by the
      same positive factor leaves it unchanged. */
  lemma VariationScale(p: seq<real>, c: real, sqrt: real -> real)
    requires SqrtSpec(sqrt)
    requires |p| > 0 && forall i :: 0 <= i < |p| ==> p[i] > 0.0
    requires c > 0.0
    ensures forall i :: 0 <= i < |Seqs.Scale(p, c)| ==> Seqs.Scale(p, c)[i] > 0.0
    ensures Variation(Seqs.Scale(p, c), sqrt) == Variation(p, sqrt)
  {
    var t := Seqs.Scale(p, c);
    ScalePositive(p, c);
    var m, v, m1, v1 := Mean(p), Variance(p), Mean(t), Variance(t);
    var r, r1 := Variation(p, sqrt), Variation(t, sqrt);
    var cm := c * m;
    MeanScaleOf(p, c, m, cm);
    VarianceScaleOf(p, c, v, v1);
    VariationSquare(p, sqrt, r, m, v);
    VariationSquare(t, sqrt, r1, m1, v1);
    SameRatio(r1, r, c, m, v, m1, v1);
  }

  /** `Variation`'s contract on named values. */
  lemma VariationSquare(p: seq<real>, sqrt: real -> real, r: real, m: real, v: real)
    requires SqrtSpec(sqrt)
    requires |p| > 0 && forall i :: 0 <= i < |p| ==> p[i] > 0.0
    requires r == Variation(p, sqrt) && m == Mean(p) && v == Variance(p)
    ensures r >= 0.0 && m > 0.0 && r * r * (m * m) == v
  {
    SumPositive(p);
  }

  /** Scaling by a positive factor keeps every value positive. */
  lemma ScalePositive(p: seq<real>, c: real)
    requires c > 0.0 && forall i :: 0 <= i < |p| ==> p[i] > 0.0
    ensures forall i :: 0 <= i < |Seqs.Scale(p, c)| ==> Seqs.Scale(p, c)[i] > 0.0
  {
    forall i | 0 <= i < |p|
      ensures Seqs.Scale(p, c)[i] > 0.0
    {
      Seqs.ScaleAt(p, c, i);
      MulPositive(c, p[i]);
    }
  }

  lemma MulPositive(a: real, b: real)
    requires a > 0.0
    ensures a * b > 0.0 <==> b > 0.0
  {
    if b > 0.0 {
      assert a * b > 0.0;
    } else {
      assert a * b <= 0.0;
    }
  }

  /** Two non-negative ratios whose squares carry the same factor agree. */
  lemma SameRatio(r1: real, r: real, c: real, m: real, v: real, m1: real, v1: real)
    requires c > 0.0 && m > 0.0 && r1 >= 0.0 && r >= 0.0
    requires m1 == c * m && v1 == (c * c) * v
    requires r1 * r1 * (m1 * m1) == v1 && r * r * (m * m) == v
    ensures r1 == r
  {
    var k := (c * c) * (m * m);
    MulPositive(c, c);
    MulPositive(m, m);
    MulPositive(c * c, m * m);
    assert r1 * r1 * k == r * r * k;
    assert r1 * r1 == r * r;
    if r1 < r {
      SquareLess(r1, r);
    } else if r < r1 {
      SquareLess(r, r1);
    }
  }

  /** One resource's fragmentation at one timestamp. */
  function Fragmentation(values: seq<real>, sqrt: real -> real): (r: real)
    requires SqrtSpec(sqrt)
    ensures r >= 0.0
    ensures |Positives(values)| < 2 ==> r == 0.0
    ensures |Positives(values)| > 1 ==> r == Variation(Positives(values), sqrt)
    ensures |Positives(values)| > 1 ==>
      r * r * (Mean(Positives(values)) * Mean(Positives(values))) == Variance(Positives(values))
  {
    var p := Positives(values);
    if |p| > 1 then Variation(p, sqrt) else 0.0
  }

  /** Two nodes using 1 and 3 of a resource, and one idle node: the mean is 2,
      the population variance 1, so the coefficient of variation is 1/2. */
  lemma FragmentationExample(sqrt: real -> real)
    requires SqrtSpec(sqrt)
    ensures Fragmentation([1.0, 0.0, 3.0], sqrt) == 0.5
  {
    var values := [1.0, 0.0, 3.0];
    var p := Positives(values);
    PositivesOfExample(p);
    VariationExample(sqrt);
  }

  /** The positives of the example, in order. */
  lemma PositivesOfExample(p: seq<real>)
    requires p == Positives([1.0, 0.0, 3.0])
    ensures p == [1.0, 3.0]
  {
    var a, b, c := [3.0], [0.0, 3.0], [1.0, 0.0, 3.0];
    assert a[1..] == [];
    assert Seqs.Filter(a, IsPositive) == [3.0];
    assert b[1..] == a;
    assert Seqs.Filter(b, IsPositive) == [3.0];
    assert c[1..] == b;
  }

  /** The coefficient of variation of 1 and 3 is one half. */
  lemma VariationExample(sqrt: real -> real)
    requires SqrtSpec(sqrt)
    ensures Variation([1.0, 3.0], sqrt) == 0.5
  {
    ExampleMoments();
    HalfRoot(Variation([1.0, 3.0], sqrt));
  }

  lemma ExampleMoments()
    ensures Mean([1.0, 3.0]) == 2.0 && Variance([1.0, 3.0]) == 1.0
  {
    var s := [1.0, 3.0];
    assert s[..1] == [1.0];
    assert Seqs.Sum(s) == 4.0;
    SqDevsAt(s, 2.0, 0);
    SqDevsAt(s, 2.0, 1);
    var d := SqDevs(s, 2.0);
    assert d == [d[0], d[1]];
    assert d[..1] == [d[0]];
    assert Seqs.Sum(d) == 2.0;
  }

  /** The non-negative number whose square times 4 is 1 is one half. */
  lemma HalfRoot(r: real)
    requires r >= 0.0 && r * r * (2.0 * 2.0) == 1.0
    ensures r == 0.5
  {
    if r < 0.5 {
      SquareLess(r, 0.5);
    } else if r > 0.5 {
      SquareLess(0.5, r);
    }
  }

  /** Two different positive values make the fragmentation positive. */
  lemma FragmentationImbalanced(values: seq<real>, x: real, y: real, sqrt: real -> real)
    requires SqrtSpec(sqrt)
    requires x in values && y in values && x > 0.0 && y > 0.0 && x != y
    ensures Fragmentation(values, sqrt) > 0.0
  {
    var p := Positives(values);
    assert x in p && y in p;
    var i :| 0 <= i < |p| && p[i] == x;
    var j :| 0 <= j < |p| && p[j] == y;
    assert |p| > 1;
    VariationPositive(p, i, j, sqrt);
  }

  /** Fragmentation does not depend on the unit of the values. */
  lemma FragmentationScale(values: seq<real>, c: real, sqrt: real -> real)
    requires SqrtSpec(sqrt)
    requires c > 0.0
    ensures Fragmentation(Seqs.Scale(values, c), sqrt) == Fragmentation(values, sqrt)
  {
    PositivesScale(values, c);
    var p := Positives(values);
    if |p| > 1 {
      VariationScale(p, c, sqrt);
    }
  }

  /** The positives of scaled values are the scaled positives. */
  lemma PositivesScale(values: seq<real>, c: real)
    requires c > 0.0
    ensures Positives(Seqs.Scale(values, c)) == Seqs.Scale(Positives(values), c)
  {
    var f := (x: real) => c * x;
    var sv, p := Seqs.Scale(values, c), Seqs.Filter(values, IsPositive);
    Seqs.ScaleIsMap(values, c, f);
    Seqs.ScaleIsMap(p, c, f);
    ScaleKeepsSign(c, f);
    Seqs.FilterMap(values, f, IsPositive);
    assert Seqs.Filter(sv, IsPositive) == Seqs.Scale(p, c);
  }

  lemma ScaleKeepsSign(c: real, f: real -> real)
    requires c > 0.0 && forall x :: f(x) == c * x
    ensures forall x :: IsPositive(f(x)) == IsPositive(x)
  {
    forall x
      ensures IsPositive(f(x)) == IsPositive(x)
    {
      MulPositive(c, x);
    }
  }

  /** Nodes that all use the same positive amount are not fragmented. */
  lemma FragmentationUniform(values: seq<real>, c: real, sqrt: real -> real)
    requires SqrtSpec(sqrt)
    requires forall i :: 0 <= i < |values| && values[i] > 0.0 ==> values[i] == c
    ensures Fragmentation(values, sqrt) == 0.0
  {
    var p := Positives(values);
    if |p| > 1 {
      assert forall i :: 0 <= i < |p| ==> p[i] == c by {
        forall i | 0 <= i < |p|
          ensures p[i] == c
        {
          assert p[i] in values;
        }
      }
      VarianceConstant(p, c);
      ZeroRoot(sqrt);
      SumPositive(p);
      ZeroOver(Mean(p));
      assert Variation(p, sqrt) == sqrt(0.0) / Mean(p);
    }
  }

  lemma ZeroOver(m: real)
    requires m > 0.0
    ensures 0.0 / m == 0.0
  {
  }

  /** A column feeds the CPU or memory fragmentation when its lower-cased
      name mentions the resource and not "total". */
  predicate IsCpuNode(col: (string, real)) {
    Contains(Lower(col.0), "cpu") && !Contains(Lower(col.0), "total")
  }

  predicate IsMemNode(col: (string, real)) {
    Contains(Lower(col.0), "memory") && !Contains(Lower(col.0), "total")
  }

  /** The node values one resource's fragmentation is taken over. */
  function CpuValues(cols: seq<(string, real)>): seq<real> {
    Seqs.Seconds(Seqs.Filter(cols, IsCpuNode))
  }

  function MemValues(cols: seq<(string, real)>): seq<real> {
    Seqs.Seconds(Seqs.Filter(cols, IsMemNode))
  }

  datatype Frag = Frag(cpu: real, memory: real, combined: real)

  /** The row of `calculate_fragmentation` for one timestamp's columns. */
  function FragmentationAt(cols: seq<(string, real)>, sqrt: real -> real): (r: Frag)
    requires SqrtSpec(sqrt)
    ensures r.cpu == Fragmentation(CpuValues(cols), sqrt)
    ensures r.memory == Fragmentation(MemValues(cols), sqrt)
    ensures r.cpu >= 0.0 && r.memory >= 0.0
    ensures r.combined == (r.cpu + r.memory) / 2.0
  {
    var cpu := Fragmentation(CpuValues(cols), sqrt);
    var mem := Fragmentation(MemValues(cols), sqrt);
    Frag(cpu, mem, (cpu + mem) / 2.0)
  }

  /** A selected column's value is among the selected values. */
  lemma SelectedValue(cols: seq<(string, real)>, i: int, sel: ((string, real)) -> bool)
    requires 0 <= i < |cols| && sel(cols[i])
    ensures cols[i].1 in Seqs.Seconds(Seqs.Filter(cols, sel))
  {
    var f := Seqs.Filter(cols, sel);
    assert cols[i] in f;
    var k :| 0 <= k < |f| && f[k] == cols[i];
    assert Seqs.Seconds(f)[k] == cols[i].1;
  }

  /** Two CPU node columns with different positive usage make the CPU and the
      combined fragmentation positive. */
  lemma FragmentationAtImbalanced(cols: seq<(string, real)>, i: int, j: int, sqrt: real -> real)
    requires SqrtSpec(sqrt)
    requires 0 <= i < |cols| && 0 <= j < |cols| && IsCpuNode(cols[i]) && IsCpuNode(cols[j])
    requires cols[i].1 > 0.0 && cols[j].1 > 0.0 && cols[i].1 != cols[j].1
    ensures FragmentationAt(cols, sqrt).cpu > 0.0
    ensures FragmentationAt(cols, sqrt).combined > 0.0
  {
    SelectedValue(cols, i, IsCpuNode);
    SelectedValue(cols, j, IsCpuNode);
    FragmentationImbalanced(CpuValues(cols), cols[i].1, cols[j].1, sqrt);
  }

  /** Appending a value that does not count leaves the positives unchanged. */
  lemma PositivesIgnoreNonPositive(s: seq<real>, x: real)
    requires x <= 0.0
    ensures Positives(s + [x]) == Positives(s)
  {
    Seqs.FilterAppend(s, [x], IsPositive);
    assert Seqs.Filter([x], IsPositive) == [];
    assert Positives(s) + [] == Positives(s);
  }

  /** One resource's series ignores an extra column that either does not
      belong to it or holds a non-positive value. */
  lemma ResourceIgnores(cols: seq<(string, real)>, extra: (string, real), sel: ((string, real)) -> bool, sqrt: real -> real)
    requires SqrtSpec(sqrt)
    requires !sel(extra) || extra.1 <= 0.0
    ensures Fragmentation(Seqs.Seconds(Seqs.Filter(cols + [extra], sel)), sqrt)
         == Fragmentation(Seqs.Seconds(Seqs.Filter(cols, sel)), sqrt)
  {
    Seqs.FilterAppend(cols, [extra], sel);
    var f := Seqs.Filter(cols, sel);
    if sel(extra) {
      assert Seqs.Filter([extra], sel) == [extra];
      Seqs.SecondsAppend(f, [extra]);
      PositivesIgnoreNonPositive(Seqs.Seconds(f), extra.1);
    } else {
      assert Seqs.Filter([extra], sel) == [];
      assert f + [] == f;
    }
  }

  /** Fragmentation ignores "total" columns and non-positive node values. */
  lemma FragmentationIgnores(cols: seq<(string, real)>, extra: (string, real), sqrt: real -> real)
    requires SqrtSpec(sqrt)
    requires Contains(Lower(extra.0), "total") || extra.1 <= 0.0
    ensures FragmentationAt(cols + [extra], sqrt) == FragmentationAt(cols, sqrt)
  {
    var a, b := FragmentationAt(cols + [extra], sqrt), FragmentationAt(cols, sqrt);
    SeriesIgnore(cols, extra, sqrt);
    assert a.cpu == b.cpu && a.memory == b.memory;
    assert a.combined == b.combined;
  }

  lemma SeriesIgnore(cols: seq<(string, real)>, extra: (string, real), sqrt: real -> real)
    requires SqrtSpec(sqrt)
    requires Contains(Lower(extra.0), "total") || extra.1 <= 0.0
    ensures FragmentationAt(cols + [extra], sqrt).cpu == FragmentationAt(cols, sqrt).cpu
    ensures FragmentationAt(cols + [extra], sqrt).memory == FragmentationAt(cols, sqrt).memory
  {
    ResourceIgnores(cols, extra, IsCpuNode, sqrt);
    ResourceIgnores(cols, extra, IsMemNode, sqrt);
  }

  /** `safe_cv`. */
  function SafeCv(std: real, mean: real): (r: real)
    ensures mean <= 0.0 ==> r == 0.0
    ensures mean > 0.0 ==> r * mean == std
  {
    if mean > 0.0 then std / mean else 0.0
  }

  /** pandas' sample standard deviation (ddof = 1): its square times one
      less than the count is the sum of squared deviations; NaN below two
      values. */
  function SampleStd(s: seq<real>, sqrt: real -> real): (r: Option<real>)
    requires SqrtSpec(sqrt)
    ensures r.Some? <==> |s| >= 2
    ensures r.Some? ==> r.value >= 0.0
    ensures r.Some? ==> r.value * r.value * (|s| - 1) as real == Seqs.Sum(SqDevs(s, Mean(s)))
  {
    if |s| < 2 then None
    else
      var x, d := Seqs.Sum(SqDevs(s, Mean(s))), (|s| - 1) as real;
      SqDevsNonNegative(s, Mean(s));
      RootTimes(sqrt, x, d);
      Some(sqrt(x / d))
  }

  /** The root of a quotient, squared and multiplied back. */
  lemma RootTimes(sqrt: real -> real, x: real, d: real)
    requires SqrtSpec(sqrt)
    requires x >= 0.0 && d > 0.0
    ensures sqrt(x / d) >= 0.0
    ensures sqrt(x / d) * sqrt(x / d) * d == x
  {
    var q := x / d;
    assert q >= 0.0;
    assert sqrt(q) * sqrt(q) == q;
  }

  /** The sample and population variances: n - 1 times the one is n times
      the other. */
  lemma SampleStdVariance(s: seq<real>, sqrt: real -> real)
    requires SqrtSpec(sqrt)
    requires |s| >= 2
    ensures SampleStd(s, sqrt).value * SampleStd(s, sqrt).value * (|s| - 1) as real == Variance(s) * |s| as real
  {
    var m, n := Mean(s), |s|;
    var v, x := Variance(s), Seqs.Sum(SqDevs(s, m));
    VarianceTimes(s, m, v, x, n as real);
  }

  lemma VarianceTimes(s: seq<real>, m: real, v: real, x: real, n: real)
    requires |s| > 0 && m == Mean(s) && v == Variance(s)
    requires x == Seqs.Sum(SqDevs(s, m)) && n == |s| as real
    ensures v * n == x
  {
    VarianceQuot(s, m, v, x, n);
    DivTimes(v, x, n);
  }

  lemma DivTimes(v: real, x: real, n: real)
    requires n > 0.0 && v == x / n
    ensures v * n == x
  {
  }

  /** A constant series has no spread. */
  lemma SampleStdConstant(s: seq<real>, c: real, sqrt: real -> real)
    requires SqrtSpec(sqrt)
    requires |s| >= 2 && forall i :: 0 <= i < |s| ==> s[i] == c
    ensures SampleStd(s, sqrt) == Some(0.0)
  {
    VarianceConstant(s, c);
    var m, n := Mean(s), |s|;
    var v, x := Variance(s), Seqs.Sum(SqDevs(s, m));
    VarianceTimes(s, m, v, x, n as real);
    ZeroRoot(sqrt);
  }

  /** Two different values give a positive spread. */
  lemma SampleStdPositive(s: seq<real>, i: int, j: int, sqrt: real -> real)
    requires SqrtSpec(sqrt)
    requires 0 <= i < |s| && 0 <= j < |s| && s[i] != s[j]
    ensures SampleStd(s, sqrt).Some? && SampleStd(s, sqrt).value > 0.0
  {
    var m := Mean(s);
    SumSqDevsPositive(s, m, if s[i] != m then i else j);
    StdPositive(SampleStd(s, sqrt), |s|, Seqs.Sum(SqDevs(s, m)));
  }

  /** A root standard deviation of a positive sum of squares is positive. */
  lemma StdPositive(r: Option<real>, n: int, x: real)
    requires n >= 2 && x > 0.0
    requires r.Some? && r.value >= 0.0 && r.value * r.value * (n - 1) as real == x
    ensures r.value > 0.0
  {
    PositiveRoot(r.value, (n - 1) as real, x);
  }

  /** A non-negative root of a positive quantity is positive. */
  lemma PositiveRoot(r: real, d: real, x: real)
    requires r >= 0.0 && d > 0.0 && x > 0.0
    requires r * r * d == x
    ensures r > 0.0
  {
    ZeroSquareTimes(r, d);
  }

  lemma ZeroSquareTimes(r: real, d: real)
    ensures r == 0.0 ==> r * r * d == 0.0
  {
  }

  /** A NaN-free summary entry of `calculate_fragmentation_indexes`; None is
      NaN. */
  datatype SeriesIndex = SeriesIndex(mean: Option<real>, max: Option<real>, std: Option<real>, cv: Option<real>)

  /** Mean, max, std and cv of one fragmentation series. */
  function Summarise(series: seq<real>, sqrt: real -> real): (r: SeriesIndex)
    requires SqrtSpec(sqrt)
    ensures r.mean.Some? <==> |series| > 0
    ensures r.mean.Some? ==> r.mean.value * |series| as real == Seqs.Sum(series)
    ensures r.max.Some? <==> |series| > 0
    ensures r.max.Some? ==> r.max.value in series && forall i :: 0 <= i < |series| ==> series[i] <= r.max.value
    ensures r.std == SampleStd(series, sqrt)
    ensures (r.mean.None? || r.mean.value <= 0.0) ==> r.cv == Some(0.0)
    ensures r.mean.Some? && r.mean.value > 0.0 ==> (r.cv.Some? <==> r.std.Some?)
    ensures r.mean.Some? && r.mean.value > 0.0 && r.std.Some? ==> r.cv.value * r.mean.value == r.std.value
  {
    if |series| == 0 then
      SeriesIndex(None, None, None, Some(0.0))
    else
      var mean := Mean(series);
      var std := SampleStd(series, sqrt);
      var cv := if mean <= 0.0 then Some(0.0)
                else if std.None? then None
                else Some(SafeCv(std.value, mean));
      SeriesIndex(Some(mean), Some(Seqs.Max(series)), std, cv)
  }

  /** A steady positive series: its mean and max are the value, and it has no
      spread. */
  lemma SummariseConstant(series: seq<real>, c: real, sqrt: real -> real)
    requires SqrtSpec(sqrt)
    requires |series| >= 2 && c > 0.0 && forall i :: 0 <= i < |series| ==> series[i] == c
    ensures Summarise(series, sqrt) == SeriesIndex(Some(c), Some(c), Some(0.0), Some(0.0))
  {
    MeanConstant(series, c);
    SampleStdConstant(series, c, sqrt);
    var r := Summarise(series, sqrt);
    assert r.max.value == c;
    assert r.cv.value * c == 0.0;
  }

  /** The improvement percentage of a run over an earlier one, recorded only
      when the earlier run's mean is positive. */
  function Improvement(mean1: real, mean2: real): (r: Option<real>)
    ensures r.Some? <==> mean1 > 0.0
    ensures r.Some? ==> r.value * mean1 == (mean1 - mean2) * 100.0
  {
    if mean1 > 0.0 then Some(((mean1 - mean2) / mean1) * 100.0) else None
  }

  /** The improvement is positive exactly when the later run's mean is lower,
      and zero exactly when the two are equal. */
  lemma ImprovementSign(mean1: real, mean2: real)
    requires mean1 > 0.0
    ensures Improvement(mean1, mean2).value > 0.0 <==> mean2 < mean1
    ensures Improvement(mean1, mean2).value == 0.0 <==> mean2 == mean1
  {
    var v := Improvement(mean1, mean2).value;
    assert v * mean1 == (mean1 - mean2) * 100.0;
    if v > 0.0 {
      assert v * mean1 > 0.0;
    } else if v < 0.0 {
      assert v * mean1 < 0.0;
    }
  }

  /** The improvements `compare_fragmentation` records for one metric, keyed
      by the positions of the two runs in the argument list. */
  function Improvements(means: seq<real>): (r: map<(int, int), real>)
    ensures forall i, j :: (i, j) in r <==> 0 <= i < j < |means| && means[i] > 0.0
    ensures forall i, j :: (i, j) in r ==> Some(r[(i, j)]) == Improvement(means[i], means[j])
  {
    map i, j | 0 <= i < j < |means| && means[i] > 0.0 :: (i, j) := Improvement(means[i], means[j]).value
  }

  /** The columns of the frame `calculate_fragmentation` returns: the
      timestamps have become its index. */
  const FragmentationColumns: seq<string> := ["cpu_fragmentation", "memory_fragmentation", "combined_fragmentation"]

  /** `df[name]`: the position of a column, or a KeyError. */
  function Column(columns: seq<string>, name: string): (r: Result<nat, string>)
    ensures r.Ok? <==> name in columns
    ensures r.Ok? ==> r.value < |columns| && columns[r.value] == name
  {
    if columns == [] then Err("KeyError: " + name)
    else if columns[0] == name then Ok(0)
    else match Column(columns[1..], name)
      case Ok(i) => Ok(i + 1)
      case Err(e) => Err(e)
  }

  /** `compare_fragmentation` as written, for one metric given each run's
      mean: the loop over the runs reads a `timestamp` column from every
      run's frame before the improvements are computed. */
  function CompareAsWritten(means: seq<real>): (r: Result<map<(int, int), real>, string>)
    ensures r.Ok? ==> r.value == Improvements(means)
  {
    if means == [] then Ok(Improvements(means))
    else match Column(FragmentationColumns, "timestamp")
      case Err(e) => Err(e)
      case Ok(_) => Ok(Improvements(means))
  }

  /** With at least one run, the comparison never reaches the improvements:
      the frame has no `timestamp` column. */
  lemma AsWrittenNeverCompares(means: seq<real>)
    requires |means| > 0
    ensures CompareAsWritten(means).Err?
  {
    assert "timestamp" != FragmentationColumns[0];
    assert "timestamp" != FragmentationColumns[1];
    assert "timestamp" != FragmentationColumns[2];
  }
}

=== FILE: analyzer_parse.dfy ===
/**
 * analyzer/analyzer.py, `parse_cpu` and `parse_mem`: request strings such as
 * "421m" and "1044Mi" read as numbers of milli-CPUs and mebibytes.
 * Python's `float` is modelled on plain decimal literals: an optional sign,
 * digits, and an optional fraction, with at least one digit.
 */
module AnalyzerParse {
  import opened Wrappers
  import opened Text

  /** The value of the digits after a decimal point: 0.d1d2d3... */
  function FracValue(d: string): (r: real)
    requires AllDigits(d)
    ensures 0.0 <= r < 1.0
  {
    if d == [] then 0.0 else (DigitValue(d[0]) as real + FracValue(d[1..])) / 10.0
  }

  /** Python's `float(s)` on decimal literals; anything else is a ValueError. */
  function ParseFloat(s: string): (r: Result<real, string>)
    ensures s == [] ==> r.Err?
    ensures |s| > 0 && AllDigits(s) ==> r == Ok(DigitsValue(s) as real)
    ensures r.Ok? && |s| > 0 && s[0] == '-' ==> r.value <= 0.0
    ensures r.Ok? ==> forall i :: 0 <= i < |s| ==> IsFloatChar(s[i])
  {
    var signed := |s| > 0 && (s[0] == '-' || s[0] == '+');
    var body := if signed then s[1..] else s;
    UnsignedDigits(body);
    match ParseUnsigned(body)
    case Err(e) => Err(e)
    case Ok(mag) =>
      SignedChars(s, body);
      Ok(if signed && s[0] == '-' then -mag else mag)
  }

  /** `float()` of the text after the sign: digits, then optionally a point
      and more digits, with at least one digit in all. */
  function ParseUnsigned(body: string): (r: Result<real, string>)
    ensures r.Ok? ==> |body| > 0 && r.value >= 0.0
    ensures r.Ok? ==> forall i :: 0 <= i < |body| ==> IsDigit(body[i]) || body[i] == '.'
  {
    var ip := BeforeFirst(body, '.');
    var fp := if |ip| < |body| then body[|ip| + 1..] else [];
    if !AllDigits(ip) || !AllDigits(fp) || |ip| + |fp| == 0 || (|ip| < |body| && '.' in fp) then
      Err("could not convert string to float")
    else
      LiteralChars(body, ip, fp);
      Ok(DigitsValue(ip) as real + FracValue(fp))
  }

  /** A digit string reads as its value. */
  lemma UnsignedDigits(body: string)
    ensures |body| > 0 && AllDigits(body) ==> ParseUnsigned(body) == Ok(DigitsValue(body) as real)
  {
    if |body| > 0 && AllDigits(body) {
      assert '.' !in body by {
        assert forall k :: 0 <= k < |body| ==> body[k] != '.';
      }
    }
  }

  /** The characters a decimal literal is made of. */
  predicate IsFloatChar(c: char) {
    IsDigit(c) || c == '.' || c == '-' || c == '+'
  }

  /** An unsigned literal that parses is made of digits and a point only. */
  lemma LiteralChars(body: string, ip: string, fp: string)
    requires ip == BeforeFirst(body, '.') && AllDigits(ip) && AllDigits(fp)
    requires fp == if |ip| < |body| then body[|ip| + 1..] else []
    ensures forall j :: 0 <= j < |body| ==> IsDigit(body[j]) || body[j] == '.'
  {
    forall j | 0 <= j < |body|
      ensures IsDigit(body[j]) || body[j] == '.'
    {
      if j < |ip| {
        assert body[j] == ip[j];
      } else if j > |ip| {
        assert body[j] == fp[j - |ip| - 1];
      }
    }
  }

  /** A sign followed by such a body is made of float characters. */
  lemma SignedChars(s: string, body: string)
    requires body == if |s| > 0 && (s[0] == '-' || s[0] == '+') then s[1..] else s
    requires forall j :: 0 <= j < |body| ==> IsDigit(body[j]) || body[j] == '.'
    ensures forall i :: 0 <= i < |s| ==> IsFloatChar(s[i])
  {
    var off := |s| - |body|;
    forall i | 0 <= i < |s|
      ensures IsFloatChar(s[i])
    {
      if i >= off {
        assert s[i] == body[i - off];
      }
    }
  }

  /** 10 to the power `n`. */
  function Pow10(n: nat): (p: nat)
    ensures p > 0
  {
    if n == 0 then 1 else 10 * Pow10(n - 1)
  }

  /** A leading digit weighs 10 to the number of digits after it. */
  lemma {:induction false} DigitsValueCons(c: char, rest: string)
    requires IsDigit(c) && AllDigits(rest)
    ensures AllDigits([c] + rest)
    ensures DigitsValue([c] + rest) == DigitValue(c) * Pow10(|rest|) + DigitsValue(rest)
    decreases |rest|
  {
    var s := [c] + rest;
    assert forall i :: 0 <= i < |s| ==> IsDigit(s[i]) by {
      forall i | 0 <= i < |s|
        ensures IsDigit(s[i])
      {
        if i > 0 {
          assert s[i] == rest[i - 1];
        }
      }
    }
    if rest != [] {
      var n := |rest|;
      var init := rest[..n - 1];
      assert s[..|s| - 1] == [c] + init;
      assert s[|s| - 1] == rest[n - 1];
      DigitsValueCons(c, init);
      var v, p, a, l := DigitValue(c), Pow10(n - 1), DigitsValue(init), DigitValue(rest[n - 1]);
      var x, y, z, q := DigitsValue([c] + init), DigitsValue(s), DigitsValue(rest), Pow10(n);
      ConsStep(v, p, a, l, x, y, z, q);
    }
  }

  /** One step of `DigitsValueCons`, on named values. */
  lemma ConsStep(v: nat, p: nat, a: nat, l: nat, x: nat, y: nat, z: nat, q: nat)
    requires x == v * p + a && y == 10 * x + l && z == 10 * a + l && q == 10 * p
    ensures y == v * q + z
  {
    assert 10 * (v * p) == v * q;
  }

  /** The fraction digits `d` are worth DigitsValue(d) / 10^|d|: `g` times
      `q` is `b` for the fraction, power and value of `d`. */
  lemma {:induction false} FracValueScaled(d: string, g: real, q: nat, b: nat)
    requires AllDigits(d) && g == FracValue(d) && q == Pow10(|d|) && b == DigitsValue(d)
    ensures g * q as real == b as real
    decreases |d|
  {
    if d != [] {
      var rest := d[1..];
      var v, p, a := DigitValue(d[0]), Pow10(|rest|), DigitsValue(rest);
      var f := FracValue(rest);
      FracValueScaled(rest, f, p, a);
      DigitsValueFront(d, v, p, a, b);
      FracStep(v, p, a, b, f, g, q);
    }
  }

  /** `DigitsValueCons` on named values. */
  lemma DigitsValueFront(d: string, v: nat, p: nat, a: nat, b: nat)
    requires |d| > 0 && AllDigits(d) && AllDigits(d[1..])
    requires v == DigitValue(d[0]) && p == Pow10(|d| - 1)
    requires a == DigitsValue(d[1..]) && b == DigitsValue(d)
    ensures b == v * p + a
  {
    assert d == [d[0]] + d[1..];
    DigitsValueCons(d[0], d[1..]);
  }

  /** One step of `FracValueScaled`, on named values. */
  lemma FracStep(v: nat, p: nat, a: nat, b: nat, f: real, g: real, q: nat)
    requires q == 10 * p && b == v * p + a
    requires f * p as real == a as real && g == (v as real + f) / 10.0
    ensures g * q as real == b as real
  {
    assert (v * p) as real == v as real * p as real;
    assert g * q as real == (v as real + f) * p as real;
  }

  /** An unsigned literal with a point: the integer digits plus the
      fraction. */
  lemma UnsignedDecimal(ip: string, fp: string)
    requires AllDigits(ip) && AllDigits(fp) && |ip| + |fp| > 0
    ensures ParseUnsigned(ip + "." + fp).Ok?
    ensures ParseUnsigned(ip + "." + fp).value == DigitsValue(ip) as real + FracValue(fp)
  {
    var body := ip + "." + fp;
    assert '.' !in ip && '.' !in fp by {
      assert forall k :: 0 <= k < |ip| ==> ip[k] != '.';
      assert forall k :: 0 <= k < |fp| ==> fp[k] != '.';
    }
    BeforeFirstOfJoin(ip, '.', fp);
    var ip', fp' := BeforeFirst(body, '.'), body[|ip| + 1..];
    assert ip' == ip;
    assert fp' == fp;
    assert |ip'| < |body|;
    assert AllDigits(ip') && AllDigits(fp');
    assert '.' !in fp';
    var dv, fv := DigitsValue(ip'), FracValue(fp');
    assert ParseUnsigned(body).value == dv as real + fv;
  }

  /** A sign in front negates after a minus and changes nothing after a
      plus. */
  lemma SignedLiteral(sign: string, body: string)
    requires sign == "" || sign == "-" || sign == "+"
    requires ParseUnsigned(body).Ok?
    ensures ParseFloat(sign + body).Ok?
    ensures ParseFloat(sign + body).value == if sign == "-" then -ParseUnsigned(body).value else ParseUnsigned(body).value
  {
    if sign == "" {
      assert sign + body == body;
      NoSign(body);
    } else {
      WithSign(sign[0], body);
      assert [sign[0]] + body == sign + body;
    }
  }

  /** Text that starts with a digit or a point is read as it is. */
  lemma NoSign(body: string)
    requires ParseUnsigned(body).Ok?
    ensures ParseFloat(body).Ok? && ParseFloat(body).value == ParseUnsigned(body).value
  {
    assert IsDigit(body[0]) || body[0] == '.';
  }

  /** A sign character in front of an unsigned literal. */
  lemma WithSign(c: char, body: string)
    requires c == '-' || c == '+'
    requires ParseUnsigned(body).Ok?
    ensures ParseFloat([c] + body).Ok?
    ensures ParseFloat([c] + body).value == if c == '-' then -ParseUnsigned(body).value else ParseUnsigned(body).value
  {
    assert ([c] + body)[1..] == body;
  }

  /** A literal with a point: the integer digits plus the fraction, negated
      after a minus sign. */
  lemma ParseFloatDecimal(sign: string, ip: string, fp: string)
    requires sign == "" || sign == "-" || sign == "+"
    requires AllDigits(ip) && AllDigits(fp) && |ip| + |fp| > 0
    ensures ParseFloat(sign + ip + "." + fp).Ok?
    ensures ParseFloat(sign + ip + "." + fp).value == if sign == "-" then -(DigitsValue(ip) as real + FracValue(fp)) else DigitsValue(ip) as real + FracValue(fp)
  {
    UnsignedDecimal(ip, fp);
    LiteralSplit(sign, ip, fp);
    SignedValue(sign + ip + "." + fp, sign, ip + "." + fp, DigitsValue(ip) as real + FracValue(fp));
  }

  /** The sign in front of the unsigned part of a literal. */
  lemma LiteralSplit(sign: string, ip: string, fp: string)
    ensures sign + ip + "." + fp == sign + (ip + "." + fp)
  {
    ConcatAssoc(sign, ip, ".");
    ConcatAssoc(sign, ip + ".", fp);
  }

  /** `SignedLiteral` on named values. */
  lemma SignedValue(s: string, sign: string, body: string, mag: real)
    requires sign == "" || sign == "-" || sign == "+"
    requires s == sign + body
    requires ParseUnsigned(body).Ok? && ParseUnsigned(body).value == mag
    ensures ParseFloat(s).Ok?
    ensures ParseFloat(s).value == if sign == "-" then -mag else mag
  {
    SignedLiteral(sign, body);
  }

  /** A literal without a point: its digits, negated after a minus sign. */
  lemma ParseFloatInteger(sign: string, ip: string)
    requires sign == "" || sign == "-" || sign == "+"
    requires |ip| > 0 && AllDigits(ip)
    ensures ParseFloat(sign + ip).Ok?
    ensures ParseFloat(sign + ip).value == if sign == "-" then -(DigitsValue(ip) as real) else DigitsValue(ip) as real
  {
    UnsignedDigits(ip);
    SignedLiteral(sign, ip);
  }

  /** "2.5" reads as 2.5. */
  lemma ParseFloatExample()
    ensures ParseFloat("2.5").Ok? && ParseFloat("2.5").value == 2.5
  {
    ParseFloatDecimal("", "2", "5");
    assert "" + "2" + "." + "5" == "2.5";
    assert DigitsValue("2") == 2;
    assert FracValue("5") == 0.5 by {
      assert FracValue("5"[1..]) == 0.0;
    }
  }

  /** "-1.25" reads as -1.25. */
  lemma ParseFloatNegativeExample()
    ensures ParseFloat("-1.25").Ok? && ParseFloat("-1.25").value == -1.25
  {
    FracQuarter();
    assert DigitsValue("1") == 1;
    assert "-" + "1" + "." + "25" == "-1.25";
    ParseFloatDecimal("-", "1", "25");
  }

  lemma FracQuarter()
    ensures FracValue("25") == 0.25
  {
    assert "25"[1..] == "5";
    assert FracValue("5") == 0.5 by {
      assert FracValue("5"[1..]) == 0.0;
    }
  }

  /** ".5" reads as 0.5. */
  lemma ParseFloatFractionExample()
    ensures ParseFloat(".5").Ok? && ParseFloat(".5").value == 0.5
  {
    ParseFloatDecimal("", "", "5");
    assert "" + "" + "." + "5" == ".5";
    assert DigitsValue("") == 0;
    assert FracValue("5") == 0.5 by {
      assert FracValue("5"[1..]) == 0.0;
    }
  }

  /** `parse_cpu`: a string ending in "m" is read as milli-CPUs once every
      "m" is gone; anything else goes to `float` as it is. */
  function ParseCpu(s: string): (r: Result<real, string>)
    ensures ParseFloat(s).Ok? ==> r == ParseFloat(s)
    ensures EndsWith(s, "m") && 'm' !in s[..|s| - 1] ==> r == ParseFloat(s[..|s| - 1])
    ensures |s| > 1 && AllDigits(s[..|s| - 1]) && s[|s| - 1] == 'm' ==> r == Ok(DigitsValue(s[..|s| - 1]) as real)
    ensures 'm' in s && !EndsWith(s, "m") ==> r.Err?
  {
    MilliTail(s);
    NoMilliInLiteral(s);
    if EndsWith(s, "m") then ParseFloat(ReplaceAll(s, "m", "")) else ParseFloat(s)
  }

  /** A single trailing "m" is the one the replacement removes. */
  lemma MilliTail(s: string)
    ensures EndsWith(s, "m") && 'm' !in s[..|s| - 1] ==> ReplaceAll(s, "m", "") == s[..|s| - 1]
    ensures |s| > 1 && AllDigits(s[..|s| - 1]) && s[|s| - 1] == 'm' ==> EndsWith(s, "m") && 'm' !in s[..|s| - 1]
  {
    if EndsWith(s, "m") && 'm' !in s[..|s| - 1] {
      assert s == s[..|s| - 1] + "m";
      ReplaceTail(s[..|s| - 1], "m");
    }
  }

  /** A float literal holds no 'm'. */
  lemma NoMilliInLiteral(s: string)
    ensures ParseFloat(s).Ok? ==> 'm' !in s
  {
    if ParseFloat(s).Ok? {
      assert forall i :: 0 <= i < |s| ==> s[i] != 'm';
    }
  }

  /** `parse_mem`: a string holding "Mi" is read as mebibytes once every "Mi"
      is gone; anything else goes to `float` as it is. */
  function ParseMem(s: string): (r: Result<real, string>)
    ensures ParseFloat(s).Ok? ==> r == ParseFloat(s)
    ensures EndsWith(s, "Mi") && 'M' !in s[..|s| - 2] ==> r == ParseFloat(s[..|s| - 2])
    ensures |s| > 2 && AllDigits(s[..|s| - 2]) && s[|s| - 2..] == "Mi" ==> r == Ok(DigitsValue(s[..|s| - 2]) as real)
  {
    MebiTail(s);
    if Contains(s, "Mi") then
      NoMebiInLiteral(s);
      ParseFloat(ReplaceAll(s, "Mi", ""))
    else
      ParseFloat(s)
  }

  /** A single trailing "Mi" is the one the replacement removes. */
  lemma MebiTail(s: string)
    ensures EndsWith(s, "Mi") ==> Contains(s, "Mi")
    ensures EndsWith(s, "Mi") && 'M' !in s[..|s| - 2] ==> ReplaceAll(s, "Mi", "") == s[..|s| - 2]
    ensures |s| > 2 && AllDigits(s[..|s| - 2]) && s[|s| - 2..] == "Mi" ==> EndsWith(s, "Mi") && 'M' !in s[..|s| - 2]
  {
    if EndsWith(s, "Mi") {
      assert OccursAt(s, "Mi", |s| - 2);
      if 'M' !in s[..|s| - 2] {
        assert s == s[..|s| - 2] + "Mi";
        ReplaceTail(s[..|s| - 2], "Mi");
      }
    }
  }

  /** A float literal holds no 'M', so no "Mi". */
  lemma NoMebiInLiteral(s: string)
    ensures ParseFloat(s).Ok? ==> !Contains(s, "Mi")
  {
    if ParseFloat(s).Ok? {
      forall i | 0 <= i && i + 2 <= |s|
        ensures !OccursAt(s, "Mi", i)
      {
        assert s[i..i + 2][0] == s[i];
        assert IsFloatChar(s[i]);
      }
    }
  }

  /** Removing a pattern whose first character does not occur in `s` from
      `s` followed by that pattern leaves `s`. */
  lemma {:induction false} ReplaceTail(s: string, pat: string)
    requires |pat| > 0 && pat[0] !in s
    ensures ReplaceAll(s + pat, pat, "") == s
    decreases |s|
  {
    if s == [] {
      assert (s + pat)[..|pat|] == pat;
      assert (s + pat)[|pat|..] == [];
    } else {
      assert (s + pat)[0] == s[0];
      assert (s + pat)[..|pat|] != pat;
      assert (s + pat)[1..] == s[1..] + pat;
      ReplaceTail(s[1..], pat);
    }
  }

  /** A rendered natural parses back to itself. */
  lemma ParseFloatNat(n: nat)
    ensures ParseFloat(NatToString(n)) == Ok(n as real)
  {
    DigitsValueOfNatToString(n);
  }

  /** "<n>m" parses to n milli-CPUs. */
  lemma ParseCpuMilli(n: nat)
    ensures ParseCpu(NatToString(n) + "m") == Ok(n as real)
  {
    var s := NatToString(n);
    assert EndsWith(s + "m", "m") by {
      assert (s + "m")[|s + "m"| - 1..] == "m";
    }
    assert 'm' !in s;
    ReplaceTail(s, "m");
    ParseFloatNat(n);
  }

  /** "<n>Mi" parses to n mebibytes. */
  lemma ParseMemMebi(n: nat)
    ensures ParseMem(NatToString(n) + "Mi") == Ok(n as real)
  {
    var s := NatToString(n);
    assert OccursAt(s + "Mi", "Mi", |s|) by {
      assert (s + "Mi")[|s|..|s| + 2] == "Mi";
    }
    assert 'M' !in s;
    ReplaceTail(s, "Mi");
    ParseFloatNat(n);
  }

  /** A plain number without a suffix parses as-is in both functions. */
  lemma ParsePlainNat(n: nat)
    ensures ParseCpu(NatToString(n)) == Ok(n as real)
    ensures ParseMem(NatToString(n)) == Ok(n as real)
  {
    var s := NatToString(n);
    assert !EndsWith(s, "m") by {
      assert IsDigit(s[|s| - 1]);
    }
    assert !Contains(s, "Mi") by {
      forall i | 0 <= i && i + 2 <= |s|
        ensures !OccursAt(s, "Mi", i)
      {
        assert s[i..i + 2][0] == s[i];
        assert IsDigit(s[i]);
      }
    }
    ParseFloatNat(n);
  }

  /** The documented example "421m". */
  lemma ExampleCpu()
    ensures ParseCpu("421m") == Ok(421.0)
  {
    assert NatToString(4) == "4";
    assert NatToString(42) == "42";
    assert NatToString(421) == "421";
    assert "421m" == NatToString(421) + "m";
    ParseCpuMilli(421);
  }

  /** The documented example "1044Mi". */
  lemma ExampleMem()
    ensures ParseMem("1044Mi") == Ok(1044.0)
  {
    assert NatToString(1) == "1";
    assert NatToString(10) == "10";
    assert NatToString(104) == "104";
    assert NatToString(1044) == "1044";
    assert "1044Mi" == NatToString(1044) + "Mi";
    ParseMemMebi(1044);
  }
}

=== FILE: analyzer_podfit.dfy ===
/**
 * analyzer/analyzer.py, `calculate_avg_pod_fit`: the timeline keeps its
 * first row per timestamp, then the first row of every pod; the parsed
 * requests are averaged with missing cells skipped, and the last row of free
 * totals is divided by the averages as numpy divides doubles.
 */
module AnalyzerPodFit {
  import opened Wrappers
  import Moments
  import AnalyzerParse
  import Sorting
  import Seqs
  import opened Float64

  /** One row of the event timeline: its timestamp, the pod and the request
      cells; an empty cell (NaN to pandas) is None. */
  datatype TimelineRow = TimelineRow(timestamp: int, pod: string, requestCpu: Option<string>, requestMemory: Option<string>)

  function TimeOf(row: TimelineRow): int {
    row.timestamp
  }

  /** `sort_values("timestamp")`. */
  function SortByTime(s: seq<TimelineRow>): (r: seq<TimelineRow>)
    ensures Sorting.SortedBy(r, TimeOf)
    ensures multiset(r) == multiset(s)
  {
    Sorting.SortBy(s, TimeOf)
  }

  /** The pods the rows mention. */
  function Pods(s: seq<TimelineRow>): (r: set<string>)
    ensures forall i :: 0 <= i < |s| ==> s[i].pod in r
    ensures forall p :: p in r ==> exists i :: 0 <= i < |s| && s[i].pod == p
  {
    set i | 0 <= i < |s| :: s[i].pod
  }

  /** Rows with the same contents mention the same pods. */
  lemma PodsOfPermutation(a: seq<TimelineRow>, b: seq<TimelineRow>)
    requires multiset(a) == multiset(b)
    ensures Pods(a) == Pods(b)
  {
    forall p | p in Pods(a)
      ensures p in Pods(b)
    {
      var i :| 0 <= i < |a| && a[i].pod == p;
      assert a[i] in multiset(b);
    }
    forall p | p in Pods(b)
      ensures p in Pods(a)
    {
      var i :| 0 <= i < |b| && b[i].pod == p;
      assert b[i] in multiset(a);
    }
  }

  /** `drop_duplicates(subset=["pod"], keep="first")` over rows whose pods
      are not in `seen`. */
  function KeepFirst(s: seq<TimelineRow>, seen: set<string>): (r: seq<TimelineRow>)
    ensures forall i :: 0 <= i < |r| ==> r[i] in s && r[i].pod !in seen
    decreases |s|
  {
    if s == [] then []
    else if s[0].pod in seen then KeepFirst(s[1..], seen)
    else [s[0]] + KeepFirst(s[1..], seen + {s[0].pod})
  }

  /** No two rows are of the same pod. */
  ghost predicate DistinctPods(r: seq<TimelineRow>) {
    forall i, j :: 0 <= i < j < |r| ==> r[i].pod != r[j].pod
  }

  /** Every row of `r` is no later than any row of `s` of the same pod. */
  ghost predicate EarliestOf(r: seq<TimelineRow>, s: seq<TimelineRow>) {
    forall k, i :: 0 <= k < |r| && 0 <= i < |s| && s[i].pod == r[k].pod ==> r[k].timestamp <= s[i].timestamp
  }

  /** No pod is kept twice. */
  lemma {:induction false} KeepFirstDistinct(s: seq<TimelineRow>, seen: set<string>)
    ensures DistinctPods(KeepFirst(s, seen))
    decreases |s|
  {
    if s != [] {
      if s[0].pod in seen {
        KeepFirstDistinct(s[1..], seen);
      } else {
        var rest := KeepFirst(s[1..], seen + {s[0].pod});
        var r := [s[0]] + rest;
        KeepFirstDistinct(s[1..], seen + {s[0].pod});
        forall i, j | 0 <= i < j < |r|
          ensures r[i].pod != r[j].pod
        {
          assert r[j] == rest[j - 1];
          if i > 0 {
            assert r[i] == rest[i - 1];
          } else {
            assert r[i] == s[0];
            assert rest[j - 1].pod !in seen + {s[0].pod};
          }
        }
      }
    }
  }

  lemma PodsCons(x: TimelineRow, t: seq<TimelineRow>)
    ensures Pods([x] + t) == {x.pod} + Pods(t)
  {
    var s := [x] + t;
    assert s[0] == x;
    forall p | p in Pods(s)
      ensures p in {x.pod} + Pods(t)
    {
      var i :| 0 <= i < |s| && s[i].pod == p;
      if i > 0 {
        assert t[i - 1] == s[i];
      }
    }
    forall p | p in Pods(t)
      ensures p in Pods(s)
    {
      var i :| 0 <= i < |t| && t[i].pod == p;
      assert s[i + 1] == t[i];
    }
  }

  /** Every pod not already seen keeps exactly one row. */
  lemma {:induction false} KeepFirstPods(s: seq<TimelineRow>, seen: set<string>)
    ensures Pods(KeepFirst(s, seen)) == Pods(s) - seen
    decreases |s|
  {
    if s != [] {
      var t := s[1..];
      assert s == [s[0]] + t;
      PodsCons(s[0], t);
      if s[0].pod in seen {
        KeepFirstPods(t, seen);
      } else {
        KeepFirstPods(t, seen + {s[0].pod});
        PodsCons(s[0], KeepFirst(t, seen + {s[0].pod}));
      }
    }
  }

  /** Over time-sorted rows, the kept row of a pod is one of its earliest. */
  lemma {:induction false} KeepFirstEarliest(s: seq<TimelineRow>, seen: set<string>)
    requires Sorting.SortedBy(s, TimeOf)
    ensures EarliestOf(KeepFirst(s, seen), s)
    decreases |s|
  {
    if s != [] {
      var t := s[1..];
      assert s == [s[0]] + t;
      SortedTail(s);
      if s[0].pod in seen {
        KeepFirstEarliest(t, seen);
        EarliestSkip(s[0], KeepFirst(t, seen), t);
      } else {
        var seen' := seen + {s[0].pod};
        KeepFirstEarliest(t, seen');
        assert forall i :: 0 <= i < |t| ==> TimeOf(s[0]) <= TimeOf(t[i]) by {
          forall i | 0 <= i < |t|
            ensures TimeOf(s[0]) <= TimeOf(t[i])
          {
            assert t[i] == s[i + 1];
          }
        }
        EarliestPrepend(s[0], KeepFirst(t, seen'), t);
      }
    }
  }

  /** A leading row whose pod is kept nowhere does not affect the kept rows. */
  lemma EarliestSkip(x: TimelineRow, rest: seq<TimelineRow>, t: seq<TimelineRow>)
    requires EarliestOf(rest, t)
    requires forall k :: 0 <= k < |rest| ==> rest[k].pod != x.pod
    ensures EarliestOf(rest, [x] + t)
  {
    var s := [x] + t;
    forall k, i | 0 <= k < |rest| && 0 <= i < |s| && s[i].pod == rest[k].pod
      ensures rest[k].timestamp <= s[i].timestamp
    {
      assert i != 0;
      assert s[i] == t[i - 1];
    }
  }

  /** A leading row no later than the rest is the earliest of its pod. */
  lemma EarliestPrepend(x: TimelineRow, rest: seq<TimelineRow>, t: seq<TimelineRow>)
    requires EarliestOf(rest, t)
    requires forall k :: 0 <= k < |rest| ==> rest[k].pod != x.pod
    requires forall i :: 0 <= i < |t| ==> TimeOf(x) <= TimeOf(t[i])
    ensures EarliestOf([x] + rest, [x] + t)
  {
    var r, s := [x] + rest, [x] + t;
    forall k, i | 0 <= k < |r| && 0 <= i < |s| && s[i].pod == r[k].pod
      ensures r[k].timestamp <= s[i].timestamp
    {
      if k == 0 {
        if i > 0 {
          assert s[i] == t[i - 1];
        }
      } else {
        assert r[k] == rest[k - 1];
        assert i != 0;
        assert s[i] == t[i - 1];
      }
    }
  }

  lemma SortedTail(s: seq<TimelineRow>)
    requires s != [] && Sorting.SortedBy(s, TimeOf)
    ensures Sorting.SortedBy(s[1..], TimeOf)
  {
    forall i, j | 0 <= i < j < |s| - 1
      ensures TimeOf(s[1..][i]) <= TimeOf(s[1..][j])
    {
      assert s[1..][i] == s[i + 1] && s[1..][j] == s[j + 1];
    }
  }

  /** The first row of every pod, in time order. */
  function FirstRows(rows: seq<TimelineRow>): (r: seq<TimelineRow>)
    ensures forall i :: 0 <= i < |r| ==> r[i] in rows
  {
    var sorted := SortByTime(rows);
    var r := KeepFirst(sorted, {});
    assert forall i :: 0 <= i < |r| ==> r[i] in rows by {
      forall i | 0 <= i < |r|
        ensures r[i] in rows
      {
        assert r[i] in multiset(sorted);
      }
    }
    r
  }

  /** The rows `FirstRows` keeps: one per pod, covering every pod, each no
      later than any other row of its pod. */
  lemma FirstRowsSpec(rows: seq<TimelineRow>)
    ensures DistinctPods(FirstRows(rows))
    ensures Pods(FirstRows(rows)) == Pods(rows)
    ensures EarliestOf(FirstRows(rows), rows)
  {
    var sorted := SortByTime(rows);
    var r := FirstRows(rows);
    KeepFirstDistinct(sorted, {});
    KeepFirstPods(sorted, {});
    PodsOfPermutation(sorted, rows);
    KeepFirstEarliest(sorted, {});
    EarliestOfPermutation(r, sorted, rows);
  }

  /** Being no later than every row of one's pod depends only on which rows
      there are, not on their order. */
  lemma EarliestOfPermutation(r: seq<TimelineRow>, a: seq<TimelineRow>, b: seq<TimelineRow>)
    requires multiset(a) == multiset(b) && EarliestOf(r, a)
    ensures EarliestOf(r, b)
  {
    forall k, i | 0 <= k < |r| && 0 <= i < |b| && b[i].pod == r[k].pod
      ensures r[k].timestamp <= b[i].timestamp
    {
      assert b[i] in multiset(a);
      var j :| 0 <= j < |a| && a[j] == b[i];
    }
  }

  /** A row of a pod that was already kept earlier is dropped. */
  lemma {:induction false} KeepFirstAppendSeen(s: seq<TimelineRow>, seen: set<string>, x: TimelineRow)
    requires x.pod in seen || x.pod in Pods(s)
    ensures KeepFirst(s + [x], seen) == KeepFirst(s, seen)
    decreases |s|
  {
    if s == [] {
      assert [] + [x] == [x];
      assert [x][1..] == [];
    } else {
      var t := s[1..];
      assert (s + [x])[1..] == t + [x];
      assert s == [s[0]] + t;
      PodsCons(s[0], t);
      var seen' := if s[0].pod in seen then seen else seen + {s[0].pod};
      KeepFirstAppendSeen(t, seen', x);
    }
  }

  /** A later row of a pod that already appears does not change which rows
      stand for the pods. */
  lemma FirstRowsLaterRow(rows: seq<TimelineRow>, x: TimelineRow)
    requires x.pod in Pods(rows)
    requires forall i :: 0 <= i < |rows| ==> rows[i].timestamp <= x.timestamp
    ensures FirstRows(rows + [x]) == FirstRows(rows)
  {
    var sorted := SortByTime(rows);
    assert (rows + [x])[..|rows|] == rows;
    assert SortByTime(rows + [x]) == Sorting.InsertBy(sorted, x, TimeOf);
    if sorted != [] {
      assert sorted[|sorted| - 1] in multiset(rows);
    }
    assert SortByTime(rows + [x]) == sorted + [x];
    PodsOfPermutation(sorted, rows);
    KeepFirstAppendSeen(sorted, {}, x);
  }

  /** `timeline_df[~timeline_df.index.duplicated(keep="first")]` once the
      timestamp is the index: the first row of every timestamp. */
  function Timeline(rows: seq<TimelineRow>): (r: seq<TimelineRow>)
    ensures forall i, j :: 0 <= i < j < |r| ==> r[i].timestamp != r[j].timestamp
    ensures Seqs.KeysOf(r, TimeOf) == Seqs.KeysOf(rows, TimeOf)
    ensures forall k :: 0 <= k < |r| ==> r[k] == rows[Seqs.FirstOf(rows, TimeOf, r[k].timestamp)]
  {
    Seqs.FirstByKey(rows, TimeOf)
  }

  /** Of two pods whose rows share a timestamp, only the first is ever
      counted: the second row is gone before the rows are grouped by pod. */
  lemma SameSecondHidesPod(a: TimelineRow, b: TimelineRow)
    requires a.timestamp == b.timestamp && a.pod != b.pod
    ensures Timeline([a, b]) == [a]
    ensures Pods(FirstRows(Timeline([a, b]))) == {a.pod}
  {
    var r := Timeline([a, b]);
    assert Seqs.KeysOf([a, b], TimeOf) == {a.timestamp};
    assert |r| == 1 by {
      assert r != [] by {
        assert a.timestamp in Seqs.KeysOf(r, TimeOf);
      }
    }
    assert r[0] == a;
    FirstRowsSpec(r);
    assert Pods(r) == {a.pod};
  }

  /** Every kept timeline row is an input row. */
  lemma TimelineRowsAreRows(rows: seq<TimelineRow>)
    ensures forall k :: 0 <= k < |Timeline(rows)| ==> Timeline(rows)[k] in rows
  {
    var r := Timeline(rows);
    forall k | 0 <= k < |r|
      ensures r[k] in rows
    {
      assert r[k] == rows[Seqs.FirstOf(rows, TimeOf, r[k].timestamp)];
    }
  }

  /** A later row of a pod that the timeline already shows does not change
      the average pod fit. */
  lemma AvgPodFitLaterRow(rows: seq<TimelineRow>, x: TimelineRow, freeTotals: seq<(real, real)>)
    requires x.pod in Pods(Timeline(rows))
    requires forall i :: 0 <= i < |rows| ==> rows[i].timestamp <= x.timestamp
    ensures AvgPodFit(rows + [x], freeTotals) == AvgPodFit(rows, freeTotals)
  {
    TimelineLaterRow(rows, x);
  }

  /** The de-duplicated rows with a later row of a known pod keep the same
      first rows. */
  lemma TimelineLaterRow(rows: seq<TimelineRow>, x: TimelineRow)
    requires x.pod in Pods(Timeline(rows))
    requires forall i :: 0 <= i < |rows| ==> rows[i].timestamp <= x.timestamp
    ensures FirstRows(Timeline(rows + [x])) == FirstRows(Timeline(rows))
  {
    TimelineSnoc(rows, x);
    if x.timestamp !in Seqs.KeysOf(rows, TimeOf) {
      TimelineNoLater(rows, x);
      FirstRowsLaterRow(Timeline(rows), x);
    }
  }

  lemma TimelineSnoc(rows: seq<TimelineRow>, x: TimelineRow)
    ensures x.timestamp in Seqs.KeysOf(rows, TimeOf) ==> Timeline(rows + [x]) == Timeline(rows)
    ensures x.timestamp !in Seqs.KeysOf(rows, TimeOf) ==> Timeline(rows + [x]) == Timeline(rows) + [x]
  {
    if x.timestamp in Seqs.KeysOf(rows, TimeOf) {
      TimelineSnocKnown(rows, x);
    } else {
      TimelineSnocNew(rows, x);
    }
  }

  lemma TimelineSnocKnown(rows: seq<TimelineRow>, x: TimelineRow)
    requires x.timestamp in Seqs.KeysOf(rows, TimeOf)
    ensures Timeline(rows + [x]) == Timeline(rows)
  {
    Seqs.FirstByKeySnoc(rows, x, TimeOf);
    assert Timeline(rows) + [] == Timeline(rows);
  }

  lemma TimelineSnocNew(rows: seq<TimelineRow>, x: TimelineRow)
    requires x.timestamp !in Seqs.KeysOf(rows, TimeOf)
    ensures Timeline(rows + [x]) == Timeline(rows) + [x]
  {
    Seqs.FirstByKeySnoc(rows, x, TimeOf);
  }

  lemma TimelineNoLater(rows: seq<TimelineRow>, x: TimelineRow)
    requires forall i :: 0 <= i < |rows| ==> rows[i].timestamp <= x.timestamp
    ensures forall k :: 0 <= k < |Timeline(rows)| ==> Timeline(rows)[k].timestamp <= x.timestamp
  {
    var t := Timeline(rows);
    forall k | 0 <= k < |t|
      ensures t[k].timestamp <= x.timestamp
    {
      assert t[k] == rows[Seqs.FirstOf(rows, TimeOf, t[k].timestamp)];
    }
  }

  /** A request cell through `apply(parse_cpu)` or `apply(parse_mem)`: an
      empty cell stays NaN, text is parsed, and a ValueError aborts. */
  function ParseCell(cell: Option<string>, parse: string -> Result<real, string>): Result<Option<real>, string> {
    match cell
    case None => Ok(None)
    case Some(t) =>
      match parse(t)
      case Ok(v) => Ok(Some(v))
      case Err(e) => Err(e)
  }

  /** Both request cells of the row parse. */
  ghost predicate Parses(row: TimelineRow) {
    ParseCell(row.requestCpu, AnalyzerParse.ParseCpu).Ok? && ParseCell(row.requestMemory, AnalyzerParse.ParseMem).Ok?
  }

  ghost predicate AllParse(rows: seq<TimelineRow>) {
    forall i :: 0 <= i < |rows| ==> Parses(rows[i])
  }

  /** `reqs` holds, for every row, its parsed cpu and memory cells. */
  ghost predicate ParsedPairs(rows: seq<TimelineRow>, reqs: seq<(Option<real>, Option<real>)>)
    requires AllParse(rows)
  {
    |reqs| == |rows| && forall i :: 0 <= i < |rows| ==> reqs[i] == CellPair(rows[i])
  }

  /** The parsed cpu and memory cells of a row. */
  ghost function CellPair(row: TimelineRow): (Option<real>, Option<real>)
    requires Parses(row)
  {
    (ParseCell(row.requestCpu, AnalyzerParse.ParseCpu).value,
     ParseCell(row.requestMemory, AnalyzerParse.ParseMem).value)
  }

  /** The chosen rows' requests through `parse_cpu` and `parse_mem`, one pair
      per row; a ValueError on any cell is the error. */
  function ParseRequests(rows: seq<TimelineRow>): (r: Result<seq<(Option<real>, Option<real>)>, string>)
    ensures r.Ok? <==> AllParse(rows)
    ensures r.Ok? ==> ParsedPairs(rows, r.value)
  {
    if rows == [] then Ok([])
    else
      var init := rows[..|rows| - 1];
      var last := rows[|rows| - 1];
      AllParseSnoc(rows);
      match ParseRequests(init)
      case Err(e) => Err(e)
      case Ok(prev) =>
        match (ParseCell(last.requestCpu, AnalyzerParse.ParseCpu), ParseCell(last.requestMemory, AnalyzerParse.ParseMem))
        case (Ok(c), Ok(m)) =>
          ParsedPairsSnoc(rows, prev, c, m);
          Ok(prev + [(c, m)])
        case (Err(e), _) => Err(e)
        case (_, Err(e)) => Err(e)
  }

  lemma AllParseSnoc(rows: seq<TimelineRow>)
    requires rows != []
    ensures AllParse(rows) <==> AllParse(rows[..|rows| - 1]) && Parses(rows[|rows| - 1])
  {
    assert forall i :: 0 <= i < |rows| - 1 ==> rows[..|rows| - 1][i] == rows[i];
  }

  lemma ParsedPairsSnoc(rows: seq<TimelineRow>, prev: seq<(Option<real>, Option<real>)>, c: Option<real>, m: Option<real>)
    requires rows != [] && AllParse(rows)
    requires AllParse(rows[..|rows| - 1]) && ParsedPairs(rows[..|rows| - 1], prev)
    requires ParseCell(rows[|rows| - 1].requestCpu, AnalyzerParse.ParseCpu) == Ok(c)
    requires ParseCell(rows[|rows| - 1].requestMemory, AnalyzerParse.ParseMem) == Ok(m)
    ensures ParsedPairs(rows, prev + [(c, m)])
  {
    LastCellPair(rows[|rows| - 1], c, m);
    PairsSnoc(rows, prev, (c, m));
  }

  lemma LastCellPair(row: TimelineRow, c: Option<real>, m: Option<real>)
    requires ParseCell(row.requestCpu, AnalyzerParse.ParseCpu) == Ok(c)
    requires ParseCell(row.requestMemory, AnalyzerParse.ParseMem) == Ok(m)
    ensures Parses(row) && CellPair(row) == (c, m)
  {
  }

  lemma PairsSnoc(rows: seq<TimelineRow>, prev: seq<(Option<real>, Option<real>)>, p: (Option<real>, Option<real>))
    requires rows != [] && AllParse(rows)
    requires AllParse(rows[..|rows| - 1]) && ParsedPairs(rows[..|rows| - 1], prev)
    requires p == CellPair(rows[|rows| - 1])
    ensures ParsedPairs(rows, prev + [p])
  {
    var init, reqs := rows[..|rows| - 1], prev + [p];
    forall i | 0 <= i < |rows|
      ensures reqs[i] == CellPair(rows[i])
    {
      if i < |init| {
        assert init[i] == rows[i];
        assert reqs[i] == prev[i];
      }
    }
  }

  /** The present values, in order: what pandas' reductions see once NaN is
      skipped. */
  function Present(s: seq<Option<real>>): (r: seq<real>)
    ensures |r| <= |s|
    ensures r == [] <==> forall i :: 0 <= i < |s| ==> s[i].None?
  {
    if s == [] then []
    else
      var init := s[..|s| - 1];
      assert forall i :: 0 <= i < |init| ==> init[i] == s[i];
      assert s == init + [s[|s| - 1]];
      Present(init) + (if s[|s| - 1].Some? then [s[|s| - 1].value] else [])
  }

  /** The present values are exactly the values of the present cells. */
  lemma {:induction false} PresentMembers(s: seq<Option<real>>)
    ensures forall j :: 0 <= j < |Present(s)| ==> Some(Present(s)[j]) in s
    ensures forall i :: 0 <= i < |s| && s[i].Some? ==> s[i].value in Present(s)
    decreases |s|
  {
    if s != [] {
      var init := s[..|s| - 1];
      PresentMembers(init);
      assert s == init + [s[|s| - 1]];
    }
  }

  /** pandas' `Series.mean()`: NaN cells are skipped, and a column with no
      value at all has a NaN mean (None). */
  function NanMean(s: seq<Option<real>>): (r: Option<real>)
    ensures r.None? <==> forall i :: 0 <= i < |s| ==> s[i].None?
    ensures r.Some? ==> r.value * |Present(s)| as real == Seqs.Sum(Present(s))
  {
    var p := Present(s);
    if p == [] then None
    else
      var m, n, t := Moments.Mean(p), |p| as real, Seqs.Sum(p);
      MeanTimesCountOf(p, m, n, t);
      Some(m)
  }

  lemma MeanTimesCountOf(p: seq<real>, m: real, n: real, t: real)
    requires |p| > 0 && m == Moments.Mean(p) && n == |p| as real && t == Seqs.Sum(p)
    ensures m * n == t
  {
    Moments.MeanTimesCount(p);
  }

  /** A missing cell does not move the mean. */
  lemma NanMeanSkipsMissing(s: seq<Option<real>>)
    ensures NanMean(s + [None]) == NanMean(s)
  {
    PresentSkipsMissing(s);
  }

  lemma PresentSkipsMissing(s: seq<Option<real>>)
    ensures Present(s + [None]) == Present(s)
  {
    var t := s + [None];
    assert t[..|t| - 1] == s;
    assert Present(s) + [] == Present(s);
  }

  /** With every cell present, the mean is the plain mean of the values. */
  lemma {:induction false} NanMeanComplete(s: seq<Option<real>>, xs: seq<real>)
    requires |s| == |xs| > 0 && forall i :: 0 <= i < |s| ==> s[i] == Some(xs[i])
    ensures NanMean(s) == Some(Moments.Mean(xs))
  {
    PresentComplete(s, xs);
  }

  lemma {:induction false} PresentComplete(s: seq<Option<real>>, xs: seq<real>)
    requires |s| == |xs| && forall i :: 0 <= i < |s| ==> s[i] == Some(xs[i])
    ensures Present(s) == xs
    decreases |s|
  {
    if s != [] {
      var n := |s| - 1;
      PresentComplete(s[..n], xs[..n]);
      assert xs == xs[..n] + [xs[n]];
    }
  }

  function Min(a: real, b: real): (m: real)
    ensures m <= a && m <= b && (m == a || m == b)
  {
    if a <= b then a else b
  }

  /** Some row has a cpu request cell; likewise for memory. */
  ghost predicate HasCpu(rows: seq<TimelineRow>) {
    exists i :: 0 <= i < |rows| && rows[i].requestCpu.Some?
  }

  ghost predicate HasMem(rows: seq<TimelineRow>) {
    exists i :: 0 <= i < |rows| && rows[i].requestMemory.Some?
  }

  /** `timeline_df['request_cpu_m'].mean()` and the memory mean over the
      chosen rows; None is NaN. */
  function MeanCpu(first: seq<TimelineRow>): Option<real>
    requires AllParse(first)
  {
    NanMean(Seqs.Firsts(ParseRequests(first).value))
  }

  function MeanMem(first: seq<TimelineRow>): Option<real>
    requires AllParse(first)
  {
    NanMean(Seqs.Seconds(ParseRequests(first).value))
  }

  /** A parsed value is present exactly where the cell is. */
  lemma MeansPresent(first: seq<TimelineRow>)
    requires AllParse(first)
    ensures MeanCpu(first).Some? <==> HasCpu(first)
    ensures MeanMem(first).Some? <==> HasMem(first)
  {
    var reqs := ParseRequests(first).value;
    var c, m := Seqs.Firsts(reqs), Seqs.Seconds(reqs);
    assert forall i :: 0 <= i < |first| ==> (c[i].Some? <==> first[i].requestCpu.Some?);
    assert forall i :: 0 <= i < |first| ==> (m[i].Some? <==> first[i].requestMemory.Some?);
  }

  /** The fit computed from the pods' chosen rows. It exists exactly when
      every request parses, some row has a cpu and some row a memory
      request, and there is a free row; it is then the last free cpu over
      the mean cpu request and the last free memory over the mean memory
      request, divided as numpy divides, the smaller as Python's `min`
      picks it. */
  function FitOf(first: seq<TimelineRow>, freeTotals: seq<(real, real)>): (r: Result<Double, string>)
    ensures r.Ok? <==> AllParse(first) && HasCpu(first) && HasMem(first) && freeTotals != []
    ensures r.Ok? ==> MeanCpu(first).Some? && MeanMem(first).Some?
    ensures r.Ok? ==> r.value == PyMin(Div(freeTotals[|freeTotals| - 1].0, MeanCpu(first).value),
                                       Div(freeTotals[|freeTotals| - 1].1, MeanMem(first).value))
  {
    match ParseRequests(first)
    case Err(e) => Err(e)
    case Ok(reqs) =>
      MeansPresent(first);
      var avgCpu := NanMean(Seqs.Firsts(reqs));
      var avgMem := NanMean(Seqs.Seconds(reqs));
      if avgCpu.None? || avgMem.None? then
        Err("No valid CPU or Memory data found in the timeline CSV. Check your data.")
      else if freeTotals == [] then
        Err("single positional indexer is out-of-bounds")
      else
        var (cpu, mem) := freeTotals[|freeTotals| - 1];
        Ok(PyMin(Div(cpu, avgCpu.value), Div(mem, avgMem.value)))
  }

  /** `calculate_avg_pod_fit` on the timeline rows as loaded and the free
      totals, one (cpu, memory) pair per row of the free frame. */
  function AvgPodFit(rows: seq<TimelineRow>, freeTotals: seq<(real, real)>): (r: Result<Double, string>)
    ensures rows == [] ==> r.Err?
    ensures freeTotals == [] ==> r.Err?
    ensures rows != [] && freeTotals != [] && Complete(rows) ==> r.Ok?
  {
    AvgPodFitDefined(rows, freeTotals);
    FitOf(FirstRows(Timeline(rows)), freeTotals)
  }

  /** Every row has both request cells, and they parse. */
  ghost predicate Complete(rows: seq<TimelineRow>) {
    forall i :: 0 <= i < |rows| ==> Parses(rows[i]) && rows[i].requestCpu.Some? && rows[i].requestMemory.Some?
  }

  lemma AvgPodFitDefined(rows: seq<TimelineRow>, freeTotals: seq<(real, real)>)
    ensures rows == [] ==> FitOf(FirstRows(Timeline(rows)), freeTotals).Err?
    ensures rows != [] && freeTotals != [] && Complete(rows) ==> FitOf(FirstRows(Timeline(rows)), freeTotals).Ok?
  {
    if rows == [] {
      NoRowsNoFit(freeTotals);
    } else if freeTotals != [] && Complete(rows) {
      var first := FirstRows(Timeline(rows));
      ChosenRowsExist(rows);
      TimelineRowsAreRows(rows);
      CompleteRows(rows, first);
      CompleteFits(first, freeTotals);
    }
  }

  /** Complete chosen rows and a free row always give a fit. */
  lemma CompleteFits(first: seq<TimelineRow>, freeTotals: seq<(real, real)>)
    requires first != [] && Complete(first) && freeTotals != []
    ensures FitOf(first, freeTotals).Ok?
  {
    assert first[0].requestCpu.Some? && first[0].requestMemory.Some?;
    assert AllParse(first);
  }

  lemma NoRowsNoFit(freeTotals: seq<(real, real)>)
    ensures FitOf(FirstRows(Timeline([])), freeTotals).Err?
  {
    assert Timeline([]) == [];
    assert FirstRows([]) == [];
  }

  /** Some row is chosen whenever there are rows. */
  lemma ChosenRowsExist(rows: seq<TimelineRow>)
    requires rows != []
    ensures FirstRows(Timeline(rows)) != []
  {
    var t := Timeline(rows);
    assert rows[0].timestamp in Seqs.KeysOf(t, TimeOf);
    FirstRowsSpec(t);
    assert t[0].pod in Pods(FirstRows(t));
  }

  /** The rows chosen from complete rows are complete. */
  lemma CompleteRows(rows: seq<TimelineRow>, first: seq<TimelineRow>)
    requires Complete(rows)
    requires first == FirstRows(Timeline(rows))
    requires forall k :: 0 <= k < |Timeline(rows)| ==> Timeline(rows)[k] in rows
    ensures Complete(first)
  {
    var t := Timeline(rows);
    forall i | 0 <= i < |first|
      ensures Parses(first[i]) && first[i].requestCpu.Some? && first[i].requestMemory.Some?
    {
      assert first[i] in t;
      var k :| 0 <= k < |t| && t[k] == first[i];
      assert t[k] in rows;
    }
  }

  /** The documented formula: with positive mean requests the fit is the
      smaller of the two ratios. */
  lemma FitOfPositive(first: seq<TimelineRow>, freeTotals: seq<(real, real)>)
    requires FitOf(first, freeTotals).Ok?
    requires MeanCpu(first).value > 0.0 && MeanMem(first).value > 0.0
    ensures FitOf(first, freeTotals) == Ok(Finite(Min(freeTotals[|freeTotals| - 1].0 / MeanCpu(first).value,
                                                      freeTotals[|freeTotals| - 1].1 / MeanMem(first).value)))
  {
    PyMinFinite(freeTotals[|freeTotals| - 1].0 / MeanCpu(first).value, freeTotals[|freeTotals| - 1].1 / MeanMem(first).value);
  }

  /** Requests of "0m" give a zero cpu mean: numpy's division yields +inf
      for a positive free cpu, and `min` then returns the memory ratio
      instead of raising. */
  lemma FitOfZeroCpuMean(first: seq<TimelineRow>, freeTotals: seq<(real, real)>)
    requires FitOf(first, freeTotals).Ok?
    requires MeanCpu(first).value == 0.0 && MeanMem(first).value != 0.0
    requires freeTotals[|freeTotals| - 1].0 > 0.0
    ensures FitOf(first, freeTotals) == Ok(Finite(freeTotals[|freeTotals| - 1].1 / MeanMem(first).value))
  {
    PyMinPosInf(Div(freeTotals[|freeTotals| - 1].1, MeanMem(first).value));
  }

  /** With no free cpu left as well, 0 / 0 is NaN, and `min` keeps it. */
  lemma FitOfZeroOverZero(first: seq<TimelineRow>, freeTotals: seq<(real, real)>)
    requires FitOf(first, freeTotals).Ok?
    requires MeanCpu(first).value == 0.0
    requires freeTotals[|freeTotals| - 1].0 == 0.0
    ensures FitOf(first, freeTotals) == Ok(NaN)
  {
  }
}

=== FILE: cluster_json.dfy ===
/**
 * pkg/scenario/cluster.go: `Cluster.MarshalJSON` turns the cluster into a
 * generic JSON object and drops empty entries from it with `stripEmpty`
 * before encoding it again.
 *
 * The object `json.Unmarshal` produces is a `Json` value here; the in-place
 * deletions of the Go code become a function from the object to the object
 * left behind. Encoding and decoding themselves are not part of this model.
 */
module ClusterJson {

  /** What `json.Unmarshal` into `interface{}` yields: nil, a bool, a number,
      a string, a slice or a map. */
  datatype Json =
    | Null
    | Bool(b: bool)
    | Num(n: real)
    | Str(s: string)
    | Arr(items: seq<Json>)
    | Obj(fields: map<string, Json>)

  /** An entry `stripEmpty` deletes once its value has been processed: nil,
      the empty string, or a map or slice of length 0. */
  predicate Dropped(v: Json) {
    v.Null? || (v.Str? && v.s == "") || (v.Obj? && |v.fields| == 0) || (v.Arr? && |v.items| == 0)
  }

  /** `stripEmpty(m)`: every entry is processed, then deleted if `Dropped`. */
  function StripEmpty(m: map<string, Json>): (r: map<string, Json>)
    ensures r.Keys <= m.Keys
    ensures forall k :: k in r ==> !Dropped(r[k])
    ensures forall k :: k in m && (m[k].Null? || m[k] == Str("")) ==> k !in r
    ensures forall k :: k in m && m[k].Arr? && |m[k].items| == 0 ==> k !in r
    ensures forall k :: k in m && (m[k].Bool? || m[k].Num? || (m[k].Str? && m[k].s != "")) ==>
      k in r && r[k] == m[k]
    decreases Obj(m), 0
  {
    map k | k in m && !Dropped(StripValue(m[k])) :: StripValue(m[k])
  }

  /** A map entry is kept exactly when it strips to something non-empty, and
      then as its stripped self; a non-empty slice is kept with every element
      stripped. */
  lemma StripEmptyEntries(m: map<string, Json>)
    ensures var r := StripEmpty(m);
      forall k :: k in m && m[k].Obj? ==>
        (k in r <==> |StripEmpty(m[k].fields)| > 0) &&
        (k in r ==> r[k] == Obj(StripEmpty(m[k].fields)))
    ensures var r := StripEmpty(m);
      forall k :: k in m && m[k].Arr? && |m[k].items| > 0 ==>
        k in r && r[k].Arr? && |r[k].items| == |m[k].items| &&
        forall i :: 0 <= i < |m[k].items| ==> r[k].items[i] == StripItem(m[k].items[i])
  {
  }

  /** One entry's value after processing: a map is stripped recursively, a
      slice has its map elements stripped (and nil in their place when they
      end up empty), anything else is left as it is. */
  function StripValue(v: Json): (r: Json)
    ensures v.Arr? ==> r.Arr? && |r.items| == |v.items|
    ensures v.Obj? ==> r.Obj? && r.fields.Keys <= v.fields.Keys
    ensures v.Obj? ==> r.fields == StripEmpty(v.fields)
    ensures v.Arr? ==> forall i :: 0 <= i < |v.items| ==> r.items[i] == StripItem(v.items[i])
    ensures !v.Arr? && !v.Obj? ==> r == v
    decreases v, 1
  {
    match v
    case Obj(f) => Obj(StripEmpty(f))
    case Arr(items) => Arr(seq(|items|, i requires 0 <= i < |items| => StripItem(items[i])))
    case _ => v
  }

  /** A slice element: only maps are touched; one that ends up empty
      becomes nil. Slices nested in slices are not descended into. */
  function StripItem(v: Json): (r: Json)
    ensures !v.Obj? ==> r == v
    ensures v.Obj? ==> r.Null? || (r.Obj? && |r.fields| > 0)
    ensures v.Obj? ==> (r.Null? <==> |StripEmpty(v.fields)| == 0)
    ensures v.Obj? && r.Obj? ==> r.fields == StripEmpty(v.fields)
    decreases v, 1
  {
    match v
    case Obj(f) => var s := StripEmpty(f); if |s| == 0 then Null else Obj(s)
    case _ => v
  }

  /** An object with nothing left for `stripEmpty` to remove: no nil or
      empty string, no empty map or slice, and every map below it, directly
      or as a slice element, the same. */
  predicate CleanObject(m: map<string, Json>)
    decreases Obj(m), 0
  {
    forall k :: k in m ==> CleanValue(m[k])
  }

  predicate CleanValue(v: Json)
    decreases v, 1
  {
    match v
    case Null => false
    case Str(s) => s != ""
    case Obj(f) => |f| > 0 && CleanObject(f)
    case Arr(items) => |items| > 0 && forall i :: 0 <= i < |items| ==> CleanItem(items[i])
    case _ => true
  }

  predicate CleanItem(v: Json)
    decreases v, 1
  {
    v.Obj? ==> |v.fields| > 0 && CleanObject(v.fields)
  }

  /** What `stripEmpty` leaves behind is clean. */
  lemma {:induction false} StripEmptyIsClean(m: map<string, Json>)
    ensures CleanObject(StripEmpty(m))
    decreases Obj(m), 0
  {
    var r := StripEmpty(m);
    forall k | k in r
      ensures CleanValue(r[k])
    {
      StripValueIsClean(m[k]);
    }
  }

  lemma {:induction false} StripValueIsClean(v: Json)
    ensures !Dropped(StripValue(v)) ==> CleanValue(StripValue(v))
    decreases v, 1
  {
    match v
    case Obj(f) =>
      StripEmptyIsClean(f);
    case Arr(items) =>
      var r := StripValue(v);
      forall i | 0 <= i < |items|
        ensures CleanItem(r.items[i])
      {
        StripItemIsClean(items[i]);
      }
    case _ =>
  }

  lemma {:induction false} StripItemIsClean(v: Json)
    ensures CleanItem(StripItem(v))
    decreases v, 1
  {
    if v.Obj? {
      StripEmptyIsClean(v.fields);
    }
  }

  /** On a clean object `stripEmpty` removes nothing and changes nothing. */
  lemma {:induction false} StripEmptyOfClean(m: map<string, Json>)
    requires CleanObject(m)
    ensures StripEmpty(m) == m
    decreases Obj(m), 0
  {
    forall k | k in m
      ensures StripValue(m[k]) == m[k]
    {
      StripValueOfClean(m[k]);
    }
  }

  lemma {:induction false} StripValueOfClean(v: Json)
    requires CleanValue(v)
    ensures StripValue(v) == v
    decreases v, 1
  {
    match v
    case Obj(f) =>
      StripEmptyOfClean(f);
    case Arr(items) =>
      var r := StripValue(v);
      forall i | 0 <= i < |items|
        ensures r.items[i] == items[i]
      {
        StripItemOfClean(items[i]);
      }
    case _ =>
  }

  lemma {:induction false} StripItemOfClean(v: Json)
    requires CleanItem(v)
    ensures StripItem(v) == v
    decreases v, 1
  {
    if v.Obj? {
      StripEmptyOfClean(v.fields);
    }
  }

  /** `stripEmpty` leaves an object unchanged exactly when it is clean, and
      so a second pass finds nothing more to remove. */
  lemma StripEmptyFixedPoints(m: map<string, Json>)
    ensures StripEmpty(m) == m <==> CleanObject(m)
    ensures StripEmpty(StripEmpty(m)) == StripEmpty(m)
  {
    StripEmptyIsClean(m);
    StripEmptyIsClean(StripEmpty(m));
    if CleanObject(m) {
      StripEmptyOfClean(m);
    }
    StripEmptyOfClean(StripEmpty(m));
  }

  /** A map nested two levels down that holds only an empty string goes
      away together with the maps around it, while a number beside it stays. */
  lemma NestedEmptyGoesAway()
    ensures StripEmpty(map["a" := Obj(map["b" := Obj(map["c" := Str("")])]), "n" := Num(1.0)])
      == map["n" := Num(1.0)]
  {
    var middle := map["b" := Obj(map["c" := Str("")])];
    var outer := map["a" := Obj(middle), "n" := Num(1.0)];
    MiddleGoesAway();
    var r := StripEmpty(outer);
    assert outer["a"].Obj? && outer["a"].fields == middle;
    assert "a" !in r;
    assert outer["n"].Num?;
    assert r.Keys == {"n"};
  }

  lemma MiddleGoesAway()
    ensures StripEmpty(map["b" := Obj(map["c" := Str("")])]) == map[]
  {
    var inner := map["c" := Str("")];
    var middle := map["b" := Obj(inner)];
    assert inner["c"] == Str("");
    assert StripEmpty(inner) == map[];
    assert middle["b"].Obj? && middle["b"].fields == inner;
    assert StripEmpty(middle).Keys == {};
  }

  /** In a non-empty slice an element map that strips to nothing turns
      into nil, and the slice stays. */
  lemma EmptiedElementBecomesNull()
    ensures StripEmpty(map["xs" := Arr([Obj(map["k" := Null]), Num(2.0)])])
      == map["xs" := Arr([Null, Num(2.0)])]
  {
    assert StripEmpty(map["k" := Null]) == map[];
    var r := StripValue(Arr([Obj(map["k" := Null]), Num(2.0)]));
    assert r.items == [Null, Num(2.0)];
  }
}

=== FILE: container.dfy ===
/**
 * pkg/container/heap.go: a generic min-heap parameterised by a `less`
 * function, with Add / Peek / Remove / Len on top of heap.Interface's
 * Push / Pop. The sifting is Go's container/heap, modelled in module Heap.
 */
module Container {
  import Heap

  datatype GoHeap<!T> = GoHeap(items: seq<T>, less: (T, T) -> bool)

  /** What every exported operation keeps: `less` is a strict weak order and
      the items form a heap under it. */
  ghost predicate Valid<T(!new)>(h: GoHeap<T>) {
    Heap.StrictWeakOrder(h.less) && Heap.IsHeap(h.less, h.items)
  }

  /** NewHeap: no items. */
  function NewHeap<T(!new)>(less: (T, T) -> bool): (h: GoHeap<T>)
    requires Heap.StrictWeakOrder(less)
    ensures Valid(h) && Len(h) == 0 && h.less == less
  {
    GoHeap([], less)
  }

  function Len<T>(h: GoHeap<T>): nat {
    |h.items|
  }

  /** Add: heap.Push of one item. */
  method Add<T(!new)>(h: GoHeap<T>, x: T) returns (h': GoHeap<T>)
    requires Valid(h)
    ensures Valid(h') && h'.less == h.less
    ensures Len(h') == Len(h) + 1
    ensures multiset(h'.items) == multiset(h.items) + multiset{x}
  {
    var items := Heap.Push(h.less, h.items, x);
    h' := h.(items := items);
  }

  /** Peek: the root, which nothing in the heap is less than. Indexing an
      empty slice panics in Go, hence the precondition. */
  function Peek<T(!new)>(h: GoHeap<T>): (x: T)
    requires Valid(h) && Len(h) > 0
    ensures x in h.items
    ensures Heap.NoneLess(h.less, h.items, x)
  {
    Heap.RootIsMinimum(h.less, h.items);
    h.items[0]
  }

  /** Remove: heap.Pop, which returns the minimum and removes exactly it. */
  method Remove<T(!new)>(h: GoHeap<T>) returns (x: T, h': GoHeap<T>)
    requires Valid(h) && Len(h) > 0
    ensures x == Peek(h)
    ensures Valid(h') && h'.less == h.less
    ensures Len(h') == Len(h) - 1
    ensures multiset(h'.items) + multiset{x} == multiset(h.items)
    ensures Heap.NoneLess(h.less, h'.items, x)
  {
    var items;
    x, items := Heap.Pop(h.less, h.items);
    h' := h.(items := items);
  }

  /** heap.Interface's Push: append at the end, before container/heap sifts. */
  function InterfacePush<T>(items: seq<T>, x: T): (r: seq<T>)
    ensures |r| == |items| + 1 && r[|items|] == x && r[..|items|] == items
  {
    items + [x]
  }

  /** heap.Interface's Pop: remove and return the last element. */
  function InterfacePop<T>(items: seq<T>): (r: (T, seq<T>))
    requires |items| > 0
    ensures r.0 == items[|items| - 1]
    ensures r.1 + [r.0] == items
  {
    (items[|items| - 1], items[..|items| - 1])
  }

  /** Pushing and then popping through heap.Interface is the identity. */
  lemma InterfacePushPop<T>(items: seq<T>, x: T)
    ensures InterfacePop(InterfacePush(items, x)) == (x, items)
  {
  }

  lemma IntLessIsStrictWeakOrder()
    ensures Heap.StrictWeakOrder(IntLess)
  {
  }

  /** Pins down the element a Peek or Remove returns when the heap's
      contents are known: it is in the heap and nothing is less than it. */
  lemma PinMinimum(less: (int, int) -> bool, items: seq<int>, x: int, m: int, rest: multiset<int>)
    requires forall a, b :: less(a, b) <==> a < b
    requires multiset(items) == rest + multiset{m}
    requires forall y :: y in rest ==> m < y
    requires x in items
    requires Heap.NoneLess(less, items, x)
    ensures x == m
  {
    assert m in multiset(items);
    var k :| 0 <= k < |items| && items[k] == m;
    assert x in multiset(items);
  }

  ghost predicate IsIntLess(less: (int, int) -> bool) {
    forall a, b :: less(a, b) <==> a < b
  }

  /** The comparison the heap test uses. */
  function IntLess(a: int, b: int): bool {
    a < b
  }

  lemma CancelOne(a: multiset<int>, b: multiset<int>, x: int)
    requires a + multiset{x} == b + multiset{x}
    ensures a == b
  {
    assert forall y :: a[y] == (a + multiset{x})[y] - multiset{x}[y];
  }

  /** Remove on an integer heap whose contents are known to be `rest` plus a
      strictly smaller `m`: it yields `m` and leaves exactly `rest`. */
  method RemoveKnown(h: GoHeap<int>, m: int, rest: seq<int>) returns (x: int, h': GoHeap<int>)
    requires Valid(h) && h.less == IntLess
    requires multiset(h.items) == multiset(rest) + multiset{m}
    requires forall k :: 0 <= k < |rest| ==> m < rest[k]
    ensures x == m && multiset(h'.items) == multiset(rest)
    ensures Valid(h') && h'.less == h.less
  {
    assert m in multiset(h.items);
    assert IsIntLess(h.less);
    x, h' := Remove(h);
    PinMinimum(h.less, h.items, x, m, multiset(rest));
    CancelOne(multiset(h'.items), multiset(rest), x);
  }

  /** Peek on an integer heap whose contents are `rest` plus a strictly
      smaller `m` yields `m`. */
  lemma PeekKnown(h: GoHeap<int>, m: int, rest: seq<int>)
    requires Valid(h) && h.less == IntLess
    requires multiset(h.items) == multiset(rest) + multiset{m}
    requires forall k :: 0 <= k < |rest| ==> m < rest[k]
    ensures |h.items| > 0 && Peek(h) == m
  {
    assert m in multiset(h.items);
    assert IsIntLess(h.less);
    PinMinimum(h.less, h.items, Peek(h), m, multiset(rest));
  }

  /** The heap test's setup: add 5, 3, 8, 1, 2 to an empty integer heap. */
  method BuildExample() returns (h: GoHeap<int>)
    ensures Valid(h) && h.less == IntLess
    ensures multiset(h.items) == multiset([2, 3, 5, 8]) + multiset{1}
  {
    IntLessIsStrictWeakOrder();
    h := NewHeap(IntLess);
    h := Add(h, 5);
    h := Add(h, 3);
    h := Add(h, 8);
    h := Add(h, 1);
    h := Add(h, 2);
  }

  /** The values strictly increase along the sequence. */
  predicate Increasing(xs: seq<int>) {
    forall i, j :: 0 <= i < j < |xs| ==> xs[i] < xs[j]
  }

  /** Removing from an integer heap until it is empty yields its items in
      increasing order. */
  method DrainIncreasing(h: GoHeap<int>, xs: seq<int>) returns (out: seq<int>, h': GoHeap<int>)
    requires Valid(h) && h.less == IntLess
    requires multiset(h.items) == multiset(xs)
    requires Increasing(xs)
    ensures out == xs
    ensures Valid(h') && Len(h') == 0
  {
    out, h' := [], h;
    var i := 0;
    while i < |xs|
      invariant 0 <= i <= |xs|
      invariant Valid(h') && h'.less == IntLess
      invariant multiset(h'.items) == multiset(xs[i..])
      invariant out == xs[..i]
    {
      assert xs[i..] == [xs[i]] + xs[i + 1..];
      var x;
      x, h' := RemoveKnown(h', xs[i], xs[i + 1..]);
      out := out + [x];
      i := i + 1;
    }
    assert |h'.items| == |multiset(h'.items)|;
  }

  lemma ExampleIncreasing()
    ensures Increasing([1, 2, 3, 5, 8])
  {
  }

  /** The heap test: after the setup, Peek gives 1 and successive Removes
      give 1, 2, 3, 5, 8, after which the heap is empty. */
  method IntHeapExample() returns (peek: int, out: seq<int>, left: nat)
    ensures peek == 1
    ensures out == [1, 2, 3, 5, 8]
    ensures left == 0
  {
    var h := BuildExample();
    PeekKnown(h, 1, [2, 3, 5, 8]);
    peek := Peek(h);
    assert [1, 2, 3, 5, 8] == [1] + [2, 3, 5, 8];
    ExampleIncreasing();
    out, h := DrainIncreasing(h, [1, 2, 3, 5, 8]);
    left := Len(h);
  }
}

=== FILE: event.dfy ===
/**
 * pkg/scheduler/event.go: the event types and statuses, the base event and
 * the order the scheduler's queue executes events in.
 *
 * Durations are integer nanoseconds. The UUID an event receives and the
 * creation time are parameters.
 */
module Event {
  import opened Wrappers
  import opened Text

  datatype EventType = PodType | SchedulerType | NodeType | CustomType

  function TypeName(t: EventType): (s: string)
    ensures s in {"pod", "scheduler", "node", "custom"}
  {
    match t
    case PodType => "pod"
    case SchedulerType => "scheduler"
    case NodeType => "node"
    case CustomType => "custom"
  }

  lemma TypeNameInjective(a: EventType, b: EventType)
    requires TypeName(a) == TypeName(b)
    ensures a == b
  {
    assert "pod" != "scheduler" && "pod" != "node" && "pod" != "custom";
    assert "scheduler" != "node" && "scheduler" != "custom" && "node" != "custom";
  }

  datatype Status = Pending | Executing | Completed | Failed | Canceled

  /** `HappensBefore` on what it reads: the earlier arrival first, and at
      equal arrivals the smaller ID (Go's byte-wise string order). */
  predicate Before(arrivalA: int, idA: string, arrivalB: int, idB: string) {
    if arrivalA != arrivalB then arrivalA < arrivalB else LexLess(idA, idB)
  }

  lemma BeforeIrreflexive(arrival: int, id: string)
    ensures !Before(arrival, id, arrival, id)
  {
    LexLessIrreflexive(id);
  }

  lemma BeforeAsymmetric(arrivalA: int, idA: string, arrivalB: int, idB: string)
    requires Before(arrivalA, idA, arrivalB, idB)
    ensures !Before(arrivalB, idB, arrivalA, idA)
  {
    if arrivalA == arrivalB {
      LexLessAsymmetric(idA, idB);
    }
  }

  lemma BeforeTransitive(arrivalA: int, idA: string, arrivalB: int, idB: string, arrivalC: int, idC: string)
    requires Before(arrivalA, idA, arrivalB, idB) && Before(arrivalB, idB, arrivalC, idC)
    ensures Before(arrivalA, idA, arrivalC, idC)
  {
    if arrivalA == arrivalB && arrivalB == arrivalC {
      LexLessTransitive(idA, idB, idC);
    }
  }

  /** Two events that differ in arrival or ID are ordered one way, and
      exactly one. */
  lemma BeforeTotal(arrivalA: int, idA: string, arrivalB: int, idB: string)
    requires arrivalA != arrivalB || idA != idB
    ensures Before(arrivalA, idA, arrivalB, idB) != Before(arrivalB, idB, arrivalA, idA)
  {
    if arrivalA == arrivalB {
      LexLessTotal(idA, idB);
      if LexLess(idA, idB) {
        LexLessAsymmetric(idA, idB);
      } else {
        LexLessAsymmetric(idB, idA);
      }
    }
  }

  /** event.go's `BaseEvent`; `evict` is the optional eviction time. */
  datatype BaseEvent = BaseEvent(
    id: string,
    kind: EventType,
    status: Status,
    arrival: int,
    evict: Option<int>,
    priority: int,
    createdAt: int)

  /** `NewBaseEvent`: pending, no eviction, priority 0. */
  function NewBaseEvent(id: string, kind: EventType, arrival: int, now: int): (e: BaseEvent)
    ensures e.id == id && e.kind == kind && e.arrival == arrival && e.createdAt == now
    ensures e.status == Pending && e.evict.None? && e.priority == 0
  {
    BaseEvent(id, kind, Pending, arrival, None, 0, now)
  }

  function GetStatus(e: BaseEvent): Status {
    e.status
  }

  function SetStatus(e: BaseEvent, s: Status): (r: BaseEvent)
    ensures r.status == s && r == e.(status := r.status)
  {
    e.(status := s)
  }

  /** The status read back is the last one set. */
  lemma GetAfterSet(e: BaseEvent, s1: Status, s2: Status)
    ensures GetStatus(SetStatus(e, s1)) == s1
    ensures SetStatus(SetStatus(e, s1), s2) == SetStatus(e, s2)
  {
  }

  function SetEviction(e: BaseEvent, t: int): (r: BaseEvent)
    ensures r.evict == Some(t) && r == e.(evict := r.evict)
  {
    e.(evict := Some(t))
  }

  /** The default `Execute`: the status passes through executing and ends
      completed, and the result is the "not implemented" error. */
  function Execute(e: BaseEvent): (r: (Option<string>, BaseEvent, seq<Status>))
    ensures r.0 == Some("not implemented")
    ensures r.1 == e.(status := Completed)
    ensures r.2 == [Executing, Completed]
  {
    var executing := SetStatus(e, Executing);
    (Some("not implemented"), SetStatus(executing, Completed), [Executing, Completed])
  }

  /** `HappensBefore`. */
  predicate HappensBefore(e: BaseEvent, other: BaseEvent) {
    Before(e.arrival, e.id, other.arrival, other.id)
  }

  /** Two events with different IDs are always ordered, and one way only,
      whatever their arrival times. */
  lemma HappensBeforeDistinct(a: BaseEvent, b: BaseEvent)
    requires a.id != b.id
    ensures HappensBefore(a, b) != HappensBefore(b, a)
    ensures a.arrival < b.arrival ==> HappensBefore(a, b)
  {
    BeforeTotal(a.arrival, a.id, b.arrival, b.id);
  }
}

=== FILE: event_base.dfy ===
/**
 * pkg/scheduler/event_base.go: the base event the queue holds, with an
 * eviction time (zero for none) and an execution timeout, and the
 * `Execute` that schedules a follow-up eviction event.
 */
module EventBase {
  import opened Wrappers
  import opened Text
  import Event

  /** `30 * time.Second` in nanoseconds. */
  const DefaultTimeout: int := 30 * 1000000000

  datatype BaseEvent = BaseEvent(
    id: string,
    status: Event.Status,
    arrival: int,
    evict: int,
    timeout: int,
    createdAt: int)

  /** `NewBaseEvent`: pending, with the default 30 s timeout. */
  function NewBaseEvent(id: string, arrival: int, evict: int, now: int): (e: BaseEvent)
    ensures e.id == id && e.arrival == arrival && e.evict == evict && e.createdAt == now
    ensures e.status == Event.Pending && e.timeout == 30000000000
  {
    BaseEvent(id, Event.Pending, arrival, evict, DefaultTimeout, now)
  }

  function SetStatus(e: BaseEvent, s: Event.Status): (r: BaseEvent)
    ensures r.status == s && r == e.(status := r.status)
  {
    e.(status := s)
  }

  function Eviction(e: BaseEvent): int {
    e.evict
  }

  function SetEviction(e: BaseEvent, t: int): (r: BaseEvent)
    ensures r == e.(evict := r.evict)
  {
    e.(evict := t)
  }

  function GetExecuteTimeout(e: BaseEvent): int {
    e.timeout
  }

  function SetExecuteTimeout(e: BaseEvent, t: int): (r: BaseEvent)
    ensures r == e.(timeout := r.timeout)
  {
    e.(timeout := t)
  }

  /** Each getter returns what its setter stored, and the two setters do not
      interfere. */
  lemma SettersAndGetters(e: BaseEvent, evict: int, timeout: int)
    ensures Eviction(SetEviction(e, evict)) == evict
    ensures GetExecuteTimeout(SetExecuteTimeout(e, timeout)) == timeout
    ensures Eviction(SetExecuteTimeout(e, timeout)) == Eviction(e)
    ensures GetExecuteTimeout(SetEviction(e, evict)) == GetExecuteTimeout(e)
  {
  }

  /** The scheduler found in the context, if any: its `Schedule` answers
      with an error or none. */
  datatype Scheduler = Scheduler(scheduleError: Option<string>)

  /** What `Execute` did: the error it returned, the event afterwards, the
      statuses it went through and the events it handed to the scheduler. */
  datatype Execution = Execution(err: Option<string>, event: BaseEvent, trace: seq<Event.Status>, scheduled: seq<BaseEvent>)

  /** `Execute`: with a positive eviction time and a scheduler, schedules one
      eviction event arriving at the eviction time (with no eviction of its
      own; `evictionId` is its UUID) and returns the scheduler's error. The
      status ends completed either way. */
  function Execute(e: BaseEvent, scheduler: Option<Scheduler>, evictionId: string, now: int): (x: Execution)
    ensures x.event == e.(status := Event.Completed)
    ensures x.trace == [Event.Executing, Event.Completed]
    ensures e.evict > 0 && scheduler.Some? ==>
      |x.scheduled| == 1 && x.scheduled[0].arrival == e.evict && x.scheduled[0].evict == 0 &&
      x.scheduled[0].status == Event.Pending && x.err == scheduler.value.scheduleError
    ensures e.evict <= 0 || scheduler.None? ==> x.scheduled == [] && x.err.None?
  {
    var done := SetStatus(SetStatus(e, Event.Executing), Event.Completed);
    if e.evict > 0 && scheduler.Some? then
      var eviction := NewBaseEvent(evictionId, e.evict, 0, now);
      Execution(scheduler.value.scheduleError, done, [Event.Executing, Event.Completed], [eviction])
    else
      Execution(None, done, [Event.Executing, Event.Completed], [])
  }

  /** The eviction event itself schedules nothing when executed. */
  lemma EvictionEventIsFinal(e: BaseEvent, scheduler: Option<Scheduler>, id1: string, id2: string, now: int)
    requires e.evict > 0 && scheduler.Some?
    ensures var ev := Execute(e, scheduler, id1, now).scheduled[0];
      Execute(ev, scheduler, id2, now).scheduled == []
  {
  }

  /** `HappensBefore`, the same order as event.go's. */
  predicate HappensBefore(e: BaseEvent, other: BaseEvent) {
    Event.Before(e.arrival, e.id, other.arrival, other.id)
  }

  /** `less` for the queue's heap: a strict weak order. */
  lemma HappensBeforeIsStrictWeakOrder(x: BaseEvent, y: BaseEvent, z: BaseEvent)
    ensures !HappensBefore(x, x)
    ensures HappensBefore(x, y) && HappensBefore(y, z) ==> HappensBefore(x, z)
    ensures !HappensBefore(x, y) && !HappensBefore(y, z) ==> !HappensBefore(x, z)
  {
    Event.BeforeIrreflexive(x.arrival, x.id);
    if HappensBefore(x, y) && HappensBefore(y, z) {
      Event.BeforeTransitive(x.arrival, x.id, y.arrival, y.id, z.arrival, z.id);
    }
    if !HappensBefore(x, y) && !HappensBefore(y, z) && HappensBefore(x, z) {
      // y is at or before x, and z at or before y, in the key order.
      if x.arrival != y.arrival || x.id != y.id {
        Event.BeforeTotal(x.arrival, x.id, y.arrival, y.id);
        if y.arrival != z.arrival || y.id != z.id {
          Event.BeforeTotal(y.arrival, y.id, z.arrival, z.id);
          Event.BeforeTransitive(z.arrival, z.id, y.arrival, y.id, x.arrival, x.id);
          Event.BeforeAsymmetric(x.arrival, x.id, z.arrival, z.id);
        } else {
          Event.BeforeAsymmetric(y.arrival, y.id, x.arrival, x.id);
        }
      } else {
        Event.BeforeIrreflexive(y.arrival, y.id);
      }
    }
  }
}

=== FILE: float64.dfy ===
/**
 * The IEEE 754 double results the analyzer's pod-fit arithmetic can reach:
 * numpy's division of a float by an `np.float64` mean, which yields an
 * infinity or NaN on a zero divisor instead of raising, and Python's
 * builtin `min`, which keeps its first argument unless the second compares
 * less. Finite values are exact reals; rounding and the sign of zero are
 * not modelled.
 */
module Float64 {

  datatype Double = Finite(v: real) | PosInf | NegInf | NaN

  /** numpy's `x / y` on doubles. */
  function Div(x: real, y: real): (r: Double)
    ensures y != 0.0 ==> r == Finite(x / y)
    ensures y == 0.0 && x > 0.0 ==> r == PosInf
    ensures y == 0.0 && x < 0.0 ==> r == NegInf
    ensures y == 0.0 && x == 0.0 ==> r == NaN
  {
    if y != 0.0 then Finite(x / y)
    else if x > 0.0 then PosInf
    else if x < 0.0 then NegInf
    else NaN
  }

  /** The position of a non-NaN double on the extended real line. */
  predicate Below(a: Double, b: Double)
    requires !a.NaN? && !b.NaN?
  {
    match (a, b)
    case (NegInf, NegInf) => false
    case (NegInf, _) => true
    case (_, PosInf) => !a.PosInf?
    case (Finite(x), Finite(y)) => x < y
    case _ => false
  }

  /** IEEE `a < b`: false whenever either side is NaN. */
  predicate Less(a: Double, b: Double) {
    !a.NaN? && !b.NaN? && Below(a, b)
  }

  /** `Less` is the order of the extended reals on the non-NaN doubles. */
  lemma LessIsOrder(a: Double, b: Double, c: Double)
    ensures !Less(a, a)
    ensures Less(a, b) ==> !Less(b, a)
    ensures Less(a, b) && Less(b, c) ==> Less(a, c)
    ensures !a.NaN? && !b.NaN? && a != b ==> Less(a, b) || Less(b, a)
    ensures a.NaN? || b.NaN? ==> !Less(a, b) && !Less(b, a)
  {
  }

  /** Python's builtin `min(a, b)`: the second argument replaces the first
      only when it compares less. */
  function PyMin(a: Double, b: Double): (r: Double)
    ensures r == a || r == b
    ensures !a.NaN? && !b.NaN? ==> !Less(a, r) && !Less(b, r)
    ensures a.NaN? ==> r == a
    ensures b.NaN? ==> r == a
  {
    if Less(b, a) then b else a
  }

  /** On finite values `min` is the smaller one. */
  lemma PyMinFinite(x: real, y: real)
    ensures PyMin(Finite(x), Finite(y)) == Finite(if y < x then y else x)
  {
  }

  /** An infinite first argument gives way to any non-NaN second one. */
  lemma PyMinPosInf(b: Double)
    requires !b.NaN?
    ensures PyMin(PosInf, b) == b
  {
  }
}

=== FILE: gauge_vec.dfy ===
/**
 * pkg/metric/gauge_vec.go: a labelled gauge that remembers the last value per
 * label set and keeps an append-only log of every value it was given, which
 * `ExportCSV` writes out as a table.
 *
 * The Prometheus gauge it mirrors, the lock and the file writing are left
 * out; the clock and the two text formats (`TimestampFormat` and "%f") are
 * parameters.
 */
module GaugeVec {
  import Seqs

  /** The separator `Labels.toMapKey` joins label values with. Go writes the
      raw byte 0xFF, which no valid UTF-8 label value contains; strings here
      are sequences of characters, so it is the character U+00FF, and label
      values holding that character are the ones `JoinInjective` excludes. */
  const Sep: char := 255 as char

  /** label.go's `toMapKey`: the values joined with `Sep`. */
  function Join(values: seq<string>): string {
    if |values| == 0 then ""
    else if |values| == 1 then values[0]
    else values[0] + [Sep] + Join(values[1..])
  }

  predicate NoSep(values: seq<string>) {
    forall i, k :: 0 <= i < |values| && 0 <= k < |values[i]| ==> values[i][k] != Sep
  }

  /** The position of the first separator in `s`, or |s|. */
  function FirstSep(s: string): (i: nat)
    ensures i <= |s|
  {
    if |s| == 0 then 0 else if s[0] == Sep then 0 else 1 + FirstSep(s[1..])
  }

  lemma {:induction false} FirstSepOf(x: string, rest: string)
    requires forall k :: 0 <= k < |x| ==> x[k] != Sep
    ensures FirstSep(x + [Sep] + rest) == |x|
    decreases |x|
  {
    if |x| > 0 {
      assert (x + [Sep] + rest)[1..] == x[1..] + [Sep] + rest;
      FirstSepOf(x[1..], rest);
    }
  }

  /** Label sets of one length whose values avoid the separator get distinct
      keys, so `lastValues` keeps them apart. */
  lemma {:induction false} JoinInjective(a: seq<string>, b: seq<string>)
    requires |a| == |b| && NoSep(a) && NoSep(b) && Join(a) == Join(b)
    ensures a == b
    decreases |a|
  {
    if |a| >= 2 {
      var s := Join(a);
      var x, y := a[0], b[0];
      assert s == x + [Sep] + Join(a[1..]);
      assert s == y + [Sep] + Join(b[1..]);
      FirstSepOf(x, Join(a[1..]));
      FirstSepOf(y, Join(b[1..]));
      assert x == s[..|x|] == y;
      assert Join(a[1..]) == s[|x| + 1..] == Join(b[1..]);
      assert NoSep(a[1..]) by {
        forall i, k | 0 <= i < |a[1..]| && 0 <= k < |a[1..][i]|
          ensures a[1..][i][k] != Sep
        {
          assert a[1..][i] == a[i + 1];
        }
      }
      assert NoSep(b[1..]) by {
        forall i, k | 0 <= i < |b[1..]| && 0 <= k < |b[1..][i]|
          ensures b[1..][i][k] != Sep
        {
          assert b[1..][i] == b[i + 1];
        }
      }
      JoinInjective(a[1..], b[1..]);
      assert a == [x] + a[1..] && b == [y] + b[1..];
    }
  }

  /** record.go's `Record`; the timestamp is in nanoseconds. */
  datatype Record = Record(timestamp: int, labels: map<string, string>, value: real)

  datatype GaugeVec = GaugeVec(
    metricName: string,
    labelNames: seq<string>,
    records: seq<Record>,
    lastValues: map<string, real>)

  /** `NewInMemoryGaugeVec`: no records, no last values. */
  function NewGaugeVec(metricName: string, labelNames: seq<string>): (g: GaugeVec)
    ensures g.metricName == metricName && g.labelNames == labelNames
    ensures g.records == [] && g.lastValues == map[]
  {
    GaugeVec(metricName, labelNames, [], map[])
  }

  /** The record's label map: the i-th value under the i-th label name, a
      later position winning when a name repeats. Go indexes the names by
      the values' positions, so more values than names is a panic. */
  function LabelsMap(names: seq<string>, values: seq<string>): (m: map<string, string>)
    requires |values| <= |names|
    ensures m.Keys == set i | 0 <= i < |values| :: names[i]
  {
    var pairs := Pairs(names, values);
    assert forall i :: 0 <= i < |values| ==> pairs[i].0 == names[i];
    Seqs.ToMap(pairs)
  }

  function Pairs(names: seq<string>, values: seq<string>): (pairs: seq<(string, string)>)
    requires |values| <= |names|
    ensures |pairs| == |values|
    ensures forall i :: 0 <= i < |values| ==> pairs[i] == (names[i], values[i])
  {
    seq(|values|, i requires 0 <= i < |values| => (names[i], values[i]))
  }

  /** A value lands under its name unless a later position reuses the name. */
  lemma LabelsMapLastWins(names: seq<string>, values: seq<string>, i: int)
    requires |values| <= |names| && 0 <= i < |values|
    requires forall j :: i < j < |values| ==> names[j] != names[i]
    ensures LabelsMap(names, values)[names[i]] == values[i]
  {
    Seqs.ToMapLastWins(Pairs(names, values), i);
  }

  /** With distinct label names every name maps to its own value. */
  lemma LabelsMapPairs(names: seq<string>, values: seq<string>, i: int)
    requires |values| <= |names| && 0 <= i < |values|
    requires forall a, b :: 0 <= a < b < |names| ==> names[a] != names[b]
    ensures names[i] in LabelsMap(names, values) && LabelsMap(names, values)[names[i]] == values[i]
  {
    LabelsMapLastWins(names, values, i);
  }

  /** The last value under a label set, Go's zero when there is none. */
  function LastValue(g: GaugeVec, labels: seq<string>): real {
    var key := Join(labels);
    if key in g.lastValues then g.lastValues[key] else 0.0
  }

  /** `Set`: the label set's last value becomes `value` and one record is
      appended. Prometheus' `WithLabelValues` panics unless there is one
      value per label name, so `Set`, `Add` and `Sub` require as much. */
  function Set(g: GaugeVec, value: real, labels: seq<string>, now: int): (r: GaugeVec)
    requires |labels| == |g.labelNames|
    ensures Join(labels) in r.lastValues && LastValue(r, labels) == value
    ensures forall k :: k != Join(labels) ==>
      (k in r.lastValues <==> k in g.lastValues) && (k in g.lastValues ==> r.lastValues[k] == g.lastValues[k])
    ensures |r.records| == |g.records| + 1 && r.records[..|g.records|] == g.records
    ensures r.records[|g.records|] == Record(now, LabelsMap(g.labelNames, labels), value)
    ensures r.metricName == g.metricName && r.labelNames == g.labelNames
  {
    var rec := Record(now, LabelsMap(g.labelNames, labels), value);
    g.(lastValues := g.lastValues[Join(labels) := value], records := g.records + [rec])
  }

  /** `Add`: the last value (zero when unset) plus `delta`, stored and
      recorded. */
  function Add(g: GaugeVec, delta: real, labels: seq<string>, now: int): (r: GaugeVec)
    requires |labels| == |g.labelNames|
    ensures Join(labels) in r.lastValues && LastValue(r, labels) == LastValue(g, labels) + delta
    ensures forall k :: k != Join(labels) ==>
      (k in r.lastValues <==> k in g.lastValues) && (k in g.lastValues ==> r.lastValues[k] == g.lastValues[k])
    ensures |r.records| == |g.records| + 1 && r.records[..|g.records|] == g.records
    ensures r.records[|g.records|] == Record(now, LabelsMap(g.labelNames, labels), LastValue(g, labels) + delta)
    ensures r.metricName == g.metricName && r.labelNames == g.labelNames
  {
    var newValue := LastValue(g, labels) + delta;
    var rec := Record(now, LabelsMap(g.labelNames, labels), newValue);
    g.(lastValues := g.lastValues[Join(labels) := newValue], records := g.records + [rec])
  }

  /** `Sub`: `Add` of the negated delta. */
  function Sub(g: GaugeVec, delta: real, labels: seq<string>, now: int): (r: GaugeVec)
    requires |labels| == |g.labelNames|
    ensures LastValue(r, labels) == LastValue(g, labels) - delta
    ensures |r.records| == |g.records| + 1 && r.records[|g.records|].value == LastValue(r, labels)
  {
    Add(g, -delta, labels, now)
  }

  /** `Values`: the records in the order they were made. */
  function Values(g: GaugeVec): seq<Record> {
    g.records
  }

  /** Every `Set` shows up as exactly one more record at the end of
      `Values`, and an `Add` followed by a `Sub` of the same delta restores
      the last value while logging both steps. */
  lemma ValuesLogEveryUpdate(g: GaugeVec, v: real, d: real, labels: seq<string>, t1: int, t2: int)
    requires |labels| == |g.labelNames|
    ensures Values(Set(g, v, labels, t1)) == Values(g) + [Record(t1, LabelsMap(g.labelNames, labels), v)]
    ensures var r := Sub(Add(g, d, labels, t1), d, labels, t2);
      LastValue(r, labels) == LastValue(g, labels) &&
      |Values(r)| == |Values(g)| + 2 && Values(r)[..|Values(g)|] == Values(g) &&
      Values(r)[|Values(g)| + 1].value == LastValue(g, labels)
  {
    var a := Add(g, d, labels, t1);
    var r := Sub(a, d, labels, t2);
    assert r.records[..|g.records|] == a.records[..|g.records|];
  }

  /** Updating one label set leaves another (of the same length, without the
      separator in its values) where it was. */
  lemma OtherLabelsUntouched(g: GaugeVec, v: real, labels: seq<string>, other: seq<string>, now: int)
    requires |labels| == |g.labelNames| && |other| == |labels|
    requires NoSep(labels) && NoSep(other) && other != labels
    ensures LastValue(Set(g, v, labels, now), other) == LastValue(g, other)
    ensures LastValue(Add(g, v, labels, now), other) == LastValue(g, other)
  {
    if Join(other) == Join(labels) {
      JoinInjective(other, labels);
    }
  }

  // ---- ExportCSV's table ----

  /** Every label name some record carries. */
  ghost function UniqueLabels(records: seq<Record>): set<string> {
    set i, l | 0 <= i < |records| && l in records[i].labels :: l
  }

  function Header(order: seq<string>): (h: seq<string>)
    ensures |h| == |order| + 2 && h[0] == "timestamp" && h[|h| - 1] == "value" && h[1..|h| - 1] == order
  {
    ["timestamp"] + order + ["value"]
  }

  /** One record's row: its time, each header label's value ("" where the
      record lacks that label, Go's zero string) and its value. */
  function Row(rec: Record, order: seq<string>, fmtTime: int -> string, fmtValue: real -> string): (row: seq<string>)
    ensures |row| == |order| + 2
    ensures row[0] == fmtTime(rec.timestamp) && row[|row| - 1] == fmtValue(rec.value)
    ensures forall j :: 0 <= j < |order| ==>
      row[j + 1] == (if order[j] in rec.labels then rec.labels[order[j]] else "")
  {
    [fmtTime(rec.timestamp)]
      + seq(|order|, j requires 0 <= j < |order| => if order[j] in rec.labels then rec.labels[order[j]] else "")
      + [fmtValue(rec.value)]
  }

  /** The table `ExportCSV` writes: the header (labels in the order the map
      iteration gave, `order`), then one row per record. */
  function Table(g: GaugeVec, order: seq<string>, fmtTime: int -> string, fmtValue: real -> string)
    : (t: seq<seq<string>>)
    requires Seqs.IsOrderOf(order, UniqueLabels(g.records))
    ensures |t| == |g.records| + 1 && t[0] == Header(order)
    ensures forall i :: 0 <= i < |g.records| ==> t[i + 1] == Row(g.records[i], order, fmtTime, fmtValue)
  {
    [Header(order)] + seq(|g.records|, i requires 0 <= i < |g.records| => Row(g.records[i], order, fmtTime, fmtValue))
  }

  /** Every label a record carries has a header column, and the record's
      row holds the label's value there. */
  lemma TableKeepsEveryLabel(g: GaugeVec, order: seq<string>, fmtTime: int -> string, fmtValue: real -> string,
                             i: int, l: string)
    requires Seqs.IsOrderOf(order, UniqueLabels(g.records))
    requires 0 <= i < |g.records| && l in g.records[i].labels
    ensures exists c :: (1 <= c <= |order| && Header(order)[c] == l &&
      Table(g, order, fmtTime, fmtValue)[i + 1][c] == g.records[i].labels[l])
  {
    assert l in UniqueLabels(g.records);
    var j :| 0 <= j < |order| && order[j] == l;
    assert Header(order)[j + 1] == l;
  }

  /** The label map of the example's records: both names, each with its
      value. */
  lemma ExampleLabels(a: string, b: string)
    ensures LabelsMap(["node", "resource"], [a, b]).Keys == {"node", "resource"}
    ensures LabelsMap(["node", "resource"], [a, b])["node"] == a
    ensures LabelsMap(["node", "resource"], [a, b])["resource"] == b
  {
    var names := ["node", "resource"];
    var m := LabelsMap(names, [a, b]);
    assert names[0] in m && names[1] in m;
    assert names[0] != names[1];
    LabelsMapLastWins(names, [a, b], 0);
    LabelsMapLastWins(names, [a, b], 1);
  }

  /** The gauge of the export example: three `Set`s on labels node and
      resource. */
  function ExampleGauge(): (g: GaugeVec)
    ensures g.records == [
      Record(1, LabelsMap(["node", "resource"], ["node1", "cpu"]), 10.5),
      Record(2, LabelsMap(["node", "resource"], ["node2", "memory"]), 20.0),
      Record(3, LabelsMap(["node", "resource"], ["node1", "memory"]), 15.0)]
  {
    var g0 := NewGaugeVec("node_resource_usage", ["node", "resource"]);
    Set(Set(Set(g0, 10.5, ["node1", "cpu"], 1), 20.0, ["node2", "memory"], 2), 15.0, ["node1", "memory"], 3)
  }

  /** The exported example: its header holds exactly timestamp, node,
      resource and value, and the table has four lines in all. */
  lemma ExportExample(order: seq<string>, fmtTime: int -> string, fmtValue: real -> string)
    requires order == ["node", "resource"] || order == ["resource", "node"]
    ensures UniqueLabels(ExampleGauge().records) == {"node", "resource"}
    ensures Seqs.IsOrderOf(order, UniqueLabels(ExampleGauge().records))
    ensures multiset(Table(ExampleGauge(), order, fmtTime, fmtValue)[0]) == multiset(["timestamp", "node", "resource", "value"])
    ensures |Table(ExampleGauge(), order, fmtTime, fmtValue)| == 4
  {
    ExampleGaugeLabels();
    HeaderOfTwo(order);
  }

  lemma ExampleGaugeLabels()
    ensures UniqueLabels(ExampleGauge().records) == {"node", "resource"}
  {
    ExampleLabels("node1", "cpu");
    ExampleLabels("node2", "memory");
    ExampleLabels("node1", "memory");
    ExampleUniqueLabels(ExampleGauge().records);
  }

  lemma HeaderOfTwo(order: seq<string>)
    requires order == ["node", "resource"] || order == ["resource", "node"]
    ensures Seqs.IsOrderOf(order, {"node", "resource"})
    ensures multiset(Header(order)) == multiset(["timestamp", "node", "resource", "value"])
  {
    assert "node" != "resource";
    OrderOfTwo(order, "node", "resource");
    HeaderOfTwoCells(order);
  }

  lemma HeaderOfTwoCells(order: seq<string>)
    requires order == ["node", "resource"] || order == ["resource", "node"]
    ensures multiset(Header(order)) == multiset(["timestamp", "node", "resource", "value"])
  {
    if order == ["node", "resource"] {
      assert Header(order) == ["timestamp", "node", "resource", "value"];
    } else {
      assert Header(order) == ["timestamp", "resource", "node", "value"];
      SwapMiddle("timestamp", "node", "resource", "value");
    }
  }

  /** Two distinct labels, in either order, are an order of their set. */
  lemma OrderOfTwo<T>(order: seq<T>, a: T, b: T)
    requires a != b
    requires order == [a, b] || order == [b, a]
    ensures Seqs.IsOrderOf(order, {a, b})
  {
    assert order[0] != order[1];
    forall t | t in {a, b}
      ensures t in order
    {
      assert t == order[0] || t == order[1];
    }
  }

  /** Swapping the middle two of four cells keeps the same cells. */
  lemma SwapMiddle<T>(a: T, b: T, c: T, d: T)
    ensures multiset([a, c, b, d]) == multiset([a, b, c, d])
  {
    assert [a, c, b, d] == [a] + [c, b] + [d];
    assert [a, b, c, d] == [a] + [b, c] + [d];
    assert multiset([c, b]) == multiset([b, c]);
  }

  lemma ExampleUniqueLabels(records: seq<Record>)
    requires |records| == 3
    requires records[0].labels.Keys == records[1].labels.Keys == records[2].labels.Keys == {"node", "resource"}
    ensures UniqueLabels(records) == {"node", "resource"}
  {
    assert "node" in records[0].labels && "resource" in records[0].labels;
    forall i, l | 0 <= i < |records| && l in records[i].labels
      ensures l in {"node", "resource"}
    {
      assert i == 0 || i == 1 || i == 2;
    }
  }
}

=== FILE: generate.dfy ===
/**
 * cmd/simulation/generate/events.go and generate.go: turning random
 * samples into pod events for a scenario.
 *
 * The distributions are left out: every sample a distribution or the
 * random source would produce is an input, a `real` where Go has a
 * `float64`. Go's conversions from `float64` to integers truncate toward
 * zero, which `Trunc` writes out. Durations are integer nanoseconds and
 * quantities integer milli-units.
 */
module Generate {
  import Kube
  import Text
  import Seqs

  const MilliCoresPerCore: int := 1000
  const Second: int := 1000000000
  const Mebi: int := 1048576

  /** `int(x)` on a float64: the integer part, rounded toward zero. */
  function Trunc(x: real): (n: int)
    ensures x >= 0.0 ==> n >= 0 && n as real <= x < n as real + 1.0
    ensures x < 0.0 ==> n <= 0 && n as real - 1.0 < x <= n as real
  {
    if x >= 0.0 then x.Floor else -((-x).Floor)
  }

  lemma TruncMonotone(x: real, y: real)
    requires 0.0 <= x <= y
    ensures Trunc(x) <= Trunc(y)
  {
  }

  /** The smaller of a sampled request and the node limit: `Cmp` on
      quantities compares exact values. */
  function Clamp(request: int, limit: int): (r: int)
    ensures r <= limit && r <= request
    ensures r == request || r == limit
  {
    if request > limit then limit else request
  }

  /** `randomPodCpu`: the sample in cores as whole milli-cores, at most
      `maxNodeCpu`. */
  function PodCpu(sample: real, maxNodeCpu: int): (milli: int)
    ensures milli <= maxNodeCpu
    ensures Trunc(sample * 1000.0) <= maxNodeCpu ==> milli == Trunc(sample * 1000.0)
  {
    Clamp(Trunc(sample * (MilliCoresPerCore as real)), maxNodeCpu)
  }

  /** `randomPodMemory`: the sample scaled to whole mebibytes, at most
      `maxNodeMemory`; the result is in milli-bytes like every quantity
      here. */
  function PodMemory(sample: real, scale: real, maxNodeMemory: int): (milli: int)
    ensures milli <= maxNodeMemory
    ensures Trunc(sample * scale) * Mebi * 1000 <= maxNodeMemory ==>
      milli == Trunc(sample * scale) * Mebi * 1000
  {
    Clamp(Trunc(sample * scale) * Mebi * 1000, maxNodeMemory)
  }

  /** `GetMaxNodeCpu` / `GetMaxNodeMem`: the largest capacity of the
      resource over the nodes, starting from the zero quantity; a node
      without the resource counts as zero. */
  function MaxCapacity(nodes: seq<Kube.Node>, resource: string): (m: int)
    ensures m >= 0
    ensures forall i :: 0 <= i < |nodes| ==> Kube.Get(nodes[i].capacity, resource) <= m
    ensures m == 0 || exists i :: 0 <= i < |nodes| && m == Kube.Get(nodes[i].capacity, resource)
    decreases |nodes|
  {
    if nodes == [] then 0
    else
      var prefix := nodes[..|nodes| - 1];
      var m := MaxCapacity(prefix, resource);
      assert forall i :: 0 <= i < |prefix| ==> prefix[i] == nodes[i];
      var c := Kube.Get(nodes[|nodes| - 1].capacity, resource);
      if m < c then c else m
  }

  function GetMaxNodeCpu(nodes: seq<Kube.Node>): (m: int)
    ensures m >= 0 && forall i :: 0 <= i < |nodes| ==> Kube.Get(nodes[i].capacity, Kube.Cpu) <= m
    ensures nodes == [] ==> m == 0
  {
    MaxCapacity(nodes, Kube.Cpu)
  }

  function GetMaxNodeMem(nodes: seq<Kube.Node>): (m: int)
    ensures m >= 0 && forall i :: 0 <= i < |nodes| ==> Kube.Get(nodes[i].capacity, Kube.Memory) <= m
    ensures nodes == [] ==> m == 0
  {
    MaxCapacity(nodes, Kube.Memory)
  }

  /** What the random sources yield for one event: the inter-arrival time
      and the service time in seconds, the CPU and memory samples, and the
      `rand.Intn(50)` draw that decides the fallback duration (the second
      of the two the code makes, which is the one kept). */
  datatype Draw = Draw(interArrival: real, service: real, cpu: real, mem: real, fallback: int)

  datatype Params = Params(numEvents: int, arrivalScale: real, durationScale: real, memFactor: real)

  /** A generated event: `scenario.NewEvent(pod.Name, at, duration, pod)`
      with the pod's single container requesting `cpuMilli` and
      `memMilli`. */
  datatype Event = Event(name: string, at: int, duration: int, cpuMilli: int, memMilli: int)

  function InterArrivals(draws: seq<Draw>): (s: seq<real>)
    ensures |s| == |draws| && forall i :: 0 <= i < |draws| ==> s[i] == draws[i].interArrival
  {
    seq(|draws|, i requires 0 <= i < |draws| => draws[i].interArrival)
  }

  /** A time in seconds times a scale factor. */
  function Scaled(seconds: real, factor: real): real {
    seconds * factor
  }

  /** The arrival of event `i`: `currentTime` after `i + 1` inter-arrival
      samples, scaled and truncated to whole seconds. */
  function Arrival(draws: seq<Draw>, i: int, scale: real): int
    requires 0 <= i < |draws|
  {
    Trunc(Scaled(Seqs.Sum(InterArrivals(draws[..i + 1])), scale)) * Second
  }

  /** The duration of one event: the scaled service time truncated to whole
      seconds, or 1 to 50 seconds from the fallback draw when that is not
      positive. */
  function Duration(d: Draw, scale: real): (ns: int)
    requires 0 <= d.fallback < 50
    ensures ns > 0
    ensures Trunc(d.service * scale) > 0 ==> ns == Trunc(d.service * scale) * Second
  {
    var ns := Trunc(d.service * scale) * Second;
    if ns <= 0 then (d.fallback + 1) * Second else ns
  }

  function PodName(i: nat): string {
    "pod-" + Text.NatToString(i)
  }

  /** The running sum of the inter-arrival samples grows by one sample per
      event. */
  lemma ArrivalSumStep(draws: seq<Draw>, i: int)
    requires 0 <= i < |draws|
    ensures Seqs.Sum(InterArrivals(draws[..i + 1])) == Seqs.Sum(InterArrivals(draws[..i])) + draws[i].interArrival
  {
    assert InterArrivals(draws[..i + 1])[..i] == InterArrivals(draws[..i]);
  }

  /** Event `k` is what `generateEvents` makes in its `k`-th iteration. */
  ghost predicate Generated(e: Event, k: nat, draws: seq<Draw>, params: Params, maxNodeCpu: int, maxNodeMemory: int)
    requires k < |draws| && 0 <= draws[k].fallback < 50
  {
    e.name == PodName(k) && e.at == Arrival(draws, k, params.arrivalScale) &&
    e.duration == Duration(draws[k], params.durationScale) &&
    e.cpuMilli == PodCpu(draws[k].cpu, maxNodeCpu) &&
    e.memMilli == PodMemory(draws[k].mem, params.memFactor, maxNodeMemory)
  }

  /** `generateEvents`: `NumEvents` events named "pod-0", "pod-1", ...,
      each from its own draw, with requests clamped to the largest node. */
  method GenerateEvents(params: Params, nodes: seq<Kube.Node>, draws: seq<Draw>) returns (events: seq<Event>)
    requires |draws| >= params.numEvents
    requires forall i :: 0 <= i < |draws| ==> 0 <= draws[i].fallback < 50
    ensures |events| == (if params.numEvents > 0 then params.numEvents else 0)
    ensures forall i :: 0 <= i < |events| ==>
      events[i].name == PodName(i) &&
      events[i].at == Arrival(draws, i, params.arrivalScale) &&
      events[i].duration == Duration(draws[i], params.durationScale) &&
      events[i].cpuMilli == PodCpu(draws[i].cpu, GetMaxNodeCpu(nodes)) &&
      events[i].memMilli == PodMemory(draws[i].mem, params.memFactor, GetMaxNodeMem(nodes))
    ensures forall i :: 0 <= i < |events| ==>
      events[i].duration > 0 &&
      events[i].cpuMilli <= GetMaxNodeCpu(nodes) &&
      events[i].memMilli <= GetMaxNodeMem(nodes)
  {
    var maxNodeCpu := GetMaxNodeCpu(nodes);
    var maxNodeMemory := GetMaxNodeMem(nodes);
    events := [];
    var currentTime := 0.0;
    var i := 0;
    while i < params.numEvents
      invariant 0 <= i <= (if params.numEvents > 0 then params.numEvents else 0)
      invariant |events| == i
      invariant currentTime == Seqs.Sum(InterArrivals(draws[..i]))
      invariant forall k :: 0 <= k < i ==> Generated(events[k], k, draws, params, maxNodeCpu, maxNodeMemory)
    {
      var d := draws[i];
      ArrivalSumStep(draws, i);
      currentTime := currentTime + d.interArrival;
      var at := Trunc(Scaled(currentTime, params.arrivalScale)) * Second;
      var e := Event(PodName(i), at, Duration(d, params.durationScale),
        PodCpu(d.cpu, maxNodeCpu), PodMemory(d.mem, params.memFactor, maxNodeMemory));
      assert Generated(e, i, draws, params, maxNodeCpu, maxNodeMemory);
      events := events + [e];
      i := i + 1;
    }
  }

  lemma ScaleMonotone(x: real, y: real, scale: real)
    requires x <= y && scale >= 0.0
    ensures Scaled(x, scale) <= Scaled(y, scale)
  {
    assert y * scale - x * scale == (y - x) * scale;
  }

  /** With non-negative inter-arrival samples and scale the arrivals never
      go backwards. */
  lemma ArrivalsNonDecreasing(draws: seq<Draw>, i: int, j: int, scale: real)
    requires forall k :: 0 <= k < |draws| ==> draws[k].interArrival >= 0.0
    requires scale >= 0.0 && 0 <= i <= j < |draws|
    ensures Arrival(draws, i, scale) <= Arrival(draws, j, scale)
  {
    var all := InterArrivals(draws[..j + 1]);
    var head := InterArrivals(draws[..i + 1]);
    var tail := all[i + 1..];
    assert all[..i + 1] == head;
    assert all == all[..i + 1] + tail;
    Seqs.SumAppend(head, tail);
    Seqs.SumNonNegative(head);
    Seqs.SumNonNegative(tail);
    ScaleMonotone(Seqs.Sum(head), Seqs.Sum(all), scale);
    ScaleMonotone(0.0, Seqs.Sum(head), scale);
    TruncMonotone(Scaled(Seqs.Sum(head), scale), Scaled(Seqs.Sum(all), scale));
  }

  /** The index reads back from a generated name. */
  lemma PodNameIndex(i: nat)
    ensures Text.AllDigits(PodName(i)[4..]) && Text.DigitsValue(PodName(i)[4..]) == i
  {
    assert PodName(i)[4..] == Text.NatToString(i);
    Text.DigitsValueOfNatToString(i);
  }

  /** No two generated events share a name. */
  lemma PodNamesDistinct(i: nat, j: nat)
    requires i != j
    ensures PodName(i) != PodName(j)
  {
    PodNameIndex(i);
    PodNameIndex(j);
  }

  /** generate.go's `randomBetween`: `min` when the range is empty or a
      single value, otherwise `min` plus an `Int63n(max - min + 1)` draw. */
  function RandomBetween(min: int, max: int, draw: int): (r: int)
    requires max > min ==> 0 <= draw < max - min + 1
    ensures max <= min ==> r == min
    ensures max > min ==> min <= r <= max
  {
    if max < min then min
    else if max == min then min
    else draw + min
  }

  /** Every value of a non-empty range is the result of some draw. */
  lemma RandomBetweenCoversRange(min: int, max: int, v: int)
    requires min < max && min <= v <= max
    ensures RandomBetween(min, max, v - min) == v
  {
  }

  /** `geometricRand`: outside 0 < p < 1 the fallback of one second;
      inside, the sample `ceil(log(u) / log(1 - p))`, computed by the
      caller. */
  function GeometricRand(p: real, sample: int): (n: int)
    ensures !(0.0 < p < 1.0) ==> n == 1
    ensures 0.0 < p < 1.0 ==> n == sample
  {
    if p <= 0.0 || p >= 1.0 then 1 else sample
  }

  /** The `Run` loop's clock: each step adds the inter-arrival time in
      seconds converted to whole nanoseconds, and event `i` arrives at the
      clock after step `i`. */
  function RunArrivals(interArrivals: seq<real>): (at: seq<int>)
    ensures |at| == |interArrivals|
    ensures forall i :: 0 < i < |at| ==>
      at[i] == at[i - 1] + Trunc(interArrivals[i] * Second as real)
    ensures |at| > 0 ==> at[0] == Trunc(interArrivals[0] * Second as real)
    decreases |interArrivals|
  {
    if interArrivals == [] then []
    else
      var n := |interArrivals| - 1;
      var prefix := RunArrivals(interArrivals[..n]);
      var step := Trunc(interArrivals[n] * Second as real);
      prefix + [(if n == 0 then 0 else prefix[n - 1]) + step]
  }

  /** With non-negative samples the `Run` loop's arrivals never go
      backwards. */
  lemma {:induction false} RunArrivalsNonDecreasing(interArrivals: seq<real>, i: int, j: int)
    requires forall k :: 0 <= k < |interArrivals| ==> interArrivals[k] >= 0.0
    requires 0 <= i <= j < |interArrivals|
    ensures RunArrivals(interArrivals)[i] <= RunArrivals(interArrivals)[j]
    decreases j - i
  {
    if i < j {
      RunArrivalsNonDecreasing(interArrivals, i, j - 1);
      assert Trunc(interArrivals[j] * Second as real) >= 0;
    }
  }
}

=== FILE: heap.dfy ===
/**
 * The binary min-heap behind pkg/container/heap.go and the scheduler's
 * event queue. Both implement Go's heap.Interface and let the standard
 * library's container/heap package do the sifting, so this module models
 * that package's `up`, `down`, `Push`, `Pop` and `Remove` over an
 * immutable sequence, for any `less` that is a strict weak order.
 *
 * The heap property is the one container/heap maintains: no element is
 * `less` than its parent.
 */
module Heap {

  /** Irreflexive, transitive and negatively transitive: incomparability is
      an equivalence, which is what the heap code silently relies on. */
  ghost predicate StrictWeakOrder<T(!new)>(less: (T, T) -> bool) {
    && (forall x :: !less(x, x))
    && (forall x, y, z :: less(x, y) && less(y, z) ==> less(x, z))
    && (forall x, y, z :: !less(x, y) && !less(y, z) ==> !less(x, z))
  }

  function Parent(i: nat): nat
    requires i > 0
  {
    (i - 1) / 2
  }

  /** No element is `less` than its parent. */
  ghost predicate IsHeap<T>(less: (T, T) -> bool, a: seq<T>) {
    forall k :: 0 < k < |a| ==> !less(a[k], a[Parent(k)])
  }

  /** No element of `s` is `less` than `x`. */
  ghost predicate NoneLess<T>(less: (T, T) -> bool, s: seq<T>, x: T) {
    forall k :: 0 <= k < |s| ==> !less(s[k], x)
  }

  /** Sorted in `less` order: no later element is `less` than an earlier one. */
  ghost predicate SortedBy<T>(less: (T, T) -> bool, s: seq<T>) {
    forall i, j :: 0 <= i < j < |s| ==> !less(s[j], s[i])
  }

  /** heap.Interface's Swap. */
  function Swap<T>(a: seq<T>, i: nat, j: nat): (r: seq<T>)
    requires i < |a| && j < |a|
    ensures |r| == |a|
    ensures r[i] == a[j] && r[j] == a[i]
    ensures forall k :: 0 <= k < |a| && k != i && k != j ==> r[k] == a[k]
    ensures multiset(r) == multiset(a)
  {
    a[i := a[j]][j := a[i]]
  }

  lemma {:induction false} RootIsMinimal<T(!new)>(less: (T, T) -> bool, a: seq<T>, k: nat)
    requires StrictWeakOrder(less)
    requires IsHeap(less, a)
    requires k < |a|
    ensures !less(a[k], a[0])
    decreases k
  {
    if k > 0 {
      RootIsMinimal(less, a, Parent(k));
    }
  }

  /** The root of a non-empty heap is not greater than anything in it. */
  lemma RootIsMinimum<T(!new)>(less: (T, T) -> bool, a: seq<T>)
    requires StrictWeakOrder(less)
    requires IsHeap(less, a)
    requires |a| > 0
    ensures NoneLess(less, a, a[0])
  {
    forall k | 0 <= k < |a|
      ensures !less(a[k], a[0])
    {
      RootIsMinimal(less, a, k);
    }
  }

  /** NoneLess is a property of the multiset of elements only. */
  lemma NoneLessSubMultiset<T>(less: (T, T) -> bool, s: seq<T>, t: seq<T>, x: T)
    requires multiset(s) <= multiset(t)
    requires NoneLess(less, t, x)
    ensures NoneLess(less, s, x)
  {
    forall k | 0 <= k < |s|
      ensures !less(s[k], x)
    {
      assert s[k] in multiset(s);
      assert s[k] in multiset(t);
      var j :| 0 <= j < |t| && t[j] == s[k];
    }
  }

  /** container/heap's `up`: move the element at j0 towards the root until
      its parent is not greater than it. Every other parent/child pair is
      already in order, and j0's children are not less than j0's parent. */
  method Up<T(!new)>(less: (T, T) -> bool, a: seq<T>, j0: nat) returns (r: seq<T>)
    requires StrictWeakOrder(less)
    requires j0 < |a|
    requires forall k :: 0 < k < |a| && k != j0 ==> !less(a[k], a[Parent(k)])
    requires j0 > 0 ==> forall k :: 0 < k < |a| && Parent(k) == j0 ==> !less(a[k], a[Parent(j0)])
    ensures IsHeap(less, r)
    ensures |r| == |a| && multiset(r) == multiset(a)
  {
    r := a;
    var j: nat := j0;
    while j > 0 && less(r[j], r[Parent(j)])
      invariant j < |r| == |a|
      invariant multiset(r) == multiset(a)
      invariant InOrderBut(less, r, j)
      invariant ChildrenNotBelowGrandparent(less, r, j)
      decreases j
    {
      UpStep(less, r, j);
      var p := Parent(j);
      r := Swap(r, p, j);
      j := p;
    }
  }

  /** Every parent/child pair is in order, except where j is the child. */
  ghost predicate InOrderBut<T>(less: (T, T) -> bool, r: seq<T>, j: nat) {
    forall k :: 0 < k < |r| && k != j ==> !less(r[k], r[Parent(k)])
  }

  /** One iteration of `up`: swapping j with its parent p, which is greater,
      keeps the loop invariant with p in place of j. */
  lemma UpStep<T(!new)>(less: (T, T) -> bool, r: seq<T>, j: nat)
    requires StrictWeakOrder(less)
    requires 0 < j < |r|
    requires less(r[j], r[Parent(j)])
    requires InOrderBut(less, r, j)
    requires ChildrenNotBelowGrandparent(less, r, j)
    ensures InOrderBut(less, Swap(r, Parent(j), j), Parent(j))
    ensures ChildrenNotBelowGrandparent(less, Swap(r, Parent(j), j), Parent(j))
  {
    var p := Parent(j);
    var s := Swap(r, p, j);
    forall k | 0 < k < |s| && k != p
      ensures !less(s[k], s[Parent(k)])
    {
      if k == j {
      } else if Parent(k) == j {
      } else if Parent(k) == p {
        assert !less(r[k], r[p]);
      }
    }
    if p > 0 {
      forall k | 0 < k < |s| && Parent(k) == p
        ensures !less(s[k], s[Parent(p)])
      {
        assert !less(r[p], r[Parent(p)]);
        if k != j {
          assert !less(r[k], r[p]);
        }
      }
    }
  }

  /** Every parent/child pair is in order, except those where i is the
      child or the parent. */
  ghost predicate InOrderExcept<T>(less: (T, T) -> bool, r: seq<T>, i: nat) {
    forall k :: 0 < k < |r| && k != i && Parent(k) != i ==> !less(r[k], r[Parent(k)])
  }

  /** The children of i are not less than i's parent. */
  ghost predicate ChildrenNotBelowGrandparent<T>(less: (T, T) -> bool, r: seq<T>, i: nat) {
    i > 0 && i < |r| ==> forall k :: 0 < k < |r| && Parent(k) == i ==> !less(r[k], r[Parent(i)])
  }

  lemma ParentOfChild(i: nat, k: nat)
    requires k > 0
    ensures Parent(k) == i <==> k == 2 * i + 1 || k == 2 * i + 2
  {
  }

  /** j is the child of i that `down` picks: the right child only when it
      exists and is less than the left one. */
  ghost predicate IsMinChild<T>(less: (T, T) -> bool, r: seq<T>, i: nat, j: nat) {
    && (j == 2 * i + 1 || j == 2 * i + 2) && j < |r|
    && (j == 2 * i + 2 ==> less(r[j], r[j - 1]))
    && (j == 2 * i + 1 && j + 1 < |r| ==> !less(r[j + 1], r[j]))
  }

  function MinChild<T>(less: (T, T) -> bool, r: seq<T>, i: nat): (j: nat)
    requires 2 * i + 1 < |r|
    ensures IsMinChild(less, r, i, j)
  {
    if 2 * i + 2 < |r| && less(r[2 * i + 2], r[2 * i + 1]) then 2 * i + 2 else 2 * i + 1
  }

  /** One iteration of `down`: swapping i with its smaller child j, which is
      less than it, keeps the loop invariant with j in place of i. */
  lemma DownStep<T(!new)>(less: (T, T) -> bool, r: seq<T>, i: nat, j: nat)
    requires StrictWeakOrder(less)
    requires i < |r| && IsMinChild(less, r, i, j)
    requires less(r[j], r[i])
    requires InOrderExcept(less, r, i)
    requires ChildrenNotBelowGrandparent(less, r, i)
    ensures InOrderExcept(less, Swap(r, i, j), j)
    ensures ChildrenNotBelowGrandparent(less, Swap(r, i, j), j)
    ensures !less(Swap(r, i, j)[j], Swap(r, i, j)[i])
    ensures i > 0 ==> !less(Swap(r, i, j)[i], Swap(r, i, j)[Parent(i)])
  {
    var s := Swap(r, i, j);
    var sib := if j == 2 * i + 1 then j + 1 else j - 1;
    assert Parent(j) == i;
    forall k | 0 < k < |s| && k != j && Parent(k) != j
      ensures !less(s[k], s[Parent(k)])
    {
      ParentOfChild(i, k);
      if k == i {
      } else if k == sib {
        assert Parent(k) == i;
      } else {
        ParentOfChild(j, k);
      }
    }
    forall k | 0 < k < |s| && Parent(k) == j
      ensures !less(s[k], s[Parent(j)])
    {
      ParentOfChild(j, k);
      ParentOfChild(i, k);
    }
  }

  /** When neither child of i is less than it, all of i's children are in
      order (the larger child by negative transitivity). */
  lemma DownStop<T(!new)>(less: (T, T) -> bool, r: seq<T>, i: nat, j: nat)
    requires StrictWeakOrder(less)
    requires i < |r| && IsMinChild(less, r, i, j)
    requires !less(r[j], r[i])
    ensures forall k :: 0 < k < |r| && Parent(k) == i ==> !less(r[k], r[i])
  {
    forall k | 0 < k < |r| && Parent(k) == i
      ensures !less(r[k], r[i])
    {
      ParentOfChild(i, k);
    }
  }

  /** container/heap's `down`: move the element at i0 away from the root,
      swapping it with its smaller child, until no child is less than it.
      Reports whether the element moved. Every parent/child pair not
      involving i0 is in order, and i0's children are not less than i0's
      parent. */
  method Down<T(!new)>(less: (T, T) -> bool, a: seq<T>, i0: nat) returns (r: seq<T>, moved: bool)
    requires StrictWeakOrder(less)
    requires i0 < |a|
    requires InOrderExcept(less, a, i0)
    requires ChildrenNotBelowGrandparent(less, a, i0)
    ensures |r| == |a| && multiset(r) == multiset(a)
    ensures forall k :: 0 < k < |r| && (moved || k != i0) ==> !less(r[k], r[Parent(k)])
    ensures !moved ==> r == a
  {
    r := a;
    var i := i0;
    while true
      invariant i0 <= i < |r| == |a|
      invariant multiset(r) == multiset(a)
      invariant i == i0 ==> r == a
      invariant InOrderExcept(less, r, i)
      invariant ChildrenNotBelowGrandparent(less, r, i)
      invariant i > i0 ==> !less(r[i], r[Parent(i)])
      decreases |r| - i
    {
      var j1 := 2 * i + 1;
      if j1 >= |r| {
        Leaf(r, i);
        break;
      }
      var j := MinChild(less, r, i);
      if !less(r[j], r[i]) {
        DownStop(less, r, i, j);
        break;
      }
      DownStep(less, r, i, j);
      r := Swap(r, i, j);
      i := j;
    }
    DownDone(less, r, i, i0);
    moved := i > i0;
  }

  /** A position without children is nobody's parent. */
  lemma Leaf<T>(r: seq<T>, i: nat)
    requires 2 * i + 1 >= |r|
    ensures forall k :: 0 < k < |r| ==> Parent(k) != i
  {
    forall k | 0 < k < |r|
      ensures Parent(k) != i
    {
      ParentOfChild(i, k);
    }
  }

  /** When `down` stops at i, every pair is in order, except i under its
      parent when i never moved from i0. */
  lemma DownDone<T>(less: (T, T) -> bool, r: seq<T>, i: nat, i0: nat)
    requires i0 <= i < |r|
    requires InOrderExcept(less, r, i)
    requires i > i0 ==> !less(r[i], r[Parent(i)])
    requires forall k :: 0 < k < |r| && Parent(k) == i ==> !less(r[k], r[i])
    ensures forall k :: 0 < k < |r| && (i > i0 || k != i0) ==> !less(r[k], r[Parent(k)])
  {
  }

  /** heap.Push: append, then move the new element up. */
  method Push<T(!new)>(less: (T, T) -> bool, a: seq<T>, x: T) returns (r: seq<T>)
    requires StrictWeakOrder(less)
    requires IsHeap(less, a)
    ensures IsHeap(less, r)
    ensures |r| == |a| + 1
    ensures multiset(r) == multiset(a) + multiset{x}
  {
    r := Up(less, a + [x], |a|);
  }

  /** heap.Pop: swap the root with the last element, restore the heap on
      the prefix and drop the last element, which is returned. Go panics on
      an empty heap. */
  method Pop<T(!new)>(less: (T, T) -> bool, a: seq<T>) returns (x: T, r: seq<T>)
    requires StrictWeakOrder(less)
    requires IsHeap(less, a)
    requires |a| > 0
    ensures x == a[0]
    ensures NoneLess(less, a, x)
    ensures NoneLess(less, r, x)
    ensures IsHeap(less, r)
    ensures |r| == |a| - 1
    ensures multiset(r) + multiset{x} == multiset(a)
  {
    var n := |a| - 1;
    var s := Swap(a, 0, n);
    x := s[n];
    assert s == s[..n] + [x];
    if n > 0 {
      var moved;
      r, moved := Down(less, s[..n], 0);
    } else {
      r := [];
    }
    RootIsMinimum(less, a);
    assert multiset(r) <= multiset(a);
    NoneLessSubMultiset(less, r, a, x);
  }

  /** heap.Remove(i): swap element i with the last one, restore the heap
      around i (down, and up when down did not move it), drop the last
      element and return it. */
  method RemoveAt<T(!new)>(less: (T, T) -> bool, a: seq<T>, i: nat) returns (x: T, r: seq<T>)
    requires StrictWeakOrder(less)
    requires IsHeap(less, a)
    requires i < |a|
    ensures x == a[i]
    ensures IsHeap(less, r)
    ensures |r| == |a| - 1
    ensures multiset(r) + multiset{x} == multiset(a)
  {
    var n := |a| - 1;
    if n == i {
      x := a[n];
      r := a[..n];
      assert a == r + [x];
      return;
    }
    var s := Swap(a, i, n);
    x := s[n];
    assert s == s[..n] + [x];
    var t := s[..n];
    if i > 0 {
      forall k | 0 < k < |t| && Parent(k) == i
        ensures !less(t[k], t[Parent(i)])
      {
        GrandchildNotLess(less, a, i, k);
      }
    }
    var moved;
    r, moved := Down(less, t, i);
    if !moved {
      r := Up(less, r, i);
    }
  }

  /** In a heap, the children of i are not less than i's parent (negative
      transitivity through i). */
  lemma GrandchildNotLess<T(!new)>(less: (T, T) -> bool, a: seq<T>, i: nat, k: nat)
    requires StrictWeakOrder(less)
    requires IsHeap(less, a)
    requires 0 < i && 0 < k < |a| && Parent(k) == i
    ensures !less(a[k], a[Parent(i)])
  {
  }

  /** Repeated heap.Pop drains a heap in `less` order: the output is sorted
      and holds exactly the heap's elements. */
  method Drain<T(!new)>(less: (T, T) -> bool, a: seq<T>) returns (out: seq<T>)
    requires StrictWeakOrder(less)
    requires IsHeap(less, a)
    ensures SortedBy(less, out)
    ensures multiset(out) == multiset(a)
  {
    out := [];
    var h := a;
    while |h| > 0
      invariant IsHeap(less, h)
      invariant multiset(out) + multiset(h) == multiset(a)
      invariant SortedBy(less, out)
      invariant forall k, i :: 0 <= k < |h| && 0 <= i < |out| ==> !less(h[k], out[i])
      decreases |h|
    {
      var x;
      var h';
      x, h' := Pop(less, h);
      forall k, i | 0 <= k < |h'| && 0 <= i < |out|
        ensures !less(h'[k], out[i])
      {
        var y := h'[k];
        assert y in multiset(h');
        assert y in multiset(h);
        var k' :| 0 <= k' < |h| && h[k'] == y;
      }
      out := out + [x];
      h := h';
    }
  }
}

=== FILE: int64.dfy ===
/**
 * Go's int64 as the scheduler metrics use it: the range, and the
 * two's-complement wrap-around of atomic adds.
 */
module Int64 {
  const Modulus: int := 0x1_0000_0000_0000_0000
  const Min: int := -0x8000_0000_0000_0000
  const Max: int := 0x7FFF_FFFF_FFFF_FFFF

  type Int64 = x: int | Min <= x <= Max

  /** How many times the modulus `x` lies above the int64 range. */
  function Quot(x: int): int {
    (x - Min) / Modulus
  }

  /** Two's-complement wrap-around: `x` reduced into the int64 range. */
  function Wrap(x: int): (r: Int64)
    ensures r == x - Quot(x) * Modulus
    ensures Min <= x <= Max ==> r == x
  {
    x - Quot(x) * Modulus
  }

  /** Adding whole multiples of the modulus to an int64 wraps back to it. */
  lemma WrapShift(v: Int64, j: int)
    ensures Wrap(v + j * Modulus) == v
  {
    var a := v - Min;
    assert 0 <= a < Modulus;
    assert (a + j * Modulus) / Modulus == j;
  }
}

=== FILE: kube.dfy ===
/**
 * The Kubernetes objects the simulator reads, reduced to the fields the
 * modelled code uses. A resource quantity is an integer number of
 * milli-units (milli-cores for "cpu", milli-bytes for "memory"), which is
 * what `Quantity.MilliValue()` returns; sums of quantities are exact.
 */
module Kube {

  const Cpu: string := "cpu"
  const Memory: string := "memory"
  const PodsResource: string := "pods"

  /** A resource list: resource name to quantity in milli-units. */
  type ResourceList = map<string, int>

  /** `Quantity.Value()`: the quantity in whole units, rounded up away from
      zero. */
  function Value(milli: int): (v: int)
    ensures milli >= 0 ==> (v - 1) * 1000 < milli <= v * 1000
    ensures milli < 0 ==> v * 1000 <= milli < (v + 1) * 1000
  {
    if milli >= 0 then (milli + 999) / 1000 else -((-milli + 999) / 1000)
  }

  /** A resource list's entry, or zero when it has none. */
  function Get(rl: ResourceList, name: string): int {
    if name in rl then rl[name] else 0
  }

  /** pkg/cache/resource_key.go: what identifies a pod or a node. */
  datatype Key = Key(uid: string, name: string)

  datatype Container = Container(requests: ResourceList)

  datatype Pod = Pod(
    uid: string,
    name: string,
    namespace: string,
    nodeName: string,
    creation: int,
    containers: seq<Container>)

  datatype Condition = Condition(kind: string, status: string)

  datatype Node = Node(
    uid: string,
    name: string,
    labels: seq<string>,
    capacity: ResourceList,
    allocatable: ResourceList,
    conditions: seq<Condition>)

  function PodKey(p: Pod): Key {
    Key(p.uid, p.name)
  }

  function NodeKey(n: Node): Key {
    Key(n.uid, n.name)
  }

  /** `Spec.Containers[0].Resources.Requests[name]`: the first container's
      request, zero when absent. Go panics on a pod without containers,
      hence the precondition. */
  function FirstRequest(p: Pod, name: string): (q: int)
    requires |p.containers| > 0
    ensures name in p.containers[0].requests ==> q == p.containers[0].requests[name]
    ensures name !in p.containers[0].requests ==> q == 0
  {
    Get(p.containers[0].requests, name)
  }
}

=== FILE: metrics.dfy ===
/**
 * pkg/scheduler/metrics.go: the scheduler's int64 counters and gauges, the
 * execution-time histogram with its 1000-sample buffer, its statistics and
 * percentiles, and the success rate.
 *
 * int64 arithmetic wraps around as Go's atomic adds do; float64 is an
 * exact real. Atomicity and the histogram's lock are left out.
 */
module SchedulerMetrics {
  import opened Wrappers
  import opened Int64
  import Seqs

  // ---- AtomicCounter and AtomicGauge ----

  datatype Counter = Counter(value: Int64)

  function NewCounter(): (c: Counter)
    ensures c.value == 0
  {
    Counter(0)
  }

  /** `Add`: `atomic.AddInt64`, wrapping on overflow. */
  function CounterAdd(c: Counter, delta: Int64): (r: Counter)
    ensures Min <= c.value + delta <= Max ==> r.value == c.value + delta
    ensures c.value + delta > Max ==> r.value == c.value + delta - Modulus
    ensures c.value + delta < Min ==> r.value == c.value + delta + Modulus
  {
    Counter(Wrap(c.value + delta))
  }

  /** `Inc`: one more, except that the largest int64 wraps to the smallest. */
  function Inc(c: Counter): (r: Counter)
    ensures c.value < Max ==> r.value == c.value + 1
    ensures c.value == Max ==> r.value == Min
  {
    CounterAdd(c, 1)
  }

  function Reset(c: Counter): (r: Counter)
    ensures r.value == 0
  {
    Counter(0)
  }

  /** n increments from zero count n, as long as n fits in an int64. */
  lemma {:induction false} IncCounts(n: nat)
    requires n <= Max
    ensures IncTimes(NewCounter(), n).value == n
  {
    if n > 0 {
      IncCounts(n - 1);
    }
  }

  function IncTimes(c: Counter, n: nat): Counter {
    if n == 0 then c else Inc(IncTimes(c, n - 1))
  }

  datatype Gauge = Gauge(value: Int64)

  /** `Set` and its alias `Store`. */
  function GaugeSet(g: Gauge, v: Int64): (r: Gauge)
    ensures r.value == v
  {
    Gauge(v)
  }

  function GaugeAdd(g: Gauge, delta: Int64): (r: Gauge)
    ensures Min <= g.value + delta <= Max ==> r.value == g.value + delta
    ensures r.value == g.value + delta - Quot(g.value + delta) * Modulus
  {
    Gauge(Wrap(g.value + delta))
  }

  /** `Sub`: adds the negated delta, negated in int64 as well. */
  function GaugeSub(g: Gauge, delta: Int64): (r: Gauge) {
    GaugeAdd(g, Wrap(-(delta as int)))
  }

  /** Sub(d) is Add(−d) for every delta but the smallest int64, whose
      negation wraps to itself; and Sub undoes Add for every delta. */
  lemma SubUndoesAdd(g: Gauge, delta: Int64)
    ensures delta != Min ==> GaugeSub(g, delta) == GaugeAdd(g, -delta)
    ensures delta == Min ==> GaugeSub(g, delta) == GaugeAdd(g, delta)
    ensures GaugeSub(GaugeAdd(g, delta), delta) == g
  {
    NegationWraps(delta);
    AddThenSub(g, delta);
  }

  /** Negation in int64: exact except for the smallest value, which wraps
      to itself. */
  lemma NegationWraps(delta: Int64)
    ensures delta != Min ==> Wrap(-(delta as int)) == -delta
    ensures delta == Min ==> Wrap(-(delta as int)) == Min
  {
    if delta == Min {
      assert Quot(-(delta as int)) == 1;
    }
  }

  lemma AddThenSub(g: Gauge, delta: Int64)
    ensures GaugeSub(GaugeAdd(g, delta), delta) == g
  {
    var r1 := Wrap(g.value + delta);
    var n := Wrap(-(delta as int));
    var q := Quot(g.value + delta) + Quot(-(delta as int));
    assert r1 as int + n as int == g.value + (-q) * Modulus;
    WrapShift(g.value, -q);
  }

  // ---- Histogram ----

  /** The buffer capacity `make([]float64, 0, 1000)` reserves. */
  const SampleCapacity: nat := 1000

  datatype Histogram = Histogram(samples: seq<real>, count: int, sum: real, min: real, max: real)

  function NewHistogram(): (h: Histogram)
    ensures h.samples == [] && h.count == 0 && h.sum == 0.0 && h.min == 0.0 && h.max == 0.0
  {
    Histogram([], 0, 0.0, 0.0, 0.0)
  }

  /** The histogram after one more observation, the sample stored in the
      buffer at `slot` once the buffer is full. */
  function Observed(h: Histogram, v: real, slot: nat): (r: Histogram)
    requires |h.samples| >= SampleCapacity ==> slot < |h.samples|
    ensures r.count == h.count + 1 && r.sum == h.sum + v
    ensures r.count == 1 ==> r.min == v && r.max == v
    ensures r.count != 1 ==> r.min <= h.min && r.min <= v && (r.min == h.min || r.min == v)
    ensures r.count != 1 ==> r.max >= h.max && r.max >= v && (r.max == h.max || r.max == v)
    ensures |h.samples| < SampleCapacity ==> r.samples == h.samples + [v]
    ensures |h.samples| >= SampleCapacity ==> r.samples == h.samples[slot := v]
  {
    var count := h.count + 1;
    var min := if count == 1 || v < h.min then v else h.min;
    var max := if count == 1 || v > h.max then v else h.max;
    var samples := if |h.samples| < SampleCapacity then h.samples + [v] else h.samples[slot := v];
    Histogram(samples, count, h.sum + v, min, max)
  }

  /** The buffer slot `Observe` writes once the buffer is full:
      `h.count % len(h.samples)`, taken after `count` was incremented. */
  function SlotAsWritten(h: Histogram): (slot: nat)
    requires |h.samples| > 0
    ensures slot < |h.samples|
  {
    (h.count + 1) % |h.samples|
  }

  /** The slot that replaces the oldest sample: the count before the
      increment. */
  function Slot(h: Histogram): (slot: nat)
    requires |h.samples| > 0
    ensures slot < |h.samples|
  {
    h.count % |h.samples|
  }

  /** `Observe` as written. */
  function ObserveAsWritten(h: Histogram, v: real): (r: Histogram)
    requires |h.samples| <= SampleCapacity
    ensures |r.samples| <= SampleCapacity
  {
    if |h.samples| < SampleCapacity then Observed(h, v, 0) else Observed(h, v, SlotAsWritten(h))
  }

  /** `Observe`, replacing the oldest sample as its comment intends. */
  function Observe(h: Histogram, v: real): (r: Histogram)
    requires |h.samples| <= SampleCapacity
    ensures |r.samples| <= SampleCapacity
  {
    if |h.samples| < SampleCapacity then Observed(h, v, 0) else Observed(h, v, Slot(h))
  }

  /** The histogram after observing `obs` in order from a new one. */
  function ObserveAll(obs: seq<real>): (h: Histogram)
    ensures h.count == |obs| && |h.samples| == MinNat(|obs|, SampleCapacity)
  {
    if obs == [] then NewHistogram() else Observe(ObserveAll(obs[..|obs| - 1]), obs[|obs| - 1])
  }

  function ObserveAllAsWritten(obs: seq<real>): (h: Histogram)
    ensures h.count == |obs| && |h.samples| == MinNat(|obs|, SampleCapacity)
  {
    if obs == [] then NewHistogram() else ObserveAsWritten(ObserveAllAsWritten(obs[..|obs| - 1]), obs[|obs| - 1])
  }

  function MinNat(a: nat, b: nat): nat {
    if a < b then a else b
  }

  /** `Reset`: the buffer emptied (its capacity kept), the totals zeroed. */
  function ResetHistogram(h: Histogram): (r: Histogram)
    ensures r.samples == [] && r.count == 0 && r.sum == 0.0 && r.min == 0.0 && r.max == 0.0
  {
    h.(samples := h.samples[..0], count := 0, sum := 0.0, min := 0.0, max := 0.0)
  }

  /** After `Reset` nothing observed before matters: the next observations
      build the same histogram as from a new one. */
  lemma ResetForgets(h: Histogram, v: real, w: real)
    ensures Observe(ResetHistogram(h), v) == ObserveAll([v])
    ensures Observe(Observe(ResetHistogram(h), v), w) == ObserveAll([v, w])
  {
    assert [v, w][..1] == [v];
    assert [v][..0] == [];
  }

  /** The sum of a run of observations. */
  lemma {:induction false} ObserveAllSum(obs: seq<real>)
    ensures ObserveAll(obs).sum == Seqs.Sum(obs)
    decreases |obs|
  {
    if obs != [] {
      ObserveAllSum(obs[..|obs| - 1]);
    }
  }

  /** Min and max are attained by observations and bound all of them. */
  lemma {:induction false} ObserveAllMinMax(obs: seq<real>)
    requires |obs| > 0
    ensures var h := ObserveAll(obs);
      h.min in obs && h.max in obs && h.min <= h.max &&
      forall i :: 0 <= i < |obs| ==> h.min <= obs[i] <= h.max
    decreases |obs|
  {
    if |obs| > 1 {
      var init := obs[..|obs| - 1];
      ObserveAllMinMax(init);
      assert forall i :: 0 <= i < |init| ==> init[i] == obs[i];
      assert forall x :: x in init ==> x in obs;
    }
  }

  /** The buffer holds exactly the latest 1000 observations, the i-th at
      slot i mod 1000. */
  lemma {:induction false} ObserveAllRing(obs: seq<real>)
    ensures var h := ObserveAll(obs);
      forall i :: |obs| - |h.samples| <= i < |obs| ==> h.samples[i % SampleCapacity] == obs[i]
    decreases |obs|
  {
    if obs != [] {
      var n := |obs| - 1;
      var init := obs[..n];
      ObserveAllRing(init);
      assert obs == init + [obs[n]];
      RingStep(init, obs[n], ObserveAll(init));
    }
  }

  /** The buffer holds the latest observations, each in the slot of its
      position. */
  ghost predicate Ring(obs: seq<real>, h: Histogram)
    requires |h.samples| <= |obs|
    requires |h.samples| == SampleCapacity || |h.samples| == |obs|
  {
    forall i :: |obs| - |h.samples| <= i < |obs| ==> h.samples[i % SampleCapacity] == obs[i]
  }

  /** One more observation keeps the ring's layout. */
  lemma {:induction false} RingStep(init: seq<real>, v: real, h: Histogram)
    requires h == ObserveAll(init)
    requires Ring(init, h)
    ensures Ring(init + [v], Observe(h, v))
  {
    if |init| < SampleCapacity {
      RingGrow(init, v, h);
    } else {
      RingWrap(init, v, h);
    }
  }

  lemma {:induction false} RingGrow(init: seq<real>, v: real, h: Histogram)
    requires |init| < SampleCapacity && |h.samples| == |init|
    requires Ring(init, h)
    ensures Ring(init + [v], Observe(h, v))
  {
    var o, r := init + [v], Observe(h, v);
    assert r.samples == h.samples + [v];
    forall i | |o| - |r.samples| <= i < |o|
      ensures r.samples[i % SampleCapacity] == o[i]
    {
      assert i % SampleCapacity == i;
      if i < |init| {
        assert h.samples[i % SampleCapacity] == init[i];
      }
    }
  }

  lemma {:induction false} RingWrap(init: seq<real>, v: real, h: Histogram)
    requires |init| >= SampleCapacity && |h.samples| == SampleCapacity && h.count == |init|
    requires Ring(init, h)
    ensures Ring(init + [v], Observe(h, v))
  {
    var o, r, n := init + [v], Observe(h, v), |init|;
    assert r.samples == h.samples[n % SampleCapacity := v];
    forall i | |o| - |r.samples| <= i < |o|
      ensures r.samples[i % SampleCapacity] == o[i]
    {
      if i < n {
        RingSlotsDiffer(i, n);
        assert h.samples[i % SampleCapacity] == init[i];
      }
    }
  }

  /** Two observations fewer than 1000 apart use different slots. */
  lemma RingSlotsDiffer(i: int, n: int)
    requires 0 <= i < n < i + SampleCapacity
    ensures i % SampleCapacity != n % SampleCapacity
  {
    var a, b := i / SampleCapacity, n / SampleCapacity;
    assert i == a * SampleCapacity + i % SampleCapacity;
    assert n == b * SampleCapacity + n % SampleCapacity;
  }

  /** Both versions of `Observe` agree until the buffer is full. */
  lemma {:induction false} AsWrittenAgreesWhileFilling(obs: seq<real>)
    requires |obs| <= SampleCapacity
    ensures ObserveAllAsWritten(obs) == ObserveAll(obs)
    decreases |obs|
  {
    if obs != [] {
      AsWrittenAgreesWhileFilling(obs[..|obs| - 1]);
    }
  }

  /** As written, the 1001st observation overwrites slot 1, which holds the
      second observation, while the first observation stays in slot 0: the
      buffer no longer holds the latest 1000 observations. */
  lemma AsWrittenKeepsOldest(obs: seq<real>)
    requires |obs| == SampleCapacity + 1
    ensures var h := ObserveAllAsWritten(obs);
      h.samples[0] == obs[0] && h.samples[1] == obs[SampleCapacity]
  {
    var init := obs[..SampleCapacity];
    AsWrittenAgreesWhileFilling(init);
    ObserveAllRing(init);
    assert init[0] == obs[0];
  }

  /** The corrected buffer after the same 1001 observations: the first one
      is gone, replaced by the newest. */
  lemma ObserveReplacesOldest(obs: seq<real>)
    requires |obs| == SampleCapacity + 1
    ensures var h := ObserveAll(obs);
      h.samples[0] == obs[SampleCapacity] && h.samples[1] == obs[1]
  {
    ObserveAllRing(obs);
  }

  // ---- Stats ----

  /** Go's bubble sort over a copy of the samples. */
  method BubbleSort(s: seq<real>) returns (r: seq<real>)
    ensures Sorted(r)
    ensures multiset(r) == multiset(s) && |r| == |s|
  {
    r := s;
    var n := |r|;
    var i := 0;
    while i < n - 1
      invariant 0 <= i <= if n > 0 then n - 1 else 0
      invariant |r| == n && multiset(r) == multiset(s)
      invariant SortedFrom(r, n - i)
      invariant forall a, b :: 0 <= a < n - i <= b < n ==> r[a] <= r[b]
    {
      var j := 0;
      while j < n - i - 1
        invariant 0 <= j <= n - i - 1
        invariant |r| == n && multiset(r) == multiset(s)
        invariant SortedFrom(r, n - i)
        invariant forall a, b :: 0 <= a < n - i <= b < n ==> r[a] <= r[b]
        invariant forall a :: 0 <= a < j ==> r[a] <= r[j]
      {
        if r[j] > r[j + 1] {
          r := Swap(r, j);
        }
        j := j + 1;
      }
      i := i + 1;
    }
  }

  predicate Sorted(s: seq<real>) {
    forall a, b :: 0 <= a < b < |s| ==> s[a] <= s[b]
  }

  predicate SortedFrom(s: seq<real>, k: int) {
    forall a, b :: 0 <= k <= a < b < |s| ==> s[a] <= s[b]
  }

  function Swap(s: seq<real>, j: nat): (r: seq<real>)
    requires j + 1 < |s|
    ensures |r| == |s| && multiset(r) == multiset(s)
    ensures r[j] == s[j + 1] && r[j + 1] == s[j]
    ensures forall k :: 0 <= k < |s| && k != j && k != j + 1 ==> r[k] == s[k]
  {
    s[j := s[j + 1]][j + 1 := s[j]]
  }

  /** `percentile` on sorted samples: linear interpolation between the two
      samples around position p·(n−1). Go converts the position with
      `int(index)`, which truncates; for p ≥ 0 that is the floor. */
  function Percentile(sorted: seq<real>, p: real): (r: real)
    requires p >= 0.0
    ensures |sorted| == 0 ==> r == 0.0
    ensures |sorted| == 1 ==> r == sorted[0]
  {
    var n := |sorted|;
    if n == 0 then 0.0
    else if n == 1 then sorted[0]
    else
      TimesMonotone(0.0, p, n - 1);
      AtPosition(sorted, Times(p, n - 1))
  }

  /** The position p·k, written as a k-fold sum; `TimesIsProduct` shows it
      is the product. */
  function Times(p: real, k: nat): real {
    if k == 0 then 0.0 else Times(p, k - 1) + p
  }

  lemma {:induction false} TimesIsProduct(p: real, k: nat)
    ensures Times(p, k) == p * k as real
  {
    if k > 0 {
      TimesIsProduct(p, k - 1);
      assert p * k as real == p * (k - 1) as real + p;
    }
  }

  lemma {:induction false} TimesMonotone(p: real, q: real, k: nat)
    requires 0.0 <= p <= q
    ensures 0.0 <= Times(p, k) <= Times(q, k)
  {
    if k > 0 {
      TimesMonotone(p, q, k - 1);
    }
  }

  /** The interpolated value at a fractional position of the samples. */
  function AtPosition(sorted: seq<real>, index: real): (r: real)
    requires index >= 0.0 && |sorted| >= 2
    ensures Sorted(sorted) ==>
      var lower := index.Floor;
      (lower + 1 >= |sorted| ==> r == sorted[|sorted| - 1]) &&
      (lower + 1 < |sorted| ==> sorted[lower] <= r <= sorted[lower + 1])
  {
    var n := |sorted|;
    var lower := index.Floor;
    var upper := lower + 1;
    if upper >= n then sorted[n - 1]
    else
      var weight := index - lower as real;
      Interpolate(sorted[lower], sorted[upper], weight)
  }

  function Interpolate(a: real, b: real, w: real): (r: real)
    requires 0.0 <= w <= 1.0
    ensures a <= b ==> a <= r <= b
  {
    var r := a * (1.0 - w) + b * w;
    assert r - a == (b - a) * w;
    assert b - r == (b - a) * (1.0 - w);
    if a <= b then
      MulNonNegative(b - a, w);
      MulNonNegative(b - a, 1.0 - w);
      r
    else
      r
  }

  /** Every percentile of sorted samples lies between the smallest and the
      largest. */
  lemma PercentileWithinRange(sorted: seq<real>, p: real)
    requires p >= 0.0 && |sorted| >= 1 && Sorted(sorted)
    ensures sorted[0] <= Percentile(sorted, p) <= sorted[|sorted| - 1]
  {
    var n := |sorted|;
    if n >= 2 {
      TimesMonotone(0.0, p, n - 1);
      var lower := Times(p, n - 1).Floor;
      if lower + 1 < n {
        assert sorted[0] <= sorted[lower] && sorted[lower + 1] <= sorted[n - 1];
      }
    }
  }

  datatype Percentiles = Percentiles(p50: real, p90: real, p95: real, p99: real)

  /** The 50th, 90th, 95th and 99th percentiles of sorted samples. */
  function PercentilesOf(sorted: seq<real>): Percentiles
  {
    Percentiles(Percentile(sorted, 0.5), Percentile(sorted, 0.9), Percentile(sorted, 0.95), Percentile(sorted, 0.99))
  }

  /** A multiset has one sorted order, so the percentiles `Stats` reports
      do not depend on how the samples were sorted. */
  lemma {:induction false} SortedUnique(a: seq<real>, b: seq<real>)
    requires Sorted(a) && Sorted(b) && multiset(a) == multiset(b)
    ensures a == b
    decreases |a|
  {
    assert |a| == |multiset(a)| == |multiset(b)| == |b|;
    if |a| > 0 {
      assert a[0] in multiset(b) && b[0] in multiset(a);
      var i :| 0 <= i < |a| && a[i] == b[0];
      var j :| 0 <= j < |b| && b[j] == a[0];
      assert a[0] == b[0];
      TailMultiset(a, b);
      SortedUnique(a[1..], b[1..]);
      assert a == [a[0]] + a[1..] && b == [b[0]] + b[1..];
    }
  }

  lemma TailMultiset(a: seq<real>, b: seq<real>)
    requires |a| > 0 && |b| > 0 && a[0] == b[0] && multiset(a) == multiset(b)
    ensures multiset(a[1..]) == multiset(b[1..])
  {
    assert a == [a[0]] + a[1..];
    assert b == [b[0]] + b[1..];
    assert multiset(a[1..]) == multiset(a) - multiset{a[0]};
    assert multiset(b[1..]) == multiset(b) - multiset{b[0]};
  }

  /** `Stats`: count, sum, min and max always; the mean once something was
      observed; the percentiles once the buffer holds two samples. */
  datatype HistogramStats = HistogramStats(
    count: real, sum: real, min: real, max: real,
    mean: Option<real>, percentiles: Option<Percentiles>)

  method Stats(h: Histogram) returns (st: HistogramStats)
    ensures st.count == h.count as real && st.sum == h.sum && st.min == h.min && st.max == h.max
    ensures st.mean.Some? <==> h.count > 0
    ensures st.mean.Some? ==> st.mean.value * h.count as real == h.sum
    ensures st.percentiles.Some? <==> |h.samples| >= 2
    ensures st.percentiles.Some? ==>
      var s := st.percentiles.value;
      s.p50 <= s.p90 <= s.p95 <= s.p99 &&
      (exists k :: 0 <= k < |h.samples| && h.samples[k] <= s.p50) &&
      (exists k :: 0 <= k < |h.samples| && s.p99 <= h.samples[k])
    ensures st.percentiles.Some? ==>
      exists t :: Sorted(t) && multiset(t) == multiset(h.samples) && st.percentiles.value == PercentilesOf(t)
  {
    var mean := if h.count > 0 then Some(h.sum / h.count as real) else None;
    var percentiles := None;
    if |h.samples| >= 2 {
      var sorted := BubbleSort(h.samples);
      percentiles := Some(PercentilesOf(sorted));
      PercentileMonotone(sorted, 0.5, 0.9);
      PercentileMonotone(sorted, 0.9, 0.95);
      PercentileMonotone(sorted, 0.95, 0.99);
      PercentilesBounded(h.samples, sorted);
      assert Sorted(sorted) && multiset(sorted) == multiset(h.samples) && percentiles.value == PercentilesOf(sorted);
    }
    st := HistogramStats(h.count as real, h.sum, h.min, h.max, mean, percentiles);
  }

  /** The percentiles of a sorted permutation of the samples lie between
      samples. */
  lemma PercentilesBounded(samples: seq<real>, sorted: seq<real>)
    requires |sorted| >= 2 && Sorted(sorted) && multiset(sorted) == multiset(samples)
    ensures exists k :: 0 <= k < |samples| && samples[k] <= Percentile(sorted, 0.5)
    ensures exists k :: 0 <= k < |samples| && Percentile(sorted, 0.99) <= samples[k]
  {
    var n := |sorted|;
    PercentileWithinRange(sorted, 0.5);
    PercentileWithinRange(sorted, 0.99);
    assert sorted[0] in multiset(samples);
    assert sorted[n - 1] in multiset(samples);
    var k0 :| 0 <= k0 < |samples| && samples[k0] == sorted[0];
    var k1 :| 0 <= k1 < |samples| && samples[k1] == sorted[n - 1];
  }

  lemma MulNonNegative(x: real, y: real)
    requires x >= 0.0 && y >= 0.0
    ensures x * y >= 0.0
  {
  }

  /** Between the same two samples, a larger weight never gives less. */
  lemma InterpolateMonotone(a: real, b: real, w1: real, w2: real)
    requires a <= b && 0.0 <= w1 <= w2 <= 1.0
    ensures Interpolate(a, b, w1) <= Interpolate(a, b, w2)
  {
    assert Interpolate(a, b, w2) - Interpolate(a, b, w1) == (b - a) * (w2 - w1);
    MulNonNegative(b - a, w2 - w1);
  }

  /** A later position never gives a smaller value. */
  lemma AtPositionMonotone(sorted: seq<real>, i: real, j: real)
    requires 0.0 <= i <= j && |sorted| >= 2 && Sorted(sorted)
    ensures AtPosition(sorted, i) <= AtPosition(sorted, j)
  {
    var n := |sorted|;
    var li, lj := i.Floor, j.Floor;
    if lj + 1 >= n {
      if li + 1 < n {
        assert AtPosition(sorted, i) <= sorted[li + 1] <= sorted[n - 1];
      }
    } else if li == lj {
      InterpolateMonotone(sorted[li], sorted[li + 1], i - li as real, j - lj as real);
    } else {
      assert AtPosition(sorted, i) <= sorted[li + 1] <= sorted[lj] <= AtPosition(sorted, j);
    }
  }

  /** A larger p never gives a smaller percentile. */
  lemma PercentileMonotone(sorted: seq<real>, p: real, q: real)
    requires 0.0 <= p <= q && |sorted| >= 2 && Sorted(sorted)
    ensures Percentile(sorted, p) <= Percentile(sorted, q)
  {
    var k := |sorted| - 1;
    TimesMonotone(0.0, p, k);
    TimesMonotone(p, q, k);
    AtPositionMonotone(sorted, Times(p, k), Times(q, k));
  }

  /** `GetSuccessRate`: completed over executed as a percentage, 0 before
      anything ran. */
  function SuccessRate(executed: Int64, completed: Int64): (r: real)
    ensures executed == 0 ==> r == 0.0
    ensures executed != 0 ==> r * executed as real == completed as real * 100.0
    ensures 0 <= completed <= executed ==> 0.0 <= r <= 100.0
  {
    if executed == 0 then 0.0 else (completed as real / executed as real) * 100.0
  }

  /** `GetEventRate`: executed events per second of uptime, 0 at zero
      uptime. */
  function EventRate(executed: Int64, uptimeSeconds: real): (r: real)
    ensures uptimeSeconds == 0.0 ==> r == 0.0
    ensures uptimeSeconds != 0.0 ==> r * uptimeSeconds == executed as real
  {
    if uptimeSeconds == 0.0 then 0.0 else executed as real / uptimeSeconds
  }
}

=== FILE: moments.dfy ===
/**
 * The moments numpy and scipy compute for the analyzer: the mean, the
 * population variance. Values are exact reals; the square root is a
 * parameter that is only known to return the non-negative root of a
 * non-negative number.
 */
module Moments {
  import Seqs

  /** What is known of the square root handed to the metrics. */
  ghost predicate SqrtSpec(sqrt: real -> real) {
    forall x :: 0.0 <= x ==> 0.0 <= sqrt(x) && sqrt(x) * sqrt(x) == x
  }

  function Mean(s: seq<real>): (m: real)
    requires |s| > 0
  {
    Seqs.Sum(s) / |s| as real
  }

  /** The mean times the count is the sum. */
  lemma MeanTimesCount(s: seq<real>)
    requires |s| > 0
    ensures Mean(s) * |s| as real == Seqs.Sum(s)
  {
  }

  function Sq(x: real): real
  {
    x * x
  }

  lemma SqNonNegative(x: real)
    ensures Sq(x) >= 0.0
  {
    if x < 0.0 {
      assert Sq(x) == (-x) * (-x);
    }
  }

  /** The squared deviations from `m`. */
  function SqDevs(s: seq<real>, m: real): (r: seq<real>)
    ensures |r| == |s|
  {
    if s == [] then [] else SqDevs(s[..|s| - 1], m) + [Sq(s[|s| - 1] - m)]
  }

  lemma {:induction false} SqDevsAt(s: seq<real>, m: real, i: int)
    requires 0 <= i < |s|
    ensures SqDevs(s, m)[i] == Sq(s[i] - m)
    decreases |s|
  {
    if i < |s| - 1 {
      SqDevsAt(s[..|s| - 1], m, i);
    }
  }

  /** No squared deviation is negative. */
  lemma SqDevsNonNegative(s: seq<real>, m: real)
    ensures forall i :: 0 <= i < |s| ==> SqDevs(s, m)[i] >= 0.0
    ensures Seqs.Sum(SqDevs(s, m)) >= 0.0
  {
    forall i | 0 <= i < |s|
      ensures SqDevs(s, m)[i] >= 0.0
    {
      SqDevsAt(s, m, i);
      SqNonNegative(s[i] - m);
    }
    Seqs.SumNonNegative(SqDevs(s, m));
  }

  /** numpy's population variance (ddof = 0). */
  function Variance(s: seq<real>): (v: real)
    requires |s| > 0
    ensures v >= 0.0
  {
    SqDevsNonNegative(s, Mean(s));
    Seqs.Sum(SqDevs(s, Mean(s))) / |s| as real
  }

  lemma {:induction false} SumPositive(s: seq<real>)
    requires |s| > 0 && forall i :: 0 <= i < |s| ==> s[i] > 0.0
    ensures Seqs.Sum(s) > 0.0
    decreases |s|
  {
    if |s| > 1 {
      SumPositive(s[..|s| - 1]);
    }
  }

  lemma {:induction false} SumConstant(s: seq<real>, c: real)
    requires forall i :: 0 <= i < |s| ==> s[i] == c
    ensures Seqs.Sum(s) == |s| as real * c
    decreases |s|
  {
    if s != [] {
      SumConstant(s[..|s| - 1], c);
    }
  }

  lemma ZeroRoot(sqrt: real -> real)
    requires SqrtSpec(sqrt)
    ensures sqrt(0.0) == 0.0
  {
    if sqrt(0.0) > 0.0 {
      SquareLess(0.0, sqrt(0.0));
    }
  }

  lemma SquareLess(a: real, b: real)
    requires 0.0 <= a < b
    ensures a * a < b * b
  {
    var d := b - a;
    assert b * b == a * a + 2.0 * a * d + d * d;
    assert d * d > 0.0;
    assert a * d >= 0.0;
  }

  lemma DivCancel(n: real, c: real)
    requires n > 0.0
    ensures (n * c) / n == c
  {
  }

  /** The mean of a constant series is the constant. */
  lemma MeanConstant(s: seq<real>, c: real)
    requires |s| > 0 && forall i :: 0 <= i < |s| ==> s[i] == c
    ensures Mean(s) == c
  {
    SumConstant(s, c);
    DivCancel(|s| as real, c);
  }

  /** A constant series has no variance. */
  lemma VarianceConstant(s: seq<real>, c: real)
    requires |s| > 0 && forall i :: 0 <= i < |s| ==> s[i] == c
    ensures Variance(s) == 0.0
  {
    MeanConstant(s, c);
    var d := SqDevs(s, c);
    forall i | 0 <= i < |d|
      ensures d[i] == 0.0
    {
      SqDevsAt(s, c, i);
    }
    SumConstant(d, 0.0);
  }

  /** A sum of non-negative terms with one positive term is positive. */
  lemma {:induction false} SumPositiveAt(s: seq<real>, k: int)
    requires 0 <= k < |s| && s[k] > 0.0
    requires forall i :: 0 <= i < |s| ==> s[i] >= 0.0
    ensures Seqs.Sum(s) > 0.0
    decreases |s|
  {
    var n := |s| - 1;
    if k == n {
      Seqs.SumNonNegative(s[..n]);
    } else {
      SumPositiveAt(s[..n], k);
    }
  }

  /** Two different values give a positive variance. */
  lemma VariancePositive(s: seq<real>, i: int, j: int)
    requires 0 <= i < |s| && 0 <= j < |s| && s[i] != s[j]
    ensures Variance(s) > 0.0
  {
    var m := Mean(s);
    var k := if s[i] != m then i else j;
    SumSqDevsPositive(s, m, k);
    QuotientPositive(Seqs.Sum(SqDevs(s, m)), |s| as real);
  }

  /** One value off the centre makes the squared deviations add up to a
      positive sum. */
  lemma SumSqDevsPositive(s: seq<real>, m: real, k: int)
    requires 0 <= k < |s| && s[k] != m
    ensures Seqs.Sum(SqDevs(s, m)) > 0.0
  {
    SqDevsAt(s, m, k);
    SqPositive(s[k] - m);
    SqDevsNonNegative(s, m);
    SumPositiveAt(SqDevs(s, m), k);
  }

  lemma QuotientPositive(a: real, n: real)
    requires a > 0.0 && n > 0.0
    ensures a / n > 0.0
  {
  }

  lemma SqPositive(d: real)
    requires d != 0.0
    ensures Sq(d) > 0.0
  {
    if d > 0.0 {
      SquareLess(0.0, d);
    } else {
      SquareLess(0.0, -d);
      assert (-d) * (-d) == d * d;
    }
  }

  /** Multiplying before or after dividing is the same. */
  lemma MulDiv(c: real, a: real, n: real)
    requires n > 0.0
    ensures (c * a) / n == c * (a / n)
  {
    var q := a / n;
    assert a == q * n;
    assert c * a == (c * q) * n;
  }

  /** The non-negative root is the only one. */
  lemma RootUnique(sqrt: real -> real, x: real, y: real)
    requires SqrtSpec(sqrt)
    requires 0.0 <= x && 0.0 <= y && y * y == x
    ensures sqrt(x) == y
  {
    var a := sqrt(x);
    if a < y {
      SquareLess(a, y);
    } else if y < a {
      SquareLess(y, a);
    }
  }

  /** Scaling every value scales the mean. */
  lemma MeanScale(s: seq<real>, c: real)
    requires |s| > 0
    ensures Mean(Seqs.Scale(s, c)) == c * Mean(s)
  {
    Seqs.SumScale(s, c);
    ScaledQuotient(Seqs.Sum(Seqs.Scale(s, c)), c, Seqs.Sum(s), |s| as real);
  }

  /** `MulDiv` on a named product. */
  lemma ScaledQuotient(y: real, c: real, x: real, n: real)
    requires n > 0.0 && y == c * x
    ensures y / n == c * (x / n)
  {
    MulDiv(c, x, n);
  }

  /** `MeanScale` with the mean and its multiple named. */
  lemma MeanScaleOf(s: seq<real>, c: real, m: real, cm: real)
    requires |s| > 0 && m == Mean(s) && cm == c * m
    ensures Mean(Seqs.Scale(s, c)) == cm
  {
    MeanScale(s, c);
  }

  lemma SqScale(c: real, a: real, b: real)
    ensures Sq(c * a - c * b) == (c * c) * Sq(a - b)
  {
    var d := a - b;
    assert c * a - c * b == c * d;
    assert (c * d) * (c * d) == (c * c) * (d * d);
  }

  /** The squared deviations of scaled values from the scaled centre are the
      squared deviations scaled by the square of the factor. */
  lemma SqDevsScale(s: seq<real>, c: real, m: real)
    ensures SqDevs(Seqs.Scale(s, c), c * m) == Seqs.Scale(SqDevs(s, m), c * c)
  {
    var a, b := SqDevs(Seqs.Scale(s, c), c * m), Seqs.Scale(SqDevs(s, m), c * c);
    forall i | 0 <= i < |s|
      ensures a[i] == b[i]
    {
      SqDevsScaleAt(s, c, m, i);
    }
  }

  lemma SqDevsScaleAt(s: seq<real>, c: real, m: real, i: int)
    requires 0 <= i < |s|
    ensures SqDevs(Seqs.Scale(s, c), c * m)[i] == Seqs.Scale(SqDevs(s, m), c * c)[i]
  {
    ScaledSide(s, c, m, i);
    UnscaledSide(s, c, m, i);
  }

  /** One squared deviation of the scaled values. */
  lemma ScaledSide(s: seq<real>, c: real, m: real, i: int)
    requires 0 <= i < |s|
    ensures SqDevs(Seqs.Scale(s, c), c * m)[i] == (c * c) * Sq(s[i] - m)
  {
    ScaledDevAt(s, c, m, i);
    ScaledSq(SqDevs(Seqs.Scale(s, c), c * m)[i], c, s[i], m);
  }

  lemma ScaledDevAt(s: seq<real>, c: real, m: real, i: int)
    requires 0 <= i < |s|
    ensures SqDevs(Seqs.Scale(s, c), c * m)[i] == Sq(c * s[i] - c * m)
  {
    Seqs.ScaleAt(s, c, i);
    SqDevsAt(Seqs.Scale(s, c), c * m, i);
  }

  /** `SqScale` on a named value. */
  lemma ScaledSq(a: real, c: real, x: real, m: real)
    requires a == Sq(c * x - c * m)
    ensures a == (c * c) * Sq(x - m)
  {
    SqScale(c, x, m);
  }

  /** One scaled squared deviation. */
  lemma UnscaledSide(s: seq<real>, c: real, m: real, i: int)
    requires 0 <= i < |s|
    ensures Seqs.Scale(SqDevs(s, m), c * c)[i] == (c * c) * Sq(s[i] - m)
  {
    SqDevsAt(s, m, i);
    Seqs.ScaleAt(SqDevs(s, m), c * c, i);
  }

  /** The squared deviations of scaled values from the scaled centre add up
      to the square of the factor times the unscaled ones. */
  lemma SumSqDevsScale(s: seq<real>, c: real, m: real, x: real, y: real)
    requires x == Seqs.Sum(SqDevs(Seqs.Scale(s, c), c * m)) && y == Seqs.Sum(SqDevs(s, m))
    ensures x == (c * c) * y
  {
    SqDevsScale(s, c, m);
    Seqs.SumScale(SqDevs(s, m), c * c);
  }

  /** The variance as the quotient of named values. */
  lemma VarianceQuot(s: seq<real>, m: real, v: real, x: real, n: real)
    requires |s| > 0 && m == Mean(s) && v == Variance(s)
    requires x == Seqs.Sum(SqDevs(s, m)) && n == |s| as real
    ensures v == x / n
  {
  }

  lemma QuotScale(a: real, b: real, x: real, c: real, y: real, n: real)
    requires n > 0.0
    requires a == x / n
    requires b == y / n
    requires x == (c * c) * y
    ensures a == (c * c) * b
  {
    MulDiv(c * c, y, n);
  }

  /** Scaling every value scales the variance by the square. */
  lemma VarianceScale(s: seq<real>, c: real)
    requires |s| > 0
    ensures Variance(Seqs.Scale(s, c)) == (c * c) * Variance(s)
  {
    var t, m := Seqs.Scale(s, c), Mean(s);
    var cm := c * m;
    MeanScaleOf(s, c, m, cm);
    var a, b, x, y, n := Variance(t), Variance(s), Seqs.Sum(SqDevs(t, cm)), Seqs.Sum(SqDevs(s, m)), |s| as real;
    SumSqDevsScale(s, c, m, x, y);
    VarianceQuot(t, cm, a, x, n);
    VarianceQuot(s, m, b, y, n);
    QuotScale(a, b, x, c, y, n);
  }

  /** `VarianceScale` on named values. */
  lemma VarianceScaleOf(s: seq<real>, c: real, v: real, v1: real)
    requires |s| > 0 && v == Variance(s) && v1 == Variance(Seqs.Scale(s, c))
    ensures v1 == (c * c) * v
  {
    VarianceScale(s, c);
  }
}

=== FILE: node_store.dfy ===
/**
 * pkg/cache/node_store.go: a node's running pods and what they request.
 * `Allocated` is the sum of the running pods' container requests,
 * `AllocatedRatio` the alloc share of what the node can allocate, and
 * `GetFree` what is left.
 *
 * The running-pod map is a sequence of pods with pairwise distinct keys;
 * adding a pod whose key is present replaces it in place. Ratios are exact
 * reals rather than float64.
 */
module NodeStore {
  import opened Kube

  datatype NodeStore = NodeStore(
    node: Node,
    allocatable: ResourceList,
    runningPods: seq<Pod>,
    alloc: ResourceList,
    allocRatio: map<string, real>)

  // ---- the running pods, keyed by pod key ----

  ghost predicate UniqueKeys(pods: seq<Pod>) {
    forall i, j :: 0 <= i < j < |pods| ==> PodKey(pods[i]) != PodKey(pods[j])
  }

  /** The keys of the running-pod map. */
  function Keys(pods: seq<Pod>): (ks: set<Key>)
    ensures forall i :: 0 <= i < |pods| ==> PodKey(pods[i]) in ks
  {
    set i | 0 <= i < |pods| :: PodKey(pods[i])
  }

  lemma KeysAppend(a: seq<Pod>, b: seq<Pod>)
    ensures Keys(a + b) == Keys(a) + Keys(b)
  {
    var ab := a + b;
    forall k | k in Keys(ab)
      ensures k in Keys(a) + Keys(b)
    {
      var i :| 0 <= i < |ab| && PodKey(ab[i]) == k;
      if i < |a| {
        assert ab[i] == a[i];
      } else {
        assert ab[i] == b[i - |a|];
      }
    }
    forall k | k in Keys(a)
      ensures k in Keys(ab)
    {
      var i :| 0 <= i < |a| && PodKey(a[i]) == k;
      assert ab[i] == a[i];
    }
    forall k | k in Keys(b)
      ensures k in Keys(ab)
    {
      var i :| 0 <= i < |b| && PodKey(b[i]) == k;
      assert ab[i + |a|] == b[i];
    }
  }

  /** Replacing pods by pods with the same keys keeps the key set. */
  lemma KeysPointwise(a: seq<Pod>, b: seq<Pod>)
    requires |a| == |b| && forall j :: 0 <= j < |a| ==> PodKey(a[j]) == PodKey(b[j])
    ensures Keys(a) == Keys(b)
    ensures UniqueKeys(a) ==> UniqueKeys(b)
  {
    forall k | k in Keys(b)
      ensures k in Keys(a)
    {
      var i :| 0 <= i < |b| && PodKey(b[i]) == k;
      assert PodKey(a[i]) == k;
    }
  }

  /** Removing the pod at `i` removes exactly its key. */
  lemma KeysRemove(pods: seq<Pod>, i: int)
    requires UniqueKeys(pods) && 0 <= i < |pods|
    ensures UniqueKeys(pods[..i] + pods[i + 1..])
    ensures Keys(pods[..i] + pods[i + 1..]) == Keys(pods) - {PodKey(pods[i])}
  {
    var a, b := pods[..i], pods[i + 1..];
    var k := PodKey(pods[i]);
    assert pods == a + [pods[i]] + b;
    KeysAppend(a + [pods[i]], b);
    KeysAppend(a, [pods[i]]);
    KeysAppend(a, b);
    KeyOnlyAt(pods, i);
    UniqueRemove(pods, i);
  }

  /** With unique keys, the key at i occurs neither before nor after i. */
  lemma KeyOnlyAt(pods: seq<Pod>, i: int)
    requires UniqueKeys(pods) && 0 <= i < |pods|
    ensures PodKey(pods[i]) !in Keys(pods[..i]) && PodKey(pods[i]) !in Keys(pods[i + 1..])
  {
    var a, b := pods[..i], pods[i + 1..];
    forall q | q in Keys(a)
      ensures q != PodKey(pods[i])
    {
      var j :| 0 <= j < |a| && PodKey(a[j]) == q;
      assert a[j] == pods[j];
    }
    forall q | q in Keys(b)
      ensures q != PodKey(pods[i])
    {
      var j :| 0 <= j < |b| && PodKey(b[j]) == q;
      assert b[j] == pods[i + 1 + j];
    }
  }

  lemma UniqueRemove(pods: seq<Pod>, i: int)
    requires UniqueKeys(pods) && 0 <= i < |pods|
    ensures UniqueKeys(pods[..i] + pods[i + 1..])
  {
    var r := pods[..i] + pods[i + 1..];
    forall x, y | 0 <= x < y < |r|
      ensures PodKey(r[x]) != PodKey(r[y])
    {
      var x' := if x < i then x else x + 1;
      var y' := if y < i then y else y + 1;
      assert r[x] == pods[x'] && r[y] == pods[y'];
    }
  }

  /** The position of the pod with key `k`, or -1. */
  function Find(pods: seq<Pod>, k: Key): (i: int)
    ensures -1 <= i < |pods|
    ensures i >= 0 ==> PodKey(pods[i]) == k
    ensures i == -1 <==> k !in Keys(pods)
  {
    if pods == [] then -1
    else if PodKey(pods[|pods| - 1]) == k then |pods| - 1
    else
      var init := pods[..|pods| - 1];
      KeysAppend(init, [pods[|pods| - 1]]);
      assert pods == init + [pods[|pods| - 1]];
      Find(init, k)
  }

  /** `RunningPods[NewKey(pod)] = pod`: replaces the pod under the same key,
      or adds it. */
  function Put(pods: seq<Pod>, p: Pod): (r: seq<Pod>)
    requires UniqueKeys(pods)
    ensures UniqueKeys(r)
    ensures Keys(r) == Keys(pods) + {PodKey(p)}
    ensures p in r
    ensures PodKey(p) !in Keys(pods) ==> r == pods + [p]
  {
    var i := Find(pods, PodKey(p));
    if i < 0 then
      KeysAppend(pods, [p]);
      assert [p][0] == p;
      assert Keys([p]) == {PodKey(p)} by {
        forall k | k in Keys([p])
          ensures k == PodKey(p)
        {
          var j :| 0 <= j < 1 && PodKey([p][j]) == k;
        }
      }
      pods + [p]
    else
      KeysPointwise(pods, pods[i := p]);
      pods[i := p]
  }

  /** `delete(RunningPods, key)`. */
  function Without(pods: seq<Pod>, k: Key): (r: seq<Pod>)
    requires UniqueKeys(pods)
    ensures UniqueKeys(r)
    ensures Keys(r) == Keys(pods) - {k}
    ensures k !in Keys(pods) ==> r == pods
  {
    var i := Find(pods, k);
    if i < 0 then
      pods
    else
      KeysRemove(pods, i);
      pods[..i] + pods[i + 1..]
  }

  /** Putting the same pod twice is putting it once. */
  lemma PutIdempotent(pods: seq<Pod>, p: Pod)
    requires UniqueKeys(pods)
    ensures Put(Put(pods, p), p) == Put(pods, p)
  {
    var once := Put(pods, p);
    var i := Find(once, PodKey(p));
    var j :| 0 <= j < |once| && once[j] == p;
    assert i == j;
    assert once[i := p] == once;
  }

  /** Deleting a pod just added under a fresh key gives the pods back. */
  lemma WithoutPut(pods: seq<Pod>, p: Pod)
    requires UniqueKeys(pods) && PodKey(p) !in Keys(pods)
    ensures Without(Put(pods, p), PodKey(p)) == pods
  {
    var r := pods + [p];
    assert Find(r, PodKey(p)) == |pods|;
    assert r[..|pods|] == pods;
  }

  // ---- requests ----

  /** One container's request for a resource, zero when it has none. */
  function ContainersRequest(cs: seq<Container>, name: string): int {
    if cs == [] then 0 else ContainersRequest(cs[..|cs| - 1], name) + Get(cs[|cs| - 1].requests, name)
  }

  function PodRequest(p: Pod, name: string): int {
    ContainersRequest(p.containers, name)
  }

  /** The sum of the pods' requests for a resource. */
  function Requests(pods: seq<Pod>, name: string): int {
    if pods == [] then 0 else Requests(pods[..|pods| - 1], name) + PodRequest(pods[|pods| - 1], name)
  }

  /** The resources some container requests, even with a zero quantity. */
  function ContainersNames(cs: seq<Container>): (names: set<string>)
    ensures forall i, name :: 0 <= i < |cs| && name in cs[i].requests ==> name in names
  {
    set i, name | 0 <= i < |cs| && name in cs[i].requests :: name
  }

  /** The resources some container of some pod requests. */
  function RequestedNames(pods: seq<Pod>): (names: set<string>)
    ensures forall i, name :: 0 <= i < |pods| && name in ContainersNames(pods[i].containers) ==> name in names
  {
    set i, name | 0 <= i < |pods| && name in ContainersNames(pods[i].containers) :: name
  }

  /** The `requested` list built by the loop over pods and containers. */
  function Requested(pods: seq<Pod>): (rl: ResourceList)
    ensures rl.Keys == RequestedNames(pods)
  {
    map name | name in RequestedNames(pods) :: Requests(pods, name)
  }

  /** Appending a pod adds its own requests to every total. */
  lemma RequestsAppend(pods: seq<Pod>, p: Pod, name: string)
    ensures Requests(pods + [p], name) == Requests(pods, name) + PodRequest(p, name)
    ensures RequestedNames(pods + [p]) == RequestedNames(pods) + ContainersNames(p.containers)
  {
    var r := pods + [p];
    assert r[..|pods|] == pods;
    forall name | name in RequestedNames(r)
      ensures name in RequestedNames(pods) + ContainersNames(p.containers)
    {
      var i :| 0 <= i < |r| && name in ContainersNames(r[i].containers);
      if i < |pods| {
        assert r[i] == pods[i];
      }
    }
    forall name | name in RequestedNames(pods)
      ensures name in RequestedNames(r)
    {
      var i :| 0 <= i < |pods| && name in ContainersNames(pods[i].containers);
      assert r[i] == pods[i];
    }
    assert r[|pods|] == p;
  }

  /** What `UpdateAllocated` stores as `Allocated`: the requested list, or
      zero cpu and memory when no container requests anything. */
  function AllocatedFor(pods: seq<Pod>): (rl: ResourceList)
    ensures RequestedNames(pods) == {} ==> rl == map[Cpu := 0, Memory := 0]
    ensures RequestedNames(pods) != {} ==> rl.Keys == RequestedNames(pods)
  {
    var requested := Requested(pods);
    if |requested| == 0 then map[Cpu := 0, Memory := 0] else requested
  }

  /** The ratio a resource gets: alloc over allocatable, only where the
      allocatable quantity is present and non-zero; others keep their old
      ratio. */
  function UpdatedRatios(prev: map<string, real>, alloc: ResourceList, allocatable: ResourceList)
    : (r: map<string, real>)
    ensures r.Keys == prev.Keys + set name | name in alloc && name in allocatable && allocatable[name] != 0
    ensures forall name :: name in alloc && name in allocatable && allocatable[name] != 0 ==>
      r[name] * allocatable[name] as real == alloc[name] as real
    ensures forall name :: name in prev && !(name in alloc && name in allocatable && allocatable[name] != 0) ==>
      r[name] == prev[name]
  {
    map name | name in prev.Keys + alloc.Keys && (name in prev || (name in allocatable && allocatable[name] != 0)) ::
      if name in alloc && name in allocatable && allocatable[name] != 0
      then alloc[name] as real / allocatable[name] as real
      else prev[name]
  }

  /** `UpdateAllocated`. */
  function UpdateAllocated(ns: NodeStore): (r: NodeStore)
    ensures r.node == ns.node && r.allocatable == ns.allocatable && r.runningPods == ns.runningPods
    ensures r.alloc == AllocatedFor(ns.runningPods)
    ensures forall name :: name in RequestedNames(ns.runningPods) ==>
      name in r.alloc && r.alloc[name] == Requests(ns.runningPods, name)
    ensures RequestedNames(ns.runningPods) == {} ==>
      r.alloc == map[Cpu := 0, Memory := 0] &&
      r.allocRatio == ns.allocRatio[Cpu := 0.0][Memory := 0.0]
    ensures RequestedNames(ns.runningPods) != {} ==>
      r.alloc.Keys == RequestedNames(ns.runningPods) &&
      r.allocRatio == UpdatedRatios(ns.allocRatio, r.alloc, ns.allocatable)
  {
    var alloc := AllocatedFor(ns.runningPods);
    if RequestedNames(ns.runningPods) == {} then
      ns.(alloc := alloc, allocRatio := ns.allocRatio[Cpu := 0.0][Memory := 0.0])
    else
      ns.(alloc := alloc, allocRatio := UpdatedRatios(ns.allocRatio, alloc, ns.allocatable))
  }

  /** Recomputing with nothing changed changes nothing. */
  lemma UpdateAllocatedIdempotent(ns: NodeStore)
    ensures UpdateAllocated(UpdateAllocated(ns)) == UpdateAllocated(ns)
  {
    var once := UpdateAllocated(ns);
    if RequestedNames(ns.runningPods) != {} {
      UpdatedRatiosIdempotent(ns.allocRatio, once.alloc, ns.allocatable);
    } else {
      assert once.allocRatio[Cpu := 0.0][Memory := 0.0] == once.allocRatio;
    }
  }

  lemma UpdatedRatiosIdempotent(prev: map<string, real>, alloc: ResourceList, allocatable: ResourceList)
    ensures var once := UpdatedRatios(prev, alloc, allocatable);
      UpdatedRatios(once, alloc, allocatable) == once
  {
  }

  /** `NewNodeStore`: no running pods, zero cpu and memory alloc, and
      zero ratios for both. */
  function NewNodeStore(node: Node): (ns: NodeStore)
    ensures ns.runningPods == [] && ns.allocatable == node.allocatable
    ensures ns.alloc == map[Cpu := 0, Memory := 0]
    ensures ns.allocRatio == map[Cpu := 0.0, Memory := 0.0]
  {
    UpdateAllocated(NodeStore(node, node.allocatable, [], map[], map[]))
  }

  /** `UpdateNodeSpec`: a new node object and allocatable, then recompute. */
  function UpdateNodeSpec(ns: NodeStore, node: Node): (r: NodeStore)
    ensures r.node == node && r.allocatable == node.allocatable && r.runningPods == ns.runningPods
  {
    UpdateAllocated(ns.(node := node, allocatable := node.allocatable))
  }

  /** A store whose `Allocated` is what its running pods request. */
  ghost predicate Consistent(ns: NodeStore) {
    UniqueKeys(ns.runningPods) && ns.alloc == AllocatedFor(ns.runningPods)
  }

  /** `addPod`: ignored for an unscheduled pod (empty node name). */
  function AddPod(ns: NodeStore, p: Pod): (r: NodeStore)
    requires UniqueKeys(ns.runningPods)
    ensures p.nodeName == "" ==> r == ns
    ensures p.nodeName != "" ==> Consistent(r) && Keys(r.runningPods) == Keys(ns.runningPods) + {PodKey(p)}
  {
    if p.nodeName == "" then ns else UpdateAllocated(ns.(runningPods := Put(ns.runningPods, p)))
  }

  /** `deletePod`: ignored for an unscheduled pod (empty node name). */
  function DeletePod(ns: NodeStore, p: Pod): (r: NodeStore)
    requires UniqueKeys(ns.runningPods)
    ensures p.nodeName == "" ==> r == ns
    ensures p.nodeName != "" ==> Consistent(r) && Keys(r.runningPods) == Keys(ns.runningPods) - {PodKey(p)}
  {
    if p.nodeName == "" then ns else UpdateAllocated(ns.(runningPods := Without(ns.runningPods, PodKey(p))))
  }

  /** Adding a scheduled pod under a new key adds its requests to every
      resource it or the other pods request. */
  lemma AddPodAllocated(ns: NodeStore, p: Pod, name: string)
    requires UniqueKeys(ns.runningPods) && p.nodeName != "" && PodKey(p) !in Keys(ns.runningPods)
    requires name in RequestedNames(ns.runningPods) || name in ContainersNames(p.containers)
    ensures var r := AddPod(ns, p);
      name in r.alloc && r.alloc[name] == Requests(ns.runningPods, name) + PodRequest(p, name)
  {
    RequestsAppend(ns.runningPods, p, name);
  }

  /** Adding the same pod again changes nothing. */
  lemma AddPodIdempotent(ns: NodeStore, p: Pod)
    requires UniqueKeys(ns.runningPods)
    ensures AddPod(AddPod(ns, p), p) == AddPod(ns, p)
  {
    if p.nodeName != "" {
      PutIdempotent(ns.runningPods, p);
      UpdateAllocatedIdempotent(ns.(runningPods := Put(ns.runningPods, p)));
    }
  }

  /** Deleting a pod right after adding it under a new key restores the
      running pods and the allocation. */
  lemma DeleteAfterAdd(ns: NodeStore, p: Pod)
    requires Consistent(ns) && PodKey(p) !in Keys(ns.runningPods)
    ensures DeletePod(AddPod(ns, p), p).runningPods == ns.runningPods
    ensures DeletePod(AddPod(ns, p), p).alloc == ns.alloc
  {
    if p.nodeName != "" {
      WithoutPut(ns.runningPods, p);
    }
  }

  /** `GetAllocated(names...)`: everything for no names, otherwise the named
      resources that are alloc. */
  function GetAllocated(ns: NodeStore, names: seq<string>): (r: ResourceList)
    ensures names == [] ==> r == ns.alloc
    ensures names != [] ==> forall name :: name in r <==> name in names && name in ns.alloc
    ensures forall name :: name in r ==> name in ns.alloc && r[name] == ns.alloc[name]
  {
    if names == [] then ns.alloc
    else map name | name in ns.alloc.Keys && name in names :: ns.alloc[name]
  }

  /** `GetAllocatedRatio(names...)`: everything for no names, otherwise the
      named resources that are ALLOCATED, each with its ratio or 0 when it
      has none. */
  function GetAllocatedRatio(ns: NodeStore, names: seq<string>): (r: map<string, real>)
    ensures names == [] ==> r == ns.allocRatio
    ensures names != [] ==> forall name :: name in r <==> name in names && name in ns.alloc
    ensures names != [] ==> forall name :: name in r && name !in ns.allocRatio ==> r[name] == 0.0
    ensures names != [] ==> forall name :: name in r && name in ns.allocRatio ==> r[name] == ns.allocRatio[name]
  {
    if names == [] then ns.allocRatio
    else
      map name | name in ns.alloc.Keys && name in names ::
        if name in ns.allocRatio then ns.allocRatio[name] else 0.0
  }

  /** `GetFree`: for every allocatable resource, what is not alloc. */
  function GetFree(ns: NodeStore): (free: ResourceList)
    ensures free.Keys == ns.allocatable.Keys
    ensures forall name :: name in free ==> free[name] + Get(ns.alloc, name) == ns.allocatable[name]
  {
    map name | name in ns.allocatable :: ns.allocatable[name] - Get(ns.alloc, name)
  }
}

=== FILE: queue.dfy ===
/**
 * pkg/scheduler/queue.go: the scheduler's priority queue of events, a
 * min-heap under `HappensBefore` (module Heap does the sifting), with an
 * optional capacity where 0 means unlimited.
 *
 * The lock only serialises callers and is left out; each operation is one
 * step from a queue value to the next.
 */
module Queue {
  import opened Wrappers
  import Heap
  import Event
  import EventBase

  type Ev = EventBase.BaseEvent

  datatype QueueError = QueueEmpty | EventNotFound | CapacityExceeded(capacity: int)

  datatype Queue = Queue(items: seq<Ev>, capacity: nat)

  /** The heap's `less`: queue.go's `Less`. */
  predicate Less(a: Ev, b: Ev) {
    EventBase.HappensBefore(a, b)
  }

  lemma LessIsStrictWeakOrder()
    ensures Heap.StrictWeakOrder(Less)
  {
    forall x: Ev, y: Ev, z: Ev
      ensures !Less(x, x)
      ensures Less(x, y) && Less(y, z) ==> Less(x, z)
      ensures !Less(x, y) && !Less(y, z) ==> !Less(x, z)
    {
      EventBase.HappensBeforeIsStrictWeakOrder(x, y, z);
    }
  }

  ghost predicate Valid(q: Queue) {
    Heap.IsHeap(Less, q.items)
  }

  /** `NewQueue`: empty and unlimited. */
  function NewQueue(): (q: Queue)
    ensures Valid(q) && Size(q) == 0 && q.capacity == 0
  {
    Queue([], 0)
  }

  function Size(q: Queue): nat {
    |q.items|
  }

  function IsEmpty(q: Queue): (b: bool)
    ensures b <==> Size(q) == 0
  {
    |q.items| == 0
  }

  /** `IsFull`: never with capacity 0, otherwise at or beyond capacity. */
  function IsFull(q: Queue): (b: bool)
    ensures q.capacity == 0 ==> !b
    ensures q.capacity > 0 ==> (b <==> Size(q) >= q.capacity)
  {
    if q.capacity == 0 then false else |q.items| >= q.capacity
  }

  /** `Peek`: the minimum, or ErrQueueEmpty. */
  function Peek(q: Queue): (r: Result<Ev, QueueError>)
    requires Valid(q)
    ensures r.Err? <==> Size(q) == 0
    ensures r.Err? ==> r.error == QueueEmpty
    ensures r.Ok? ==> r.value in q.items && Heap.NoneLess(Less, q.items, r.value)
  {
    if |q.items| == 0 then Err(QueueEmpty)
    else
      LessIsStrictWeakOrder();
      Heap.RootIsMinimum(Less, q.items);
      Ok(q.items[0])
  }

  /** `Clear`: no items, the capacity kept. */
  function Clear(q: Queue): (r: Queue)
    ensures Valid(r) && Size(r) == 0 && r.capacity == q.capacity
  {
    q.(items := [])
  }

  /** `GetEvents`: the items, in heap order. */
  function GetEvents(q: Queue): (es: seq<Ev>)
    ensures multiset(es) == multiset(q.items) && |es| == Size(q)
  {
    q.items
  }

  /** `PushEvent`: refused when full, otherwise heap.Push. */
  method PushEvent(q: Queue, e: Ev) returns (err: Option<QueueError>, q': Queue)
    requires Valid(q)
    ensures Valid(q') && q'.capacity == q.capacity
    ensures IsFull(q) ==> err == Some(CapacityExceeded(q.capacity)) && q' == q
    ensures !IsFull(q) ==>
      err.None? && Size(q') == Size(q) + 1 &&
      multiset(q'.items) == multiset(q.items) + multiset{e}
  {
    if IsFull(q) {
      return Some(CapacityExceeded(q.capacity)), q;
    }
    LessIsStrictWeakOrder();
    var items := Heap.Push(Less, q.items, e);
    err, q' := None, q.(items := items);
  }

  /** `PopEvent`: the minimum, removed, or ErrQueueEmpty with the queue
      unchanged. */
  method PopEvent(q: Queue) returns (r: Result<Ev, QueueError>, q': Queue)
    requires Valid(q)
    ensures Valid(q') && q'.capacity == q.capacity
    ensures Size(q) == 0 ==> r == Err(QueueEmpty) && q' == q
    ensures Size(q) > 0 ==>
      r.Ok? && r == Peek(q) && Size(q') == Size(q) - 1 &&
      multiset(q'.items) + multiset{r.value} == multiset(q.items) &&
      Heap.NoneLess(Less, q'.items, r.value)
  {
    if |q.items| == 0 {
      return Err(QueueEmpty), q;
    }
    LessIsStrictWeakOrder();
    var x, items := Heap.Pop(Less, q.items);
    r, q' := Ok(x), q.(items := items);
  }

  /** Two pops in a row come out in `HappensBefore` order: the second never
      happens before the first. */
  method PopTwice(q: Queue) returns (a: Ev, b: Ev, q': Queue)
    requires Valid(q) && Size(q) >= 2
    ensures !EventBase.HappensBefore(b, a)
    ensures Valid(q') && Size(q') == Size(q) - 2
    ensures multiset(q'.items) + multiset{a, b} == multiset(q.items)
  {
    var r1, q1 := PopEvent(q);
    var r2, q2 := PopEvent(q1);
    a, b, q' := r1.value, r2.value, q2;
    assert b in multiset(q1.items);
    var k :| 0 <= k < |q1.items| && q1.items[k] == b;
  }

  /** The position of the first item with the ID, or -1: the loop of
      `FindEvent` and `RemoveEvent`. */
  function IndexOf(items: seq<Ev>, id: string): (i: int)
    ensures -1 <= i < |items|
    ensures i >= 0 ==> items[i].id == id && forall j :: 0 <= j < i ==> items[j].id != id
    ensures i == -1 <==> forall j :: 0 <= j < |items| ==> items[j].id != id
  {
    if items == [] then -1
    else if items[0].id == id then 0
    else
      var i := IndexOf(items[1..], id);
      if i < 0 then -1 else i + 1
  }

  /** `FindEvent`: the first item with the ID, found iff some item has it. */
  function FindEvent(q: Queue, id: string): (r: Option<Ev>)
    ensures r.Some? <==> exists j :: 0 <= j < |q.items| && q.items[j].id == id
    ensures r.Some? ==> r.value in q.items && r.value.id == id
  {
    var i := IndexOf(q.items, id);
    if i < 0 then None else Some(q.items[i])
  }

  /** `RemoveEvent`: the first item with the ID is marked canceled and
      removed with heap.Remove; an absent ID is ErrEventNotFound and the
      queue stays as it was. */
  method RemoveEvent(q: Queue, id: string) returns (err: Option<QueueError>, canceled: Option<Ev>, q': Queue)
    requires Valid(q)
    ensures Valid(q') && q'.capacity == q.capacity
    ensures FindEvent(q, id).None? ==> err == Some(EventNotFound) && canceled.None? && q' == q
    ensures FindEvent(q, id).Some? ==>
      err.None? && canceled == Some(FindEvent(q, id).value.(status := Event.Canceled)) &&
      Size(q') == Size(q) - 1 &&
      multiset(q'.items) + multiset{FindEvent(q, id).value} == multiset(q.items)
  {
    var i := IndexOf(q.items, id);
    if i < 0 {
      return Some(EventNotFound), None, q;
    }
    LessIsStrictWeakOrder();
    var x, items := Heap.RemoveAt(Less, q.items, i);
    err, canceled, q' := None, Some(EventBase.SetStatus(x, Event.Canceled)), q.(items := items);
  }
}

=== FILE: scenario.dfy ===
/**
 * pkg/scenario/scenario.go: building a scenario from options and picking
 * the largest or longest pod event of a scenario.
 *
 * `time.Now()` and the UUID `NewScenario` draws are parameters. A pod
 * event's pod is a `Kube.Pod`; its execute-after duration is in integer
 * nanoseconds.
 */
module Scenario {
  import opened Wrappers
  import Kube

  /** events_pod.go's `PodEvent`: the name, when it runs, for how long, and
      the pod it creates. */
  datatype PodEvent = PodEvent(name: string, after: int, duration: int, pod: Kube.Pod)

  datatype Metadata = Metadata(name: string, createdAt: int)

  datatype Cluster = Cluster(nodes: seq<Kube.Node>)

  datatype Events = Events(pods: seq<PodEvent>)

  /** `cluster` is None where the Go pointer is nil. */
  datatype Scenario = Scenario(metadata: Metadata, cluster: Option<Cluster>, events: Events)

  /** The options `NewScenario` accepts. `WithName` also stamps the creation
      time, `at`, read from the clock when the option runs. */
  datatype Opt =
    | WithCluster(cluster: Option<Cluster>)
    | WithPodEvents(pods: seq<PodEvent>)
    | WithName(name: string, at: int)

  /** What `NewScenario` starts from: an empty cluster, no events, no name. */
  const Initial: Scenario := Scenario(Metadata("", 0), Some(Cluster([])), Events([]))

  function Apply(s: Scenario, o: Opt): Scenario {
    match o
    case WithCluster(c) => s.(cluster := c)
    case WithPodEvents(pods) => s.(events := Events(pods))
    case WithName(name, at) => s.(metadata := Metadata(name, at))
  }

  /** `opts[i]` is the last option of its kind. */
  ghost predicate LastName(opts: seq<Opt>, i: int) {
    0 <= i < |opts| && opts[i].WithName? && forall j :: i < j < |opts| ==> !opts[j].WithName?
  }

  ghost predicate LastCluster(opts: seq<Opt>, i: int) {
    0 <= i < |opts| && opts[i].WithCluster? && forall j :: i < j < |opts| ==> !opts[j].WithCluster?
  }

  ghost predicate LastPods(opts: seq<Opt>, i: int) {
    0 <= i < |opts| && opts[i].WithPodEvents? && forall j :: i < j < |opts| ==> !opts[j].WithPodEvents?
  }

  /** The options applied in order. */
  function ApplyAll(s: Scenario, opts: seq<Opt>): Scenario
    decreases |opts|
  {
    if |opts| == 0 then s else Apply(ApplyAll(s, opts[..|opts| - 1]), opts[|opts| - 1])
  }

  /** What one option changes: only the field it names. */
  lemma ApplyFields(s: Scenario, o: Opt)
    ensures Apply(s, o).metadata == if o.WithName? then Metadata(o.name, o.at) else s.metadata
    ensures Apply(s, o).cluster == if o.WithCluster? then o.cluster else s.cluster
    ensures Apply(s, o).events == if o.WithPodEvents? then Events(o.pods) else s.events
  {
  }

  /** The last `WithName` decides the metadata; with none it is kept. */
  lemma {:induction false} ApplyAllName(s: Scenario, opts: seq<Opt>)
    ensures forall i :: LastName(opts, i) ==> ApplyAll(s, opts).metadata == Metadata(opts[i].name, opts[i].at)
    ensures (forall i :: 0 <= i < |opts| ==> !opts[i].WithName?) ==> ApplyAll(s, opts).metadata == s.metadata
    decreases |opts|
  {
    if |opts| > 0 {
      var n := |opts| - 1;
      var prefix := opts[..n];
      ApplyAllName(s, prefix);
      var before := ApplyAll(s, prefix);
      assert ApplyAll(s, opts) == Apply(before, opts[n]);
      ApplyFields(before, opts[n]);
      forall i | LastName(opts, i)
        ensures ApplyAll(s, opts).metadata == Metadata(opts[i].name, opts[i].at)
      {
        if i < n {
          assert LastName(prefix, i);
        }
      }
      if forall i :: 0 <= i < |opts| ==> !opts[i].WithName? {
        assert forall i :: 0 <= i < |prefix| ==> !prefix[i].WithName?;
      }
    }
  }

  /** The last `WithCluster` decides the cluster; with none it is kept. */
  lemma {:induction false} ApplyAllCluster(s: Scenario, opts: seq<Opt>)
    ensures forall i :: LastCluster(opts, i) ==> ApplyAll(s, opts).cluster == opts[i].cluster
    ensures (forall i :: 0 <= i < |opts| ==> !opts[i].WithCluster?) ==> ApplyAll(s, opts).cluster == s.cluster
    decreases |opts|
  {
    if |opts| > 0 {
      var n := |opts| - 1;
      var prefix := opts[..n];
      ApplyAllCluster(s, prefix);
      var before := ApplyAll(s, prefix);
      assert ApplyAll(s, opts) == Apply(before, opts[n]);
      ApplyFields(before, opts[n]);
      forall i | LastCluster(opts, i)
        ensures ApplyAll(s, opts).cluster == opts[i].cluster
      {
        if i < n {
          assert LastCluster(prefix, i);
        }
      }
      if forall i :: 0 <= i < |opts| ==> !opts[i].WithCluster? {
        assert forall i :: 0 <= i < |prefix| ==> !prefix[i].WithCluster?;
      }
    }
  }

  /** The last `WithPodEvents` decides the pod events; with none they are
      kept. */
  lemma {:induction false} ApplyAllPods(s: Scenario, opts: seq<Opt>)
    ensures forall i :: LastPods(opts, i) ==> ApplyAll(s, opts).events.pods == opts[i].pods
    ensures (forall i :: 0 <= i < |opts| ==> !opts[i].WithPodEvents?) ==> ApplyAll(s, opts).events == s.events
    decreases |opts|
  {
    if |opts| > 0 {
      var n := |opts| - 1;
      var prefix := opts[..n];
      ApplyAllPods(s, prefix);
      var before := ApplyAll(s, prefix);
      assert ApplyAll(s, opts) == Apply(before, opts[n]);
      ApplyFields(before, opts[n]);
      forall i | LastPods(opts, i)
        ensures ApplyAll(s, opts).events.pods == opts[i].pods
      {
        if i < n {
          assert LastPods(prefix, i);
        }
      }
      if forall i :: 0 <= i < |opts| ==> !opts[i].WithPodEvents? {
        assert forall i :: 0 <= i < |prefix| ==> !prefix[i].WithPodEvents?;
      }
    }
  }

  /** `NewScenario`: the options in order, then, when no name was set, a
      default name "default-" plus the UUID's first three characters,
      stamped `now`. */
  function NewScenario(opts: seq<Opt>, uuid: string, now: int): (r: Scenario)
    requires |uuid| >= 3
    ensures r.metadata.name != ""
    ensures r.cluster == ApplyAll(Initial, opts).cluster && r.events == ApplyAll(Initial, opts).events
  {
    var s := ApplyAll(Initial, opts);
    if s.metadata.name == "" then s.(metadata := Metadata("default-" + uuid[..3], now)) else s
  }

  /** Each field of a new scenario comes from the last option that sets
      it; the name falls back to the default when the last `WithName` is
      empty or there is none, and the cluster and pod events to the empty
      ones. */
  lemma NewScenarioOptions(opts: seq<Opt>, uuid: string, now: int)
    requires |uuid| >= 3
    ensures var r := NewScenario(opts, uuid, now);
      (forall i :: LastName(opts, i) && opts[i].name != "" ==> r.metadata == Metadata(opts[i].name, opts[i].at)) &&
      ((forall i :: LastName(opts, i) ==> opts[i].name == "") ==> r.metadata == Metadata("default-" + uuid[..3], now)) &&
      (forall i :: LastCluster(opts, i) ==> r.cluster == opts[i].cluster) &&
      ((forall i :: 0 <= i < |opts| ==> !opts[i].WithCluster?) ==> r.cluster == Some(Cluster([]))) &&
      (forall i :: LastPods(opts, i) ==> r.events.pods == opts[i].pods) &&
      ((forall i :: 0 <= i < |opts| ==> !opts[i].WithPodEvents?) ==> r.events.pods == [])
  {
    ApplyAllName(Initial, opts);
    ApplyAllCluster(Initial, opts);
    ApplyAllPods(Initial, opts);
    if forall i :: LastName(opts, i) ==> opts[i].name == "" {
      if exists i :: 0 <= i < |opts| && opts[i].WithName? {
        var i := LastIndexOfName(opts);
        assert LastName(opts, i);
      }
    }
  }

  /** The index of the last `WithName` option. */
  function LastIndexOfName(opts: seq<Opt>): (i: int)
    requires exists i :: 0 <= i < |opts| && opts[i].WithName?
    ensures LastName(opts, i)
    decreases |opts|
  {
    if opts[|opts| - 1].WithName? then |opts| - 1
    else
      var prefix := opts[..|opts| - 1];
      var k :| 0 <= k < |opts| && opts[k].WithName?;
      assert prefix[k] == opts[k];
      LastIndexOfName(prefix)
  }

  /** `slices.MaxFunc` over the keys: the first position of a greatest key,
      found by one pass that replaces the candidate only on a strictly
      greater key. */
  function FirstMax(keys: seq<int>): (m: nat)
    requires |keys| > 0
    ensures m < |keys|
    ensures forall j :: 0 <= j < |keys| ==> keys[j] <= keys[m]
    ensures forall j :: 0 <= j < m ==> keys[j] < keys[m]
    decreases |keys|
  {
    if |keys| == 1 then 0
    else
      var prefix := keys[..|keys| - 1];
      var m := FirstMax(prefix);
      assert forall j :: 0 <= j < |prefix| ==> prefix[j] == keys[j];
      if keys[|keys| - 1] > keys[m] then |keys| - 1 else m
  }

  /** Every pod event's pod has a first container to read requests from;
      the Go selectors index `Containers[0]` and panic otherwise. */
  predicate HasContainers(pods: seq<PodEvent>) {
    forall i :: 0 <= i < |pods| ==> |pods[i].pod.containers| > 0
  }

  /** The first container's request for `resource`, in milli-units. */
  function Request(e: PodEvent, resource: string): int
    requires |e.pod.containers| > 0
  {
    Kube.FirstRequest(e.pod, resource)
  }

  /** The comparison key of each pod event: the request in whole units, as
      `Quantity.Value()` gives it, or in milli-units. */
  function ValueKeys(pods: seq<PodEvent>, resource: string): (keys: seq<int>)
    requires HasContainers(pods)
    ensures |keys| == |pods|
    ensures forall i :: 0 <= i < |pods| ==> keys[i] == Kube.Value(Request(pods[i], resource))
  {
    seq(|pods|, i requires 0 <= i < |pods| => Kube.Value(Request(pods[i], resource)))
  }

  function MilliKeys(pods: seq<PodEvent>, resource: string): (keys: seq<int>)
    requires HasContainers(pods)
    ensures |keys| == |pods|
    ensures forall i :: 0 <= i < |pods| ==> keys[i] == Request(pods[i], resource)
  {
    seq(|pods|, i requires 0 <= i < |pods| => Request(pods[i], resource))
  }

  /** `GetLargerCpuRequest` as written: CPU requests compared by `Value()`,
      whole cores rounded up, so 100m and 500m tie at 1. */
  function LargerCpuRequestAsWritten(pods: seq<PodEvent>): (r: Option<PodEvent>)
    requires HasContainers(pods)
    ensures r.None? <==> |pods| == 0
    ensures r.Some? ==>
      exists m :: 0 <= m < |pods| && r.value == pods[m] &&
        (forall j :: 0 <= j < |pods| ==> Kube.Value(Request(pods[j], Kube.Cpu)) <= Kube.Value(Request(pods[m], Kube.Cpu))) &&
        (forall j :: 0 <= j < m ==> Kube.Value(Request(pods[j], Kube.Cpu)) < Kube.Value(Request(pods[m], Kube.Cpu)))
  {
    if |pods| == 0 then None else Some(pods[FirstMax(ValueKeys(pods, Kube.Cpu))])
  }

  /** `GetLargerCpuRequest` comparing milli-cores: the first pod event whose
      CPU request is at least every other's, none for an empty list. */
  function GetLargerCpuRequest(pods: seq<PodEvent>): (r: Option<PodEvent>)
    requires HasContainers(pods)
    ensures r.None? <==> |pods| == 0
    ensures r.Some? ==>
      exists m :: 0 <= m < |pods| && r.value == pods[m] &&
        (forall j :: 0 <= j < |pods| ==> Request(pods[j], Kube.Cpu) <= Request(pods[m], Kube.Cpu)) &&
        (forall j :: 0 <= j < m ==> Request(pods[j], Kube.Cpu) < Request(pods[m], Kube.Cpu))
  {
    if |pods| == 0 then None
    else
      var m := FirstMax(MilliKeys(pods, Kube.Cpu));
      Some(pods[m])
  }

  /** `GetLargerMemRequest`: memory compared by `Value()`, whole bytes. */
  function GetLargerMemRequest(pods: seq<PodEvent>): (r: Option<PodEvent>)
    requires HasContainers(pods)
    ensures r.None? <==> |pods| == 0
    ensures r.Some? ==>
      exists m :: 0 <= m < |pods| && r.value == pods[m] &&
        (forall j :: 0 <= j < |pods| ==> Kube.Value(Request(pods[j], Kube.Memory)) <= Kube.Value(Request(pods[m], Kube.Memory))) &&
        (forall j :: 0 <= j < m ==> Kube.Value(Request(pods[j], Kube.Memory)) < Kube.Value(Request(pods[m], Kube.Memory)))
  {
    if |pods| == 0 then None
    else
      var m := FirstMax(ValueKeys(pods, Kube.Memory));
      Some(pods[m])
  }

  function AfterKeys(pods: seq<PodEvent>): (keys: seq<int>)
    ensures |keys| == |pods|
    ensures forall i :: 0 <= i < |pods| ==> keys[i] == pods[i].after
  {
    seq(|pods|, i requires 0 <= i < |pods| => pods[i].after)
  }

  /** `GetLongestEvent`: the first pod event with the greatest
      execute-after duration. */
  function GetLongestEvent(pods: seq<PodEvent>): (r: Option<PodEvent>)
    ensures r.None? <==> |pods| == 0
    ensures r.Some? ==>
      exists m :: 0 <= m < |pods| && r.value == pods[m] &&
        (forall j :: 0 <= j < |pods| ==> pods[j].after <= pods[m].after) &&
        (forall j :: 0 <= j < m ==> pods[j].after < pods[m].after)
  {
    if |pods| == 0 then None
    else
      var m := FirstMax(AfterKeys(pods));
      Some(pods[m])
  }

  /** A pod event whose only container requests `milli` milli-cores. */
  function CpuPod(name: string, milli: int): (e: PodEvent)
    ensures |e.pod.containers| > 0 && Request(e, Kube.Cpu) == milli
  {
    var c := Kube.Container(map[Kube.Cpu := milli]);
    PodEvent(name, 0, 0, Kube.Pod("", name, "default", "", 0, [c]))
  }

  /** With requests of 100m and 500m, `GetLargerCpuRequest` as written
      picks the 100m pod: both round up to one core and the first wins.
      Comparing milli-cores picks the 500m pod. */
  lemma AsWrittenMissesLargerCpu()
    ensures var small := CpuPod("small", 100);
      var large := CpuPod("large", 500);
      LargerCpuRequestAsWritten([small, large]) == Some(small) &&
      Request(large, Kube.Cpu) > Request(small, Kube.Cpu) &&
      GetLargerCpuRequest([small, large]) == Some(large)
  {
    var small := CpuPod("small", 100);
    var large := CpuPod("large", 500);
    var keys := ValueKeys([small, large], Kube.Cpu);
    assert keys == [1, 1];
    var milli := MilliKeys([small, large], Kube.Cpu);
    assert milli == [100, 500];
  }
}

=== FILE: scheduler_config.dfy ===
/**
 * pkg/kubernetes/scheduler.go: reading and rewriting the plugin weights of a
 * kube-scheduler configuration.
 *
 * Fetching the configuration over HTTP becomes an input (`fetched`), and
 * posting it back becomes the `Pushed` outcome carrying the configuration
 * that would be posted. Go's `map[string]int32` of requested weights is
 * iterated in an unspecified order; here it is a sequence of distinct names
 * in the order the iteration happened to take.
 */
module SchedulerConfig {
  import opened Wrappers
  import Seqs

  /** A multi-point plugin entry; `weight` is None where the YAML has none. */
  datatype Plugin = Plugin(name: string, weight: Option<int>)

  /** A profile; `enabled` is None when `Plugins` or `MultiPoint.Enabled` is
      nil, and such a profile is skipped everywhere. */
  datatype Profile = Profile(enabled: Option<seq<Plugin>>)

  datatype Config = Config(profiles: seq<Profile>)

  /** The 21 default plugins `NewHTTPKubeSchedulerManager` knows. */
  const KnownPlugins: set<string> := {
    "SchedulingGates", "PrioritySort", "NodeUnschedulable", "NodeName", "TaintToleration",
    "NodeAffinity", "NodePorts", "NodeResourcesFit", "VolumeRestrictions", "EBSLimits",
    "GCEPDLimits", "NodeVolumeLimits", "AzureDiskLimits", "VolumeBinding", "VolumeZone",
    "PodTopologySpread", "InterPodAffinity", "DefaultPreemption",
    "NodeResourcesBalancedAllocation", "ImageLocality", "DefaultBinder"}

  /** Every enabled plugin entry, profile by profile. */
  function Enabled(profiles: seq<Profile>): seq<Plugin> {
    if |profiles| == 0 then []
    else EnabledIn(profiles[0]) + Enabled(profiles[1..])
  }

  function EnabledIn(p: Profile): seq<Plugin> {
    match p.enabled
    case None => []
    case Some(ps) => ps
  }

  /** A weight as `GetPluginWeights` reports it: 1 where none is set. */
  function EffectiveWeight(p: Plugin): (w: int)
    ensures p.weight.None? ==> w == 1
    ensures p.weight.Some? ==> w == p.weight.value
  {
    match p.weight
    case None => 1
    case Some(w) => w
  }

  /** `GetPluginWeights`: each enabled plugin's weight, a later entry
      overriding an earlier one with the same name; a failed fetch is passed
      on. */
  function GetPluginWeights(fetched: Result<Config, string>): (r: Result<map<string, int>, string>)
    ensures fetched.Err? ==> r == Err(fetched.error)
    ensures fetched.Ok? ==>
      r.Ok? && r.value.Keys == set i | 0 <= i < |Enabled(fetched.value.profiles)| :: Enabled(fetched.value.profiles)[i].name
  {
    match fetched
    case Err(e) => Err(e)
    case Ok(config) =>
      var es := Enabled(config.profiles);
      var pairs := seq(|es|, i requires 0 <= i < |es| => (es[i].name, EffectiveWeight(es[i])));
      assert forall i :: 0 <= i < |es| ==> pairs[i].0 == es[i].name;
      Ok(Seqs.ToMap(pairs))
  }

  /** A plugin listed once reports its own weight. */
  lemma GetPluginWeightsOfUnique(config: Config, i: int)
    requires 0 <= i < |Enabled(config.profiles)|
    requires forall j :: 0 <= j < |Enabled(config.profiles)| && j != i ==>
      Enabled(config.profiles)[j].name != Enabled(config.profiles)[i].name
    ensures GetPluginWeights(Ok(config)).value[Enabled(config.profiles)[i].name] ==
      EffectiveWeight(Enabled(config.profiles)[i])
  {
    var es := Enabled(config.profiles);
    var pairs := seq(|es|, i requires 0 <= i < |es| => (es[i].name, EffectiveWeight(es[i])));
    Seqs.ToMapLastWins(pairs, i);
  }

  /** `ValidatePluginName`: an empty name is an error; an unknown one only
      draws a warning. */
  datatype Validation = EmptyName | Valid(warning: bool)

  function ValidatePluginName(name: string): (v: Validation)
    ensures v.EmptyName? <==> name == ""
    ensures v.Valid? ==> (v.warning <==> name !in KnownPlugins)
  {
    if name == "" then EmptyName else Valid(name !in KnownPlugins)
  }

  datatype UpdateError = FetchFailed(reason: string) | InvalidName(name: string) | WeightTooSmall(name: string) | NotFound(name: string)

  /** What `UpdatePluginWeights` ends with: an error before anything is
      posted, the configuration posted, or nothing to post. */
  datatype Outcome = Failed(error: UpdateError) | Pushed(config: Config) | Unchanged

  /** A requested pair the validation pass accepts. */
  predicate ValidPair(p: (string, int)) {
    ValidatePluginName(p.0).Valid? && p.1 >= 1
  }

  /** The error the validation pass reports for a rejected pair: the name
      is checked before the weight. */
  function PairError(p: (string, int)): UpdateError {
    if p.0 == "" then InvalidName(p.0) else WeightTooSmall(p.0)
  }

  /** `i` is the first rejected pair. */
  predicate FirstInvalid(weights: seq<(string, int)>, i: int) {
    0 <= i < |weights| && !ValidPair(weights[i]) && forall j :: 0 <= j < i ==> ValidPair(weights[j])
  }

  /** The validation pass: the error of the first pair (in iteration order)
      with an empty name or a weight below 1. */
  function Validate(weights: seq<(string, int)>): (r: Option<UpdateError>)
    ensures r.None? <==> forall i :: 0 <= i < |weights| ==> weights[i].0 != "" && weights[i].1 >= 1
    ensures r.Some? ==> exists i :: FirstInvalid(weights, i) && r.value == PairError(weights[i])
  {
    if |weights| == 0 then None
    else if !ValidPair(weights[0]) then
      assert FirstInvalid(weights, 0);
      Some(PairError(weights[0]))
    else
      var rest := weights[1..];
      assert forall i :: 1 <= i < |weights| ==> weights[i] == rest[i - 1];
      var r := Validate(rest);
      if r.Some? then
        var i :| FirstInvalid(rest, i) && r.value == PairError(rest[i]);
        assert FirstInvalid(weights, i + 1);
        r
      else
        r
  }

  /** The position of the first entry named `name`, or -1. */
  function FirstIndex(ps: seq<Plugin>, name: string): (i: int)
    ensures -1 <= i < |ps|
    ensures i >= 0 ==> ps[i].name == name && forall j :: 0 <= j < i ==> ps[j].name != name
    ensures i == -1 <==> forall j :: 0 <= j < |ps| ==> ps[j].name != name
  {
    if |ps| == 0 then -1
    else if ps[0].name == name then 0
    else
      var i := FirstIndex(ps[1..], name);
      if i < 0 then -1 else i + 1
  }

  /** The entry `ps[i]` with its weight set. */
  function Reweigh(ps: seq<Plugin>, i: int, weight: int): (r: seq<Plugin>)
    requires 0 <= i < |ps|
    ensures |r| == |ps| && r[i] == Plugin(ps[i].name, Some(weight))
    ensures forall j :: 0 <= j < |ps| && j != i ==> r[j] == ps[j]
  {
    ps[i := Plugin(ps[i].name, Some(weight))]
  }

  /** Two plugin lists that differ at most in weights. */
  predicate SameNames(a: seq<Plugin>, b: seq<Plugin>) {
    |a| == |b| && forall j :: 0 <= j < |a| ==> a[j].name == b[j].name
  }

  /** Two configurations with the same profiles and the same plugin names,
      position by position. */
  predicate SameShape(a: seq<Profile>, b: seq<Profile>) {
    |a| == |b| && forall i :: 0 <= i < |a| ==>
      a[i].enabled.Some? == b[i].enabled.Some? && SameNames(EnabledIn(a[i]), EnabledIn(b[i]))
  }

  /** The inner loop of `UpdatePluginWeights` for one name: the first
      profile holding the name has its first such entry reweighed, and
      nothing else changes; None when no profile holds it. */
  function UpdateFirst(profiles: seq<Profile>, name: string, weight: int): (r: Option<seq<Profile>>)
    ensures r.None? <==> FirstIndex(Enabled(profiles), name) == -1
    ensures r.Some? ==>
      var k := FirstIndex(Enabled(profiles), name);
      SameShape(profiles, r.value) &&
      Enabled(r.value) == Reweigh(Enabled(profiles), k, weight)
    decreases |profiles|
  {
    if |profiles| == 0 then None
    else
      var head := EnabledIn(profiles[0]);
      var i := FirstIndex(head, name);
      FirstIndexAppend(head, Enabled(profiles[1..]), name);
      if i >= 0 then
        var p := Profile(Some(Reweigh(head, i, weight)));
        ReweighHead(profiles, i, weight);
        Some([p] + profiles[1..])
      else
        match UpdateFirst(profiles[1..], name, weight)
        case None => None
        case Some(rest) =>
          ReweighTail(profiles, rest, FirstIndex(Enabled(profiles[1..]), name), weight);
          Some([profiles[0]] + rest)
  }

  lemma EnabledCons(p: Profile, rest: seq<Profile>)
    ensures Enabled([p] + rest) == EnabledIn(p) + Enabled(rest)
  {
    assert ([p] + rest)[1..] == rest;
  }

  /** Reweighing inside the first profile. */
  lemma {:induction false} ReweighHead(profiles: seq<Profile>, i: int, weight: int)
    requires |profiles| > 0 && 0 <= i < |EnabledIn(profiles[0])|
    ensures var head := EnabledIn(profiles[0]);
      var r := [Profile(Some(Reweigh(head, i, weight)))] + profiles[1..];
      SameShape(profiles, r) && Enabled(r) == Reweigh(Enabled(profiles), i, weight)
  {
    var head := EnabledIn(profiles[0]);
    var p := Profile(Some(Reweigh(head, i, weight)));
    EnabledCons(p, profiles[1..]);
    EnabledCons(profiles[0], profiles[1..]);
    assert [profiles[0]] + profiles[1..] == profiles;
    ReweighAppend(head, Enabled(profiles[1..]), i, weight);
  }

  /** Reweighing past the first profile. */
  lemma {:induction false} ReweighTail(profiles: seq<Profile>, rest: seq<Profile>, k: int, weight: int)
    requires |profiles| > 0 && 0 <= k < |Enabled(profiles[1..])|
    requires SameShape(profiles[1..], rest) && Enabled(rest) == Reweigh(Enabled(profiles[1..]), k, weight)
    ensures var head := EnabledIn(profiles[0]);
      SameShape(profiles, [profiles[0]] + rest) &&
      Enabled([profiles[0]] + rest) == Reweigh(Enabled(profiles), |head| + k, weight)
  {
    var head := EnabledIn(profiles[0]);
    EnabledCons(profiles[0], rest);
    EnabledCons(profiles[0], profiles[1..]);
    assert [profiles[0]] + profiles[1..] == profiles;
    ReweighShift(head, Enabled(profiles[1..]), k, weight);
    var r := [profiles[0]] + rest;
    forall j | 0 <= j < |profiles|
      ensures profiles[j].enabled.Some? == r[j].enabled.Some? && SameNames(EnabledIn(profiles[j]), EnabledIn(r[j]))
    {
      if j > 0 {
        assert profiles[j] == profiles[1..][j - 1] && r[j] == rest[j - 1];
      }
    }
  }

  lemma FirstIndexAppend(a: seq<Plugin>, b: seq<Plugin>, name: string)
    ensures FirstIndex(a, name) >= 0 ==> FirstIndex(a + b, name) == FirstIndex(a, name)
    ensures FirstIndex(a, name) == -1 && FirstIndex(b, name) >= 0 ==>
      FirstIndex(a + b, name) == |a| + FirstIndex(b, name)
    ensures FirstIndex(a, name) == -1 && FirstIndex(b, name) == -1 ==> FirstIndex(a + b, name) == -1
  {
    var c := a + b;
    assert forall j :: 0 <= j < |a| ==> c[j] == a[j];
    assert forall j :: 0 <= j < |b| ==> c[|a| + j] == b[j];
    var ia, ib, ic := FirstIndex(a, name), FirstIndex(b, name), FirstIndex(c, name);
    if ia >= 0 {
      assert ic <= ia;
    } else if ib >= 0 {
      assert c[|a| + ib].name == name;
      assert ic >= |a|;
      assert ic - |a| <= ib && ic - |a| >= ib by {
        assert b[ic - |a|] == c[ic];
      }
    } else {
      forall j | 0 <= j < |c|
        ensures c[j].name != name
      {
        if j >= |a| {
          assert c[j] == b[j - |a|];
        }
      }
    }
  }

  lemma ReweighAppend(a: seq<Plugin>, b: seq<Plugin>, i: int, weight: int)
    requires 0 <= i < |a|
    ensures Reweigh(a, i, weight) + b == Reweigh(a + b, i, weight)
  {
  }

  lemma ReweighShift(a: seq<Plugin>, b: seq<Plugin>, i: int, weight: int)
    requires 0 <= i < |b|
    ensures a + Reweigh(b, i, weight) == Reweigh(a + b, |a| + i, weight)
  {
  }

  /** The update pass over all requested weights, in iteration order; the
      first name found nowhere stops it. */
  function UpdateAll(profiles: seq<Profile>, weights: seq<(string, int)>): (r: Result<seq<Profile>, string>)
    ensures r.Ok? ==> SameShape(profiles, r.value)
    ensures r.Ok? <==> forall i :: 0 <= i < |weights| ==> FirstIndex(Enabled(profiles), weights[i].0) >= 0
    ensures r.Err? ==>
      (exists i :: 0 <= i < |weights| && weights[i].0 == r.error) && FirstIndex(Enabled(profiles), r.error) == -1
    decreases |weights|
  {
    if |weights| == 0 then Ok(profiles)
    else
      match UpdateFirst(profiles, weights[0].0, weights[0].1)
      case None => Err(weights[0].0)
      case Some(next) =>
        var r := UpdateAll(next, weights[1..]);
        UpdateAllCons(profiles, next, weights, r);
        r
  }

  /** The contract of `UpdateAll` for a request whose first name was found,
      from the contract of the pass over the rest. */
  lemma UpdateAllCons(profiles: seq<Profile>, next: seq<Profile>, weights: seq<(string, int)>, r: Result<seq<Profile>, string>)
    requires |weights| > 0 && SameShape(profiles, next)
    requires FirstIndex(Enabled(profiles), weights[0].0) >= 0
    requires r.Ok? ==> SameShape(next, r.value)
    requires r.Ok? <==> forall i :: 0 <= i < |weights[1..]| ==> FirstIndex(Enabled(next), weights[1..][i].0) >= 0
    requires r.Err? ==>
      (exists i :: 0 <= i < |weights[1..]| && weights[1..][i].0 == r.error) && FirstIndex(Enabled(next), r.error) == -1
    ensures r.Ok? ==> SameShape(profiles, r.value)
    ensures r.Ok? <==> forall i :: 0 <= i < |weights| ==> FirstIndex(Enabled(profiles), weights[i].0) >= 0
    ensures r.Err? ==>
      (exists i :: 0 <= i < |weights| && weights[i].0 == r.error) && FirstIndex(Enabled(profiles), r.error) == -1
  {
    SameShapeKeepsFirstIndex(profiles, next);
    assert forall i :: 1 <= i < |weights| ==> weights[i] == weights[1..][i - 1];
    if r.Ok? {
      SameShapeTransitive(profiles, next, r.value);
    }
  }

  lemma SameShapeTransitive(a: seq<Profile>, b: seq<Profile>, c: seq<Profile>)
    requires SameShape(a, b) && SameShape(b, c)
    ensures SameShape(a, c)
  {
  }

  /** Profiles of the same shape list the same names in the same places. */
  lemma {:induction false} SameShapeEnabled(a: seq<Profile>, b: seq<Profile>)
    requires SameShape(a, b)
    ensures SameNames(Enabled(a), Enabled(b))
    decreases |a|
  {
    if |a| > 0 {
      assert SameShape(a[1..], b[1..]) by {
        forall i | 0 <= i < |a[1..]|
          ensures a[1..][i].enabled.Some? == b[1..][i].enabled.Some? &&
            SameNames(EnabledIn(a[1..][i]), EnabledIn(b[1..][i]))
        {
          assert a[1..][i] == a[i + 1] && b[1..][i] == b[i + 1];
        }
      }
      SameShapeEnabled(a[1..], b[1..]);
      var ha, hb := EnabledIn(a[0]), EnabledIn(b[0]);
      var ra, rb := Enabled(a[1..]), Enabled(b[1..]);
      assert SameNames(ha, hb) && SameNames(ra, rb);
      forall j | 0 <= j < |ha + ra|
        ensures (ha + ra)[j].name == (hb + rb)[j].name
      {
        if j < |ha| {
          assert (ha + ra)[j] == ha[j] && (hb + rb)[j] == hb[j];
        } else {
          assert (ha + ra)[j] == ra[j - |ha|] && (hb + rb)[j] == rb[j - |hb|];
        }
      }
    }
  }

  lemma SameShapeKeepsFirstIndex(a: seq<Profile>, b: seq<Profile>)
    requires SameShape(a, b)
    ensures forall name :: FirstIndex(Enabled(a), name) == FirstIndex(Enabled(b), name)
  {
    SameShapeEnabled(a, b);
    forall name
      ensures FirstIndex(Enabled(a), name) == FirstIndex(Enabled(b), name)
    {
      SameNamesFirstIndex(Enabled(a), Enabled(b), name);
    }
  }

  lemma {:induction false} SameNamesFirstIndex(a: seq<Plugin>, b: seq<Plugin>, name: string)
    requires SameNames(a, b)
    ensures FirstIndex(a, name) == FirstIndex(b, name)
    decreases |a|
  {
    if |a| > 0 {
      assert SameNames(a[1..], b[1..]) by {
        forall j | 0 <= j < |a[1..]|
          ensures a[1..][j].name == b[1..][j].name
        {
          assert a[1..][j] == a[j + 1] && b[1..][j] == b[j + 1];
        }
      }
      SameNamesFirstIndex(a[1..], b[1..], name);
    }
  }

  /** `UpdatePluginWeights`: a failed fetch, then validation of every pair
      before anything changes, then the update pass; the configuration is
      posted exactly when at least one entry was updated, which is when the
      request was non-empty and every name was found. */
  function UpdatePluginWeights(fetched: Result<Config, string>, weights: seq<(string, int)>): (o: Outcome)
    ensures fetched.Err? ==> o == Failed(FetchFailed(fetched.error))
    ensures fetched.Ok? && Validate(weights).Some? ==> o == Failed(Validate(weights).value)
    ensures fetched.Ok? && Validate(weights).None? ==>
      var profiles := fetched.value.profiles;
      (o.Failed? <==> exists i :: 0 <= i < |weights| && FirstIndex(Enabled(profiles), weights[i].0) == -1) &&
      (o.Failed? ==> o.error.NotFound? && FirstIndex(Enabled(profiles), o.error.name) == -1) &&
      (o.Pushed? <==> !o.Failed? && |weights| > 0) &&
      (o.Pushed? ==> SameShape(profiles, o.config.profiles))
  {
    match fetched
    case Err(e) => Failed(FetchFailed(e))
    case Ok(config) =>
      match Validate(weights)
      case Some(err) => Failed(err)
      case None =>
        match UpdateAll(config.profiles, weights)
        case Err(name) => Failed(NotFound(name))
        case Ok(profiles) => if |weights| > 0 then Pushed(Config(profiles)) else Unchanged
  }

  /** `UpdatePluginWeight`: the one-entry request. */
  function UpdatePluginWeight(fetched: Result<Config, string>, name: string, weight: int): (o: Outcome)
    ensures fetched.Ok? && name != "" && weight >= 1 ==>
      (o.Pushed? <==> FirstIndex(Enabled(fetched.value.profiles), name) >= 0)
    ensures weight < 1 && fetched.Ok? ==> o.Failed? && o.error == (if name == "" then InvalidName(name) else WeightTooSmall(name))
  {
    UpdatePluginWeights(fetched, [(name, weight)])
  }

  /** The first enabled entry named `name` exists and carries `weight`. */
  ghost predicate SetsFirst(profiles: seq<Profile>, name: string, weight: int) {
    var es := Enabled(profiles);
    var k := FirstIndex(es, name);
    k >= 0 && es[k].weight == Some(weight)
  }

  /** After a posted update, each requested name's first entry carries the
      requested weight (names are distinct, as map keys are). */
  lemma {:induction false} UpdateAllSetsFirstEntries(profiles: seq<Profile>, weights: seq<(string, int)>, i: int)
    requires forall a, b :: 0 <= a < b < |weights| ==> weights[a].0 != weights[b].0
    requires UpdateAll(profiles, weights).Ok? && 0 <= i < |weights|
    ensures SetsFirst(UpdateAll(profiles, weights).value, weights[i].0, weights[i].1)
    decreases |weights|
  {
    var next := UpdateFirst(profiles, weights[0].0, weights[0].1).value;
    var rest := weights[1..];
    var final := UpdateAll(next, rest).value;
    assert UpdateAll(profiles, weights).value == final;
    var name := weights[i].0;
    if i == 0 {
      // The first entry of `name` was reweighed in `next`; the later
      // updates touch other names' first entries only.
      SameShapeKeepsFirstIndex(profiles, next);
      var k := FirstIndex(Enabled(next), name);
      assert k == FirstIndex(Enabled(profiles), name) && k >= 0;
      assert Enabled(next)[k].weight == Some(weights[0].1);
      forall j | 0 <= j < |rest|
        ensures rest[j].0 != name
      {
        assert rest[j] == weights[j + 1];
      }
      UpdateAllKeepsOthers(next, rest, name);
      assert FirstIndex(Enabled(final), name) == k && Enabled(final)[k] == Enabled(next)[k];
      assert SetsFirst(final, name, weights[i].1);
    } else {
      forall a, b | 0 <= a < b < |rest|
        ensures rest[a].0 != rest[b].0
      {
        assert rest[a] == weights[a + 1] && rest[b] == weights[b + 1];
      }
      var w := rest[i - 1];
      assert w == weights[i];
      UpdateAllSetsFirstEntries(next, rest, i - 1);
      assert SetsFirst(UpdateAll(next, rest).value, w.0, w.1);
      assert w.0 == name && w.1 == weights[i].1;
      assert SetsFirst(final, name, weights[i].1);
    }
  }

  /** The update pass leaves the first entry of a name it does not request
      as it was. */
  lemma {:induction false} UpdateAllKeepsOthers(profiles: seq<Profile>, weights: seq<(string, int)>, name: string)
    requires UpdateAll(profiles, weights).Ok?
    requires forall j :: 0 <= j < |weights| ==> weights[j].0 != name
    requires FirstIndex(Enabled(profiles), name) >= 0
    ensures var k := FirstIndex(Enabled(profiles), name);
      FirstIndex(Enabled(UpdateAll(profiles, weights).value), name) == k &&
      Enabled(UpdateAll(profiles, weights).value)[k] == Enabled(profiles)[k]
    decreases |weights|
  {
    if |weights| > 0 {
      var next := UpdateFirst(profiles, weights[0].0, weights[0].1).value;
      var rest := weights[1..];
      assert forall j :: 0 <= j < |rest| ==> rest[j] == weights[j + 1];
      SameShapeKeepsFirstIndex(profiles, next);
      var k := FirstIndex(Enabled(profiles), name);
      var k0 := FirstIndex(Enabled(profiles), weights[0].0);
      assert k != k0;
      assert Enabled(next)[k] == Enabled(profiles)[k];
      UpdateAllKeepsOthers(next, rest, name);
    }
  }

  // ---- ResetToDefaults ----

  /** The weights `ResetToDefaults` requests: the Kubernetes defaults. */
  function DefaultWeight(name: string): (w: int)
    ensures w >= 1
  {
    if name == "TaintToleration" then 3
    else if name in {"NodeAffinity", "PodTopologySpread", "InterPodAffinity"} then 2
    else 1
  }

  /** The request `ResetToDefaults` builds, in the iteration order `order`. */
  function DefaultRequest(order: seq<string>): (weights: seq<(string, int)>)
    ensures |weights| == |order|
    ensures forall i :: 0 <= i < |order| ==> weights[i] == (order[i], DefaultWeight(order[i]))
  {
    seq(|order|, i requires 0 <= i < |order| => (order[i], DefaultWeight(order[i])))
  }

  /** The default request passes validation and is not empty. */
  lemma DefaultRequestValid(order: seq<string>)
    requires Seqs.IsOrderOf(order, KnownPlugins)
    ensures Validate(DefaultRequest(order)).None? && |order| > 0
  {
    assert "" !in KnownPlugins;
    assert "TaintToleration" in KnownPlugins;
  }

  /** Every requested name is found exactly when every known plugin is. */
  lemma DefaultRequestFound(order: seq<string>, profiles: seq<Profile>)
    requires Seqs.IsOrderOf(order, KnownPlugins)
    ensures (forall i :: 0 <= i < |order| ==> FirstIndex(Enabled(profiles), DefaultRequest(order)[i].0) >= 0) <==>
      (forall name :: name in KnownPlugins ==> FirstIndex(Enabled(profiles), name) >= 0)
  {
    var weights := DefaultRequest(order);
    if forall i :: 0 <= i < |order| ==> FirstIndex(Enabled(profiles), weights[i].0) >= 0 {
      forall name | name in KnownPlugins
        ensures FirstIndex(Enabled(profiles), name) >= 0
      {
        var i :| 0 <= i < |order| && order[i] == name;
        assert weights[i].0 == name;
      }
    }
  }

  /** `ResetToDefaults`: every known plugin with its default weight, in the
      order the map iteration took (`order`); it is posted exactly when every
      known plugin is enabled somewhere. */
  function ResetToDefaults(fetched: Result<Config, string>, order: seq<string>): (o: Outcome)
    requires Seqs.IsOrderOf(order, KnownPlugins)
    ensures fetched.Err? ==> o == Failed(FetchFailed(fetched.error))
    ensures !(o.Failed? && (o.error.InvalidName? || o.error.WeightTooSmall?))
    ensures fetched.Ok? ==>
      (o.Pushed? <==> forall name :: name in KnownPlugins ==> FirstIndex(Enabled(fetched.value.profiles), name) >= 0)
  {
    DefaultRequestValid(order);
    if fetched.Ok? then
      DefaultRequestFound(order, fetched.value.profiles);
      UpdatePluginWeights(fetched, DefaultRequest(order))
    else
      UpdatePluginWeights(fetched, DefaultRequest(order))
  }

  /** The defaults: TaintToleration 3; NodeAffinity, PodTopologySpread and
      InterPodAffinity 2; every other known plugin 1. */
  lemma DefaultWeights()
    ensures DefaultWeight("TaintToleration") == 3
    ensures forall n :: n in {"NodeAffinity", "PodTopologySpread", "InterPodAffinity"} ==> DefaultWeight(n) == 2
    ensures forall n :: n in KnownPlugins - {"TaintToleration", "NodeAffinity", "PodTopologySpread", "InterPodAffinity"} ==>
      DefaultWeight(n) == 1
  {
  }
}

=== FILE: seqs.dfy ===
/**
 * Sequence helpers shared by the models: order-preserving filtering and sums.
 */
module Seqs {

  /** The elements of `s` satisfying `p`, in their original order. */
  function Filter<T(!new)>(s: seq<T>, p: T -> bool): (r: seq<T>)
    ensures |r| <= |s|
    ensures forall i :: 0 <= i < |r| ==> p(r[i])
    ensures forall x :: x in r <==> x in s && p(x)
    ensures multiset(r) <= multiset(s)
  {
    if s == [] then []
    else
      assert s == [s[0]] + s[1..];
      if p(s[0]) then [s[0]] + Filter(s[1..], p)
      else Filter(s[1..], p)
  }

  lemma {:induction false} FilterAppend<T(!new)>(s: seq<T>, t: seq<T>, p: T -> bool)
    ensures Filter(s + t, p) == Filter(s, p) + Filter(t, p)
    decreases |s|
  {
    if s == [] {
      assert s + t == t;
    } else {
      assert (s + t)[1..] == s[1..] + t;
      FilterAppend(s[1..], t, p);
    }
  }

  /** Filtering keeps every element that passes as often as it occurs, and
      no other element. */
  lemma {:induction false} FilterCount<T(!new)>(s: seq<T>, p: T -> bool, x: T)
    ensures multiset(Filter(s, p))[x] == if p(x) then multiset(s)[x] else 0
    decreases |s|
  {
    if s != [] {
      assert s == [s[0]] + s[1..];
      assert multiset(s) == multiset([s[0]]) + multiset(s[1..]);
      FilterCount(s[1..], p, x);
    }
  }

  function Sum(s: seq<real>): (r: real)
  {
    if s == [] then 0.0 else Sum(s[..|s| - 1]) + s[|s| - 1]
  }

  lemma {:induction false} SumAppend(s: seq<real>, t: seq<real>)
    ensures Sum(s + t) == Sum(s) + Sum(t)
    decreases |t|
  {
    if t != [] {
      assert (s + t)[..|s + t| - 1] == s + t[..|t| - 1];
      assert (s + t)[|s + t| - 1] == t[|t| - 1];
      SumAppend(s, t[..|t| - 1]);
    } else {
      assert s + t == s;
    }
  }

  lemma {:induction false} SumNonNegative(s: seq<real>)
    requires forall i :: 0 <= i < |s| ==> s[i] >= 0.0
    ensures Sum(s) >= 0.0
    decreases |s|
  {
    if s != [] {
      SumNonNegative(s[..|s| - 1]);
    }
  }

  /** Every element multiplied by `k`. */
  function Scale(s: seq<real>, k: real): (r: seq<real>)
    ensures |r| == |s|
  {
    if s == [] then [] else Scale(s[..|s| - 1], k) + [k * s[|s| - 1]]
  }

  lemma {:induction false} ScaleAt(s: seq<real>, k: real, i: int)
    requires 0 <= i < |s|
    ensures Scale(s, k)[i] == k * s[i]
    decreases |s|
  {
    if i < |s| - 1 {
      ScaleAt(s[..|s| - 1], k, i);
    }
  }

  lemma ScaleSnoc(s: seq<real>, k: real, v: real)
    ensures Scale(s + [v], k) == Scale(s, k) + [k * v]
  {
    var t := s + [v];
    forall i | 0 <= i < |t|
      ensures Scale(t, k)[i] == (Scale(s, k) + [k * v])[i]
    {
      ScaleAt(t, k, i);
      if i < |s| {
        ScaleAt(s, k, i);
      }
    }
  }

  lemma {:induction false} SumScale(s: seq<real>, k: real)
    ensures Sum(Scale(s, k)) == k * Sum(s)
    decreases |s|
  {
    if s != [] {
      SumScale(s[..|s| - 1], k);
    }
  }

  /** The largest element. */
  function Max(s: seq<real>): (m: real)
    requires |s| > 0
    ensures m in s && forall i :: 0 <= i < |s| ==> s[i] <= m
  {
    if |s| == 1 then s[0]
    else
      var m := Max(s[..|s| - 1]);
      assert forall i :: 0 <= i < |s| - 1 ==> s[i] == s[..|s| - 1][i];
      if s[|s| - 1] > m then s[|s| - 1] else m
  }

  /** `f` applied to every element. */
  function Map<T, U>(s: seq<T>, f: T -> U): (r: seq<U>)
    ensures |r| == |s| && forall i :: 0 <= i < |s| ==> r[i] == f(s[i])
  {
    if s == [] then [] else Map(s[..|s| - 1], f) + [f(s[|s| - 1])]
  }

  /** The first components of a sequence of pairs, in order. */
  function Firsts<A, B>(s: seq<(A, B)>): (r: seq<A>)
    ensures |r| == |s| && forall i :: 0 <= i < |s| ==> r[i] == s[i].0
  {
    if s == [] then [] else Firsts(s[..|s| - 1]) + [s[|s| - 1].0]
  }

  /** The second components of a sequence of pairs, in order. */
  function Seconds<A, B>(s: seq<(A, B)>): (r: seq<B>)
    ensures |r| == |s| && forall i :: 0 <= i < |s| ==> r[i] == s[i].1
  {
    if s == [] then [] else Seconds(s[..|s| - 1]) + [s[|s| - 1].1]
  }

  lemma SecondsAppend<A, B>(a: seq<(A, B)>, b: seq<(A, B)>)
    ensures Seconds(a + b) == Seconds(a) + Seconds(b)
  {
  }

  lemma ScaleIsMap(s: seq<real>, k: real, f: real -> real)
    requires forall x :: f(x) == k * x
    ensures Scale(s, k) == Map(s, f)
  {
    forall i | 0 <= i < |s|
      ensures Scale(s, k)[i] == Map(s, f)[i]
    {
      ScaleAt(s, k, i);
    }
  }

  /** Filtering commutes with a map that keeps the filter's verdict. */
  lemma {:induction false} FilterMap<T(!new)>(s: seq<T>, f: T -> T, p: T -> bool)
    requires forall x :: p(f(x)) == p(x)
    ensures Filter(Map(s, f), p) == Map(Filter(s, p), f)
    decreases |s|
  {
    if s != [] {
      var init := s[..|s| - 1];
      var x := s[|s| - 1];
      assert s == init + [x];
      FilterMap(init, f, p);
      assert Map(s, f) == Map(init, f) + [f(x)];
      FilterAppend(Map(init, f), [f(x)], p);
      FilterAppend(init, [x], p);
      var fi := Filter(init, p);
      if p(x) {
        assert Filter([x], p) == [x];
        assert Filter([f(x)], p) == [f(x)];
        assert (fi + [x])[..|fi|] == fi;
      } else {
        assert Filter([x], p) == [];
        assert Filter([f(x)], p) == [];
        assert fi + [] == fi;
        assert Filter(Map(init, f), p) + [] == Filter(Map(init, f), p);
      }
    }
  }

  /** `order` lists each element of `elems` exactly once: the order a Go map
      iteration happened to give its keys. */
  ghost predicate IsOrderOf<T>(order: seq<T>, elems: set<T>) {
    (forall i, j :: 0 <= i < j < |order| ==> order[i] != order[j]) &&
    (forall i :: 0 <= i < |order| ==> order[i] in elems) &&
    (forall t :: t in elems ==> t in order)
  }

  /** The map a Go loop `m[k] = v` over `pairs` builds: a later pair wins
      over an earlier one with the same key. */
  function ToMap<K, V>(pairs: seq<(K, V)>): (m: map<K, V>)
    ensures m.Keys == set i | 0 <= i < |pairs| :: pairs[i].0
    decreases |pairs|
  {
    if |pairs| == 0 then map[]
    else
      var n := |pairs| - 1;
      var m := ToMap(pairs[..n]);
      assert forall i :: 0 <= i < n ==> pairs[..n][i] == pairs[i];
      m[pairs[n].0 := pairs[n].1]
  }

  /** A pair's value is in the map unless a later pair reuses its key. */
  lemma {:induction false} ToMapLastWins<K, V>(pairs: seq<(K, V)>, i: int)
    requires 0 <= i < |pairs|
    requires forall j :: i < j < |pairs| ==> pairs[j].0 != pairs[i].0
    ensures ToMap(pairs)[pairs[i].0] == pairs[i].1
    decreases |pairs|
  {
    var n := |pairs| - 1;
    if i < n {
      assert pairs[..n][i] == pairs[i];
      ToMapLastWins(pairs[..n], i);
    }
  }

  /** The keys the elements of `s` carry. */
  function KeysOf<T, K>(s: seq<T>, key: T -> K): (r: set<K>)
    ensures forall i :: 0 <= i < |s| ==> key(s[i]) in r
  {
    set i | 0 <= i < |s| :: key(s[i])
  }

  /** The position of the first element whose key is `k`, or -1. */
  function FirstOf<T, K(==)>(s: seq<T>, key: T -> K, k: K): (i: int)
    ensures -1 <= i < |s|
    ensures i == -1 <==> k !in KeysOf(s, key)
    ensures 0 <= i ==> key(s[i]) == k && forall j :: 0 <= j < i ==> key(s[j]) != k
  {
    if s == [] then -1
    else if key(s[0]) == k then 0
    else
      var t := FirstOf(s[1..], key, k);
      assert forall j :: 0 < j < |s| ==> s[j] == s[1..][j - 1];
      if t == -1 then -1 else t + 1
  }

  /** pandas' `s[~s.index.duplicated(keep="first")]` on an index of keys:
      every element whose key an earlier element already has is dropped. */
  function FirstByKey<T, K(==)>(s: seq<T>, key: T -> K): (r: seq<T>)
    ensures |r| <= |s|
    ensures forall i, j :: 0 <= i < j < |r| ==> key(r[i]) != key(r[j])
    ensures KeysOf(r, key) == KeysOf(s, key)
    ensures forall k :: 0 <= k < |r| ==> 0 <= FirstOf(s, key, key(r[k])) && r[k] == s[FirstOf(s, key, key(r[k]))]
    ensures forall i, j :: 0 <= i < j < |r| ==> FirstOf(s, key, key(r[i])) < FirstOf(s, key, key(r[j]))
  {
    if s == [] then []
    else
      var init := s[..|s| - 1];
      var x := s[|s| - 1];
      var prev := FirstByKey(init, key);
      var r := if key(x) in KeysOf(init, key) then prev else prev + [x];
      FirstByKeyStep(s, key, prev, r);
      FirstByKeyOrderStep(s, key, prev, r);
      r
  }

  /** The kept elements stay in input order after one more element. */
  lemma FirstByKeyOrderStep<T, K>(s: seq<T>, key: T -> K, prev: seq<T>, r: seq<T>)
    requires s != [] && KeysOf(prev, key) == KeysOf(s[..|s| - 1], key)
    requires forall i, j :: 0 <= i < j < |prev| ==> FirstOf(s[..|s| - 1], key, key(prev[i])) < FirstOf(s[..|s| - 1], key, key(prev[j]))
    requires r == if key(s[|s| - 1]) in KeysOf(s[..|s| - 1], key) then prev else prev + [s[|s| - 1]]
    ensures forall i, j :: 0 <= i < j < |r| ==> FirstOf(s, key, key(r[i])) < FirstOf(s, key, key(r[j]))
  {
    var init := s[..|s| - 1];
    forall i, j | 0 <= i < j < |r|
      ensures FirstOf(s, key, key(r[i])) < FirstOf(s, key, key(r[j]))
    {
      assert r[i] == prev[i];
      FirstOfSnoc(s, key, key(prev[i]));
      if j < |prev| {
        assert r[j] == prev[j];
        FirstOfSnoc(s, key, key(prev[j]));
      } else {
        FirstOfLast(s, key);
      }
    }
  }

  /** One more element is kept exactly when its key is new. */
  lemma FirstByKeySnoc<T, K>(s: seq<T>, x: T, key: T -> K)
    ensures FirstByKey(s + [x], key) == FirstByKey(s, key) + (if key(x) in KeysOf(s, key) then [] else [x])
  {
    var t := s + [x];
    assert t[..|t| - 1] == s;
    assert t[|t| - 1] == x;
  }

  /** Every kept element is the first of its key. */
  ghost predicate KeptFirst<T, K>(s: seq<T>, key: T -> K, r: seq<T>) {
    forall k :: 0 <= k < |r| ==> 0 <= FirstOf(s, key, key(r[k])) && r[k] == s[FirstOf(s, key, key(r[k]))]
  }

  lemma FirstOfSnoc<T, K>(s: seq<T>, key: T -> K, k: K)
    requires s != [] && k in KeysOf(s[..|s| - 1], key)
    ensures FirstOf(s, key, k) == FirstOf(s[..|s| - 1], key, k)
  {
    var init := s[..|s| - 1];
    var i := FirstOf(init, key, k);
    var j := FirstOf(s, key, k);
    assert forall m :: 0 <= m < |init| ==> init[m] == s[m];
  }

  lemma FirstOfLast<T, K>(s: seq<T>, key: T -> K)
    requires s != [] && key(s[|s| - 1]) !in KeysOf(s[..|s| - 1], key)
    ensures FirstOf(s, key, key(s[|s| - 1])) == |s| - 1
  {
    var init := s[..|s| - 1];
    assert forall m :: 0 <= m < |init| ==> init[m] == s[m];
  }

  lemma KeysOfSnoc<T, K>(s: seq<T>, key: T -> K)
    requires s != []
    ensures KeysOf(s, key) == KeysOf(s[..|s| - 1], key) + {key(s[|s| - 1])}
  {
    var init := s[..|s| - 1];
    forall k | k in KeysOf(s, key)
      ensures k in KeysOf(init, key) + {key(s[|s| - 1])}
    {
      var i :| 0 <= i < |s| && key(s[i]) == k;
      if i < |s| - 1 {
        assert init[i] == s[i];
      }
    }
    forall k | k in KeysOf(init, key)
      ensures k in KeysOf(s, key)
    {
      var i :| 0 <= i < |init| && key(init[i]) == k;
      assert s[i] == init[i];
    }
  }

  lemma FirstByKeyStep<T, K>(s: seq<T>, key: T -> K, prev: seq<T>, r: seq<T>)
    requires s != []
    requires var init := s[..|s| - 1];
      (forall i, j :: 0 <= i < j < |prev| ==> key(prev[i]) != key(prev[j])) &&
      KeysOf(prev, key) == KeysOf(init, key) && KeptFirst(init, key, prev)
    requires r == if key(s[|s| - 1]) in KeysOf(s[..|s| - 1], key) then prev else prev + [s[|s| - 1]]
    ensures forall i, j :: 0 <= i < j < |r| ==> key(r[i]) != key(r[j])
    ensures KeysOf(r, key) == KeysOf(s, key)
    ensures KeptFirst(s, key, r)
  {
    KeysOfSnoc(s, key);
    KeptFirstGrow(s, key, prev);
    if key(s[|s| - 1]) !in KeysOf(s[..|s| - 1], key) {
      KeepLast(s, key, prev, r);
    }
  }

  /** What was kept from a prefix stays the first of its key. */
  lemma KeptFirstGrow<T, K>(s: seq<T>, key: T -> K, prev: seq<T>)
    requires s != [] && KeysOf(prev, key) == KeysOf(s[..|s| - 1], key)
    requires KeptFirst(s[..|s| - 1], key, prev)
    ensures KeptFirst(s, key, prev)
  {
    var init := s[..|s| - 1];
    forall k | 0 <= k < |prev|
      ensures 0 <= FirstOf(s, key, key(prev[k])) && prev[k] == s[FirstOf(s, key, key(prev[k]))]
    {
      FirstOfSnoc(s, key, key(prev[k]));
      assert init[FirstOf(init, key, key(prev[k]))] == s[FirstOf(init, key, key(prev[k]))];
    }
  }

  /** An element of a new key is kept at the end. */
  lemma KeepLast<T, K>(s: seq<T>, key: T -> K, prev: seq<T>, r: seq<T>)
    requires s != [] && key(s[|s| - 1]) !in KeysOf(s[..|s| - 1], key)
    requires forall i, j :: 0 <= i < j < |prev| ==> key(prev[i]) != key(prev[j])
    requires KeysOf(prev, key) == KeysOf(s[..|s| - 1], key) && KeptFirst(s, key, prev)
    requires r == prev + [s[|s| - 1]]
    ensures forall i, j :: 0 <= i < j < |r| ==> key(r[i]) != key(r[j])
    ensures KeysOf(r, key) == KeysOf(s, key)
    ensures KeptFirst(s, key, r)
  {
    KeysOfSnoc(s, key);
    KeysOfSnoc(r, key);
    assert r[..|r| - 1] == prev;
    FirstOfLast(s, key);
    assert forall m :: 0 <= m < |prev| ==> r[m] == prev[m];
  }
}

=== FILE: simulator.dfy ===
/**
 * pkg/simulator/simulation.go: the bookkeeping that decides when a
 * simulation is over. `LoadEvents` hands every pod event to the scheduler
 * and remembers the pods that will be evicted; each pod deletion the watch
 * reports strikes its name off, and the deletion that empties the list
 * ends the run.
 *
 * The watch, the scheduler's run loop and the mutex are left out: the
 * deletions arrive as a sequence of pod names.
 */
module Simulator {
  import Seqs
  import Scenario

  /** A pod event the simulation waits for: one with a non-zero duration,
      whose pod is evicted again. */
  predicate Tracked(e: Scenario.PodEvent) {
    e.duration != 0
  }

  function PodNameOf(e: Scenario.PodEvent): string {
    e.pod.name
  }

  /** `LoadEvents`: every event is scheduled, in order, and the pod names
      of the tracked events, in order, make up `podMap`. */
  method LoadEvents(pods: seq<Scenario.PodEvent>) returns (scheduled: seq<Scenario.PodEvent>, podMap: seq<string>)
    ensures scheduled == pods
    ensures podMap == Seqs.Map(Seqs.Filter(pods, Tracked), PodNameOf)
    ensures forall i :: 0 <= i < |pods| && Tracked(pods[i]) ==> pods[i].pod.name in podMap
  {
    scheduled, podMap := [], [];
    var i := 0;
    while i < |pods|
      invariant 0 <= i <= |pods|
      invariant scheduled == pods[..i]
      invariant podMap == Seqs.Map(Seqs.Filter(pods[..i], Tracked), PodNameOf)
    {
      var e := pods[i];
      assert pods[..i + 1] == scheduled + [e];
      LoadStep(pods, i, podMap);
      scheduled := scheduled + [e];
      if Tracked(e) {
        podMap := podMap + [e.pod.name];
      }
      i := i + 1;
    }
    assert pods[..i] == pods;
    TrackedNamesListed(pods, podMap);
  }

  /** One more event adds its pod name exactly when it is tracked. */
  lemma LoadStep(pods: seq<Scenario.PodEvent>, i: int, podMap: seq<string>)
    requires 0 <= i < |pods|
    requires podMap == Seqs.Map(Seqs.Filter(pods[..i], Tracked), PodNameOf)
    ensures Seqs.Map(Seqs.Filter(pods[..i + 1], Tracked), PodNameOf)
      == podMap + if Tracked(pods[i]) then [pods[i].pod.name] else []
  {
    TrackedStep(pods, i);
    var f := Seqs.Filter(pods[..i], Tracked);
    if Tracked(pods[i]) {
      assert (f + [pods[i]])[..|f|] == f;
    } else {
      assert f + [] == f;
    }
  }

  lemma {:induction false} TrackedStep(pods: seq<Scenario.PodEvent>, i: int)
    requires 0 <= i < |pods|
    ensures Seqs.Filter(pods[..i + 1], Tracked)
      == Seqs.Filter(pods[..i], Tracked) + if Tracked(pods[i]) then [pods[i]] else []
  {
    assert pods[..i + 1] == pods[..i] + [pods[i]];
    Seqs.FilterAppend(pods[..i], [pods[i]], Tracked);
    assert Seqs.Filter([pods[i]], Tracked) == if Tracked(pods[i]) then [pods[i]] else [];
  }

  lemma {:induction false} TrackedNamesListed(pods: seq<Scenario.PodEvent>, podMap: seq<string>)
    requires podMap == Seqs.Map(Seqs.Filter(pods, Tracked), PodNameOf)
    ensures forall i :: 0 <= i < |pods| && Tracked(pods[i]) ==> pods[i].pod.name in podMap
  {
    var tracked := Seqs.Filter(pods, Tracked);
    forall k | 0 <= k < |pods| && Tracked(pods[k])
      ensures pods[k].pod.name in podMap
    {
      assert pods[k] in tracked;
      var j :| 0 <= j < |tracked| && tracked[j] == pods[k];
      assert podMap[j] == pods[k].pod.name;
    }
  }

  /** The position of the first occurrence of `name`, or -1. */
  function IndexOf(names: seq<string>, name: string): (i: int)
    ensures -1 <= i < |names|
    ensures i >= 0 ==> names[i] == name && name !in names[..i]
    ensures i == -1 <==> name !in names
  {
    if names == [] then -1
    else if names[0] == name then 0
    else
      var i := IndexOf(names[1..], name);
      assert names[1..][..if i < 0 then 0 else i] == names[1..if i < 0 then 1 else i + 1];
      if i < 0 then -1 else i + 1
  }

  /** `isLastPodEvent`: the first occurrence of the deleted pod's name is
      removed, if there is one, and the answer is whether no name is left. */
  function IsLastPodEvent(podMap: seq<string>, name: string): (r: (seq<string>, bool))
    ensures name !in podMap ==> r.0 == podMap
    ensures name in podMap ==>
      var i := IndexOf(podMap, name);
      r.0 == podMap[..i] + podMap[i + 1..] && name !in podMap[..i]
    ensures multiset(r.0) == multiset(podMap) - multiset{name}
    ensures r.1 <==> |r.0| == 0
  {
    var i := IndexOf(podMap, name);
    if i < 0 then
      (podMap, |podMap| == 0)
    else
      var rest := podMap[..i] + podMap[i + 1..];
      assert podMap == podMap[..i] + [name] + podMap[i + 1..];
      (rest, |rest| == 0)
  }

  /** The names left after the deletions, each handled by `isLastPodEvent`
      in turn. */
  function Remaining(podMap: seq<string>, deletions: seq<string>): seq<string>
    decreases |deletions|
  {
    if deletions == [] then podMap
    else IsLastPodEvent(Remaining(podMap, deletions[..|deletions| - 1]), deletions[|deletions| - 1]).0
  }

  /** Deleting pods that are all tracked leaves exactly the tracked names
      not yet deleted. */
  lemma {:induction false} RemainingCount(podMap: seq<string>, deletions: seq<string>)
    requires multiset(deletions) <= multiset(podMap)
    ensures multiset(Remaining(podMap, deletions)) == multiset(podMap) - multiset(deletions)
    decreases |deletions|
  {
    if deletions != [] {
      var n := |deletions| - 1;
      assert deletions == deletions[..n] + [deletions[n]];
      RemainingCount(podMap, deletions[..n]);
    }
  }

  /** When the deletions are the tracked pods in any order, the simulation
      stops exactly at the last of them. */
  lemma {:induction false} EndsAtLastDeletion(podMap: seq<string>, deletions: seq<string>, k: int)
    requires multiset(deletions) == multiset(podMap)
    requires 0 <= k < |deletions|
    ensures IsLastPodEvent(Remaining(podMap, deletions[..k]), deletions[k]).1 <==> k == |deletions| - 1
  {
    var done := deletions[..k + 1];
    RemainingStep(podMap, deletions, k);
    PrefixIsTracked(podMap, deletions, k + 1);
    RemainingCount(podMap, done);
    CardinalityOfDifference(multiset(podMap), multiset(done));
    assert |Remaining(podMap, done)| == |podMap| - (k + 1);
  }

  lemma {:induction false} RemainingStep(podMap: seq<string>, deletions: seq<string>, k: int)
    requires 0 <= k < |deletions|
    ensures Remaining(podMap, deletions[..k + 1])
      == IsLastPodEvent(Remaining(podMap, deletions[..k]), deletions[k]).0
  {
    assert deletions[..k + 1][..k] == deletions[..k];
  }

  lemma {:induction false} PrefixIsTracked(podMap: seq<string>, deletions: seq<string>, n: int)
    requires multiset(deletions) == multiset(podMap)
    requires 0 <= n <= |deletions|
    ensures multiset(deletions[..n]) <= multiset(podMap)
  {
    assert deletions == deletions[..n] + deletions[n..];
  }

  lemma CardinalityOfDifference(a: multiset<string>, b: multiset<string>)
    requires b <= a
    ensures |a - b| == |a| - |b|
  {
    assert a == (a - b) + b;
  }

  /** A name that is tracked twice needs two deletions. */
  lemma {:induction false} DuplicateNeedsTwoDeletions()
    ensures IsLastPodEvent(["a", "a"], "a") == (["a"], false)
    ensures IsLastPodEvent(["a"], "a") == ([], true)
  {
    assert IndexOf(["a", "a"], "a") == 0;
    assert ["a", "a"][..0] + ["a", "a"][1..] == ["a"];
    assert IndexOf(["a"], "a") == 0;
  }
}

=== FILE: sorting.dfy ===
/**
 * Sorting records by an integer key (a timestamp), as the analyzer's
 * `sort_values("timestamp")` and the exporter's `sort.Slice` on record times
 * do. The model sorts stably by insertion; rows with equal keys keep their
 * input order.
 */
module Sorting {

  ghost predicate SortedBy<T>(s: seq<T>, key: T -> int) {
    forall i, j :: 0 <= i < j < |s| ==> key(s[i]) <= key(s[j])
  }

  /** Inserts `x` after the trailing elements whose key is not above its own. */
  function InsertBy<T>(s: seq<T>, x: T, key: T -> int): (r: seq<T>)
    ensures multiset(r) == multiset(s) + multiset{x}
    ensures s == [] || key(s[|s| - 1]) <= key(x) ==> r == s + [x]
  {
    if s == [] || key(s[|s| - 1]) <= key(x) then s + [x]
    else
      var init := s[..|s| - 1];
      assert s == init + [s[|s| - 1]];
      InsertBy(init, x, key) + [s[|s| - 1]]
  }

  /** Inserting into a sorted sequence keeps it sorted. */
  lemma {:induction false} InsertBySorted<T>(s: seq<T>, x: T, key: T -> int)
    requires SortedBy(s, key)
    ensures SortedBy(InsertBy(s, x, key), key)
    decreases |s|
  {
    if s != [] && key(x) < key(s[|s| - 1]) {
      var init := s[..|s| - 1];
      var last := s[|s| - 1];
      assert s == init + [last];
      SortedInit(init, last, key);
      InsertBySorted(init, x, key);
      InsertedBelowLast(init, x, last, key);
      SortedSnoc(InsertBy(init, x, key), last, key);
    }
  }

  lemma SortedInit<T>(init: seq<T>, last: T, key: T -> int)
    requires SortedBy(init + [last], key)
    ensures SortedBy(init, key)
    ensures forall i :: 0 <= i < |init| ==> key(init[i]) <= key(last)
  {
    forall i | 0 <= i < |init|
      ensures key(init[i]) <= key(last)
    {
      assert (init + [last])[i] == init[i] && (init + [last])[|init|] == last;
    }
    forall i, j | 0 <= i < j < |init|
      ensures key(init[i]) <= key(init[j])
    {
      assert (init + [last])[i] == init[i] && (init + [last])[j] == init[j];
    }
  }

  /** Every element of `init` with `x` inserted stays at or below `last`. */
  lemma InsertedBelowLast<T>(init: seq<T>, x: T, last: T, key: T -> int)
    requires forall i :: 0 <= i < |init| ==> key(init[i]) <= key(last)
    requires key(x) <= key(last)
    ensures forall i :: 0 <= i < |InsertBy(init, x, key)| ==> key(InsertBy(init, x, key)[i]) <= key(last)
  {
    var r' := InsertBy(init, x, key);
    forall i | 0 <= i < |r'|
      ensures key(r'[i]) <= key(last)
    {
      assert r'[i] in multiset(init) + multiset{x};
      if r'[i] != x {
        var k :| 0 <= k < |init| && init[k] == r'[i];
      }
    }
  }

  lemma SortedSnoc<T>(r: seq<T>, last: T, key: T -> int)
    requires SortedBy(r, key)
    requires forall i :: 0 <= i < |r| ==> key(r[i]) <= key(last)
    ensures SortedBy(r + [last], key)
  {
    var s := r + [last];
    forall i, j | 0 <= i < j < |s|
      ensures key(s[i]) <= key(s[j])
    {
      assert s[i] == r[i];
      if j < |r| {
        assert s[j] == r[j];
      }
    }
  }

  /** A sorted permutation of `s`. */
  function SortBy<T>(s: seq<T>, key: T -> int): (r: seq<T>)
    ensures SortedBy(r, key)
    ensures multiset(r) == multiset(s)
  {
    if s == [] then []
    else
      assert s == s[..|s| - 1] + [s[|s| - 1]];
      var sorted := SortBy(s[..|s| - 1], key);
      InsertBySorted(sorted, s[|s| - 1], key);
      InsertBy(sorted, s[|s| - 1], key)
  }

  /** Sorting an already sorted sequence changes nothing. */
  lemma {:induction false} SortBySorted<T>(s: seq<T>, key: T -> int)
    requires SortedBy(s, key)
    ensures SortBy(s, key) == s
    decreases |s|
  {
    if s != [] {
      var init := s[..|s| - 1];
      assert s == init + [s[|s| - 1]];
      SortBySorted(init, key);
    }
  }
}

=== FILE: stats.dfy ===
/**
 * pkg/cache/stats.go and record.go: what the store records while the
 * simulation runs (the pending queue and its length over time, pending
 * durations, per-node allocation, ratio and free histories, pod events),
 * and the CSV rows `ExportCSV` writes from it.
 *
 * Times are integer nanoseconds; `time.Now()` is the parameter `now`, and
 * the timestamp layout "2006-01-02T15:04:05.000" is the parameter `format`.
 */
module Stats {
  import opened Kube
  import opened Text
  import NodeStore
  import Sorting
  import Seqs

  /** `Record[T]`: a value and when it was taken. */
  datatype Record<T> = Record(at: int, value: T)

  datatype Action = AddToPendingQ | RemoveFromPendingQ

  datatype PodEvent = PodEvent(
    podName: string,
    nodeName: string,
    phase: string,
    eventType: string,
    cpuReq: string,
    memReq: string)

  datatype Stats = Stats(
    pendingQ: map<Key, Pod>,
    pendingQHistory: seq<Record<int>>,
    pendingDurations: map<Key, int>,
    runningDurations: map<Key, int>,
    allocationHistory: map<Key, seq<Record<ResourceList>>>,
    ratioHistory: map<Key, seq<Record<map<string, real>>>>,
    freeHistory: map<Key, seq<Record<ResourceList>>>,
    podEventHistory: seq<Record<PodEvent>>)

  /** `NewStats`: everything empty. */
  function NewStats(): (s: Stats)
    ensures |s.pendingQ| == 0 && |s.pendingQHistory| == 0 && |s.podEventHistory| == 0
    ensures |s.allocationHistory| == 0 && |s.ratioHistory| == 0 && |s.freeHistory| == 0
  {
    Stats(map[], [], map[], map[], map[], map[], map[], [])
  }

  /** `UpdatePodEvent`: appends the event, stamped `now`. */
  function UpdatePodEvent(s: Stats, e: PodEvent, now: int): (r: Stats)
    ensures |r.podEventHistory| == |s.podEventHistory| + 1
    ensures r.podEventHistory[..|s.podEventHistory|] == s.podEventHistory
    ensures r.podEventHistory[|s.podEventHistory|] == Record(now, e)
    ensures r == s.(podEventHistory := r.podEventHistory)
  {
    s.(podEventHistory := s.podEventHistory + [Record(now, e)])
  }

  /** `UpdatePendingQ`: adds the pod to the pending queue, or removes it and
      records how long it waited since creation; either way the history gets
      one more record holding the queue's new length. */
  function UpdatePendingQ(s: Stats, pod: Pod, action: Action, now: int): (r: Stats)
    ensures action == AddToPendingQ ==>
      PodKey(pod) in r.pendingQ && r.pendingQ.Keys == s.pendingQ.Keys + {PodKey(pod)} &&
      r.pendingDurations == s.pendingDurations
    ensures action == RemoveFromPendingQ ==>
      r.pendingQ == s.pendingQ - {PodKey(pod)} &&
      r.pendingDurations == s.pendingDurations[PodKey(pod) := now - pod.creation]
    ensures |r.pendingQHistory| == |s.pendingQHistory| + 1
    ensures r.pendingQHistory[..|s.pendingQHistory|] == s.pendingQHistory
    ensures r.pendingQHistory[|s.pendingQHistory|] == Record(now, |r.pendingQ|)
    ensures r.runningDurations == s.runningDurations && r.podEventHistory == s.podEventHistory
    ensures r.allocationHistory == s.allocationHistory && r.ratioHistory == s.ratioHistory
    ensures r.freeHistory == s.freeHistory
  {
    var k := PodKey(pod);
    var s' := match action
      case AddToPendingQ => s.(pendingQ := s.pendingQ[k := pod])
      case RemoveFromPendingQ =>
        s.(pendingDurations := s.pendingDurations[k := now - pod.creation], pendingQ := s.pendingQ - {k});
    s'.(pendingQHistory := s'.pendingQHistory + [Record(now, |s'.pendingQ|)])
  }

  /** The recorded length grows by one when a new pod is queued, shrinks by
      one when a queued pod leaves, and otherwise stays. */
  lemma PendingLength(s: Stats, pod: Pod, action: Action, now: int)
    ensures var r := UpdatePendingQ(s, pod, action, now);
      var n := r.pendingQHistory[|s.pendingQHistory|].value;
      (action == AddToPendingQ && PodKey(pod) !in s.pendingQ ==> n == |s.pendingQ| + 1) &&
      (action == AddToPendingQ && PodKey(pod) in s.pendingQ ==> n == |s.pendingQ|) &&
      (action == RemoveFromPendingQ && PodKey(pod) in s.pendingQ ==> n == |s.pendingQ| - 1) &&
      (action == RemoveFromPendingQ && PodKey(pod) !in s.pendingQ ==> n == |s.pendingQ|)
  {
    var k := PodKey(pod);
    if action == AddToPendingQ && k in s.pendingQ {
      assert s.pendingQ[k := pod].Keys == s.pendingQ.Keys;
    }
  }

  /** Removing a pod that never was queued still records a pending
      duration for it. */
  lemma RemoveAbsentRecordsDuration(s: Stats, pod: Pod, now: int)
    requires PodKey(pod) !in s.pendingQ
    ensures var r := UpdatePendingQ(s, pod, RemoveFromPendingQ, now);
      r.pendingQ == s.pendingQ && r.pendingDurations[PodKey(pod)] == now - pod.creation
  {
  }

  /** Queueing a new pod and then removing it restores the queue, and the
      history ends with the lengths n + 1 and n. */
  lemma AddThenRemove(s: Stats, pod: Pod, t1: int, t2: int)
    requires PodKey(pod) !in s.pendingQ
    ensures var r := UpdatePendingQ(UpdatePendingQ(s, pod, AddToPendingQ, t1), pod, RemoveFromPendingQ, t2);
      r.pendingQ == s.pendingQ &&
      r.pendingQHistory == s.pendingQHistory + [Record(t1, |s.pendingQ| + 1), Record(t2, |s.pendingQ|)]
  {
    var k := PodKey(pod);
    var r1 := UpdatePendingQ(s, pod, AddToPendingQ, t1);
    PendingLength(s, pod, AddToPendingQ, t1);
    assert r1.pendingQ - {k} == s.pendingQ;
  }

  /** `GetPodQueueHistory`: a snapshot that later updates only extend. */
  function GetPodQueueHistory(s: Stats): (h: seq<Record<int>>)
    ensures |h| == |s.pendingQHistory| && forall i :: 0 <= i < |h| ==> h[i] == s.pendingQHistory[i]
  {
    s.pendingQHistory
  }

  lemma SnapshotIsPrefix(s: Stats, pod: Pod, action: Action, now: int)
    ensures var h := GetPodQueueHistory(s);
      var h' := GetPodQueueHistory(UpdatePendingQ(s, pod, action, now));
      |h'| == |h| + 1 && h'[..|h|] == h
  {
  }

  function Append<T>(m: map<Key, seq<Record<T>>>, k: Key, r: Record<T>): (m': map<Key, seq<Record<T>>>)
    ensures m'.Keys == m.Keys + {k}
    ensures m'[k] == (if k in m then m[k] else []) + [r]
    ensures forall q :: q in m && q != k ==> m'[q] == m[q]
  {
    m[k := (if k in m then m[k] else []) + [r]]
  }

  /** `UpdateHistory`: one more allocation, ratio and free record for the
      node's key, all stamped `now`; other nodes' histories are untouched. */
  function UpdateHistory(s: Stats, ns: NodeStore.NodeStore, now: int): (r: Stats)
    ensures var k := NodeKey(ns.node);
      r.allocationHistory == Append(s.allocationHistory, k, Record(now, ns.alloc)) &&
      r.ratioHistory == Append(s.ratioHistory, k, Record(now, ns.allocRatio)) &&
      r.freeHistory == Append(s.freeHistory, k, Record(now, NodeStore.GetFree(ns)))
    ensures r.pendingQ == s.pendingQ && r.pendingQHistory == s.pendingQHistory
    ensures r.pendingDurations == s.pendingDurations && r.runningDurations == s.runningDurations
    ensures r.podEventHistory == s.podEventHistory
  {
    var k := NodeKey(ns.node);
    s.(allocationHistory := Append(s.allocationHistory, k, Record(now, NodeStore.GetAllocated(ns, []))),
       ratioHistory := Append(s.ratioHistory, k, Record(now, NodeStore.GetAllocatedRatio(ns, []))),
       freeHistory := Append(s.freeHistory, k, Record(now, NodeStore.GetFree(ns))))
  }

  /** The first allocation record of a node whose pods request something
      holds, per requested resource, the sum of its pods' requests. */
  lemma FirstAllocationRecord(ns: NodeStore.NodeStore, now: int, name: string)
    requires NodeStore.Consistent(ns) && name in NodeStore.RequestedNames(ns.runningPods)
    ensures var r := UpdateHistory(NewStats(), ns, now);
      var h := r.allocationHistory[NodeKey(ns.node)];
      |h| == 1 && name in h[0].value && h[0].value[name] == NodeStore.Requests(ns.runningPods, name)
  {
  }

  // ---- CSV rows ----

  function AtOf<T>(r: Record<T>): int {
    r.at
  }

  /** The queue-length file's rows: the records in time order, each as its
      timestamp and its length in decimal. Go's `sort.Slice` is not stable;
      the model takes the stable order. */
  function QueueRows(hist: seq<Record<int>>, format: int -> string): (rows: seq<seq<string>>)
    ensures var sorted := Sorting.SortBy(hist, AtOf);
      |rows| == |sorted| &&
      Sorting.SortedBy(sorted, AtOf) && multiset(sorted) == multiset(hist) &&
      forall i :: 0 <= i < |rows| ==>
        |rows[i]| == 2 && rows[i][0] == format(sorted[i].at) &&
        IsIntText(rows[i][1]) && IntValue(rows[i][1]) == sorted[i].value
  {
    var sorted := Sorting.SortBy(hist, AtOf);
    seq(|sorted|, i requires 0 <= i < |sorted| => [format(sorted[i].at), IntToString(sorted[i].value)])
  }

  /** The resource names that appear in any record of a history. */
  function ResourceTypes<V>(hist: seq<Record<map<string, V>>>): (types: set<string>)
    ensures forall i, t :: 0 <= i < |hist| && t in hist[i].value ==> t in types
    ensures forall t :: t in types ==> exists i :: 0 <= i < |hist| && t in hist[i].value
  {
    set i, t | 0 <= i < |hist| && t in hist[i].value :: t
  }

  function Header(order: seq<string>): (h: seq<string>)
    ensures |h| == |order| + 1 && h[0] == "timestamp" && h[1..] == order
  {
    ["timestamp"] + order
  }

  /** One history row: the timestamp, then one cell per header column,
      "0" when the record has no such resource. */
  function Row<V>(rec: Record<map<string, V>>, order: seq<string>, format: int -> string, cell: V -> string)
    : (row: seq<string>)
    ensures |row| == |order| + 1 && row[0] == format(rec.at)
    ensures forall i :: 0 <= i < |order| && order[i] in rec.value ==> row[i + 1] == cell(rec.value[order[i]])
    ensures forall i :: 0 <= i < |order| && order[i] !in rec.value ==> row[i + 1] == "0"
  {
    [format(rec.at)] +
      seq(|order|, i requires 0 <= i < |order| =>
        if order[i] in rec.value then cell(rec.value[order[i]]) else "0")
  }

  /** A quantity cell: `strconv.FormatInt(q.MilliValue(), 10)`. */
  function QuantityCell(q: int): (s: string)
    ensures IsIntText(s) && IntValue(s) == q
  {
    IntToString(q)
  }

  /** Every cell of an allocation or free row reads back as the record's
      quantity for that column, missing quantities as zero. */
  lemma QuantityRowReadsBack(rec: Record<ResourceList>, order: seq<string>, format: int -> string)
    ensures var row := Row(rec, order, format, QuantityCell);
      forall i :: 1 <= i < |row| ==> IsIntText(row[i]) && IntValue(row[i]) == Get(rec.value, order[i - 1])
  {
    var row := Row(rec, order, format, QuantityCell);
    forall i | 1 <= i < |row|
      ensures IsIntText(row[i]) && IntValue(row[i]) == Get(rec.value, order[i - 1])
    {
      if order[i - 1] in rec.value {
        assert row[i] == QuantityCell(rec.value[order[i - 1]]);
      } else {
        assert row[i] == "0";
        assert IsDigit("0"[0]) && "0"[..0] == "";
        assert DigitsValue("0") == 0;
      }
    }
  }

  /** The file for one node's history: the header, then one row per record
      in recording order. `fmt2` is `fmt.Sprintf("%.2f", ·)` for ratios. */
  function Table<V>(hist: seq<Record<map<string, V>>>, order: seq<string>, format: int -> string, cell: V -> string)
    : (t: seq<seq<string>>)
    requires Seqs.IsOrderOf(order, ResourceTypes(hist))
    ensures |t| == |hist| + 1 && t[0] == Header(order)
    ensures forall i :: 0 <= i < |hist| ==> t[i + 1] == Row(hist[i], order, format, cell)
    ensures forall i :: 0 <= i < |t| ==> |t[i]| == |order| + 1
  {
    [Header(order)] + seq(|hist|, i requires 0 <= i < |hist| => Row(hist[i], order, format, cell))
  }

  /** Every resource any record holds has a column, so no quantity is
      dropped from the file. */
  lemma TableKeepsEveryQuantity<V>(hist: seq<Record<map<string, V>>>, order: seq<string>,
                                    format: int -> string, cell: V -> string, i: int, t: string)
    requires Seqs.IsOrderOf(order, ResourceTypes(hist))
    requires 0 <= i < |hist| && t in hist[i].value
    ensures exists c :: (1 <= c < |order| + 1 && Header(order)[c] == t &&
      Table(hist, order, format, cell)[i + 1][c] == cell(hist[i].value[t]))
  {
    assert t in ResourceTypes(hist);
    var j :| 0 <= j < |order| && order[j] == t;
    assert Header(order)[j + 1] == t;
  }

  /** `Duration.Milliseconds()`: nanoseconds to milliseconds, truncated
      toward zero. */
  function Milliseconds(ns: int): (ms: int)
    ensures ns >= 0 ==> 0 <= ms * 1000000 <= ns < (ms + 1) * 1000000
    ensures ns < 0 ==> (ms - 1) * 1000000 < ns <= ms * 1000000 <= 0
  {
    if ns >= 0 then ns / 1000000 else -((-ns) / 1000000)
  }

  /** The pending or running duration file's rows, one per pod key in the
      map's iteration order. */
  function DurationRows(d: map<Key, int>, order: seq<Key>): (rows: seq<seq<string>>)
    requires Seqs.IsOrderOf(order, d.Keys)
    ensures |rows| == |order|
    ensures forall k :: k in d ==> exists i :: 0 <= i < |rows| && order[i] == k
    ensures forall i :: 0 <= i < |rows| ==>
      |rows[i]| == 3 && rows[i][0] == order[i].uid && rows[i][1] == order[i].name &&
      IsIntText(rows[i][2]) && IntValue(rows[i][2]) == Milliseconds(d[order[i]])
  {
    seq(|order|, i requires 0 <= i < |order| => [order[i].uid, order[i].name, IntToString(Milliseconds(d[order[i]]))])
  }
}

=== FILE: status.dfy ===
/**
 * pkg/kubernetes/status.go: what `ClusterStatus` reports about nodes: the
 * allocatable totals, each node's readiness and roles, and which
 * namespaces count as system namespaces.
 *
 * Listing nodes and pods through the API and printing are left out; the
 * node list is an input. A node's labels are the sequence of its label
 * keys in the order Go's map iteration visited them.
 */
module ClusterStatus {
  import Kube
  import Text

  /** The allocatable totals over all nodes: CPU in milli-cores, memory in
      bytes, pods as a count. */
  datatype Totals = Totals(cpuMilli: int, memory: int, pods: int)

  /** A resource's contribution: its quantity converted when the node lists
      it, nothing otherwise. */
  function Contribution(rl: Kube.ResourceList, name: string, toUnits: bool): (c: int)
    ensures name !in rl ==> c == 0
    ensures name in rl && !toUnits ==> c == rl[name]
    ensures name in rl && toUnits ==> c == Kube.Value(rl[name])
  {
    if name !in rl then 0 else if toUnits then Kube.Value(rl[name]) else rl[name]
  }

  function NodeTotals(n: Kube.Node): Totals {
    Totals(
      Contribution(n.allocatable, Kube.Cpu, false),
      Contribution(n.allocatable, Kube.Memory, true),
      Contribution(n.allocatable, Kube.PodsResource, true))
  }

  function Plus(a: Totals, b: Totals): Totals {
    Totals(a.cpuMilli + b.cpuMilli, a.memory + b.memory, a.pods + b.pods)
  }

  /** The totals loop: `MilliValue()` of CPU, `Value()` of memory and pods,
      each only where the node's allocatable has it. */
  function AllocatableTotals(nodes: seq<Kube.Node>): (t: Totals)
    ensures nodes == [] ==> t == Totals(0, 0, 0)
    decreases |nodes|
  {
    if nodes == [] then Totals(0, 0, 0)
    else Plus(AllocatableTotals(nodes[..|nodes| - 1]), NodeTotals(nodes[|nodes| - 1]))
  }

  /** The totals of a concatenation add up, so the order the nodes are
      listed in does not matter to how much each contributes. */
  lemma {:induction false} TotalsAppend(a: seq<Kube.Node>, b: seq<Kube.Node>)
    ensures AllocatableTotals(a + b) == Plus(AllocatableTotals(a), AllocatableTotals(b))
    decreases |b|
  {
    if b == [] {
      assert a + b == a;
    } else {
      var n := |b| - 1;
      assert a + b == (a + b[..n]) + [b[n]];
      assert b == b[..n] + [b[n]];
      TotalsSnoc(a + b[..n], b[n]);
      TotalsSnoc(b[..n], b[n]);
      TotalsAppend(a, b[..n]);
      PlusAssociative(AllocatableTotals(a), AllocatableTotals(b[..n]), NodeTotals(b[n]));
    }
  }

  lemma {:induction false} TotalsSnoc(nodes: seq<Kube.Node>, n: Kube.Node)
    ensures AllocatableTotals(nodes + [n]) == Plus(AllocatableTotals(nodes), NodeTotals(n))
  {
    assert (nodes + [n])[..|nodes|] == nodes;
  }

  lemma PlusAssociative(a: Totals, b: Totals, c: Totals)
    ensures Plus(Plus(a, b), c) == Plus(a, Plus(b, c))
  {
  }

  /** A node without an allocatable entry for a resource adds nothing to
      that resource's total. */
  lemma MissingResourceAddsNothing(nodes: seq<Kube.Node>, n: Kube.Node)
    ensures Kube.Cpu !in n.allocatable ==>
      AllocatableTotals(nodes + [n]).cpuMilli == AllocatableTotals(nodes).cpuMilli
    ensures Kube.Memory !in n.allocatable ==>
      AllocatableTotals(nodes + [n]).memory == AllocatableTotals(nodes).memory
    ensures Kube.PodsResource !in n.allocatable ==>
      AllocatableTotals(nodes + [n]).pods == AllocatableTotals(nodes).pods
  {
    TotalsSnoc(nodes, n);
  }

  const NodeReady: string := "Ready"
  const ConditionTrue: string := "True"

  /** The position of the first Ready condition, or -1. */
  function FirstReady(conditions: seq<Kube.Condition>): (i: int)
    ensures -1 <= i < |conditions|
    ensures i >= 0 ==>
      conditions[i].kind == NodeReady && forall j :: 0 <= j < i ==> conditions[j].kind != NodeReady
    ensures i == -1 <==> forall j :: 0 <= j < |conditions| ==> conditions[j].kind != NodeReady
  {
    if conditions == [] then -1
    else if conditions[0].kind == NodeReady then 0
    else
      var i := FirstReady(conditions[1..]);
      if i < 0 then -1 else i + 1
  }

  /** `getNodeStatus`: the first Ready condition decides, "Ready" when its
      status is "True" and "NotReady" otherwise; no Ready condition at all
      is "Unknown". */
  function NodeStatus(n: Kube.Node): (s: string)
    ensures s == "Unknown" <==> forall j :: 0 <= j < |n.conditions| ==> n.conditions[j].kind != NodeReady
    ensures s == "Ready" <==>
      exists i :: 0 <= i < |n.conditions| && n.conditions[i].kind == NodeReady &&
        n.conditions[i].status == ConditionTrue &&
        forall j :: 0 <= j < i ==> n.conditions[j].kind != NodeReady
    ensures s in {"Ready", "NotReady", "Unknown"}
  {
    var i := FirstReady(n.conditions);
    if i < 0 then "Unknown"
    else if n.conditions[i].status == ConditionTrue then "Ready"
    else "NotReady"
  }

  const MasterLabel: string := "node-role.kubernetes.io/master"
  const ControlPlaneLabel: string := "node-role.kubernetes.io/control-plane"
  const WorkerLabel: string := "node-role.kubernetes.io/worker"

  predicate IsRoleLabel(key: string) {
    key == MasterLabel || key == ControlPlaneLabel || key == WorkerLabel
  }

  function RoleOf(key: string): string
    requires IsRoleLabel(key)
  {
    if key == WorkerLabel then "worker" else "control-plane"
  }

  /** The roles collected in `getNodeRoles`, one per role label in the
      order the labels were visited. */
  function Roles(labels: seq<string>): (roles: seq<string>)
    ensures |roles| <= |labels|
    ensures |roles| == 0 <==> forall j :: 0 <= j < |labels| ==> !IsRoleLabel(labels[j])
    ensures forall r :: r in roles ==> r == "control-plane" || r == "worker"
    ensures "control-plane" in roles <==> MasterLabel in labels || ControlPlaneLabel in labels
    ensures "worker" in roles <==> WorkerLabel in labels
    decreases |labels|
  {
    if labels == [] then []
    else
      var rest := Roles(labels[..|labels| - 1]);
      var last := labels[|labels| - 1];
      assert labels == labels[..|labels| - 1] + [last];
      if IsRoleLabel(last) then rest + [RoleOf(last)] else rest
  }

  /** `fmt.Sprintf("%v", roles)` for a slice of strings: the items between
      brackets, separated by single spaces. */
  function Bracketed(items: seq<string>): (s: string)
    ensures |s| >= 2 && s[0] == '[' && s[|s| - 1] == ']'
    ensures s[1..|s| - 1] == JoinSpaced(items)
    ensures |items| > 0 && NoSpaces(items) ==> Fields(s[1..|s| - 1]) == items
  {
    var s := "[" + JoinSpaced(items) + "]";
    assert s[1..|s| - 1] == JoinSpaced(items);
    if |items| > 0 && NoSpaces(items) then
      FieldsOfJoin(items);
      s
    else
      s
  }

  function JoinSpaced(items: seq<string>): string
    decreases |items|
  {
    if items == [] then ""
    else if |items| == 1 then items[0]
    else items[0] + " " + JoinSpaced(items[1..])
  }

  predicate NoSpaces(items: seq<string>) {
    forall i :: 0 <= i < |items| ==> ' ' !in items[i]
  }

  /** `strings.Split(s, " ")`: the pieces between single spaces, one more
      than there are spaces. */
  function Fields(s: string): (r: seq<string>)
    ensures |r| >= 1
    ensures forall i :: 0 <= i < |r| ==> ' ' !in r[i]
    decreases |s|
  {
    var head := Text.BeforeFirst(s, ' ');
    if |head| == |s| then [s] else [head] + Fields(s[|head| + 1..])
  }

  /** Splitting the joined items at the spaces gives the items back, as
      long as there is at least one item and none holds a space. */
  lemma {:induction false} FieldsOfJoin(items: seq<string>)
    requires |items| > 0 && NoSpaces(items)
    ensures Fields(JoinSpaced(items)) == items
    decreases |items|
  {
    if |items| > 1 {
      FieldsOfSpaced(items[0], JoinSpaced(items[1..]));
      FieldsOfJoin(items[1..]);
      assert items == [items[0]] + items[1..];
    }
  }

  /** A first field without spaces splits off whole. */
  lemma FieldsOfSpaced(a: string, rest: string)
    requires ' ' !in a
    ensures Fields(a + " " + rest) == [a] + Fields(rest)
  {
    var s := a + " " + rest;
    BeforeSpace(a, rest);
    assert s[|a| + 1..] == rest;
  }

  lemma {:induction false} BeforeSpace(a: string, b: string)
    requires ' ' !in a
    ensures Text.BeforeFirst(a + " " + b, ' ') == a
    decreases |a|
  {
    if a != [] {
      assert (a + " " + b)[1..] == a[1..] + " " + b;
      BeforeSpace(a[1..], b);
    }
  }

  /** `getNodeRoles`: "none" when no role label is present, otherwise the
      bracketed role list. */
  function NodeRoles(n: Kube.Node): (s: string)
    ensures s == "none" <==> forall j :: 0 <= j < |n.labels| ==> !IsRoleLabel(n.labels[j])
    ensures s != "none" ==> s == Bracketed(Roles(n.labels))
  {
    var roles := Roles(n.labels);
    if |roles| == 0 then
      "none"
    else
      var s := Bracketed(roles);
      assert s[0] == '[' && "none"[0] == 'n';
      s
  }

  /** A node labelled both master and control-plane lists the role twice. */
  lemma BothControlPlaneLabelsListTwice()
    ensures Roles([MasterLabel, ControlPlaneLabel]) == ["control-plane", "control-plane"]
  {
    assert [MasterLabel, ControlPlaneLabel][..1] == [MasterLabel];
  }

  const SystemNamespaces: seq<string> := ["kube-system", "kube-public", "kube-node-lease"]

  /** `isSystemNamespace`: exactly the three namespaces Kubernetes itself
      creates. */
  function IsSystemNamespace(name: string): (b: bool)
    ensures b <==> name == "kube-system" || name == "kube-public" || name == "kube-node-lease"
  {
    name in SystemNamespaces
  }
}

=== FILE: text.dfy ===
/**
 * String helpers the modelled code takes from its languages' libraries:
 * Python's `in`, `endswith`, `replace`, `split` and `lower`, Go's string
 * ordering, and decimal rendering of naturals.
 */
module Text {

  /** `sub` occurs in `s` starting at index `i`. */
  ghost predicate OccursAt(s: string, sub: string, i: int) {
    0 <= i && i + |sub| <= |s| && s[i..i + |sub|] == sub
  }

  /** Python's `sub in s`. */
  function Contains(s: string, sub: string): (r: bool)
    ensures r <==> exists i :: OccursAt(s, sub, i)
    decreases |s|
  {
    if |s| < |sub| then
      false
    else if s[..|sub|] == sub then
      assert OccursAt(s, sub, 0);
      true
    else
      var t := s[1..];
      var rest := Contains(t, sub);
      if rest then
        assert exists i :: OccursAt(s, sub, i) by {
          var i :| OccursAt(t, sub, i);
          assert s[i + 1..i + 1 + |sub|] == t[i..i + |sub|];
          assert OccursAt(s, sub, i + 1);
        }
        true
      else
        assert forall i :: OccursAt(s, sub, i) ==> i > 0 && OccursAt(t, sub, i - 1) by {
          forall i | OccursAt(s, sub, i)
            ensures i > 0 && OccursAt(t, sub, i - 1)
          {
            if i == 0 {
              assert false;
            } else {
              assert t[i - 1..i - 1 + |sub|] == s[i..i + |sub|];
            }
          }
        }
        false
  }

  /** Python's `s.endswith(suf)`. */
  predicate EndsWith(s: string, suf: string) {
    |suf| <= |s| && s[|s| - |suf|..] == suf
  }

  /** Python's `s.replace(pat, rep)` for a non-empty `pat`: occurrences are
      found left to right and do not overlap. */
  function ReplaceAll(s: string, pat: string, rep: string): (r: string)
    requires |pat| > 0
    ensures !Contains(s, pat) ==> r == s
    ensures |pat| == 1 && rep == [] ==> pat[0] !in r
    decreases |s|
  {
    if |s| < |pat| then
      s
    else if s[..|pat|] == pat then
      rep + ReplaceAll(s[|pat|..], pat, rep)
    else
      assert !Contains(s, pat) ==> !Contains(s[1..], pat) by {
        if Contains(s[1..], pat) {
          var i :| OccursAt(s[1..], pat, i);
          assert s[1..][i..i + |pat|] == s[i + 1..i + 1 + |pat|];
          assert OccursAt(s, pat, i + 1);
        }
      }
      [s[0]] + ReplaceAll(s[1..], pat, rep)
  }

  /** The part of `s` before the first `sep`, i.e. Python's `s.split(sep)[0]`. */
  function BeforeFirst(s: string, sep: char): (r: string)
    ensures sep !in r
    ensures sep !in s ==> r == s
    ensures r <= s
    ensures |r| < |s| ==> s[|r|] == sep
  {
    if s == [] then []
    else if s[0] == sep then []
    else [s[0]] + BeforeFirst(s[1..], sep)
  }

  lemma ConcatAssoc(a: string, b: string, c: string)
    ensures a + b + c == a + (b + c)
  {
  }

  /** The part before the first separator is everything before it. */
  lemma {:induction false} BeforeFirstOfJoin(a: string, sep: char, b: string)
    requires sep !in a
    ensures BeforeFirst(a + [sep] + b, sep) == a
    decreases |a|
  {
    if a != [] {
      assert (a + [sep] + b)[1..] == a[1..] + [sep] + b;
      BeforeFirstOfJoin(a[1..], sep, b);
    }
  }

  /** The part of `s` after the last `sep`, i.e. Python's `s.split(sep)[-1]`. */
  function AfterLast(s: string, sep: char): (r: string)
    ensures sep !in r
    ensures |r| <= |s| && r == s[|s| - |r|..]
    ensures |r| < |s| ==> s[|s| - |r| - 1] == sep
  {
    if s == [] then []
    else if s[|s| - 1] == sep then []
    else AfterLast(s[..|s| - 1], sep) + [s[|s| - 1]]
  }

  /** Python's `s.replace(a, b)` for single characters. */
  function MapChar(s: string, a: char, b: char): (r: string)
    ensures |r| == |s|
    ensures forall i :: 0 <= i < |s| ==> r[i] == (if s[i] == a then b else s[i])
  {
    if s == [] then [] else [if s[0] == a then b else s[0]] + MapChar(s[1..], a, b)
  }

  function LowerChar(c: char): (r: char) {
    if 'A' <= c <= 'Z' then (c as int + 32) as char else c
  }

  /** `s.lower()` on the ASCII letters. */
  function Lower(s: string): (r: string)
    ensures |r| == |s|
    ensures forall i :: 0 <= i < |s| ==> r[i] == LowerChar(s[i])
  {
    if s == [] then [] else [LowerChar(s[0])] + Lower(s[1..])
  }

  /** Go's `a < b` on strings: byte-wise lexicographic, a proper prefix first.
      (Dafny's `<` on sequences means "proper prefix", hence this function.) */
  predicate LexLess(a: string, b: string)
    decreases |a|
  {
    (|a| < |b| && a == b[..|a|])
    || (|a| > 0 && |b| > 0 &&
        (a[0] < b[0] || (a[0] == b[0] && LexLess(a[1..], b[1..]))))
  }

  lemma {:induction false} LexLessIrreflexive(a: string)
    ensures !LexLess(a, a)
    decreases |a|
  {
    if |a| > 0 {
      LexLessIrreflexive(a[1..]);
    }
  }

  lemma {:induction false} LexLessTransitive(a: string, b: string, c: string)
    requires LexLess(a, b) && LexLess(b, c)
    ensures LexLess(a, c)
    decreases |a|
  {
    if |a| < |b| && a == b[..|a|] {
      if |b| < |c| && b == c[..|b|] {
        assert a == c[..|a|];
      } else {
        if |a| > 0 {
          assert a[0] == b[0];
          if a[0] == c[0] {
            assert a[1..] == b[1..][..|a| - 1];
            LexLessTransitive(a[1..], b[1..], c[1..]);
          }
        }
      }
    } else {
      if |b| < |c| && b == c[..|b|] {
        if a[0] == b[0] {
          assert b[1..] == c[1..][..|b| - 1];
          LexLessTransitive(a[1..], b[1..], c[1..]);
        }
      } else if a[0] == b[0] && b[0] == c[0] {
        LexLessTransitive(a[1..], b[1..], c[1..]);
      }
    }
  }

  lemma {:induction false} LexLessTotal(a: string, b: string)
    requires a != b
    ensures LexLess(a, b) || LexLess(b, a)
    decreases |a|
  {
    if |a| == 0 || |b| == 0 {
    } else if a[0] == b[0] {
      assert a[1..] != b[1..] by {
        assert a == a[..1] + a[1..] && b == b[..1] + b[1..];
      }
      LexLessTotal(a[1..], b[1..]);
      if LexLess(a[1..], b[1..]) {
      } else {
      }
    }
  }

  lemma LexLessAsymmetric(a: string, b: string)
    requires LexLess(a, b)
    ensures !LexLess(b, a)
  {
    if LexLess(b, a) {
      LexLessTransitive(a, b, a);
      LexLessIrreflexive(a);
    }
  }

  function DigitChar(d: nat): (c: char)
    requires d < 10
  {
    ('0' as int + d) as char
  }

  predicate IsDigit(c: char) {
    '0' <= c <= '9'
  }

  function DigitValue(c: char): (d: nat)
    requires IsDigit(c)
    ensures d < 10 && DigitChar(d) == c
  {
    c as int - '0' as int
  }

  predicate AllDigits(s: string) {
    forall i :: 0 <= i < |s| ==> IsDigit(s[i])
  }

  /** Go's `strconv.Itoa` / Python's `str` on a natural. */
  function NatToString(n: nat): (s: string)
    ensures |s| > 0 && AllDigits(s)
  {
    if n < 10 then [DigitChar(n)] else NatToString(n / 10) + [DigitChar(n % 10)]
  }

  /** The value of a string of decimal digits, most significant first. */
  function DigitsValue(s: string): (n: nat)
    requires AllDigits(s)
  {
    if s == [] then 0 else 10 * DigitsValue(s[..|s| - 1]) + DigitValue(s[|s| - 1])
  }

  lemma {:induction false} DigitsValueOfNatToString(n: nat)
    ensures DigitsValue(NatToString(n)) == n
  {
    if n >= 10 {
      var s := NatToString(n);
      assert s[..|s| - 1] == NatToString(n / 10);
      DigitsValueOfNatToString(n / 10);
    }
  }

  /** A decimal integer: digits, optionally after a minus sign. */
  predicate IsIntText(s: string) {
    (|s| > 0 && AllDigits(s)) || (|s| > 1 && s[0] == '-' && AllDigits(s[1..]))
  }

  function IntValue(s: string): int
    requires IsIntText(s)
  {
    if s[0] == '-' then 0 - DigitsValue(s[1..]) as int else DigitsValue(s) as int
  }

  /** Go's `strconv.Itoa` and `strconv.FormatInt(n, 10)`: reads back as `n`. */
  function IntToString(n: int): (s: string)
    ensures IsIntText(s) && IntValue(s) == n
  {
    if n >= 0 then
      DigitsValueOfNatToString(n);
      NatToString(n)
    else
      var digits := NatToString(-n);
      DigitsValueOfNatToString(-n);
      assert ("-" + digits)[1..] == digits;
      "-" + digits
  }
}

=== FILE: wrappers.dfy ===
/**
 * Optional values and error-carrying results, used wherever the modelled
 * code returns `(T, error)`, raises, or returns nil.
 */
module Wrappers {
  datatype Option<T> = None | Some(value: T)

  datatype Result<T, E> = Ok(value: T) | Err(error: E)
}
